=== FILE: README.md ===
# SixSigma Tools: a Dafny model of the calculations

SixSigma Tools is a React single-page application for Six Sigma quality work. It has control
charts, histograms, Pareto charts, scatter plots, a Six Sigma calculator, a dashboard, a
defect registry, a reports page, a data-cleaning page, a process-flow editor, a five-whys
form and an Ishikawa (fishbone) diagram. Almost all of it is presentation. Inside the
components, though, there are small deterministic computations. This project lifts each of
them into pure Dafny functions over sequences of records and proves what they promise.

The modules follow the source's components:

- **ControlCharts**: X̄–R limits from subgroups of a numeric column.
- **Histograms** and **Binning**: descriptive statistics, Sturges' rule and clamped
  equal-width bins.
- **Scatter** and **Stats**: Pearson correlation with its Cauchy–Schwarz bound.
- **Tally**, **Categorical**, **ParetoChart**, **Pareto**, **ContextPareto** and **Diagrams**:
  frequency tables, descending order, cumulative percentages and the "Otros" bucket past the
  top twenty.
- **Upload** and **ColumnChoice**: the CSV upload of the diagrams page and the column checks.
- **SixSigma**, **Sigma**, **Dashboard**, **Reports**, **DefectRegistry** and **ProcessData**:
  DPU, DPMO, yield, the sigma formula and lookup table, and the form validators.
- **DataStats** and **DataAnalysis**: column statistics, CSV export escaping (section 2 of
  RFC 4180, rules 6 and 7), and cleaning by removing or filling missing values.
- **Fishbone**, **FiveWhys** and **Ishikawa**: the diagram store's reducer and the forms that
  send it actions.
- **ProcessFlow**: node and edge edits that never leave an edge dangling.

Shared pieces:

- **Common**: `Option`, sums, filters.
- **Text**: `trim`, `split`, `toLowerCase`, `includes` and `replace`.
- **NumParse**: `parseFloat`, `parseInt` and `Number` on text.
- **Table**: a row as a JavaScript object, with keys in insertion order.
- **Sorting**: a stable descending sort.
- **MathLib**: `Math.sqrt`, `Math.log`, `Math.log10` and `Math.exp`. Real arithmetic cannot
  compute these, so they are passed in as a value. Only the laws the proofs use are assumed
  of them, through the `MathLib.Lawful` precondition.

JavaScript numbers are exact reals. A computation whose result is `NaN` or `Infinity`
produces an explicit result: `None`, or a `Level` that is `Infinite` or `NotANumber`. A finite
result reached through an infinite step, such as `exp(−Infinity)·100 = 0`, is kept. Neither
case is excluded by a precondition. Where the source reads React state
that a queued update has not yet replaced, the model reads the stale value as the source
does.

## Model

| member | source | states |
|---|---|---|
| ControlCharts.Subgroups | src/components/MultipleControlCharts.jsx:35-42 | only full slices of `size` values are kept: the subgroup count is ⌊n/size⌋ and each subgroup has exactly `size` values |
| ControlCharts.SubgroupsAreSlices | src/components/MultipleControlCharts.jsx:35-42 | subgroup j is exactly the j-th run of `size` consecutive values |
| ControlCharts.StatBounds | src/components/MultipleControlCharts.jsx:44-48 | a subgroup's range is never negative and its mean lies between its smallest and largest value |
| ControlCharts.SubgroupStats | src/components/MultipleControlCharts.jsx:44-48 | one statistic per subgroup, in subgroup order, each with a non-negative range |
| ControlCharts.FactorsFor | src/components/MultipleControlCharts.jsx:51-64 | sizes 2 to 10 read A2, D3 and D4 from the fixed table; every other size gets 0.577, 0 and 2.115 |
| ControlCharts.FactorsSound | src/components/MultipleControlCharts.jsx:51-64 | every size gets A2 > 0 and 0 ≤ D3 ≤ 1 ≤ D4, and the fallback equals the size-5 row |
| ControlCharts.ControlLimits | src/components/MultipleControlCharts.jsx:33-86 | at least one subgroup; the X̄ and R series are each subgroup's mean and max − min; the centre lines are their means; the X̄ limits sit A2·R̄ either side of X̄ and 0 ≤ LCL_R ≤ R̄ ≤ UCL_R |
| ControlCharts.ControlChart | src/components/MultipleControlCharts.jsx:89-95 | no chart exactly when fewer than `size` cells of the column parse; otherwise at least one subgroup |
| Histograms.SortAsc | src/components/MultipleHistograms.jsx:47 | the ascending sort is ordered and a permutation of its input |
| Histograms.NumericValues | src/components/MultipleHistograms.jsx:38-41 | a value is kept exactly when some present cell of the column parses to it |
| Histograms.Describe | src/components/MultipleHistograms.jsx:45-54 | n and mean of the values; min, max and median are values of the list, min ≤ every value ≤ max, and min ≤ mean ≤ max |
| Histograms.DescribeExtremes | src/components/MultipleHistograms.jsx:47-49 | the first and last of the ascending sort are the minimum and the maximum |
| Histograms.MedianSplits | src/components/MultipleHistograms.jsx:50 | `sorted[⌊n/2⌋]` has at most ⌊n/2⌋ values below it and at most ⌊(n−1)/2⌋ above it (the upper middle for even n) |
| Histograms.HistogramData | src/components/MultipleHistograms.jsx:36-103 | no histogram exactly when no cell parses; otherwise Sturges' many bins whose counts sum to n, or the zero-width outcome exactly when min = max |
| Histograms.ColumnKinds | src/components/MultipleHistograms.jsx:106-121 | every key of the first row is in exactly one of the numeric and categorical lists, numeric exactly when some present cell parses |
| Binning.Sturges | src/components/MultipleHistograms.jsx:57-58 | the bin count is the ceiling of 1 + 3.322·log10 n, and at least 1 |
| Binning.Index | src/components/MultipleHistograms.jsx:76-79 | the clamped index is below the bin count; the bin's lower edge is at or below the value, and its upper edge above it except in the last bin |
| Binning.Tally | src/components/MultipleHistograms.jsx:64 | bin b counts exactly the values whose index is b |
| Binning.FillBins | src/components/MultipleHistograms.jsx:75-81 | the counting loop yields the per-bin tally, and the counts sum to the number of values |
| Binning.TallyTotal | src/components/MultipleHistograms.jsx:75-81 | when every index is in range the bin counts sum to the number of indices |
| Binning.Labels | src/components/MultipleHistograms.jsx:68-72 | label i starts at min + i·width and ends one width later |
| Binning.LabelsTile | src/components/MultipleHistograms.jsx:61-72 | with width (max − min)/bins the labels start at min, meet end to start, and end at max |
| Binning.MakeBins | src/components/MultipleHistograms.jsx:57-81 | zero width exactly when min = max; otherwise Sturges' many bins of positive width whose counts sum to n |
| Binning.EqualWidth | src/components/MultipleHistograms.jsx:61-81 | equal-width bins tile [min, max], and their counts sum to n |
| Binning.ValueInItsBin | src/components/MultipleHistograms.jsx:68-81 | every value lies inside the label of the bin it is counted in |
| Scatter.PointOf | src/components/MultipleScatterPlots.jsx:67-71 | a row yields a point exactly when both of its cells parse, and the point holds those two values |
| Scatter.ValidPairsAreRowPoints | src/components/MultipleScatterPlots.jsx:66-73 | the accumulating `reduce` is the in-order list of the rows' points |
| Scatter.PointsFromRows | src/components/MultipleScatterPlots.jsx:66-73 | at most one point per row, and every point reads back from some row's two cells |
| Scatter.Xs | src/components/MultipleScatterPlots.jsx:77 | the x series has one entry per pair, index-aligned with the pairs |
| Scatter.Ys | src/components/MultipleScatterPlots.jsx:78 | the y series has one entry per pair, index-aligned with the pairs |
| Scatter.Correlation | src/components/MultipleScatterPlots.jsx:50-61 | r is 0 when √((nΣx² − (Σx)²)(nΣy² − (Σy)²)) is 0, otherwise r times that root is nΣxy − ΣxΣy; always −1 ≤ r ≤ 1 |
| Scatter.ZeroDenominator | src/components/MultipleScatterPlots.jsx:59-61 | the denominator is 0 exactly when one of the two coordinates has zero spread |
| Scatter.ScatterPlot | src/components/MultipleScatterPlots.jsx:65-79 | no plot exactly when no row has both coordinates; otherwise the points are the valid pairs and r lies in [−1, 1] |
| Scatter.ColumnPairs | src/components/MultipleScatterPlots.jsx:132-141 | the nested loops visit k(k − 1)/2 pairs for k columns |
| Scatter.PairsOrdered | src/components/MultipleScatterPlots.jsx:134-135 | every visited pair is (column i, column j) with i < j |
| Scatter.PairsComplete | src/components/MultipleScatterPlots.jsx:134-135 | every (column i, column j) with i < j is visited |
| Scatter.NoSelfPairs | src/components/MultipleScatterPlots.jsx:134-135 | with distinct column names no column is plotted against itself |
| Scatter.AllPlots | src/components/MultipleScatterPlots.jsx:132-141 | "show all" yields at most k(k − 1)/2 plots for k numeric columns |
| Scatter.AllPlotsBounded | src/components/MultipleScatterPlots.jsx:132-141 | every plot shown has points and a coefficient in [−1, 1], as the help text at lines 199-204 promises |
| Scatter.DefaultSelection | src/components/MultipleScatterPlots.jsx:43-47 | with two or more numeric columns an empty x selection becomes the first and an empty y selection the second; a chosen axis is kept |
| Stats.VarianceNonNegative | src/components/MultipleHistograms.jsx:53 | the population variance (divided by n) is never negative |
| Stats.StdDev | src/components/MultipleHistograms.jsx:54 | the standard deviation is non-negative and squares to the variance |
| Stats.MeanBetweenMinMax | src/components/DataStats.jsx:22-31 | the mean lies between the smallest and the largest value |
| Stats.SpreadNonNegative | src/components/MultipleScatterPlots.jsx:55-59 | nΣw² − (Σw)² is never negative, so the root in the denominator is of a non-negative number |
| Stats.SpreadOfCombination | src/components/MultipleScatterPlots.jsx:52-59 | the spread of x − t·y is the quadratic A − 2tC + t²B in the two spreads A, B and the numerator C |
| Stats.QuadraticAlwaysNonNegative | src/components/MultipleScatterPlots.jsx:52-59 | that quadratic is non-negative for every t |
| Stats.DiscriminantBound | src/components/MultipleScatterPlots.jsx:58-59 | a never-negative quadratic A − 2tC + t²B with A, B ≥ 0 has C² ≤ AB |
| Stats.CauchySchwarz | src/components/MultipleScatterPlots.jsx:58-59 | (nΣxy − ΣxΣy)² ≤ (nΣx² − (Σx)²)(nΣy² − (Σy)²), both factors non-negative |
| Common.SumBounds | src/components/MultipleControlCharts.jsx:45 | a sum of n values in [lo, hi] lies in [n·lo, n·hi] |
| Common.MaxOf | src/components/MultipleControlCharts.jsx:46 | `Math.max(...s)` is an element of s and bounds every element from above |
| Common.MinOf | src/components/MultipleControlCharts.jsx:46 | `Math.min(...s)` is an element of s and bounds every element from below |
| Common.Filter | src/pages/DataAnalysis.jsx:34-38 | `filter` keeps exactly the elements that satisfy the predicate, as many as satisfy it |
| Common.FilterSubsequence | src/pages/DataAnalysis.jsx:34-38 | `filter` keeps its elements in their original order and every copy of each kept value |
| Common.FilterMap | src/components/MultipleScatterPlots.jsx:66-73 | the accumulate-if-present `reduce` keeps exactly the present results, one per element that has one |
| Common.RemoveAt | src/components/ParetoChart.jsx:37-40 | `filter((_, j) => j !== i)` drops exactly the element at position i and keeps the others in order; an out-of-range i changes nothing |
| Sorting.SortDesc | src/components/ParetoChart.jsx:61 | the comparator sort `b.count - a.count` returns a permutation ordered by key, largest first |
| Sorting.SortDescStable | src/components/ParetoChart.jsx:61 | the sort is stable: elements with equal keys keep their original order |
| Sorting.SortDescSorted | src/components/ParetoChart.jsx:61 | an already ordered list is returned unchanged |
| Sigma.SigmaLevel | src/pages/SixSigmaCalculator.jsx:41 | 0.8406 + √(29.37 − 2.221·ln dpmo): infinite exactly when dpmo = 0, NaN exactly when dpmo < 0 or the radicand is negative, otherwise a finite level ≥ 0.8406 whose excess squares to the radicand |
| Sigma.SigmaFalls | src/pages/SixSigmaCalculator.jsx:41 | the level falls as dpmo grows, and a NaN level stays NaN for larger dpmo |
| Text.Trim | src/pages/Diagrams.jsx:99-100 | `trim` removes exactly the leading and trailing white space; it is empty exactly when the text is all white space |
| Text.TrimIdempotent | src/pages/Diagrams.jsx:99-100 | trimming twice is trimming once |
| Text.Split | src/pages/Diagrams.jsx:99-100 | `split(sep)` gives at least one piece, no piece holds the separator, and joining the pieces gives the text back |
| Text.SplitJoin | src/pages/Diagrams.jsx:99-100 | splitting a join of separator-free pieces returns the pieces |
| Text.ToLower | src/pages/Diagrams.jsx:70-91 | `toLowerCase` maps each character and keeps the length |
| Text.ToLowerIdempotent | src/pages/Diagrams.jsx:70-91 | lower-casing twice is lower-casing once |
| Text.Contains | src/pages/Diagrams.jsx:70-91 | `includes(sub)` holds exactly when `sub` occurs somewhere in the text |
| Text.IndexOf | src/pages/DataAnalysis.jsx:78 | the first position where the pattern occurs, or none exactly when it does not occur |
| Text.ReplaceFirst | src/pages/DataAnalysis.jsx:78 | `replace` with a string pattern replaces only the first occurrence and leaves a text without it unchanged |
| Text.ReplaceFirstAtStart | src/pages/DataAnalysis.jsx:78 | a name that starts with the pattern has exactly that prefix replaced |
| NumParse.ParseNum | src/components/MultipleControlCharts.jsx:22-23 | `parseFloat` yields a number exactly when the text, after leading white space, starts with an optional sign and then a digit or '.' and a digit |
| NumParse.ParseNumEmpty | src/components/MultipleControlCharts.jsx:21-23 | the empty text is not a number |
| NumParse.NumberOf | src/pages/DataAnalysis.jsx:45 | `Number(s)` (as `isNaN` coerces) is 0 for all-white-space text |
| NumParse.NumberAgreesWithParseNum | src/pages/DataAnalysis.jsx:45 | on non-blank text that `Number` accepts, `parseFloat` reads the same value |
| NumParse.ParseInt | src/components/ParetoChart.jsx:59 | `parseInt` without a radix, on decimal text, yields a number exactly when the text, after white space and an optional sign, starts with a digit |
| NumParse.ParseIntTruncates | src/components/ParetoChart.jsx:59 | `parseInt` is `parseFloat` truncated toward zero |
| Tally.AddTo | src/components/CategoricalChart.jsx:10 | `acc[k] = (acc[k] || 0) + v` adds the value and one entry to k's bucket, or appends a new bucket for a new key; every other bucket and the key order stay as they were |
| Tally.Group | src/components/CategoricalChart.jsx:7-13 | one bucket per key that occurs, keys distinct, each holding the sum and the number of the entries filed under it |
| Tally.GroupConserves | src/components/CategoricalChart.jsx:7-13 | grouping loses nothing: the bucket totals add up to the sum of all values and the counts to the number of entries |
| Tally.Ranked | src/components/CategoricalChart.jsx:16-17 | the buckets sorted by total, largest first, as a permutation of the grouped buckets, still with distinct keys and conserved totals and counts |
| Tally.RankedKeys | src/components/CategoricalChart.jsx:19 | the labels are each occurring key exactly once, in ranked order |
| Tally.RankedTotals | src/components/CategoricalChart.jsx:20 | the values are non-increasing, each the sum filed under its label, adding up to the sum of all values |
| Tally.RankedTotalsNonNegative | src/pages/Diagrams.jsx:171-211 | without negative values no category total is negative |
| Tally.FirstRankedMostFrequent | src/components/DataStats.jsx:33-38 | when every entry counts one, the first ranked key occurs and occurs at least as often as any other key |
| Categorical.Vote | src/components/CategoricalChart.jsx:8-11 | a cell votes exactly when it is not `undefined`, `null` or `''`, and then once for its text |
| Categorical.VotesCount | src/components/CategoricalChart.jsx:7-13 | there is one vote per present cell |
| Categorical.Bars | src/components/CategoricalChart.jsx:16-20 | labels are distinct and values are non-increasing |
| Categorical.BarsCount | src/components/CategoricalChart.jsx:16-23 | each value is the number of votes for its label, and the total is the number of present cells |
| Categorical.LabelsAreValues | src/components/CategoricalChart.jsx:7-19 | a text labels a bar exactly when some present cell of the column prints as it |
| Categorical.VotesAreValues | src/components/CategoricalChart.jsx:7-13 | a text has a vote exactly when some present cell of the column prints as it |
| Categorical.ChartOf | src/components/CategoricalChart.jsx:19-24 | the chart keeps the labels and values; each percentage is its value's share of the total, in percent |
| Categorical.CategoricalChart | src/components/CategoricalChart.jsx:3-24 | no chart exactly when data or column is missing; otherwise the ranked bars with their shares of the total |
| Categorical.PercentagesSum | src/components/CategoricalChart.jsx:23-24 | when something is counted, the unrounded percentages add up to 100 |
| ParetoChart.CategoricalColumns | src/components/ParetoChart.jsx:15-18 | no columns without data; otherwise a key of the first row is listed exactly when some cell of its column is not a number |
| ParetoChart.DefaultColumn | src/components/ParetoChart.jsx:20-23 | outside manual mode an empty selection becomes the first categorical column; otherwise the selection is kept |
| ParetoChart.AddManual | src/components/ParetoChart.jsx:26-34 | nothing changes unless both fields are non-empty; then exactly one item, with the `parseInt` count, is appended |
| ParetoChart.DeleteManual | src/components/ParetoChart.jsx:37-40 | exactly the item at the index is removed, the rest keep their order; an out-of-range index changes nothing |
| ParetoChart.DeleteUndoesAdd | src/components/ParetoChart.jsx:26-40 | deleting the item just added restores the list |
| ParetoChart.EditManual | src/components/ParetoChart.jsx:43-47 | only the edited item's field changes: a category is stored as typed, a count as `''` or its `parseInt` value |
| ParetoChart.ToBar | src/components/ParetoChart.jsx:57-60 | a counted item becomes a bar with its category and a non-zero `parseInt` count |
| ParetoChart.ManualBars | src/components/ParetoChart.jsx:55-61 | the manual bars are the counted items' bars, as a permutation, ordered by count, largest first |
| ParetoChart.ManualBarsCounted | src/components/ParetoChart.jsx:55-61 | every manual bar has a non-empty category and a non-zero count and comes from a counted item |
| ParetoChart.RowVotes | src/components/ParetoChart.jsx:64-68 | each row votes once, under the text of its cell |
| ParetoChart.TableBars | src/components/ParetoChart.jsx:64-72 | one bar per distinct cell text with the number of rows holding it, largest first; the counts add up to the number of rows |
| ParetoChart.RankedBarsSorted | src/components/ParetoChart.jsx:70-72 | with every vote worth one, ranking by total orders the bars by count |
| ParetoChart.WithPercentages | src/components/ParetoChart.jsx:75-84 | the bars are kept; the percentages are the running share of the total, and not finite (NaN or ±Infinity) exactly when the total is 0 with bars present |
| ParetoChart.ParetoView | src/components/ParetoChart.jsx:50-88 | an empty view without items or column; otherwise the manual or table bars with their running percentages |
| ParetoChart.TableLine | src/components/ParetoChart.jsx:76-84 | in table mode with rows the percentage line never falls and ends at 100 |
| ParetoChart.ManualLine | src/components/ParetoChart.jsx:76-84 | in manual mode with positive counts the percentage line never falls and ends at 100 |
| ParetoChart.LineClimbs | src/components/ParetoChart.jsx:76-84 | non-negative bars with a positive total give a line that never falls and ends at 100 |
| Pareto.Accumulate | src/components/ParetoChart.jsx:77-79 | running total i is the start value plus the sum of the first i + 1 values |
| Pareto.CumulativePercent | src/components/ParetoChart.jsx:76-84 | point i is the sum of the first i + 1 values as a percentage of the total |
| Pareto.CumulativeMonotone | src/pages/Diagrams.jsx:217-225 | with non-negative values and a positive total the cumulative series never goes down |
| Pareto.CumulativeEndsAt100 | src/pages/Diagrams.jsx:217-225 | when the total is the sum of the values the last point is exactly 100 |
| Pareto.CumulativeRises | src/pages/Diagrams.jsx:217-225 | non-negative values with a positive sum give a series that never falls and ends at 100 |
| Pareto.CumulativeBounded | src/pages/Diagrams.jsx:217-225 | every point then lies in [0, 100] |
| Pareto.Shares | src/components/CategoricalChart.jsx:24 | each share is value / total · 100 |
| Pareto.SumShares | src/components/CategoricalChart.jsx:24 | the shares add up to the share of the sum |
| Pareto.RunningShares | src/pages/Diagrams.jsx:217-225 | adding the shares one by one gives the cumulative percentages |
| Pareto.Round1 | src/context/DataContext.jsx:201-209 | `Number(x.toFixed(1))` is within 0.05 of x and not negative for non-negative x |
| Pareto.Round1Monotone | src/context/DataContext.jsx:201-209 | rounding keeps order, so the rounded cumulative series still never falls |
| Upload.Lines | src/pages/Diagrams.jsx:99 | every kept line is trimmed and non-empty |
| Upload.LinesMembers | src/pages/Diagrams.jsx:99 | a text is kept exactly when it is a non-empty trimmed line of the file |
| Upload.LinesInOrder | src/pages/Diagrams.jsx:99 | the kept lines are in file order, with every copy of each non-blank trimmed line |
| Upload.KeptInOrder | src/pages/Diagrams.jsx:99 | dropping the empty lines keeps the others in order, every copy of each |
| Upload.TrimmedMembers | src/pages/Diagrams.jsx:99 | the trimmed lines are exactly the trims of the file's lines, and each is its own trim |
| Upload.Cells | src/pages/Diagrams.jsx:100-106 | one trimmed cell per comma-separated piece of the line |
| Upload.CellAt | src/pages/Diagrams.jsx:109 | `values[index]` is the cell text, or `undefined` past the end of a short line |
| Upload.RecordGet | src/pages/Diagrams.jsx:107-110 | in a record, header i reads cell i when no later header repeats it (a later duplicate header overwrites) |
| Upload.RecordKeys | src/pages/Diagrams.jsx:107-110 | with distinct headers the record's keys are the headers, in order |
| Upload.Records | src/pages/Diagrams.jsx:103-113 | one record per data line, in order |
| Upload.ParseUpload | src/pages/Diagrams.jsx:98-113 | nothing for a file without non-blank lines; otherwise the headers are the first line's cells and there is one record per further non-blank line |
| Upload.UploadCell | src/pages/Diagrams.jsx:106-110 | with distinct headers, record r's value for header i is cell i of line r + 1, or `undefined` when that line is short |
| ColumnChoice.FirstOffending | src/pages/Diagrams.jsx:54-57 | the first row whose cell is truthy but not a number, or none exactly when no row has one |
| ColumnChoice.ValidateColumn | src/pages/Diagrams.jsx:48-68 | valid exactly when the name is empty, the role is category, or no truthy cell of the column fails to parse; the message is empty when valid and the warning otherwise |
| ColumnChoice.MentionsAny | src/pages/Diagrams.jsx:87 | `some(s => name.includes(s))` holds exactly when some keyword occurs in the name |
| ColumnChoice.Suggestion | src/pages/Diagrams.jsx:70-91 | the marker exactly when the lower-cased name contains one of the role's keywords, otherwise '' |
| ColumnChoice.SuggestionIgnoresCase | src/pages/Diagrams.jsx:86-87 | the suggestion does not depend on letter case |
| ColumnChoice.TotalRecommended | src/pages/Diagrams.jsx:78-88 | a value column whose name contains "total" is recommended |
| Diagrams.ValueOrZero | src/pages/Diagrams.jsx:200 | `parseFloat(v) \|\| 0`: the parsed value, or 0 when the cell does not parse |
| Diagrams.ParetoEntries | src/pages/Diagrams.jsx:198-207 | one entry per row: the text of its category cell and its value or 0 |
| Diagrams.ParetoDiagramData | src/pages/Diagrams.jsx:170-250 | empty series for no rows; otherwise distinct labels, exactly the category texts that occur, each with the sum of its values, non-increasing, totals conserved, and the running shares of the total (not finite, NaN or ±Infinity, exactly when the total is 0) |
| Diagrams.CategoriesOccur | src/pages/Diagrams.jsx:198-207 | a category is filed exactly when some row has it |
| Diagrams.ParetoDiagramLine | src/pages/Diagrams.jsx:220-225 | with non-negative values and one positive value the cumulative line never falls and ends at 100 |
| Diagrams.ParetoTotalPositive | src/pages/Diagrams.jsx:213-214 | then the total of the ranked values is positive |
| Diagrams.HistogramDiagram | src/pages/Diagrams.jsx:252-286 | nothing for no rows, no column or no parsable value; otherwise n, min, max, mean, standard deviation and Sturges' bins of the parsed values |
| Diagrams.HistogramsAgree | src/pages/Diagrams.jsx:252-286 | this histogram agrees with the histogram view's (MultipleHistograms.jsx:36-103) on every column: same outcome, bins and statistics |
| ContextPareto.OrDefault | src/context/DataContext.jsx:143-144 | a missing or empty option takes the default column name, any other option is used as given |
| ContextPareto.StripNumber | src/context/DataContext.jsx:156 | `replace(/[^\d.-]/g, '')` keeps exactly the digits, points and minus signs, in order |
| ContextPareto.StripNumberIdempotent | src/context/DataContext.jsx:156 | stripping twice is stripping once, and a text of kept characters is unchanged |
| ContextPareto.CategoryOf | src/context/DataContext.jsx:149 | `String(v \|\| '').trim()`: '' for a falsy cell, otherwise the trimmed text of the cell |
| ContextPareto.ValueOf | src/context/DataContext.jsx:153-159 | a string value is parsed after stripping, any other cell is parsed as it is |
| ContextPareto.RowEntry | src/context/DataContext.jsx:147-168 | a row is filed exactly when its category is non-blank and its value parses, under that category with that value |
| ContextPareto.Entries | src/context/DataContext.jsx:147-168 | the filed entries are exactly those of the rows that are filed |
| ContextPareto.Collapse | src/context/DataContext.jsx:182-195 | at most twenty groups pass unchanged; beyond that the first twenty are kept and one more group named 'Otros' is added |
| ContextPareto.CollapseConserves | src/context/DataContext.jsx:182-198 | at most 21 groups; totals and counts are conserved, and 'Otros' holds the sum of the values and of the counts of the groups it merges |
| ContextPareto.RankedGroups | src/context/DataContext.jsx:173-180 | groups ordered by total, largest first, each for a category that occurs, with its sum and number of rows; totals conserved |
| ContextPareto.RankedGroupsDistinct | src/context/DataContext.jsx:162-166 | no category has two groups |
| ContextPareto.Bars | src/context/DataContext.jsx:173-198 | at most 21 bars: the twenty largest groups as ranked, the rest merged into 'Otros'; the bar totals add up to the sum of all filed values |
| ContextPareto.Line | src/context/DataContext.jsx:204-209 | point i is the share of the first i + 1 values in percent, rounded to one decimal |
| ContextPareto.Draw | src/context/DataContext.jsx:197-209 | one label `category (count)` and one value per bar; the line is not finite (NaN or ±Infinity) exactly when the bars sum to 0 |
| ContextPareto.ParetoChart | src/context/DataContext.jsx:142-247 | at most 21 bars; the first twenty are the ranked groups with their totals and `category (count)` labels; a 21st bar is labelled 'Otros'; the rounded cumulative line |
| ContextPareto.ParetoChartConserves | src/context/DataContext.jsx:183-198 | the chart's values add up to the sum of all filed values |
| ContextPareto.ParetoBarsRanked | src/context/DataContext.jsx:174-183 | the first twenty values are non-increasing, each the sum and row count of a category that occurs |
| ContextPareto.LabelStartsWithKey | src/context/DataContext.jsx:201 | every label begins with its category |
| ContextPareto.ProcessParetoData | src/context/DataContext.jsx:134-252 | with no rows the stored chart is returned unchanged; otherwise the chart of the rows' entries |
| ContextPareto.Round1Hundred | src/context/DataContext.jsx:208 | rounding keeps 100 as it is |
| ContextPareto.LineShape | src/context/DataContext.jsx:204-209 | with non-negative values and a positive total the rounded line never falls and ends at exactly 100 |
| Fishbone.Rename | src/context/DataContext.jsx:491-500 | the list keeps its length; exactly the categories with the id are renamed, every other one is unchanged |
| Fishbone.AppendCause | src/context/DataContext.jsx:525-537 | exactly the categories with the id get the cause appended, every other one is unchanged |
| Fishbone.DropCause | src/context/DataContext.jsx:539-551 | exactly the categories with the id lose the causes with the cause id, every other one is unchanged |
| Fishbone.Reduce | src/context/DataContext.jsx:472-565 | each action replaces only its own part of the store: only UPDATE_FIVE_WHYS touches the five-whys analysis, only UPDATE_EFFECT the effect, and an unknown action changes nothing |
| Fishbone.RenameFrame | src/context/DataContext.jsx:491-500 | UPDATE_CATEGORY keeps every id, cause list, colour and position, renames only categories with the id, and leaves the others equal |
| Fishbone.AddThenDelete | src/context/DataContext.jsx:502-523 | ADD_CATEGORY with a fresh id followed by DELETE_CATEGORY of that id restores the store |
| Fishbone.DeleteRemovesAll | src/context/DataContext.jsx:516-523 | DELETE_CATEGORY keeps exactly the categories without the id and removes every one with it |
| Fishbone.AddThenDeleteCause | src/context/DataContext.jsx:525-551 | ADD_SUBCAUSE with a fresh cause id followed by DELETE_SUBCAUSE of it restores the store |
| Fishbone.SavedFiveWhysInStore | src/context/DataContext.jsx:553-557 | the five-whys save as written stores the analysis from before the conclusion was generated; the intended save stores the generated conclusion; nothing else in the store changes |
| Fishbone.Target | src/context/DataContext.jsx:460-466 | a row is filed only under the group its lower-cased `Categoria` names; a row that throws has a truthy `Causa` |
| Fishbone.IndexIn | src/context/DataContext.jsx:463-464 | the group found is the first position holding the key |
| Fishbone.Outcomes | src/context/DataContext.jsx:460-466 | the outcome of every row, in row order |
| Fishbone.FoldFiles | src/context/DataContext.jsx:460-467 | the `forEach` throws exactly when some row throws; otherwise every group is its old causes followed by the causes of its rows in row order |
| Fishbone.SortCausesAsWritten | src/context/DataContext.jsx:450-470 | as written: the grouping fails exactly when some row throws, which includes a `Categoria` of `constructor` or `__proto__` |
| Fishbone.SortCauses | src/context/DataContext.jsx:450-470 | as intended: six groups, each the causes of the rows whose lower-cased `Categoria` names it, in row order; it fails only on a non-string category |
| Fishbone.ConstructorThrows | src/context/DataContext.jsx:462-464 | a one-row table with `Categoria` "constructor" throws as written and yields six empty groups as intended |
| Fishbone.OneSkippedRow | src/context/DataContext.jsx:460-466 | a row that throws as written and is skipped as intended makes the two versions differ |
| Fishbone.InheritedRow | src/context/DataContext.jsx:463-464 | a row whose lower-cased category is an inherited key throws as written and is skipped as intended |
| Fishbone.ConstructorKey | src/context/DataContext.jsx:451-463 | "constructor" is not one of the six groups, yet every plain object answers `in` for it |
| Fishbone.SortCausesAgree | src/context/DataContext.jsx:450-470 | the two versions agree on every table without an inherited-key category |
| FiveWhys.BlankMatchesQuestions | src/components/FiveWhysAnalysis.jsx:18-66 | the default analysis has exactly five empty answers, one per fixed question, and an empty problem and conclusion |
| FiveWhys.WhyIndex | src/components/FiveWhysAnalysis.jsx:37 | a field designates an answer exactly when `parseInt` reads a number after the first "why" is removed, and then it is that number minus one |
| FiveWhys.HandleChangeFrame | src/components/FiveWhysAnalysis.jsx:30-41 | 'problem' and 'conclusion' write only that field; any other field writes only the answer it designates, keeping the problem, the conclusion, the number of answers and every other answer |
| FiveWhys.WhyFieldRoutes | src/components/FiveWhysAnalysis.jsx:36-38 | editing `why<i + 1>` replaces exactly answer i |
| FiveWhys.WhyDigitsRoutes | src/components/FiveWhysAnalysis.jsx:36-38 | editing "why" followed by digits that designate an existing answer replaces exactly that answer |
| FiveWhys.Conclusion | src/components/FiveWhysAnalysis.jsx:43-48 | a conclusion is generated exactly when the problem and the fifth answer are both non-empty, and it is the fixed sentence around them |
| FiveWhys.TemplateShape | src/components/FiveWhysAnalysis.jsx:46 | the sentence starts with the fixed opening, quotes the problem and ends with the fifth answer |
| FiveWhys.WithConclusion | src/components/FiveWhysAnalysis.jsx:43-48 | `generateConclusion` as the form's next state: the generated conclusion is written in when there is one; the problem and answers are kept |
| FiveWhys.SaveAsWritten | src/components/FiveWhysAnalysis.jsx:51-58 | as written: the dispatched analysis keeps the conclusion from before the save, and the queued update gives the form the generated one |
| FiveWhys.SaveDropsConclusion | src/components/FiveWhysAnalysis.jsx:51-58 | the save that generates a conclusion dispatches the analysis from before it, so when the generated text differs from the typed one, that save does not send it |
| FiveWhys.EmptyConclusionStaysEmpty | src/components/FiveWhysAnalysis.jsx:43-58 | problem "p", fifth answer "w" and an empty conclusion: that save sends the empty conclusion to the store |
| FiveWhys.Save | src/components/FiveWhysAnalysis.jsx:51-58 | as intended: the save dispatches the analysis with the generated conclusion when there is one |
| Ishikawa.Init | src/components/IshikawaDiagram.jsx:40-47 | the mount effect sends the defaults exactly when the store has no categories |
| Ishikawa.InitInstallsDefaults | src/components/IshikawaDiagram.jsx:40-47 | reducing the mount action gives an empty store the four default categories the store itself starts with; a store with categories gets no action |
| Ishikawa.SaveEffect | src/components/IshikawaDiagram.jsx:50-58 | nothing is sent exactly when the text is blank; otherwise the effect is set to the trimmed text |
| Ishikawa.SaveCauseName | src/components/IshikawaDiagram.jsx:69-79 | nothing is sent exactly when the text is blank; otherwise the category is renamed to the trimmed text |
| Ishikawa.AddCause | src/components/IshikawaDiagram.jsx:81-96 | a non-blank name adds a category with the trimmed name, placed "top" exactly when the current count is even and "bottom" exactly when odd, coloured `count mod 6`; the id is the reducer's clock value (DataContext.jsx:502-514) |
| Ishikawa.AddCauseAlternates | src/components/IshikawaDiagram.jsx:81-96 | two causes added in a row land on opposite sides of the spine |
| Ishikawa.PaletteCycles | src/components/IshikawaDiagram.jsx:84-85 | six consecutive additions take six different colours |
| Ishikawa.PaletteDistinct | src/components/IshikawaDiagram.jsx:84 | the six palette colours are pairwise different |
| Ishikawa.AddSubcauseTo | src/components/IshikawaDiagram.jsx:108-124 | nothing is sent exactly when the text is blank; otherwise a cause with the clock's id and the trimmed text is added to the category |
| Ishikawa.SentTextsTrimmed | src/components/IshikawaDiagram.jsx:50-124 | every text a handler sends is non-empty and already trimmed |
| Ishikawa.DeleteCause | src/components/IshikawaDiagram.jsx:98-105 | a category is deleted exactly when the user confirms |
| DefectRegistry.ClearedAfterSubmit | src/pages/DefectRegistry.jsx:139-153 | after a submission the form is blank again except that the DMAIC phase, capability, Cpk and sigma level keep what the user had chosen |
| DefectRegistry.Submit | src/pages/DefectRegistry.jsx:123-154 | a blank description changes nothing; otherwise the old records are kept in place, one record with the clock's id and timestamp, the mode and the whole form is appended, and the form is cleared as above |
| DefectRegistry.Edited | src/pages/DefectRegistry.jsx:158-165 | the record being edited takes the form's fields and the current mode and keeps its id and timestamp; any other record is unchanged |
| DefectRegistry.Update | src/pages/DefectRegistry.jsx:156-185 | the list keeps its length; records not being edited are unchanged, the edited one keeps its id and timestamp and takes the form and the mode; the form resets to the blank one |
| DefectRegistry.StartEdit | src/pages/DefectRegistry.jsx:187-195 | the form takes the record's fields and the record's id becomes the one being edited |
| DefectRegistry.EditThenUpdate | src/pages/DefectRegistry.jsx:156-195 | editing a record with a unique id and saving without changes gives back the same list except for that record's mode flag |
| DefectRegistry.IdIsNot | src/pages/DefectRegistry.jsx:199 | the filter predicate keeps exactly the records whose id differs |
| DefectRegistry.Delete | src/pages/DefectRegistry.jsx:197-201 | without confirmation nothing changes; with it, the result is drawn from the list in order, holds every copy of each record with another id, and no record with the id |
| DefectRegistry.DeleteUndoesSubmit | src/pages/DefectRegistry.jsx:123-201 | deleting the record just submitted, under a fresh id, gives back the previous list |
| DefectRegistry.CalculateMetrics | src/pages/DefectRegistry.jsx:91-113 | the total is the number of records, capability is a third of sigma, Cpk is 0.9 of capability, savings are 100 and time reduction 2 per record |
| DefectRegistry.MetricsAllOrNothing | src/pages/DefectRegistry.jsx:92-95 | since `dpmo = total·10⁶ / total`, any non-empty registry reads 10⁶ DPMO, sigma 0 and yield 0, and an empty one 0 DPMO, sigma 6 and yield 100 |
| Reports.AddDefect | src/pages/Reports.jsx:121-143 | a draft without date or type changes nothing; otherwise the defects gain exactly the draft with the clock's id at the end, the measurements are untouched and the draft is reset with severity "Baja" |
| Reports.AddMeasurement | src/pages/Reports.jsx:152-174 | a draft without date or value changes nothing; otherwise the measurements gain exactly the draft with the clock's id at the end, the defects are untouched and the draft is reset |
| Reports.IdIsNot | src/pages/Reports.jsx:148-179 | the filter predicate keeps exactly the items whose id differs |
| Reports.WithoutId | src/pages/Reports.jsx:145-181 | the result is drawn from the items in order, holds every copy of each item with another id, no item with the id, and as many items as have another id |
| Reports.RemoveDefect | src/pages/Reports.jsx:145-150 | defects lose the id, measurements are untouched |
| Reports.RemoveMeasurement | src/pages/Reports.jsx:176-181 | measurements lose the id, defects are untouched |
| Reports.RemoveUndoesAddDefect | src/pages/Reports.jsx:121-150 | removing the defect just added under a fresh id gives back the report |
| Reports.RemoveUndoesAddMeasurement | src/pages/Reports.jsx:152-181 | removing the measurement just added under a fresh id gives back the report |
| Reports.FindSigma | src/pages/Reports.jsx:208 | `find` succeeds exactly when some row's threshold is at or below the rate, and then returns the level of such a row |
| Reports.TableSigma | src/pages/Reports.jsx:199-208 | the level read from the table, with 6 when no row matches, is between 1 and 6 |
| Reports.TableSigmaIsThresholds | src/pages/Reports.jsx:199-208 | the table search equals reading the six thresholds from the worst down: at or above 933200 is 1, 308538 is 2, 66807 is 3, 6210 is 4, 320 is 5, else 6 |
| Reports.TableSigmaFalls | src/pages/Reports.jsx:199-208 | a higher rate never reads as a higher level |
| Reports.SummaryAsWritten | src/pages/Reports.jsx:183-208 | as written: with no measurements the summary is 0, 100 %, 6; otherwise the "DPMO" is defects per measurement (the million cancels), the yield is the share of measurements without a defect, and the level is read from the table |
| Reports.RateAsWritten | src/pages/Reports.jsx:189-191 | `d / (m·10⁶)·10⁶` times `m` is `d` |
| Reports.AsWrittenAlwaysSix | src/pages/Reports.jsx:189-208 | as written, every report with fewer than 3.4 defects per measurement shows level 6 |
| Reports.HalfDefectiveReadsSix | src/pages/Reports.jsx:189-208 | as written, one defect in two measurements shows rate 0.5, yield 50 % and level 6 |
| Reports.Summarize | src/pages/Reports.jsx:183-208 | as intended: the rate is defects per million measurements, rate plus 10⁴ × yield is 10⁶, and the level is read from the table |
| Reports.SummarizeFalls | src/pages/Reports.jsx:183-208 | with the intended rate another defect never raises the level, and one defect in two measurements is level 2 |
| SixSigma.Compute | src/pages/SixSigmaCalculator.jsx:34-43 | dpu, dpm and rty are the unit rates of `d` and `u`; dpmo and yield exist exactly when `u·o ≠ 0`, with `dpmo·u·o = d·10⁶` and `dpmo + 10⁴·yield = 10⁶`; the level is the sigma formula of dpmo, and `NaN` when there is no dpmo |
| SixSigma.UnitRates | src/pages/SixSigmaCalculator.jsx:38-43 | dpu and dpm exist exactly when units are non-zero, with `dpu·u = d`, `dpm = dpu·10⁶` and `rty = exp(−dpu)·100`; with zero units rty still exists for positive defects and is 0, the value of `exp(−Infinity)·100`; dpmo, yield and level are `NaN` |
| SixSigma.Scaled | src/pages/SixSigmaCalculator.jsx:43 | a present per-unit rate is multiplied by a million; an absent one stays absent |
| SixSigma.Rty | src/pages/SixSigmaCalculator.jsx:36-42 | non-zero units give `exp(−d/u)·100`; zero units give 0 for positive defects (an infinite dpu) and nothing otherwise, where the source's value is `Infinity` or `NaN` |
| SixSigma.ZeroUnitsRty | src/pages/SixSigmaCalculator.jsx:32-49 | units that read as 0 pass the guard; with positive defects the shown rty is 0, while dpu, dpm and dpmo are not finite and the level is `NaN` |
| SixSigma.Calculate | src/pages/SixSigmaCalculator.jsx:31-53 | nothing is computed exactly when a field is empty; three numbers give the rates above; opportunities that do not read as a number leave the unit rates of defects and units and make only dpmo, yield and level `NaN`; defects or units that do not read as a number make every result `NaN`; units "0" are not empty and pass, giving the zero-units results |
| SixSigma.OpportunitiesOnlyBlankTheirRates | src/pages/SixSigmaCalculator.jsx:34-43 | with defects d, non-zero units u and opportunities that are no number, dpu is d/u, dpm is d/u·10⁶ and rty is exp(−d/u)·100, while dpmo, yield and level are `NaN` |
| SixSigma.DpmPerOpportunity | src/pages/SixSigmaCalculator.jsx:39-43 | defects per million units are defects per million opportunities times the opportunities per unit |
| SixSigma.RatesInRange | src/pages/SixSigmaCalculator.jsx:39-40 | with positive units and opportunities and a defect count up to `u·o`, the yield is a percentage and dpmo at most a million |
| SixSigma.RtyInRange | src/pages/SixSigmaCalculator.jsx:42 | a non-negative dpu gives a rolled throughput yield above 0 and at most 100 |
| SixSigma.Round2 | src/pages/SixSigmaCalculator.jsx:46 | `toFixed(2)` on an exact number: a whole number of hundredths within half a hundredth of the input, non-negative for a non-negative input |
| SixSigma.RoundUp2 | src/pages/SixSigmaCalculator.jsx:46 | on non-negative numbers: a non-negative whole number of hundredths, above the input by at most half a hundredth and below it by less than that |
| SixSigma.Round2Monotone | src/pages/SixSigmaCalculator.jsx:46 | rounding never reverses an order |
| SixSigma.Shown | src/pages/SixSigmaCalculator.jsx:46-60 | the stored level read back with `parseFloat` is the finite level rounded to hundredths; `Infinity` and `NaN` read back as themselves |
| SixSigma.ChartParts | src/pages/SixSigmaCalculator.jsx:59-67 | the doughnut exists exactly for a finite level; its two parts are the rounded level and what is left to 6, within half a hundredth of the computed level |
| SixSigma.BandOf | src/pages/SixSigmaCalculator.jsx:116-124 | each band holds exactly its interval: below 3, from 3 to 4, from 4 to 5, 5 and above |
| SixSigma.BandMonotone | src/pages/SixSigmaCalculator.jsx:116-124 | a higher level never reads as a worse band |
| SixSigma.InterpretAsWritten | src/pages/SixSigmaCalculator.jsx:110-124 | as written: no text before the first calculation; afterwards the band of the rounded stored level, and the top band for `Infinity` and for `NaN` |
| SixSigma.RoundingLiftsBand | src/pages/SixSigmaCalculator.jsx:46-118 | a computed level from 2.995 up to 3 is in the bottom band but is interpreted in the next one up, because the stored level is rounded first |
| SixSigma.WorseProcessReadsExcellent | src/pages/SixSigmaCalculator.jsx:41-124 | as written, a process with more defects, whose level is `NaN`, reads as excellent, while one with fewer defects reads as needing improvement |
| SixSigma.IntendedBand | src/pages/SixSigmaCalculator.jsx:41-124 | as intended: a finite level gives the band of its rounded value, zero defects the top band, and a rate too high for the formula the bottom band |
| SixSigma.IntendedBandFalls | src/pages/SixSigmaCalculator.jsx:41-124 | with the intended reading more defects never give a better band |
| SixSigma.Interpret | src/pages/SixSigmaCalculator.jsx:110-124 | the intended interpretation exists exactly when there is a non-negative dpmo, and is its intended band |
| Dashboard.AcceptsAfterPoint | src/pages/Dashboard.jsx:118 | once the point has been seen the scan accepts exactly texts of digits only |
| Dashboard.AcceptsDecimal | src/pages/Dashboard.jsx:118 | the left-to-right scan accepts exactly the texts of `^\d*\.?\d*$`: all digits, or digits, one point, digits |
| Dashboard.DigitHead | src/pages/Dashboard.jsx:118 | a leading digit does not change whether the text has the pattern's shape |
| Dashboard.PointShift | src/pages/Dashboard.jsx:118 | behind a leading digit the point's position moves by one, and the digits around it are the same |
| Dashboard.PointHead | src/pages/Dashboard.jsx:118 | a text starting with the point has the shape exactly when the rest is all digits |
| Dashboard.SimpleChange | src/pages/Dashboard.jsx:113-127 | the date, an empty value or a value of the pattern's shape is written into its field; any other value leaves the form unchanged; no other field changes |
| Dashboard.ValidateSimple | src/pages/Dashboard.jsx:187-221 | a numeric field that is empty, not a number or negative fails and leaves the form alone; otherwise an empty date becomes today's and nothing else changes; it passes only when the defects do not exceed units times opportunities |
| Dashboard.SimpleMetrics | src/pages/Dashboard.jsx:154-167 | dpmo and yield exist exactly when `u·o ≠ 0`, with `dpmo·u·o = d·10⁶` and `dpmo + 10⁴·yield = 10⁶`; the level is the sigma formula of dpmo, `NaN` without one |
| Dashboard.ValidatedSimpleYield | src/pages/Dashboard.jsx:154-221 | a form that validates, with some opportunity, gives a yield between 0 and 100 and a dpmo between 0 and a million |
| Dashboard.SimpleRange | src/pages/Dashboard.jsx:157-213 | non-negative counts with defects within the chances give a percentage yield and a dpmo up to a million |
| Dashboard.CheckedFields | src/pages/Dashboard.jsx:224-241 | the advanced validation looks at exactly ten fields |
| Dashboard.ValidateAdvanced | src/pages/Dashboard.jsx:223-260 | the form passes exactly when none of the ten fields is blank and the conforming units do not exceed the total; so the four quality fields are then filled in. On the page as written it never passes (Dashboard.AdvancedNeverValidates) |
| Dashboard.AdvancedMetrics | src/pages/Dashboard.jsx:169-185 | there are no metrics exactly when a quality field is empty; otherwise the quality rates of the four texts read by `Number`, each rate from its own operands |
| Dashboard.QualityRates | src/pages/Dashboard.jsx:176-178 | the yield exists exactly when conforming units and total are numbers and the total is non-zero, with `yield·t = c·100`; dpmo exists exactly when defects, total and opportunities are numbers with `t·o ≠ 0`, with `dpmo·t·o = d·10⁶`, and gives the level, `NaN` without it |
| Dashboard.YieldFromUnitsAlone | src/pages/Dashboard.jsx:176 | replacing the opportunities and defects by any other non-empty texts leaves the yield unchanged |
| Dashboard.ValidatedAdvancedYield | src/pages/Dashboard.jsx:169-257 | a validated advanced form always has metrics, and with numeric non-negative conforming units and a positive total the yield is between 0 and 100 |
| Dashboard.ClearedSimple | src/pages/Dashboard.jsx:311-317 | the simple form keeps only its date |
| Dashboard.ClearedAdvanced | src/pages/Dashboard.jsx:291-294 | the advanced forms keep only the process date |
| Dashboard.Submit | src/pages/Dashboard.jsx:262-323 | the mode is kept and the old history is a prefix of the new one; exactly one entry is added exactly when the form of the current mode validates; it carries the form as submitted, its date and its metrics; the submitted form is cleared except for the date and the other form is untouched |
| Dashboard.UndatedEntry | src/pages/Dashboard.jsx:207-317 | a simple form submitted without a date is recorded without a date, while the form left behind carries today's |
| Dashboard.AdvancedChange | src/pages/Dashboard.jsx:130-152 | typing into an input sets exactly that input's field; every other field and the date stay |
| Dashboard.InitialPage | src/pages/Dashboard.jsx:35-68 | the page opens in simple mode with no history, an empty benefit-cost ratio and empty quality fields |
| Dashboard.AdvancedNeverValidates | src/pages/Dashboard.jsx:223-260 | as written, after any actions the page offers (typing into the five rendered advanced inputs, typing into the simple form, switching mode, submitting), `bcr` is empty, the advanced form does not validate and every recorded entry is a simple one |
| Dashboard.RunTypeAll | src/pages/Dashboard.jsx:130-152 | typing `v` into some inputs sets exactly their fields to `v` and leaves the mode, the history and the simple form alone |
| Dashboard.AllInputsRecordAdvanced | src/pages/Dashboard.jsx:223-295 | with an input for each of the ten checked fields, filling them with one non-blank text and submitting in advanced mode records one advanced entry carrying that `bcr` and clears the form |
| DataAnalysis.IsComplete | src/pages/DataAnalysis.jsx:36-38 | the filter predicate holds exactly for rows with no `null` or empty value |
| DataAnalysis.RemoveIncomplete | src/pages/DataAnalysis.jsx:34-38 | the result is drawn from the rows in order, holds every copy of each complete row and no incomplete row |
| DataAnalysis.RemoveIdempotent | src/pages/DataAnalysis.jsx:34-38 | removing twice removes nothing more, and a dataset with no missing value is kept whole |
| DataAnalysis.Plus | src/pages/DataAnalysis.jsx:46 | JavaScript `+` while summing: numbers add, a boolean adds as 1 or 0, text on the left concatenates, and text on the right turns any non-text sum into text |
| DataAnalysis.FoldNumbers | src/pages/DataAnalysis.jsx:46 | `reduce((a, b) => a + b, 0)` over number cells is their sum |
| DataAnalysis.Numeric | src/pages/DataAnalysis.jsx:46 | the numbers of a column of number cells, position by position |
| DataAnalysis.Quotient | src/pages/DataAnalysis.jsx:46 | a numeric sum divided by the count is the mean; a `NaN` sum gives `NaN` |
| DataAnalysis.FoldFromNaN | src/pages/DataAnalysis.jsx:46 | a sum that starts at a `NaN` stays `NaN`, or becomes a text that starts with "NaN" |
| DataAnalysis.NaNLikeQuotient | src/pages/DataAnalysis.jsx:46 | such a sum divided by the count is `NaN` |
| DataAnalysis.FillValue | src/pages/DataAnalysis.jsx:42-56 | a column with no present value fills with `undefined`; one whose first present value's `typeof` is not 'number' (text or a boolean) fills with the most frequent value's text; one whose first present value is a number fills with a number or `NaN`, and one that starts with `NaN` always with `NaN` |
| DataAnalysis.FillNumbersWithMean | src/pages/DataAnalysis.jsx:44-46 | a column whose present values are all numbers fills with their mean |
| DataAnalysis.FillTextWithMode | src/pages/DataAnalysis.jsx:44-55 | a column whose first present value is text or a boolean fills with a non-empty value at least as frequent as every present value |
| DataAnalysis.ModeNotEmpty | src/pages/DataAnalysis.jsx:49-54 | the most frequent of some present values is a non-empty text |
| DataAnalysis.TextNotEmpty | src/pages/DataAnalysis.jsx:43-51 | a present value prints as a non-empty key |
| DataAnalysis.FillValues | src/pages/DataAnalysis.jsx:41-56 | one fill value per key of the first row, in that row's order, each computed from its column |
| DataAnalysis.Lookup | src/pages/DataAnalysis.jsx:63 | `stats[column]`: `undefined` for a key with no fill value, otherwise the value recorded for that key |
| DataAnalysis.FillField | src/pages/DataAnalysis.jsx:61-65 | the key is kept; a present value is kept; a missing value takes its column's fill value, or `NaN` when the mean came out as `NaN` |
| DataAnalysis.FillMissing | src/pages/DataAnalysis.jsx:59-67 | the same number of rows, each with the same keys in order, and every field filled as above |
| DataAnalysis.FillValueNotMissing | src/pages/DataAnalysis.jsx:42-56 | no fill value is itself `null` or empty |
| DataAnalysis.FillValuesPresent | src/pages/DataAnalysis.jsx:41-56 | no fill value of a dataset is itself missing |
| DataAnalysis.FillFieldPresent | src/pages/DataAnalysis.jsx:61-65 | a field is never missing after filling |
| DataAnalysis.FillLeavesNothingMissing | src/pages/DataAnalysis.jsx:59-67 | after filling no cell of the dataset is `null` or empty |
| DataAnalysis.Clean | src/pages/DataAnalysis.jsx:33-69 | 'remove' always gives the complete rows; 'fill' fails exactly on an empty dataset (it reads the first row) and otherwise gives the filled rows |
| DataAnalysis.CleanedName | src/pages/DataAnalysis.jsx:73 | a name without ".csv" is kept |
| DataAnalysis.CleanedNameOfCsv | src/pages/DataAnalysis.jsx:73 | a stem without ".csv" followed by ".csv" is renamed to the stem followed by "_limpio.csv" |
| DataAnalysis.HandleClean | src/pages/DataAnalysis.jsx:30-81 | without a selection, or when cleaning fails, nothing changes; otherwise one dataset is appended with the renamed name, the cleaned rows and the original headers |
| DataAnalysis.Delete | src/pages/DataAnalysis.jsx:83-85 | an index in range removes exactly that dataset; any other index changes nothing |
| DataAnalysis.DeleteUndoesClean | src/pages/DataAnalysis.jsx:30-85 | cleaning never changes the datasets already loaded, and deleting the appended one gives them back |
| DataAnalysis.AddUpload | src/pages/DataAnalysis.jsx:12-28 | the parsed file is appended with the parser's fields as headers, or the keys of its first row; with neither, the upload fails |
| DataStats.StatNumber | src/components/DataStats.jsx:13 | a `null` or empty cell never counts as a number; any other cell counts as the number `isNaN` reads in it, if any: a number as itself, `true` and `false` as 1 and 0, `undefined` and `NaN` not at all |
| DataStats.Numbers | src/components/DataStats.jsx:13 | the column's numbers are exactly the values of its cells that count as numbers |
| DataStats.Missing | src/components/DataStats.jsx:19 | the filter predicate holds exactly for `null` and empty cells |
| DataStats.Present | src/components/DataStats.jsx:14 | the present values are exactly the column's cells that are not `null` or empty, as many as there are such cells |
| DataStats.Votes | src/components/DataStats.jsx:33-36 | one vote per present value, filed under its text as an object key, in order |
| DataStats.Summarize | src/components/DataStats.jsx:22-30 | the maximum and minimum are values of the column and bound every value; the mean is the average and lies between them; the deviation is the population standard deviation |
| DataStats.Mode | src/components/DataStats.jsx:32-38 | there is a mode exactly when some value is present; it is the text of a present value, filed at least as often as every other |
| DataStats.ModeIsFirst | src/components/DataStats.jsx:37-38 | the first key after sorting by count occurs in the column and is filed at least as often as any value |
| DataStats.CalculateStats | src/components/DataStats.jsx:12-42 | kind, total and missing count as read from the column; numeric statistics exactly when some cell counts as a number, booleans included, and then those of the numbers; a mode exactly when no cell is a number and some value is present |
| DataStats.CountsPartition | src/components/DataStats.jsx:13-19 | missing plus present cells make the total, and there are no more numbers than present cells |
| DataStats.NumbersFromPresent | src/components/DataStats.jsx:13-14 | there are no more numbers than present cells |
| DataStats.ColumnStatsOf | src/components/DataStats.jsx:44-53 | one entry per key of the first row, in order, holding the statistics of that column, whose total is the number of rows |
| DataStats.Double | src/components/DataStats.jsx:69 | doubling quotes never shortens a text and leaves a text without quotes as it is |
| DataStats.UndoubleDouble | src/components/DataStats.jsx:69 | reading doubled quotes back gives the original text |
| DataStats.Escape | src/components/DataStats.jsx:63-71 | `null` and `undefined` export as empty; any other value whose text has no comma, quote or line break exports as its text; any other is wrapped in quotes around a body that reads back as the text |
| DataStats.EscapeRoundTrip | src/components/DataStats.jsx:63-71 | every exported field reads back as the cell's text, and a `null` or `undefined` cell as the empty text |
| DataStats.Fields | src/components/DataStats.jsx:62-72 | one escaped field per header, in header order |
| DataStats.Lines | src/components/DataStats.jsx:57-73 | the header line of the first row's keys, then one line of escaped fields per row |
| DataStats.Csv | src/components/DataStats.jsx:55-73 | there is no export exactly for an empty dataset, which the source fails on; otherwise the lines joined by line breaks |
| DataStats.JoinAvoids | src/components/DataStats.jsx:61-73 | joining texts that lack a character, with another separator, gives a text without that character |
| DataStats.PlainCsvReadsBack | src/components/DataStats.jsx:55-73 | when no header or cell needs quoting, splitting the export at line breaks gives its lines back, and splitting each line at commas gives the headers and each row's fields back |
| ProcessData.FirstNumber | src/context/DataContext.jsx:416 | a row without fields has no reading; otherwise the reading is `Number` of its first value, if that is a number |
| ProcessData.FirstValues | src/context/DataContext.jsx:416 | the readings are exactly the first values that are numbers, at most one per row |
| ProcessData.Histogram | src/context/DataContext.jsx:415-448 | there is nothing to bin exactly when there are no readings; equal readings all share one value; ten bins are drawn exactly when the smallest reading is below the largest |
| ProcessData.HistogramBins | src/context/DataContext.jsx:418-436 | a drawn histogram has ten counts and ten labels; the counts add up to the number of readings and the labels tile the range from the smallest to the largest reading |
| ProcessData.HistogramDrawn | src/context/DataContext.jsx:415-448 | the bins are drawn exactly when two readings differ |
| ProcessData.TwoDiffer | src/context/DataContext.jsx:418-420 | two values of a list differ exactly when its minimum is below its maximum |
| ProcessData.Latest | src/context/DataContext.jsx:581 | `slice(-30)`: the last thirty records in order, or all of them when there are fewer |
| ProcessData.LatestSlides | src/context/DataContext.jsx:581 | a new record joins the window; once the window is full the oldest record leaves it |
| ProcessData.TotalsOf | src/context/DataContext.jsx:583-585 | the three totals are the sums of defects, units and opportunities over the window |
| ProcessData.Round | src/context/DataContext.jsx:595 | `Math.round` is within half of its input, with halves rounding up |
| ProcessData.Rates | src/context/DataContext.jsx:586-589 | `dpu·u = d`; `dpmo·u·o = d·10⁶`; `dpmo + 10⁴·yield = 10⁶`; the rounded dpmo is within half of dpmo |
| ProcessData.CalculateMetrics | src/context/DataContext.jsx:580-598 | the defect total of the window is always reported; the ratios are absent exactly when total units times total opportunities is 0, and otherwise are the rates of the window's totals; the level is the sigma formula of dpmo, `NaN` without ratios |
| Table.Get | src/components/MultipleControlCharts.jsx:19 | `row[k]` is the value of a field named `k` when it is not `undefined`, and `undefined` when no field has that name |
| Table.Keys | src/components/MultipleControlCharts.jsx:18 | `Object.keys`: the field names in order |
| Table.Values | src/context/DataContext.jsx:416 | `Object.values`: the field values in order |
| Table.Set | src/pages/DataAnalysis.jsx:63 | writing an existing key keeps the keys in place; writing a new key appends it |
| Table.GetSet | src/pages/DataAnalysis.jsx:63 | after writing `k`, reading `k` gives the value written and every other key reads as before |
| Table.Column | src/components/MultipleControlCharts.jsx:19 | `data.map(row => row[k])`: one value per row, in order |
| Table.FirstKeys | src/components/MultipleControlCharts.jsx:18 | the column names are those of the first row, and none without rows |
| Table.ParseCell | src/components/MultipleControlCharts.jsx:22 | `parseFloat` of a cell: a number is itself, a text is parsed, and `undefined`, `null`, `NaN`, `true` and `false` are not numbers |
| Table.Reading | src/components/MultipleControlCharts.jsx:20-23 | a blank cell gives no reading; any other gives what `parseFloat` reads in it |
| Table.NumericColumns | src/components/MultipleControlCharts.jsx:18-25 | the numeric columns are exactly the first row's keys whose column has some cell that is not blank and parses as a number |
| Table.NumberCell | src/components/DataStats.jsx:13 | `Number` of a cell: a number is itself, a text is read by `Number`, `null` is 0, `true` and `false` are 1 and 0, and `undefined` and `NaN` are not numbers |
| Table.CellTextWholeRoundTrip | src/components/DataStats.jsx:67 | the text of a whole number reads back as that number, both with `parseFloat` and with `parseInt` |
| ProcessFlow.InitialNoDangling | src/components/ProcessFlowDiagram.jsx:38-47 | the starting diagram, one start node and no edges, has no dangling edge |
| ProcessFlow.AddNode | src/components/ProcessFlowDiagram.jsx:85-99 | the nodes gain exactly one node at the end, with the given id, the form's kind and texts, and both coordinates `100·count + 100`; the edges are untouched |
| ProcessFlow.AddKeepsEdgesAttached | src/components/ProcessFlowDiagram.jsx:85-99 | adding a node keeps every edge attached to nodes of the diagram |
| ProcessFlow.Relabelled | src/components/ProcessFlowDiagram.jsx:121-132 | the selected node takes the form's label and description; any other node is unchanged |
| ProcessFlow.UpdateSelected | src/components/ProcessFlowDiagram.jsx:117-139 | without a selection nothing changes; otherwise the edges and the node count are kept, every node keeps its id, kind and position, nodes with another id are unchanged and those with the selected id take the form's texts |
| ProcessFlow.UpdateKeepsEdgesAttached | src/components/ProcessFlowDiagram.jsx:117-139 | relabelling keeps every edge attached |
| ProcessFlow.NodeIsNot | src/components/ProcessFlowDiagram.jsx:143 | the node filter keeps exactly the nodes with another id |
| ProcessFlow.Untouched | src/components/ProcessFlowDiagram.jsx:144-146 | the edge filter keeps exactly the edges with neither end at the id |
| ProcessFlow.DeleteSelected | src/components/ProcessFlowDiagram.jsx:141-148 | without a selection nothing changes; otherwise the nodes are drawn in order from the old ones, keeping every copy of each node with another id and none with the selected id, and the edges likewise keep exactly the edges with neither end at it |
| ProcessFlow.DeleteKeepsEdgesAttached | src/components/ProcessFlowDiagram.jsx:141-148 | deleting a node leaves no edge dangling when none dangled before |
| ProcessFlow.KeptEdgesAttached | src/components/ProcessFlowDiagram.jsx:143-146 | any node list that keeps exactly the nodes with another id, with edges drawn from the old ones and avoiding the id, has no dangling edge |
| ProcessFlow.DeleteLeavesNoTrace | src/components/ProcessFlowDiagram.jsx:141-148 | after a delete no node and no edge refers to the deleted id |
| ProcessFlow.ClickNode | src/components/ProcessFlowDiagram.jsx:108-115 | clicking selects the node and copies its kind, label and description into the form; the diagram is untouched |
| ProcessFlow.SubmitUpdate | src/components/ProcessFlowDiagram.jsx:117-139 | the diagram is updated as above; with a selection, the selection is cleared and the form blanked; without one nothing changes |
| ProcessFlow.ClickThenUpdateKeepsGraph | src/components/ProcessFlowDiagram.jsx:108-139 | with distinct ids, clicking a node and submitting the form untouched leaves the diagram as it was |
| ProcessFlow.DeleteFromEditor | src/components/ProcessFlowDiagram.jsx:141-148 | the diagram loses the selected node, the selection is cleared and the form is kept |
| ProcessFlow.StartAdd | src/components/ProcessFlowDiagram.jsx:76-83 | the form is reset to the chosen kind with empty texts; diagram and selection are kept |
| ProcessFlow.SubmitNew | src/components/ProcessFlowDiagram.jsx:85-106 | the node is added, the form blanked and the selection kept |
| ProcessFlow.EditorKeepsEdgesAttached | src/components/ProcessFlowDiagram.jsx:76-148 | every editing step keeps every edge attached |

## Left out

- File reading and parsing libraries: `FileReader`, `Papa.parse`, `XLSX`, and jsPDF with autoTable (src/pages/Reports.jsx:225-294). `loadCSVData` and `loadDiagramData` in src/context/DataContext.jsx:107-363 are left out too, including their key cleaning. The model starts from the rows those produce: numbers, `true` and `false` (which `dynamicTyping: true` makes booleans), texts and `null`.
- Table.Cell: has no `Date` value. `Papa.parse` with `dynamicTyping: true` (src/pages/DataAnalysis.jsx:25, src/context/DataContext.jsx:283) turns ISO dates into `Date` objects, whose `Number` is a millisecond count and whose `typeof` is 'object'; the model keeps such a cell as its text.
- The Blob/URL download (src/components/DataStats.jsx:76-81) and the `localStorage` persistence (src/pages/DefectRegistry.jsx:47-50, 86-89) are I/O.
- `window.confirm`, `alert`, the clock (`Date.now()`, `new Date()`) and reactflow's `applyNodeChanges`, `applyEdgeChanges` and `addEdge`. A confirmation, a clock reading or "today" is a parameter.
- Routing, layout and dialogs: src/App.jsx, src/components/Sidebar.jsx, src/components/CleanDataModal.jsx and src/components/ui/alert.jsx. src/context/FormContext.jsx, a field assignment and reset, is not part of this model.
- All JSX rendering and chart styling. The chart-assembly helpers `processControlData`, `processScatterData` and `getProcessChartData` are left out. So are `addManualData` and `addProductionData` in src/context/DataContext.jsx (568-577, 630-640); they only append a record.
- IEEE-754 arithmetic: numbers are exact reals, with no rounding error, overflow or signed zero.
- SixSigma.Compute: units typed as "-0" read as 0, so positive defects give rty 0. In the source `d / -0` is `-Infinity` and rty is `Infinity`.
- Display formatting with `toFixed` and `toLocaleString` is left out, except where the source reads a formatted value back. Round1 models `toFixed(1)` in the Pareto percentages. SixSigma.Round2 models the calculator's `sigmaLevel.toFixed(2)`, which the chart and the interpretation read back.
- Categorical.CategoricalChart: percentages are exact, while the source shows them with `toFixed(1)`.
- Dashboard.SimpleMetrics, Dashboard.QualityRates, DefectRegistry.CalculateMetrics and Reports.SummaryAsWritten: the stored `toFixed` texts of dpmo, yield and sigma are given as exact numbers.
- NumParse.ParseNum: reads an optional sign, digits and one decimal point. It does not read exponents (`1e3`) or `Infinity`, which `parseFloat` also reads; `Number` also reads hexadecimal (`0x1A`).
- NumParse.ParseInt: does not read the `0x` prefix, with which `parseInt` without a radix reads hexadecimal (`parseInt("0x1A")` is 26, the model gives 0). The modelled calls read the count inputs of type number and the fixed field names `why1` to `why5`, which never carry it.
- NumParse.NumberOf: does not read exponents, `Infinity` or hexadecimal, which `Number` reads.
- Text.ToLower: lower-cases the ASCII letters only. JavaScript also lower-cases accented and other Unicode letters.
- FiveWhys.HandleChange: the source copies the analysis but shares its `whys` array, so an edit also mutates the array the store holds (src/components/FiveWhysAnalysis.jsx:30-39). The model copies it.
- FiveWhys.HandleChange: an index past the fifth answer (`why6` and beyond) makes JavaScript grow the array. The model leaves the analysis unchanged.
- React scheduling: the model treats each handler as one state transition. It does not model `setState` during render (src/components/ParetoChart.jsx:21-23) or effects that reset forms.
- ControlCharts.Subgroups: requires a subgroup size of at least 1. The page offers 2 to 10, and a size of 0 would loop forever in the source.
- Table.Keys: JavaScript orders an object's integer-like keys ("0", "12") first and ascending, then the other keys in insertion order. The model keeps every key in insertion order.
- Categorical.CategoricalChart: ties between equal counts follow first appearance. In the source they follow `Object.entries` order, which puts integer-like categories first. Categories named `__proto__` are also mishandled by a plain object, and so are categories named after a member every object inherits (`constructor`, `toString`, `valueOf`, `hasOwnProperty`, …): `(acc[v] || 0) + 1` starts their count from the inherited function and makes it a text. The model counts all of these as ordinary categories.
- ParetoChart.TableBars: the same key-order gap, and the same gap for `__proto__` and for any name of an inherited member (`constructor`, `toString`, …), as Categorical.CategoricalChart.
- ContextPareto.ParetoChart: the same key-order gap, and the same gap for `__proto__` and for names of inherited members, for the grouping before the top twenty are taken. In the source, a `constructor` row passes `if (!acc[category])` without a new group, writes `total` and `count` onto the inherited function and is missing from `Object.entries`; the model files it as a group.
- Diagrams.ParetoDiagramData: the same key-order gap, and the same gap for `__proto__` and for names of inherited members, for the per-category sums. In the source the sum for a name like `constructor` starts from the inherited function and becomes a text; the model sums it as a number.
- DataStats.Mode: the same key-order gap, and the same gap for `__proto__` and for names of inherited members such as `constructor` or `toString`, whose count the source turns into a text.
- DataAnalysis.FillValue: the mode it fills a text column with comes from DataStats.Mode, so it has the same key-order gap and the same gap for `__proto__` and names of inherited members.
- ProcessData.FirstNumber: takes the row's first field in insertion order. `Object.values(row)[0]` in the source takes an integer-like key first.
- ContextPareto.ProcessParetoData: the `catch` that returns the stored chart after an exception (src/context/DataContext.jsx:248-250) is not modelled, because none of the modelled steps throws.

## Findings

| source | as written | input that shows it | evidently intended | confidence | as-written member | corrected member |
|---|---|---|---|---|---|---|
| src/pages/Reports.jsx:189-191 | `dpmo = D / (M·10⁶) · 10⁶`: the million cancels, so the "DPMO" is defects per measurement. Every report with fewer than 3.4 defects per measurement reads six sigma | 1 defect in 2 measurements: DPMO 0.5, yield 50 %, level 6 | `dpmo = D / M · 10⁶`, so 1 defect in 2 measurements is 500000 DPMO and level 2, and another defect never raises the level | high (not executed) | Reports.HalfDefectiveReadsSix | Reports.SummarizeFalls |
| src/pages/SixSigmaCalculator.jsx:111-124 | a level that is `NaN`, because the formula's square root has no real value, fails every `<` test and falls through to "Excelente" | any dpmo with `29.37 − 2.221·ln(dpmo) < 0`, that is, above about 553000: a worse process than one read as "needs improvement" is read as excellent | a rate too high for the formula is the worst band, and more defects never give a better band | high (not executed) | SixSigma.WorseProcessReadsExcellent | SixSigma.IntendedBandFalls |
| src/context/DataContext.jsx:450-470 | `category in newData` is also true for keys every object inherits, so a row whose `Categoria` lower-cases to `constructor` (or `__proto__`) calls `push` on a function or on `Object.prototype` and throws, losing the whole diagram | one row `{Categoria: "constructor", Causa: "x"}` | rows whose category is not one of the six groups are skipped | medium (not executed) | Fishbone.ConstructorThrows | Fishbone.SortCauses |
| src/pages/Dashboard.jsx:223-250 | the advanced form renders inputs only for cycle time, lead time, defect rate, cost savings and ROI (lines 463-516); `bcr` and the four quality fields have none and `handleQualityChange` is attached to nothing, yet `validateAdvancedForm` demands them, so it always stops at `bcr` and no advanced entry is ever recorded | any advanced submit: `bcr` is '' from the initial state and after every reset | an input for each checked field, so that a filled form validates and is recorded | high (not executed) | Dashboard.AdvancedNeverValidates | Dashboard.AllInputsRecordAdvanced |
| src/components/FiveWhysAnalysis.jsx:51-58 | `handleSave` calls `generateConclusion()`, which only queues a state update, then sends `currentData` from before that update, so the save that generates a conclusion dispatches the analysis without it | problem "p", fifth answer "w", conclusion "": that save dispatches conclusion "" | the save dispatches the analysis with the generated conclusion | high (not executed) | FiveWhys.SaveDropsConclusion | FiveWhys.Save |

=== FILE: binning.dfy ===
/** The histogram binning both histogram views share: Sturges' rule for the number of bins,
    equal-width bins from the smallest to the largest value, the clamped bin index
    `Math.min(Math.floor((v - min) / width), bins - 1)`, and the per-bin counts. */
module Binning {

  import opened Common
  import MathLib

  /** `Math.ceil(1 + 3.322 * Math.log10(n))`. */
  function Sturges(m: MathLib.Math, n: nat): (k: int)
    requires n >= 1
    ensures 1.0 + 3.322 * m.log10(n as real) <= k as real < 2.0 + 3.322 * m.log10(n as real)
    ensures MathLib.Lawful(m) ==> k >= 1
  {
    MathLib.Ceil(1.0 + 3.322 * m.log10(n as real))
  }

  /** The bin of `v`: the number of whole widths it lies above `lo`, clamped to the last bin. The
      bin's lower edge is at or below `v`, and, except in the last bin, its upper edge is above. */
  function Index(v: real, lo: real, width: real, bins: nat): (b: nat)
    requires width > 0.0 && bins >= 1 && lo <= v
    ensures b < bins
    ensures lo + (b as real) * width <= v
    ensures b + 1 < bins ==> v < lo + ((b + 1) as real) * width
  {
    var f := ((v - lo) / width).Floor;
    FloorPlaces(v, lo, width);
    if f < bins - 1 then f
    else
      MathLib.MulLeft(width, (bins - 1) as real, f as real);
      bins - 1
  }

  /** Whole widths below `v`: `lo + f·w <= v < lo + (f + 1)·w` for `f = ⌊(v − lo) / w⌋ >= 0`. */
  lemma FloorPlaces(v: real, lo: real, w: real)
    requires w > 0.0 && lo <= v
    ensures ((v - lo) / w).Floor >= 0
    ensures lo + (((v - lo) / w).Floor as real) * w <= v
    ensures v < lo + ((((v - lo) / w).Floor + 1) as real) * w
  {
    var q := (v - lo) / w;
    LeDivTimes(q.Floor as real, v - lo, w);
    DivLtTimes((q.Floor + 1) as real, v - lo, w);
  }

  lemma LeDivTimes(a: real, d: real, w: real)
    requires w > 0.0 && a <= d / w
    ensures a * w <= d
  {
    assert (d / w) * w == d;
  }

  lemma DivLtTimes(a: real, d: real, w: real)
    requires w > 0.0 && d / w < a
    ensures d < a * w
  {
    assert (d / w) * w == d;
  }

  /** The bin index of every value. */
  function Indices(values: seq<real>, lo: real, width: real, bins: nat): (idx: seq<nat>)
    requires width > 0.0 && bins >= 1
    requires forall i :: 0 <= i < |values| ==> lo <= values[i]
    ensures |idx| == |values|
    ensures forall i :: 0 <= i < |values| ==> idx[i] == Index(values[i], lo, width, bins) < bins
  {
    seq(|values|, i requires 0 <= i < |values| => Index(values[i], lo, width, bins))
  }

  /** `Array(bins).fill(0)` followed by `bins[b]++` for every index: bin `b` holds the number of
      times `b` occurs. */
  function Tally(idx: seq<nat>, bins: nat): (counts: seq<nat>)
    ensures |counts| == bins
    ensures forall b :: 0 <= b < bins ==> counts[b] == multiset(idx)[b]
  {
    seq(bins, b => multiset(idx)[b])
  }

  /** The counting loop itself, one increment per index. */
  method FillBins(idx: seq<nat>, bins: nat) returns (counts: seq<nat>)
    requires forall i :: 0 <= i < |idx| ==> idx[i] < bins
    ensures counts == Tally(idx, bins)
    ensures CountTotal(counts) == |idx|
  {
    counts := seq(bins, _ => 0);
    for k := 0 to |idx|
      invariant |counts| == bins
      invariant forall b :: 0 <= b < bins ==> counts[b] == multiset(idx[..k])[b]
    {
      assert idx[..k + 1] == idx[..k] + [idx[k]];
      counts := counts[idx[k] := counts[idx[k]] + 1];
    }
    assert idx[..|idx|] == idx;
    TallyTotal(idx, bins);
  }

  /** Sum of the counts. */
  function CountTotal(counts: seq<nat>): nat
  {
    if |counts| == 0 then 0 else CountTotal(counts[..|counts| - 1]) + counts[|counts| - 1]
  }

  /** Changing one count by one changes the total by one. */
  lemma {:induction false} CountTotalBump(a: seq<nat>, b: seq<nat>, j: nat)
    requires |a| == |b| && j < |a|
    requires b[j] == a[j] + 1
    requires forall i :: 0 <= i < |a| && i != j ==> b[i] == a[i]
    ensures CountTotal(b) == CountTotal(a) + 1
    decreases |a|
  {
    if j == |a| - 1 {
      assert a[..|a| - 1] == b[..|b| - 1];
    } else {
      CountTotalBump(a[..|a| - 1], b[..|b| - 1], j);
    }
  }

  lemma {:induction false} CountTotalZero(bins: nat)
    ensures CountTotal(Tally([], bins)) == 0
    decreases bins
  {
    if bins > 0 {
      assert Tally([], bins)[..bins - 1] == Tally([], bins - 1);
      CountTotalZero(bins - 1);
    }
  }

  /** Every value is counted exactly once: when all indices are in range, the bin counts add up
      to the number of values. */
  lemma {:induction false} TallyTotal(idx: seq<nat>, bins: nat)
    requires forall i :: 0 <= i < |idx| ==> idx[i] < bins
    ensures CountTotal(Tally(idx, bins)) == |idx|
    decreases |idx|
  {
    if |idx| == 0 {
      CountTotalZero(bins);
    } else {
      var init := idx[..|idx| - 1];
      assert idx == init + [idx[|idx| - 1]];
      TallyTotal(init, bins);
      CountTotalBump(Tally(init, bins), Tally(idx, bins), idx[|idx| - 1]);
    }
  }

  /** A bin label's two ends, before `toFixed(2)` formatting. */
  datatype Edges = Edges(start: real, end: real)

  /** Label `i` runs from `lo + i·width` to one width further. */
  function Labels(lo: real, width: real, bins: nat): (r: seq<Edges>)
    ensures |r| == bins
    ensures forall i :: 0 <= i < bins ==>
      r[i].start == lo + (i as real) * width && r[i].end == r[i].start + width
  {
    seq(bins, i => Edges(lo + (i as real) * width, lo + (i as real) * width + width))
  }

  /** With `width = (hi − lo) / bins`, the labels tile [lo, hi]: the first starts at `lo`, each
      ends where the next starts, and the last ends at `hi`. */
  lemma LabelsTile(lo: real, hi: real, bins: nat)
    requires bins >= 1
    ensures var r := Labels(lo, (hi - lo) / (bins as real), bins);
      && r[0].start == lo
      && (forall i :: 0 <= i < bins - 1 ==> r[i].end == r[i + 1].start)
      && r[bins - 1].end == hi
  {
    var w := (hi - lo) / (bins as real);
    var r := Labels(lo, w, bins);
    forall i | 0 <= i < bins - 1 ensures r[i].end == r[i + 1].start {
      assert ((i + 1) as real) * w == (i as real) * w + w;
    }
    assert ((bins - 1) as real) * w + w == (bins as real) * w;
    assert (bins as real) * w == hi - lo;
  }

  /** The counts and labels of values that do not all coincide. */
  datatype Histogram = Histogram(labels: seq<Edges>, counts: seq<nat>, width: real)

  /** What the binning produces: a histogram, or nothing usable when every value equals the
      smallest one (the width would be 0 and every index undefined). */
  datatype Bins = ZeroWidth | Binned(h: Histogram)

  /** Bins values lying in [lo, hi], where lo and hi are the smallest and largest. The number of
      bins follows Sturges' rule; every value falls into the bin whose label covers it, and the
      counts add up to the number of values. */
  function MakeBins(m: MathLib.Math, values: seq<real>, lo: real, hi: real): (r: Bins)
    requires MathLib.Lawful(m) && |values| >= 1 && lo <= hi
    requires forall i :: 0 <= i < |values| ==> lo <= values[i] <= hi
    ensures r.ZeroWidth? <==> lo == hi
    ensures r.Binned? ==>
      var bins := Sturges(m, |values|);
      && bins >= 1
      && r.h.width == (hi - lo) / (bins as real) > 0.0
      && r.h.labels == Labels(lo, r.h.width, bins)
      && r.h.counts == Tally(Indices(values, lo, r.h.width, bins), bins)
      && CountTotal(r.h.counts) == |values|
  {
    if lo == hi then ZeroWidth
    else Binned(EqualWidth(values, lo, hi, Sturges(m, |values|)))
  }

  /** The labels cover [lo, hi] without gaps: the first starts at `lo`, each ends where the
      next starts, and the last ends at `hi`. */
  predicate Tiles(labels: seq<Edges>, lo: real, hi: real)
  {
    && |labels| >= 1
    && labels[0].start == lo
    && (forall i :: 0 <= i < |labels| - 1 ==> labels[i].end == labels[i + 1].start)
    && labels[|labels| - 1].end == hi
  }

  /** `bins` equal-width bins over [lo, hi] with lo < hi: the labels tile the range and the
      counts add up to the number of values. */
  function EqualWidth(values: seq<real>, lo: real, hi: real, bins: nat): (h: Histogram)
    requires lo < hi && bins >= 1
    requires forall i :: 0 <= i < |values| ==> lo <= values[i] <= hi
    ensures h.width == (hi - lo) / (bins as real) > 0.0
    ensures h.labels == Labels(lo, h.width, bins)
    ensures h.counts == Tally(Indices(values, lo, h.width, bins), bins)
    ensures CountTotal(h.counts) == |values|
    ensures |h.counts| == |h.labels| == bins && Tiles(h.labels, lo, hi)
  {
    var width := (hi - lo) / (bins as real);
    var idx := Indices(values, lo, width, bins);
    TallyTotal(idx, bins);
    LabelsTile(lo, hi, bins);
    Histogram(Labels(lo, width, bins), Tally(idx, bins), width)
  }

  /** Each value lies inside the label of the bin it is counted in: at or above the start, and
      below the end unless it is in the last bin, whose end is the largest value. */
  lemma ValueInItsBin(m: MathLib.Math, values: seq<real>, lo: real, hi: real, i: nat)
    requires MathLib.Lawful(m) && |values| >= 1 && lo < hi && i < |values|
    requires forall j :: 0 <= j < |values| ==> lo <= values[j] <= hi
    ensures var h := MakeBins(m, values, lo, hi).h;
      var b := Index(values[i], lo, h.width, |h.labels|);
      && h.labels[b].start <= values[i]
      && (b + 1 < |h.labels| ==> values[i] < h.labels[b].end)
      && (b + 1 == |h.labels| ==> values[i] <= h.labels[b].end)
  {
    var h := MakeBins(m, values, lo, hi).h;
    var bins := |h.labels|;
    LabelsTile(lo, hi, bins);
    InBin(values[i], lo, hi, h.width, bins);
  }

  /** The same, for any positive width whose labels end at `hi`. */
  lemma InBin(v: real, lo: real, hi: real, w: real, bins: nat)
    requires w > 0.0 && bins >= 1 && lo <= v <= hi
    requires Labels(lo, w, bins)[bins - 1].end == hi
    ensures var labels, b := Labels(lo, w, bins), Index(v, lo, w, bins);
      && labels[b].start <= v
      && (b + 1 < bins ==> v < labels[b].end)
      && (b + 1 == bins ==> v <= labels[b].end)
  {
    var b := Index(v, lo, w, bins);
    if b + 1 < bins {
      SuccTimes(b, w);
    }
  }

  lemma SuccTimes(b: nat, w: real)
    ensures ((b + 1) as real) * w == (b as real) * w + w
  {
  }
}

=== FILE: categorical.dfy ===
/** The bar chart of one categorical column: how often each present value occurs, most
    frequent first, with each value's share of the counted cells. */
module Categorical {

  import opened Common
  import opened Table
  import opened Tally
  import Pareto

  /** A cell the chart counts: neither `undefined`, `null` nor `''`. */
  predicate Present(c: Cell)
  {
    !IsBlank(c)
  }

  /** `acc[value] = (acc[value] || 0) + 1` for a present cell: one vote for its text. */
  function Vote(c: Cell): (e: Option<Entry<string>>)
    ensures e.Some? <==> Present(c)
    ensures e.Some? ==> e.value == Entry(CellText(c), 1.0)
  {
    if IsBlank(c) then None else Some(Entry(CellText(c), 1.0))
  }

  /** The votes of a column, in row order. */
  function Votes(col: seq<Cell>): (es: seq<Entry<string>>)
    ensures forall j :: 0 <= j < |es| ==> es[j].value == 1.0
  {
    var es := FilterMap(col, Vote);
    assert forall j :: 0 <= j < |es| ==> es[j].value == 1.0 by {
      forall j | 0 <= j < |es| ensures es[j].value == 1.0 {
        assert es[j] in es;
      }
    }
    es
  }

  /** One vote per present cell. */
  lemma {:induction false} VotesCount(col: seq<Cell>)
    ensures |Votes(col)| == CountIf(col, Present)
    decreases |col|
  {
    if |col| > 0 {
      VotesCount(col[1..]);
    }
  }

  /** A sum of ones is the number of terms. */
  lemma {:induction false} SumOnes(vs: seq<real>)
    requires forall i :: 0 <= i < |vs| ==> vs[i] == 1.0
    ensures Sum(vs) == |vs| as real
    decreases |vs|
  {
    if |vs| > 0 {
      SumOnes(vs[..|vs| - 1]);
    }
  }

  datatype Chart = Chart(labels: seq<string>, values: seq<real>, percentages: seq<real>)

  /** The bars of a column: its distinct present values ranked by count, and each count. */
  function Bars(col: seq<Cell>): (r: (seq<string>, seq<real>))
    ensures |r.0| == |r.1| && Distinct(r.0)
    ensures forall i, j :: 0 <= i < j < |r.1| ==> r.1[i] >= r.1[j]
  {
    var es := Votes(col);
    (RankedKeys(es), RankedTotals(es))
  }

  /** Each of `ps` is the matching value's share of the values' positive sum, in percent. */
  predicate SharesOfTotal(vs: seq<real>, ps: seq<real>)
  {
    && Sum(vs) > 0.0
    && |ps| == |vs|
    && forall j :: 0 <= j < |vs| ==> ps[j] == vs[j] / Sum(vs) * 100.0
  }

  /** The chart of ranked bars: the labels and counts as they are and, when there are bars,
      each count's share. */
  function ChartOf(b: (seq<string>, seq<real>)): (c: Chart)
    requires |b.1| > 0 ==> Sum(b.1) > 0.0
    ensures c.labels == b.0 && c.values == b.1
    ensures |b.1| == 0 ==> c.percentages == []
    ensures |b.1| > 0 ==> SharesOfTotal(c.values, c.percentages)
  {
    var total := Sum(b.1);
    if total == 0.0 then Chart(b.0, b.1, [])
    else Chart(b.0, b.1, Pareto.Shares(b.1, total))
  }

  /** The component: nothing without data or without a column; otherwise one bar per distinct
      present value, most frequent first (equal counts in the order the buckets are kept), and
      each bar's share of all counted cells in percent. */
  function CategoricalChart(data: Option<seq<Row>>, column: string): (r: Option<Chart>)
    ensures r.None? <==> data.None? || column == ""
    ensures r.Some? ==> var b := Bars(Column(data.value, column));
      && r.value.labels == b.0 && r.value.values == b.1
      && (|b.1| == 0 ==> r.value.percentages == [])
      && (|b.1| > 0 ==> SharesOfTotal(b.1, r.value.percentages))
  {
    if data.None? || column == "" then None
    else
      var col := Column(data.value, column);
      BarsCount(col);
      Some(ChartOf(Bars(col)))
  }

  /** Each bar holds the number of present cells with its text, and together the bars hold
      every present cell once. */
  lemma BarsCount(col: seq<Cell>)
    ensures var b := Bars(col);
      && (forall j :: 0 <= j < |b.1| ==> b.1[j] == CountWhere(Votes(col), b.0[j]) as real)
      && Sum(b.1) == CountIf(col, Present) as real
      && (|b.1| > 0 ==> Sum(b.1) > 0.0)
  {
    var es := Votes(col);
    var b := Bars(col);
    VotesCount(col);
    SumOnes(EntryValues(es));
    forall j | 0 <= j < |b.1| ensures b.1[j] == CountWhere(es, b.0[j]) as real {
      OnesWhere(es, b.0[j]);
    }
    if |b.1| > 0 {
      assert |es| > 0 by {
        assert Occurs(es, b.0[0]);
      }
    }
  }

  /** Some present cell of the column prints as `l`. */
  predicate Printed(col: seq<Cell>, l: string)
  {
    exists i :: 0 <= i < |col| && Present(col[i]) && CellText(col[i]) == l
  }

  /** A text labels a bar exactly when some present cell of the column prints as it. */
  lemma LabelsAreValues(col: seq<Cell>)
    ensures forall l :: l in Bars(col).0 <==> Printed(col, l)
  {
    VotesAreValues(col);
  }

  /** A text has a vote exactly when some present cell of the column prints as it. */
  lemma VotesAreValues(col: seq<Cell>)
    ensures forall l :: Occurs(Votes(col), l) <==> Printed(col, l)
  {
    var es := Votes(col);
    forall l | Occurs(es, l) ensures Printed(col, l) {
      var k :| 0 <= k < |es| && es[k].key == l;
      assert es[k] in es;
      var i :| 0 <= i < |col| && Vote(col[i]) == Some(es[k]);
    }
    forall l | Printed(col, l) ensures Occurs(es, l) {
      var i :| 0 <= i < |col| && Present(col[i]) && CellText(col[i]) == l;
      assert Vote(col[i]) == Some(Entry(l, 1.0));
      assert Entry(l, 1.0) in es;
      var k :| 0 <= k < |es| && es[k] == Entry(l, 1.0);
    }
  }

  /** When something is counted the shares add up to 100. */
  lemma PercentagesSum(data: seq<Row>, column: string)
    requires column != ""
    requires CountIf(Column(data, column), Present) > 0
    ensures var c := CategoricalChart(Some(data), column).value; Sum(c.percentages) == 100.0
  {
    var col := Column(data, column);
    var c := CategoricalChart(Some(data), column).value;
    BarsCount(col);
    var total := Sum(c.values);
    Pareto.SumShares(c.values, total);
    Pareto.SelfShare(total);
  }
}

=== FILE: columnchoice.dfy ===
/** Checking and suggesting, on the diagrams page, the columns a chart should use. */
module ColumnChoice {

  import opened Common
  import opened Text
  import opened Table

  datatype Role = CategoryRole | ValueRole

  /** A cell that is truthy yet does not parse as a number. */
  predicate Offending(row: Row, name: string)
  {
    Truthy(Get(row, name)) && ParseCell(Get(row, name)).None?
  }

  /** The first row whose cell in the column is truthy but not a number. */
  function FirstOffending(data: seq<Row>, name: string): (r: Option<nat>)
    ensures r.Some? ==> r.value < |data| && Offending(data[r.value], name)
    ensures r.Some? ==> forall i :: 0 <= i < r.value ==> !Offending(data[i], name)
    ensures r.None? ==> forall i :: 0 <= i < |data| ==> !Offending(data[i], name)
  {
    if |data| == 0 then None
    else if Offending(data[0], name) then Some(0)
    else
      match FirstOffending(data[1..], name)
      case None => None
      case Some(i) => Some(i + 1)
  }

  const NotNumeric: string := "\U{26A0}\U{FE0F} Esta columna contiene valores no num\U{E9}ricos"

  datatype Validation = Validation(isValid: bool, message: string)

  /** `validateColumn`: no column chosen is valid; a category column is always valid; a value
      column is invalid exactly when some truthy cell does not parse. */
  function ValidateColumn(data: seq<Row>, name: string, role: Role): (v: Validation)
    ensures v.isValid <==>
      name == "" || role == CategoryRole || forall i :: 0 <= i < |data| ==> !Offending(data[i], name)
    ensures v.isValid ==> v.message == ""
    ensures !v.isValid ==> v.message == NotNumeric
  {
    if name == "" || role == CategoryRole || FirstOffending(data, name).None? then Validation(true, "")
    else Validation(false, NotNumeric)
  }

  const CategoryKeywords: seq<string> := [
    "defecto", "categoria", "tipo", "producto", "error", "causa", "problema",
    "falla", "descripcion", "name", "nombre", "id", "code", "codigo",
    "item", "parte", "componente", "area", "proceso", "maquina", "material",
    "defecto_visual", "artesano"]

  const ValueKeywords: seq<string> := [
    "frecuencia", "cantidad", "valor", "total", "count", "numero",
    "costo", "tiempo", "duracion", "peso", "medida", "conteo",
    "ocurrencias", "repeticiones", "veces", "fallos", "errores",
    "longitud", "diametro", "calidad", "durabilidad"]

  const Recommended: string := "(\U{2713} Recomendado)"

  function Keywords(role: Role): seq<string>
  {
    match role
    case CategoryRole => CategoryKeywords
    case ValueRole => ValueKeywords
  }

  /** Some keyword occurs in `s`. */
  function MentionsAny(s: string, kws: seq<string>): (b: bool)
    ensures b <==> exists j :: 0 <= j < |kws| && Contains(s, kws[j])
  {
    if |kws| == 0 then false
    else Contains(s, kws[0]) || MentionsAny(s, kws[1..])
  }

  /** `getColumnSuggestion`: the recommendation mark when the lower-cased name contains one of
      the keywords of the role, and the empty text otherwise. */
  function Suggestion(name: string, role: Role): (r: string)
    ensures r == Recommended <==> exists j :: 0 <= j < |Keywords(role)| && Contains(ToLower(name), Keywords(role)[j])
    ensures r != Recommended ==> r == ""
  {
    if MentionsAny(ToLower(name), Keywords(role)) then Recommended else ""
  }

  /** The suggestion does not depend on letter case. */
  lemma SuggestionIgnoresCase(name: string, role: Role)
    ensures Suggestion(ToLower(name), role) == Suggestion(name, role)
  {
    ToLowerIdempotent(name);
  }

  /** A name that contains `total`, as written, is recommended as a value column, whatever
      the case of its other letters. */
  lemma TotalRecommended(name: string)
    requires Contains(name, "total")
    ensures Suggestion(name, ValueRole) == Recommended
  {
    var i :| OccursAt(name, "total", i);
    assert IsLower("total");
    ToLowerKeepsOccurrence(name, "total", i);
    assert ValueKeywords[3] == "total";
  }
}

=== FILE: common.dfy ===
/** Value types and sequence helpers shared by every component model. */
module Common {

  /** A value that may be absent; stands for JavaScript's `null`/`undefined` results. */
  datatype Option<+T> = None | Some(value: T)

  /** Sum of a sequence, accumulated from the left exactly like `reduce((a, b) => a + b, 0)`. */
  function Sum(s: seq<real>): real
  {
    if |s| == 0 then 0.0 else Sum(s[..|s| - 1]) + s[|s| - 1]
  }

  /** Arithmetic mean of a non-empty sequence. */
  function Mean(s: seq<real>): real
    requires |s| > 0
  {
    Sum(s) / (|s| as real)
  }

  lemma {:induction false} SumAppend(a: seq<real>, b: seq<real>)
    ensures Sum(a + b) == Sum(a) + Sum(b)
    decreases |b|
  {
    if |b| == 0 {
      assert a + b == a;
    } else {
      assert (a + b)[..|a + b| - 1] == a + b[..|b| - 1];
      SumAppend(a, b[..|b| - 1]);
    }
  }

  lemma SumSingleton(x: real)
    ensures Sum([x]) == x
  {
    assert [x][..0] == [];
  }

  /** Sum(s) can also be computed from the front: `s[0] + Sum(s[1..])`. */
  lemma SumFront(s: seq<real>)
    requires |s| > 0
    ensures Sum(s) == s[0] + Sum(s[1..])
  {
    assert s == [s[0]] + s[1..];
    SumAppend([s[0]], s[1..]);
    SumSingleton(s[0]);
  }

  /** A sum of elements that all lie in [lo, hi] lies in [n*lo, n*hi]. */
  lemma {:induction false} SumBounds(s: seq<real>, lo: real, hi: real)
    requires forall i :: 0 <= i < |s| ==> lo <= s[i] <= hi
    ensures (|s| as real) * lo <= Sum(s) <= (|s| as real) * hi
    decreases |s|
  {
    if |s| > 0 {
      var n := |s| as real;
      var init := s[..|s| - 1];
      assert forall i :: 0 <= i < |init| ==> init[i] == s[i];
      SumBounds(init, lo, hi);
      assert Sum(s) == Sum(init) + s[|s| - 1];
      assert n == (|init| as real) + 1.0;
      StepBounds(|init| as real, Sum(init), s[|s| - 1], lo, hi);
    }
  }

  /** One more element in [lo, hi] moves the bounds of a sum of `m` such elements by one. */
  lemma StepBounds(m: real, a: real, x: real, lo: real, hi: real)
    requires m * lo <= a <= m * hi && lo <= x <= hi
    ensures (m + 1.0) * lo <= a + x <= (m + 1.0) * hi
  {
    assert (m + 1.0) * lo == m * lo + lo;
    assert (m + 1.0) * hi == m * hi + hi;
  }

  lemma {:induction false} SumNonNegative(s: seq<real>)
    requires forall i :: 0 <= i < |s| ==> 0.0 <= s[i]
    ensures 0.0 <= Sum(s)
    decreases |s|
  {
    if |s| > 0 {
      SumNonNegative(s[..|s| - 1]);
    }
  }

  /** `Math.max(...s)` on a non-empty sequence. */
  function MaxOf(s: seq<real>): (m: real)
    requires |s| > 0
    ensures forall i :: 0 <= i < |s| ==> s[i] <= m
    ensures m in s
  {
    if |s| == 1 then s[0]
    else
      var rest := MaxOf(s[1..]);
      if s[0] >= rest then s[0] else rest
  }

  /** `Math.min(...s)` on a non-empty sequence. */
  function MinOf(s: seq<real>): (m: real)
    requires |s| > 0
    ensures forall i :: 0 <= i < |s| ==> m <= s[i]
    ensures m in s
  {
    if |s| == 1 then s[0]
    else
      var rest := MinOf(s[1..]);
      if s[0] <= rest then s[0] else rest
  }

  /** A value of the sequence that bounds it from below is its minimum. */
  lemma MinOfUnique(s: seq<real>, a: real)
    requires a in s && forall i :: 0 <= i < |s| ==> a <= s[i]
    ensures MinOf(s) == a
  {
    var m := MinOf(s);
    var i :| 0 <= i < |s| && s[i] == m;
  }

  /** A value of the sequence that bounds it from above is its maximum. */
  lemma MaxOfUnique(s: seq<real>, a: real)
    requires a in s && forall i :: 0 <= i < |s| ==> s[i] <= a
    ensures MaxOf(s) == a
  {
    var m := MaxOf(s);
    var i :| 0 <= i < |s| && s[i] == m;
  }

  /** Position `i` of the tail is position `i + 1` of the sequence. */
  lemma TailIndex<T>(s: seq<T>)
    requires |s| > 0
    ensures forall i :: 0 <= i < |s| - 1 ==> s[1..][i] == s[i + 1]
  {
  }

  /** Number of elements satisfying `p`. */
  function CountIf<T>(s: seq<T>, p: T -> bool): nat
  {
    if |s| == 0 then 0 else (if p(s[0]) then 1 else 0) + CountIf(s[1..], p)
  }

  /** The negation of a predicate, as a named value so that every use denotes the same one. */
  function Not<T(!new)>(p: T -> bool): (q: T -> bool)
    ensures forall x :: q(x) == !p(x)
  {
    x => !p(x)
  }

  /** Every element either satisfies `p` or does not. */
  lemma {:induction false} CountIfComplement<T(!new)>(s: seq<T>, p: T -> bool)
    ensures CountIf(s, p) + CountIf(s, Not(p)) == |s|
    decreases |s|
  {
    if |s| > 0 {
      CountIfComplement(s[1..], p);
    }
  }

  lemma {:induction false} CountIfAppend<T>(a: seq<T>, b: seq<T>, p: T -> bool)
    ensures CountIf(a + b, p) == CountIf(a, p) + CountIf(b, p)
    decreases |a|
  {
    if |a| == 0 {
      assert a + b == b;
    } else {
      assert (a + b)[1..] == a[1..] + b;
      CountIfAppend(a[1..], b, p);
    }
  }

  /** Counting does not depend on the order: a permutation has the same count. */
  lemma {:induction false} CountIfPermutation<T>(s: seq<T>, t: seq<T>, p: T -> bool)
    requires multiset(s) == multiset(t)
    ensures CountIf(s, p) == CountIf(t, p)
    decreases |s|
  {
    if |s| > 0 {
      var j := PickOut(s, t);
      var a, b := t[..j], t[j + 1..];
      CountIfPermutation(s[1..], a + b, p);
      CountIfAppend(a + [t[j]], b, p);
      CountIfAppend(a, [t[j]], p);
      CountIfAppend(a, b, p);
      assert s == [s[0]] + s[1..];
      CountIfAppend([s[0]], s[1..], p);
    }
  }

  /** If no element from position `k` on satisfies `p`, at most `k` elements do. */
  lemma CountIfOnlyBefore<T>(s: seq<T>, p: T -> bool, k: nat)
    requires k <= |s|
    requires forall i :: k <= i < |s| ==> !p(s[i])
    ensures CountIf(s, p) <= k
  {
    assert s == s[..k] + s[k..];
    CountIfAppend(s[..k], s[k..], p);
    CountIfAtMost(s[..k], p);
    CountIfNone(s[k..], p);
  }

  lemma {:induction false} CountIfAtMost<T>(s: seq<T>, p: T -> bool)
    ensures CountIf(s, p) <= |s|
    decreases |s|
  {
    if |s| > 0 {
      CountIfAtMost(s[1..], p);
    }
  }

  lemma {:induction false} CountIfNone<T>(s: seq<T>, p: T -> bool)
    requires forall i :: 0 <= i < |s| ==> !p(s[i])
    ensures CountIf(s, p) == 0
    decreases |s|
  {
    if |s| > 0 {
      CountIfNone(s[1..], p);
    }
  }

  /** `s.filter(p)`: the elements satisfying `p`, in their original order. */
  function Filter<T(!new)>(s: seq<T>, p: T -> bool): (r: seq<T>)
    ensures forall x :: x in r <==> x in s && p(x)
    ensures |r| == CountIf(s, p)
    ensures forall i :: 0 <= i < |r| ==> p(r[i])
  {
    if |s| == 0 then []
    else
      assert s == [s[0]] + s[1..];
      (if p(s[0]) then [s[0]] else []) + Filter(s[1..], p)
  }

  /** `r` is `s` with some elements left out: the elements of `r` occur in `s` in the same
      order (matched greedily, which finds a match whenever there is one). */
  predicate IsSubsequence<T(==)>(r: seq<T>, s: seq<T>)
    decreases |s|
  {
    if |r| == 0 then true
    else if |s| == 0 then false
    else if r[0] == s[0] then IsSubsequence(r[1..], s[1..])
    else IsSubsequence(r, s[1..])
  }

  /** Leaving out the first element of a subsequence leaves a subsequence. */
  lemma {:induction false} SubsequenceTail<T>(r: seq<T>, s: seq<T>)
    requires |r| > 0 && IsSubsequence(r, s)
    ensures IsSubsequence(r[1..], s)
    decreases |s|, 1
  {
    if r[0] == s[0] {
      SubsequenceCons(r[1..], s);
    } else {
      SubsequenceTail(r, s[1..]);
      SubsequenceCons(r[1..], s);
    }
  }

  /** A subsequence of the tail is a subsequence of the whole. */
  lemma {:induction false} SubsequenceCons<T>(q: seq<T>, t: seq<T>)
    requires |t| > 0 && IsSubsequence(q, t[1..])
    ensures IsSubsequence(q, t)
    decreases |t|, 0
  {
    if |q| > 0 && q[0] == t[0] {
      SubsequenceTail(q, t[1..]);
    }
  }

  /** `r` is drawn from `s` in order and holds every copy `s` has of each value `p` accepts. */
  ghost predicate KeepsInOrder<T(!new)>(r: seq<T>, s: seq<T>, p: T -> bool)
  {
    IsSubsequence(r, s) && forall x :: p(x) ==> multiset(r)[x] == multiset(s)[x]
  }

  /** The filter keeps its elements in their original order, and keeps every copy of each
      value it keeps. */
  lemma {:induction false} FilterSubsequence<T(!new)>(s: seq<T>, p: T -> bool)
    ensures IsSubsequence(Filter(s, p), s)
    ensures forall x :: p(x) ==> multiset(Filter(s, p))[x] == multiset(s)[x]
    ensures KeepsInOrder(Filter(s, p), s, p)
    decreases |s|
  {
    if |s| > 0 {
      var f := Filter(s[1..], p);
      FilterSubsequence(s[1..], p);
      assert s == [s[0]] + s[1..];
      if p(s[0]) {
        assert Filter(s, p) == [s[0]] + f;
        assert (Filter(s, p))[1..] == f;
      } else {
        assert Filter(s, p) == f;
        SubsequenceCons(f, s);
      }
    }
  }

  /** Filtering commutes with concatenation, so the kept elements keep their relative order. */
  lemma {:induction false} FilterAppend<T(!new)>(a: seq<T>, b: seq<T>, p: T -> bool)
    ensures Filter(a + b, p) == Filter(a, p) + Filter(b, p)
    decreases |a|
  {
    if |a| == 0 {
      assert a + b == b;
    } else {
      assert (a + b)[0] == a[0];
      assert (a + b)[1..] == a[1..] + b;
      FilterAppend(a[1..], b, p);
    }
  }

  /** A filter that keeps everything returns the sequence unchanged. */
  lemma {:induction false} FilterAll<T(!new)>(s: seq<T>, p: T -> bool)
    requires forall i :: 0 <= i < |s| ==> p(s[i])
    ensures Filter(s, p) == s
    decreases |s|
  {
    if |s| > 0 {
      FilterAll(s[1..], p);
    }
  }

  /** Filtering out only a last element that was just appended gives back what it was
      appended to. */
  lemma FilterDropsLast<T(!new)>(s: seq<T>, x: T, p: T -> bool)
    requires forall i :: 0 <= i < |s| ==> p(s[i])
    requires !p(x)
    ensures Filter(s + [x], p) == s
  {
    FilterAll(s, p);
    FilterAppend(s, [x], p);
    assert Filter([x], p) == [] by {
      assert [x][1..] == [];
    }
  }

  /** `reduce` that keeps `f(x).value` for every `x` where `f(x)` is present, in order. */
  function FilterMap<A, B(!new)>(s: seq<A>, f: A -> Option<B>): (r: seq<B>)
    ensures |r| == CountIf(s, x => f(x).Some?)
    ensures forall y :: y in r <==> exists i :: 0 <= i < |s| && f(s[i]) == Some(y)
  {
    if |s| == 0 then []
    else
      var rest := FilterMap(s[1..], f);
      assert forall i :: 0 < i < |s| ==> s[i] == s[1..][i - 1];
      match f(s[0])
      case Some(y) => [y] + rest
      case None => rest
  }

  /** `reduce` with `push`: keeping the present results of a longer prefix appends at most the
      last element's result. */
  lemma {:induction false} FilterMapSnoc<A, B(!new)>(s: seq<A>, x: A, f: A -> Option<B>)
    ensures FilterMap(s + [x], f) == FilterMap(s, f) + (if f(x).Some? then [f(x).value] else [])
    decreases |s|
  {
    if |s| == 0 {
      assert s + [x] == [x];
      assert [x][1..] == [];
    } else {
      assert (s + [x])[1..] == s[1..] + [x];
      FilterMapSnoc(s[1..], x, f);
    }
  }

  /** `FilterMapSnoc` read from the last element of a non-empty sequence. */
  lemma FilterMapLast<A, B(!new)>(s: seq<A>, f: A -> Option<B>)
    requires |s| > 0
    ensures var n := |s| - 1;
      FilterMap(s, f) == FilterMap(s[..n], f) + (if f(s[n]).Some? then [f(s[n]).value] else [])
  {
    var n := |s| - 1;
    assert s[..n] + [s[n]] == s;
    FilterMapSnoc(s[..n], s[n], f);
  }

  /** Keeping the present results never gives more results than elements. */
  lemma {:induction false} FilterMapAtMost<A, B(!new)>(s: seq<A>, f: A -> Option<B>)
    ensures |FilterMap(s, f)| <= |s|
    decreases |s|
  {
    if |s| > 0 {
      FilterMapAtMost(s[1..], f);
    }
  }

  /** `s.map(f)`. */
  function Map<A, B>(s: seq<A>, f: A -> B): (r: seq<B>)
    ensures |r| == |s|
    ensures forall i :: 0 <= i < |s| ==> r[i] == f(s[i])
  {
    seq(|s|, i requires 0 <= i < |s| => f(s[i]))
  }

  /** No element occurs twice. */
  predicate Distinct<T(==)>(s: seq<T>)
  {
    forall i, j :: 0 <= i < j < |s| ==> s[i] != s[j]
  }

  /** Where the first element of `s` sits in a reordering `t`, and what remains of both. */
  lemma PickOut<T>(s: seq<T>, t: seq<T>) returns (j: nat)
    requires |s| > 0 && multiset(s) == multiset(t)
    ensures j < |t| && t[j] == s[0]
    ensures t == t[..j] + [t[j]] + t[j + 1..]
    ensures multiset(s[1..]) == multiset(t[..j] + t[j + 1..])
  {
    assert s[0] in multiset(t);
    j :| 0 <= j < |t| && t[j] == s[0];
    SplitAt(t, j);
    assert multiset(s) == multiset{s[0]} + multiset(s[1..]) by {
      assert s == [s[0]] + s[1..];
    }
    assert multiset(s[1..]) == multiset(s) - multiset{s[0]};
    assert multiset(t[..j] + t[j + 1..]) == multiset(t) - multiset{t[j]};
  }

  /** Taking element `j` out of `t` leaves the rest of its elements. */
  lemma SplitAt<T>(t: seq<T>, j: nat)
    requires j < |t|
    ensures t == t[..j] + [t[j]] + t[j + 1..]
    ensures multiset(t) == multiset(t[..j] + t[j + 1..]) + multiset{t[j]}
  {
    assert t == t[..j] + [t[j]] + t[j + 1..];
    assert multiset(t) == multiset(t[..j]) + multiset{t[j]} + multiset(t[j + 1..]);
  }

  lemma MapAppend<A, B>(a: seq<A>, b: seq<A>, f: A -> B)
    ensures Map(a + b, f) == Map(a, f) + Map(b, f)
  {
  }

  /** Reordering the inputs of a map reorders its outputs the same way. */
  lemma {:induction false} MapPermutation<A, B>(s: seq<A>, t: seq<A>, f: A -> B)
    requires multiset(s) == multiset(t)
    ensures multiset(Map(s, f)) == multiset(Map(t, f))
    decreases |s|
  {
    if |s| > 0 {
      var j := PickOut(s, t);
      var a, b := t[..j], t[j + 1..];
      MapPermutation(s[1..], a + b, f);
      MapSplitAt(t, j, f);
      MapCons(s, f);
    }
  }

  lemma MapSplitAt<A, B>(t: seq<A>, j: nat, f: A -> B)
    requires j < |t|
    ensures multiset(Map(t, f)) == multiset(Map(t[..j] + t[j + 1..], f)) + multiset{f(t[j])}
  {
    var a, b := t[..j], t[j + 1..];
    assert t == a + [t[j]] + b;
    MapAppend(a + [t[j]], b, f);
    MapAppend(a, [t[j]], f);
    MapAppend(a, b, f);
  }

  lemma MapCons<A, B>(s: seq<A>, f: A -> B)
    requires |s| > 0
    ensures multiset(Map(s, f)) == multiset{f(s[0])} + multiset(Map(s[1..], f))
  {
    var m, rest := Map(s, f), Map(s[1..], f);
    assert forall i :: 0 < i < |s| ==> m[i] == rest[i - 1];
    assert m == [f(s[0])] + rest;
  }

  /** Reordering does not change a sum. */
  lemma {:induction false} SumPermutation(s: seq<real>, t: seq<real>)
    requires multiset(s) == multiset(t)
    ensures Sum(s) == Sum(t)
    decreases |s|
  {
    if |s| > 0 {
      var j := PickOut(s, t);
      SumPermutation(s[1..], t[..j] + t[j + 1..]);
      SumFront(s);
      SumAppend(t[..j] + [t[j]], t[j + 1..]);
      SumAppend(t[..j], [t[j]]);
      SumAppend(t[..j], t[j + 1..]);
      SumSingleton(t[j]);
    }
  }

  /** In a sequence without repetitions every value occurs at most once. */
  lemma {:induction false} DistinctAtMostOnce<T>(s: seq<T>, x: T)
    requires Distinct(s)
    ensures multiset(s)[x] <= 1
    decreases |s|
  {
    if |s| > 0 {
      assert s == [s[0]] + s[1..];
      DistinctAtMostOnce(s[1..], x);
      if x == s[0] {
        assert x !in s[1..];
      }
    }
  }

  /** A reordering of a sequence without repetitions has none either. */
  lemma DistinctPermutation<T>(s: seq<T>, t: seq<T>)
    requires Distinct(s) && multiset(s) == multiset(t)
    ensures Distinct(t)
  {
    forall i, j | 0 <= i < j < |t| ensures t[i] != t[j] {
      if t[i] == t[j] {
        assert t == t[..i] + [t[i]] + t[i + 1..j] + [t[j]] + t[j + 1..];
        assert multiset(t)[t[i]] >= 2;
        DistinctAtMostOnce(s, t[i]);
      }
    }
  }

  /** `s.filter((_, j) => j !== i)`: drops exactly the element at position `i`, if there is one. */
  function RemoveAt<T>(s: seq<T>, i: int): (r: seq<T>)
    ensures 0 <= i < |s| ==> |r| == |s| - 1
    ensures 0 <= i < |s| ==> forall j :: 0 <= j < i ==> r[j] == s[j]
    ensures 0 <= i < |s| ==> forall j :: i <= j < |r| ==> r[j] == s[j + 1]
    ensures !(0 <= i < |s|) ==> r == s
  {
    if |s| == 0 then []
    else if i == 0 then s[1..]
    else
      var rest := RemoveAt(s[1..], i - 1);
      assert i < 0 ==> [s[0]] + rest == s;
      [s[0]] + rest
  }
}

=== FILE: contextpareto.dfy ===
/** The store's Pareto chart (`processParetoData`): rows with a category and a readable value
    are summed per category, the categories are ranked by their sums, the twenty largest are
    kept and the rest merged into one "Otros" bar, each bar is labelled with its category and
    row count, and the cumulative line is rounded to one decimal. */
module ContextPareto {

  import opened Common
  import opened Text
  import opened NumParse
  import opened Table
  import opened Tally
  import opened Stats
  import opened Pareto

  const DefaultCategoryColumn: string := "Defecto"
  const DefaultValueColumn: string := "Frecuencia"

  /** How many ranked categories keep a bar of their own. */
  const TopCount: nat := 20

  const OthersName: string := "Otros"

  /** The chart's two column options; either may be missing. */
  datatype Options = Options(categoryColumn: Option<string>, valueColumn: Option<string>)

  /** `option || fallback`: a missing or empty option takes the fallback. */
  function OrDefault(o: Option<string>, fallback: string): (r: string)
    ensures o.Some? && o.value != "" ==> r == o.value
    ensures o.None? || o.value == "" ==> r == fallback
  {
    if o.Some? && o.value != "" then o.value else fallback
  }

  /** The characters `/[^\d.-]/g` does not remove. */
  predicate KeepsChar(c: char)
  {
    IsDigit(c) || c == '.' || c == '-'
  }

  /** `s.replace(/[^\d.-]/g, '')`: the digits, points and minus signs of `s`, in order. */
  function StripNumber(s: string): (r: string)
    ensures forall i :: 0 <= i < |r| ==> KeepsChar(r[i])
    ensures forall c :: c in r <==> c in s && KeepsChar(c)
  {
    Filter(s, KeepsChar)
  }

  /** Stripping twice strips nothing more, and a text made only of kept characters is left as
      it is. */
  lemma StripNumberIdempotent(s: string)
    ensures StripNumber(StripNumber(s)) == StripNumber(s)
    ensures (forall i :: 0 <= i < |s| ==> KeepsChar(s[i])) ==> StripNumber(s) == s
  {
    FilterAll(StripNumber(s), KeepsChar);
    if forall i :: 0 <= i < |s| ==> KeepsChar(s[i]) {
      FilterAll(s, KeepsChar);
    }
  }

  /** `String(row[categoryColumn] || '').trim()`. */
  function CategoryOf(c: Cell): (r: string)
    ensures !Truthy(c) ==> r == ""
    ensures Truthy(c) ==> r == Trim(CellText(c))
  {
    Trim(if Truthy(c) then CellText(c) else "")
  }

  /** The value: a text is stripped to its number characters before `parseFloat`; anything
      else is read by `parseFloat` directly. */
  function ValueOf(c: Cell): (r: Option<real>)
    ensures c.Str? ==> r == ParseNum(StripNumber(c.s))
    ensures !c.Str? ==> r == ParseCell(c)
  {
    if c.Str? then ParseNum(StripNumber(c.s)) else ParseCell(c)
  }

  /** What one row contributes: nothing when its category is blank or its value is not a
      number, and otherwise its category and value. */
  function RowEntry(catCol: string, valCol: string, row: Row): (r: Option<Entry<string>>)
    ensures r.Some? <==> CategoryOf(Get(row, catCol)) != "" && ValueOf(Get(row, valCol)).Some?
    ensures r.Some? ==> r.value == Entry(CategoryOf(Get(row, catCol)), ValueOf(Get(row, valCol)).value)
  {
    var cat := CategoryOf(Get(row, catCol));
    if cat == "" then None
    else
      match ValueOf(Get(row, valCol))
      case None => None
      case Some(v) => Some(Entry(cat, v))
  }

  /** The entries the grouping files, in row order. */
  function Entries(data: seq<Row>, catCol: string, valCol: string): (es: seq<Entry<string>>)
    ensures forall e :: e in es <==> exists i :: 0 <= i < |data| && RowEntry(catCol, valCol, data[i]) == Some(e)
  {
    FilterMap(data, row => RowEntry(catCol, valCol, row))
  }

  /** The entries of the chart's two columns, missing options taking the defaults. */
  function ChartEntries(data: seq<Row>, options: Options): seq<Entry<string>>
  {
    Entries(data, OrDefault(options.categoryColumn, DefaultCategoryColumn),
                  OrDefault(options.valueColumn, DefaultValueColumn))
  }

  /** Number of rows in a run of groups. */
  function CountSum(bs: seq<Bucket<string>>): nat
  {
    if |bs| == 0 then 0 else CountSum(bs[..|bs| - 1]) + bs[|bs| - 1].count
  }

  lemma {:induction false} CountSumAppend(a: seq<Bucket<string>>, b: seq<Bucket<string>>)
    ensures CountSum(a + b) == CountSum(a) + CountSum(b)
    decreases |b|
  {
    if |b| > 0 {
      var n := |b| - 1;
      assert (a + b)[..|a + b| - 1] == a + b[..n];
      assert (a + b)[|a + b| - 1] == b[n];
      CountSumAppend(a, b[..n]);
    } else {
      assert a + b == a;
    }
  }

  lemma TotalsAppend(a: seq<Bucket<string>>, b: seq<Bucket<string>>)
    ensures Totals(a + b) == Totals(a) + Totals(b)
  {
  }

  /** `topData` after the merge: the first twenty groups as they are, then, if any group is
      left over, one "Otros" group holding the sum and row count of all the rest. */
  function Collapse(bs: seq<Bucket<string>>): (r: seq<Bucket<string>>)
    ensures |bs| <= TopCount ==> r == bs
    ensures |r| <= |bs|
    ensures |bs| > TopCount ==> |r| == TopCount + 1
    ensures forall j :: 0 <= j < |r| && j < TopCount ==> r[j] == bs[j]
    ensures |bs| > TopCount ==> r[TopCount].key == OthersName
  {
    if |bs| <= TopCount then bs
    else
      var rest := bs[TopCount..];
      bs[..TopCount] + [Bucket(OthersName, Total(Totals(rest)), CountSum(rest))]
  }

  /** Merging loses nothing: at most twenty-one bars, holding together every value and every
      row of the groups, the merged bar holding exactly what the dropped groups held. */
  lemma CollapseConserves(bs: seq<Bucket<string>>)
    ensures |Collapse(bs)| <= TopCount + 1
    ensures Sum(Totals(Collapse(bs))) == Sum(Totals(bs))
    ensures CountSum(Collapse(bs)) == CountSum(bs)
    ensures |bs| > TopCount ==>
      && Collapse(bs)[TopCount].total == Sum(Totals(bs[TopCount..]))
      && Collapse(bs)[TopCount].count == CountSum(bs[TopCount..])
  {
    if |bs| > TopCount {
      var head, rest := bs[..TopCount], bs[TopCount..];
      var other := Bucket(OthersName, Total(Totals(rest)), CountSum(rest));
      assert bs == head + rest;
      TotalsAppend(head, rest);
      TotalsAppend(head, [other]);
      SumAppend(Totals(head), Totals(rest));
      SumAppend(Totals(head), [other.total]);
      SumSingleton(other.total);
      CountSumAppend(head, rest);
      CountSumAppend(head, [other]);
      assert [other][..0] == [];
    }
  }

  /** `${category} (${count})`. */
  function Label(b: Bucket<string>): string
  {
    b.key + " (" + NatToString(b.count) + ")"
  }

  /** The chart: bar labels and heights, and the cumulative line, which is absent when the bars
      sum to 0 (every point would be a division by zero). */
  datatype Chart = Chart(labels: seq<string>, values: seq<real>, cumulative: Option<seq<real>>)

  /** The groups of the entries, largest sum first: each holds the sum and row count of a
      category that occurs, no category twice, and together they hold every value. */
  function RankedGroups(es: seq<Entry<string>>): (r: seq<Bucket<string>>)
    ensures forall i, j :: 0 <= i < j < |r| ==> r[i].total >= r[j].total
    ensures forall j :: 0 <= j < |r| ==>
      && Occurs(es, r[j].key)
      && r[j].total == SumWhere(es, r[j].key)
      && r[j].count == CountWhere(es, r[j].key)
    ensures Sum(Totals(r)) == Sum(EntryValues(es))
  {
    var r := Ranked(es);
    forall i, j | 0 <= i < j < |r| ensures r[i].total >= r[j].total {
      assert TotalOf(r[i]) >= TotalOf(r[j]);
    }
    forall j | 0 <= j < |r| ensures Occurs(es, r[j].key) {
      assert HasKey(r, r[j].key);
    }
    r
  }

  /** No category has two groups. */
  lemma RankedGroupsDistinct(es: seq<Entry<string>>)
    ensures forall i, j :: 0 <= i < j < |RankedGroups(es)| ==> RankedGroups(es)[i].key != RankedGroups(es)[j].key
  {
    assert Tally.DistinctKeys(Ranked(es));
  }

  /** The bars: the ranked groups, the twenty largest kept and the rest merged. */
  function Bars(es: seq<Entry<string>>): (bs: seq<Bucket<string>>)
    ensures |bs| <= TopCount + 1 && |bs| <= |RankedGroups(es)|
    ensures Sum(Totals(bs)) == Sum(EntryValues(es))
    ensures forall j :: 0 <= j < |bs| && j < TopCount ==> bs[j] == RankedGroups(es)[j]
    ensures |bs| == TopCount + 1 ==> bs[TopCount].key == OthersName
  {
    var ranked := RankedGroups(es);
    var bs := Collapse(ranked);
    assert |bs| <= TopCount + 1 && Sum(Totals(bs)) == Sum(EntryValues(es)) by {
      CollapseConserves(ranked);
    }
    bs
  }

  /** The one-decimal cumulative line of bars with a non-zero sum. */
  function Line(values: seq<real>): (c: seq<real>)
    requires Total(values) != 0.0
    ensures |c| == |values|
    ensures forall i :: 0 <= i < |values| ==>
      c[i] == Round1(Sum(values[..i + 1]) / Total(values) * 100.0)
  {
    Map(RunningShares(values, Total(values)), Round1)
  }

  /** The chart of a run of bars. */
  function Draw(bs: seq<Bucket<string>>): (r: Chart)
    ensures |r.labels| == |r.values| == |bs| && r.values == Totals(bs)
    ensures forall j :: 0 <= j < |bs| ==> r.values[j] == bs[j].total && r.labels[j] == Label(bs[j])
    ensures r.cumulative.None? <==> |bs| > 0 && Total(r.values) == 0.0
    ensures r.cumulative.Some? && |bs| > 0 ==> Total(r.values) != 0.0 && r.cumulative.value == Line(r.values)
    ensures |bs| == 0 ==> r.cumulative == Some([])
  {
    var values := Totals(bs);
    var labels := Map(bs, Label);
    if |values| == 0 then Chart(labels, values, Some([]))
    else if Total(values) == 0.0 then Chart(labels, values, None)
    else Chart(labels, values, Some(Line(values)))
  }

  /** The chart of a list of entries: the bars are their ranked groups, at most twenty-one,
      together holding the sum of all the values; the first twenty are the largest groups, in
      order, each labelled with its category and row count, and a twenty-first bar is the
      "Otros" one; the line is the rounded running share of the sum, missing when that sum
      is 0. */
  function ParetoChart(es: seq<Entry<string>>): (r: Chart)
    ensures |r.labels| == |r.values| <= TopCount + 1
    ensures |r.values| <= |RankedGroups(es)|
    ensures forall j :: 0 <= j < |r.values| && j < TopCount ==>
      var b := RankedGroups(es)[j];
      r.values[j] == b.total && r.labels[j] == b.key + " (" + NatToString(b.count) + ")"
    ensures |r.values| == TopCount + 1 ==> StartsWith(r.labels[TopCount], OthersName)
    ensures r.cumulative.None? <==> |r.values| > 0 && Total(r.values) == 0.0
    ensures r.cumulative.Some? && |r.values| > 0 ==>
      Total(r.values) != 0.0 && r.cumulative.value == Line(r.values)
    ensures |r.values| == 0 ==> r.cumulative == Some([])
  {
    var bs := Bars(es);
    var r := Draw(bs);
    assert |bs| == TopCount + 1 ==> StartsWith(r.labels[TopCount], OthersName) by {
      if |bs| == TopCount + 1 {
        LabelStartsWithKey(bs[TopCount]);
      }
    }
    r
  }

  /** The bars together hold every value of the entries: merging the tail into "Otros" loses
      nothing. */
  lemma ParetoChartConserves(es: seq<Entry<string>>)
    ensures Total(ParetoChart(es).values) == Sum(EntryValues(es))
  {
    var bs := Bars(es);
    assert ParetoChart(es).values == Totals(bs);
  }

  /** A label begins with its category. */
  lemma LabelStartsWithKey(b: Bucket<string>)
    ensures StartsWith(Label(b), b.key)
  {
    assert Label(b)[..|b.key|] == b.key;
  }

  /** `processParetoData(data, options)`: an empty table gives back the chart the store holds
      (`diagramData.pareto`); any other gives the chart of the entries its two columns yield,
      missing options taking the default column names. */
  function ProcessParetoData(data: seq<Row>, options: Options, stored: Chart): (r: Chart)
    ensures |data| == 0 ==> r == stored
    ensures |data| > 0 ==> r == ParetoChart(ChartEntries(data, options))
  {
    if |data| == 0 then stored else ParetoChart(ChartEntries(data, options))
  }

  /** The first twenty bars come largest first, and each is the sum and row count of a
      different category that occurs among the entries. */
  lemma ParetoBarsRanked(es: seq<Entry<string>>)
    ensures var vs := ParetoChart(es).values;
      && (forall i, j :: 0 <= i < j < |vs| && j < TopCount ==> vs[i] >= vs[j])
      && (forall j :: 0 <= j < |vs| && j < TopCount ==>
            var b := RankedGroups(es)[j];
            Occurs(es, b.key) && vs[j] == SumWhere(es, b.key) && b.count == CountWhere(es, b.key))
  {
  }

  /** Rounding keeps 100 as it is. */
  lemma Round1Hundred()
    ensures Round1(100.0) == 100.0
  {
    assert (100.0 * 10.0 + 0.5).Floor == 1000;
  }

  /** With no negative value the rounded line never goes down, and once some value is positive
      it ends at exactly 100. */
  lemma LineShape(values: seq<real>)
    requires |values| > 0 && Total(values) > 0.0
    requires forall i :: 0 <= i < |values| ==> values[i] >= 0.0
    ensures forall i, j :: 0 <= i <= j < |values| ==> Line(values)[i] <= Line(values)[j]
    ensures Line(values)[|values| - 1] == 100.0
  {
    var c := Line(values);
    var p := CumulativePercent(values, Total(values));
    CumulativeMonotone(values, Total(values));
    forall i, j | 0 <= i <= j < |values| ensures c[i] <= c[j] {
      Round1Monotone(p[i], p[j]);
    }
    CumulativeEndsAt100(values, Total(values));
    Round1Hundred();
  }
}

=== FILE: controlcharts.dfy ===
/** The X̄–R control chart of one numeric column: the values are cut into consecutive
    subgroups of a fixed size, each subgroup contributes its mean and its range, and the
    centre lines and control limits come from the Shewhart constants A2, D3 and D4. */
module ControlCharts {

  import opened Common
  import opened Table
  import opened Stats

  /** `values.slice(i, i + size)` for i = 0, size, 2·size, …, keeping only full slices. */
  function Subgroups(values: seq<real>, size: nat): (gs: seq<seq<real>>)
    requires size >= 1
    ensures |gs| * size <= |values| < |gs| * size + size
    ensures forall j :: 0 <= j < |gs| ==> |gs[j]| == size
    decreases |values|
  {
    if |values| < size then []
    else
      var rest := Subgroups(values[size..], size);
      assert (|rest| + 1) * size == |rest| * size + size;
      [values[..size]] + rest
  }

  /** Subgroup j is exactly the j-th run of `size` consecutive values. */
  lemma {:induction false} SubgroupsAreSlices(values: seq<real>, size: nat, j: nat)
    requires size >= 1 && j < |Subgroups(values, size)|
    ensures (j + 1) * size <= |values|
    ensures Subgroups(values, size)[j] == values[j * size..(j + 1) * size]
    decreases j
  {
    var rest := values[size..];
    if j > 0 {
      SubgroupsAreSlices(rest, size, j - 1);
      assert j * size == size + (j - 1) * size;
      assert (j + 1) * size == size + j * size;
    }
  }

  datatype SubgroupStat = SubgroupStat(mean: real, range: real)

  /** `{ mean, range: Math.max(...g) - Math.min(...g) }`. */
  function StatOf(g: seq<real>): SubgroupStat
    requires |g| > 0
  {
    SubgroupStat(Mean(g), MaxOf(g) - MinOf(g))
  }

  /** The range is never negative and the mean lies between the smallest and largest value. */
  lemma StatBounds(g: seq<real>)
    requires |g| > 0
    ensures StatOf(g).range >= 0.0
    ensures MinOf(g) <= StatOf(g).mean <= MaxOf(g)
  {
    MeanBetweenMinMax(g);
  }

  datatype Factors = Factors(a2: real, d3: real, d4: real)

  /** The tabled constants for subgroup sizes 2 through 10, indexed by size − 2. */
  const A2Table: seq<real> := [1.880, 1.023, 0.729, 0.577, 0.483, 0.419, 0.373, 0.337, 0.308]
  const D3Table: seq<real> := [0.0, 0.0, 0.0, 0.0, 0.0, 0.076, 0.136, 0.184, 0.223]
  const D4Table: seq<real> := [3.267, 2.575, 2.282, 2.115, 2.004, 1.924, 1.864, 1.816, 1.777]

  /** The constants used when the size is not in the table (those of size 5). */
  const Fallback: Factors := Factors(0.577, 0.0, 2.115)

  /** `{…}[size] || fallback` for each of the three constants. */
  function FactorsFor(size: int): (f: Factors)
    ensures !(2 <= size <= 10) ==> f == Fallback
    ensures 2 <= size <= 10 ==>
      f == Factors(A2Table[size - 2], D3Table[size - 2], D4Table[size - 2])
  {
    if 2 <= size <= 10 then Factors(A2Table[size - 2], D3Table[size - 2], D4Table[size - 2])
    else Fallback
  }

  /** Every size gets A2 > 0 and 0 ≤ D3 ≤ 1 ≤ D4, and the fallback equals the size-5 row. */
  lemma FactorsSound(size: int)
    ensures FactorsFor(size).a2 > 0.0
    ensures 0.0 <= FactorsFor(size).d3 <= 1.0 <= FactorsFor(size).d4
    ensures FactorsFor(5) == Fallback
  {
    if 2 <= size <= 10 {
      var i := size - 2;
      assert forall j :: 0 <= j < 9 ==> A2Table[j] > 0.0;
      assert forall j :: 0 <= j < 9 ==> 0.0 <= D3Table[j] <= 1.0 <= D4Table[j];
    }
  }

  /** The result of `calculateControlLimits`: the per-subgroup series, the two centre lines,
      the constants used, and the four limits derived from them. */
  datatype Limits = Limits(
    xbarData: seq<real>, rangeData: seq<real>,
    centerX: real, centerR: real, factors: Factors, subgroups: nat)
  {
    function UclX(): real { centerX + factors.a2 * centerR }
    function LclX(): real { centerX - factors.a2 * centerR }
    function UclR(): real { factors.d4 * centerR }
    function LclR(): real { factors.d3 * centerR }

    /** The X̄ limits sit A2·R̄ either side of X̄, and 0 ≤ LCL_R ≤ R̄ ≤ UCL_R. */
    predicate WellOrdered()
    {
      && UclX() - centerX == centerX - LclX() == factors.a2 * centerR
      && LclX() <= centerX <= UclX()
      && 0.0 <= LclR() <= centerR <= UclR()
    }

    /** The limits are in order once the average range is not negative. */
    lemma Ordered()
      requires centerR >= 0.0 && factors.a2 > 0.0 && 0.0 <= factors.d3 <= 1.0 <= factors.d4
      ensures WellOrdered()
    {
      NonNegativeProduct(factors.a2, centerR);
      ScaleBetween(factors.d3, factors.d4, centerR);
    }
  }

  function Means(stats: seq<SubgroupStat>): (ms: seq<real>)
    ensures |ms| == |stats|
    ensures forall j :: 0 <= j < |stats| ==> ms[j] == stats[j].mean
  {
    seq(|stats|, j requires 0 <= j < |stats| => stats[j].mean)
  }

  function Ranges(stats: seq<SubgroupStat>): (rs: seq<real>)
    ensures |rs| == |stats|
    ensures forall j :: 0 <= j < |stats| ==> rs[j] == stats[j].range
  {
    seq(|stats|, j requires 0 <= j < |stats| => stats[j].range)
  }

  /** The statistics of every subgroup, in order. */
  function SubgroupStats(gs: seq<seq<real>>): (stats: seq<SubgroupStat>)
    requires forall j :: 0 <= j < |gs| ==> |gs[j]| > 0
    ensures |stats| == |gs|
    ensures forall j :: 0 <= j < |gs| ==> stats[j] == StatOf(gs[j])
    ensures forall j :: 0 <= j < |gs| ==> stats[j].range >= 0.0
  {
    seq(|gs|, j requires 0 <= j < |gs| => StatBounds(gs[j]); StatOf(gs[j]))
  }

  /** `calculateControlLimits(values)`. The only caller asks for it once there are at least
      `size` values, so at least one subgroup exists and the averages are defined. The centre
      lines are the averages of the subgroup means and ranges; the X̄ limits sit A2·R̄ either
      side of X̄, and 0 ≤ LCL_R ≤ R̄ ≤ UCL_R. */
  function ControlLimits(values: seq<real>, size: nat): (l: Limits)
    requires size >= 1 && |values| >= size
    ensures l.subgroups == |Subgroups(values, size)| >= 1
    ensures |l.xbarData| == |l.rangeData| == l.subgroups
    ensures forall j :: 0 <= j < l.subgroups ==>
      l.xbarData[j] == Mean(Subgroups(values, size)[j])
    ensures forall j :: 0 <= j < l.subgroups ==>
      l.rangeData[j] == MaxOf(Subgroups(values, size)[j]) - MinOf(Subgroups(values, size)[j])
    ensures l.centerX == Mean(l.xbarData) && l.centerR == Mean(l.rangeData)
    ensures l.factors == FactorsFor(size) && l.centerR >= 0.0
    ensures l.WellOrdered()
  {
    var gs := Subgroups(values, size);
    var stats := SubgroupStats(gs);
    var means, ranges := Means(stats), Ranges(stats);
    MeanBetween(ranges, 0.0, MaxOf(ranges));
    FactorsSound(size);
    var l := Limits(means, ranges, Mean(means), Mean(ranges), FactorsFor(size), |gs|);
    l.Ordered();
    l
  }

  lemma NonNegativeProduct(a: real, b: real)
    requires a >= 0.0 && b >= 0.0
    ensures a * b >= 0.0
  {
  }

  lemma ScaleBetween(lo: real, hi: real, r: real)
    requires 0.0 <= lo <= 1.0 <= hi && r >= 0.0
    ensures 0.0 <= lo * r <= r <= hi * r
  {
    MathLib.MulLeft(r, lo, 1.0);
    MathLib.MulLeft(r, 1.0, hi);
  }

  /** `generateControlChart`: the parsed values of the column, dropping those that do not
      parse; no chart when fewer than `size` remain. */
  function ControlChart(data: seq<Row>, column: string, size: nat): (r: Option<Limits>)
    requires size >= 1
    ensures r.None? <==> |FilterMap(Column(data, column), ParseCell)| < size
    ensures r.Some? ==> r.value.subgroups >= 1
  {
    var values := FilterMap(Column(data, column), ParseCell);
    if |values| < size then None else Some(ControlLimits(values, size))
  }
}

=== FILE: dashboard.dfy ===
/** The dashboard page: the simple and the advanced data-entry forms, their validation, the
    metrics computed on submit and the history of submitted entries. */
module Dashboard {

  import opened Common
  import opened Text
  import opened NumParse
  import opened Sigma
  import MathLib

  /** `/^\d*\.?\d*$/`: digits, at most one point, digits. */
  predicate DecimalShape(s: string)
  {
    AllDigits(s) || exists i :: 0 <= i < |s| && PointAt(s, i)
  }

  /** Position `i` holds the point, with digits on either side of it. */
  predicate PointAt(s: string, i: int)
  {
    0 <= i < |s| && s[i] == '.' && AllDigits(s[..i]) && AllDigits(s[i + 1..])
  }

  /** A left-to-right scan for that pattern, remembering whether the point was seen. */
  function Accepts(s: string, pointSeen: bool): bool
  {
    if |s| == 0 then true
    else if IsDigit(s[0]) then Accepts(s[1..], pointSeen)
    else if s[0] == '.' && !pointSeen then Accepts(s[1..], true)
    else false
  }

  /** After the point only digits are accepted. */
  lemma {:induction false} AcceptsAfterPoint(s: string)
    ensures Accepts(s, true) <==> AllDigits(s)
    decreases |s|
  {
    if |s| > 0 {
      AcceptsAfterPoint(s[1..]);
      assert AllDigits(s) <==> IsDigit(s[0]) && AllDigits(s[1..]);
    }
  }

  /** The scan accepts exactly the texts of the pattern. */
  lemma {:induction false} AcceptsDecimal(s: string)
    ensures Accepts(s, false) <==> DecimalShape(s)
    decreases |s|
  {
    if |s| == 0 {
    } else if IsDigit(s[0]) {
      AcceptsDecimal(s[1..]);
      DigitHead(s);
    } else if s[0] == '.' {
      AcceptsAfterPoint(s[1..]);
      PointHead(s);
    } else {
      assert !AllDigits(s);
      assert forall i :: 0 <= i < |s| && AllDigits(s[..i]) ==> i == 0;
      assert !PointAt(s, 0);
    }
  }

  /** A leading digit does not change whether the rest has the shape. */
  lemma DigitHead(s: string)
    requires |s| > 0 && IsDigit(s[0])
    ensures DecimalShape(s) <==> DecimalShape(s[1..])
  {
    var t := s[1..];
    assert AllDigits(s) <==> AllDigits(t);
    if exists i :: PointAt(s, i) {
      var i :| PointAt(s, i);
      PointShift(s, i);
    }
    if exists i :: PointAt(t, i) {
      var i :| PointAt(t, i);
      PointShift(s, i + 1);
    }
  }

  /** Behind a leading digit the point sits one place further on. */
  lemma PointShift(s: string, i: int)
    requires |s| > 0 && IsDigit(s[0]) && 1 <= i
    ensures PointAt(s, i) <==> PointAt(s[1..], i - 1)
  {
    var t := s[1..];
    if i < |s| {
      assert s[..i] == [s[0]] + t[..i - 1] && s[i + 1..] == t[i..];
    }
  }

  /** A text that starts with the point has the shape iff the rest is all digits. */
  lemma PointHead(s: string)
    requires |s| > 0 && s[0] == '.'
    ensures DecimalShape(s) <==> AllDigits(s[1..])
  {
    assert !IsDigit(s[0]);
    if AllDigits(s[1..]) {
      assert s[..0] == [];
      assert PointAt(s, 0);
    }
    if exists i :: 0 <= i < |s| && PointAt(s, i) {
      var i :| 0 <= i < |s| && PointAt(s, i);
      assert i == 0 || s[..i][0] == s[0];
    }
    assert forall j :: 0 < j <= |s| ==> !AllDigits(s[..j]) by {
      forall j | 0 < j <= |s| ensures !AllDigits(s[..j]) {
        assert s[..j][0] == s[0];
      }
    }
  }

  /** The simple form. */
  datatype Simple = Simple(date: string, units: string, defects: string, opportunities: string,
                           cycleTime: string)

  datatype SimpleField = DateField | UnitsField | DefectsField | OpportunitiesField | CycleTimeField

  function SetSimple(s: Simple, field: SimpleField, value: string): Simple
  {
    match field
    case DateField => s.(date := value)
    case UnitsField => s.(units := value)
    case DefectsField => s.(defects := value)
    case OpportunitiesField => s.(opportunities := value)
    case CycleTimeField => s.(cycleTime := value)
  }

  function GetSimple(s: Simple, field: SimpleField): string
  {
    match field
    case DateField => s.date
    case UnitsField => s.units
    case DefectsField => s.defects
    case OpportunitiesField => s.opportunities
    case CycleTimeField => s.cycleTime
  }

  /** `handleSimpleChange`: the date takes any text; a numeric field takes the empty text or a
      text of the decimal pattern, and otherwise the form is left as it was. Only the named
      field changes. */
  function SimpleChange(s: Simple, field: SimpleField, value: string): (r: Simple)
    ensures field == DateField || value == "" || DecimalShape(value) ==> GetSimple(r, field) == value
    ensures !(field == DateField || value == "" || DecimalShape(value)) ==> r == s
    ensures forall f :: f != field ==> GetSimple(r, f) == GetSimple(s, f)
  {
    AcceptsDecimal(value);
    if field != DateField && value != "" && !Accepts(value, false) then s
    else SetSimple(s, field, value)
  }

  /** A numeric field the simple form accepts: filled in, a number for `Number`, not negative. */
  predicate NonNegativeNumber(v: string)
  {
    v != "" && NumberOf(v).Some? && NumberOf(v).value >= 0.0
  }

  /** All four numeric fields of the simple form are non-negative numbers. */
  predicate NumbersValid(s: Simple)
  {
    NonNegativeNumber(s.units) && NonNegativeNumber(s.defects)
    && NonNegativeNumber(s.opportunities) && NonNegativeNumber(s.cycleTime)
  }

  /** The outcome of validating the simple form: the form after validation (the date is filled
      in with today's once the numeric fields pass) and whether the submit goes ahead. */
  datatype Checked = Checked(form: Simple, ok: bool)

  /** `validateSimpleForm`. The four numeric fields must be non-negative numbers; then an empty
      date becomes today's; then the defects must not exceed units times opportunities. */
  function ValidateSimple(s: Simple, today: string): (c: Checked)
    ensures !NumbersValid(s) ==> c == Checked(s, false)
    ensures c.ok ==> NumbersValid(s)
    ensures c.ok ==>
      WithinChances(NumberOf(s.defects).value, NumberOf(s.units).value, NumberOf(s.opportunities).value)
    ensures c.form.date == (if s.date == "" && c.form != s then today else s.date)
    ensures c.form.(date := s.date) == s
  {
    if !NumbersValid(s) then Checked(s, false)
    else
      var form := if s.date == "" then s.(date := today) else s;
      Checked(form, WithinChances(NumberOf(s.defects).value, NumberOf(s.units).value, NumberOf(s.opportunities).value))
  }

  /** The defects do not exceed the units times the opportunities per unit. */
  predicate WithinChances(d: real, u: real, o: real)
  {
    d <= u * o
  }

  /** What the metrics show; a rate that divides by zero is absent. */
  datatype Metrics = Metrics(dpmo: Option<real>, yieldPercent: Option<real>, sigma: Level)

  /** `calculateSimpleMetrics`: `dpo = d / (u·o)`, `dpmo = 10⁶·dpo`, `yield = (1 − dpo)·100` and
      the sigma level of `dpmo`. */
  function SimpleMetrics(m: MathLib.Math, u: real, d: real, o: real): (r: Metrics)
    requires MathLib.Lawful(m)
    ensures r.dpmo.Some? <==> u * o != 0.0
    ensures r.yieldPercent.Some? <==> u * o != 0.0
    ensures r.dpmo.Some? ==> r.dpmo.value * (u * o) == d * 1000000.0
    ensures r.dpmo.Some? ==> r.dpmo.value + 10000.0 * r.yieldPercent.value == 1000000.0
    ensures r.dpmo.Some? ==> r.sigma == SigmaLevel(m, r.dpmo.value)
    ensures r.dpmo.None? ==> r.sigma == NotANumber
  {
    if u * o == 0.0 then Metrics(None, None, NotANumber)
    else
      var dpo := d / (u * o);
      Metrics(Some(dpo * 1000000.0), Some((1.0 - dpo) * 100.0), SigmaLevel(m, dpo * 1000000.0))
  }

  /** A validated simple form with some opportunity gives a yield that is a percentage. */
  lemma ValidatedSimpleYield(m: MathLib.Math, s: Simple, today: string)
    requires MathLib.Lawful(m) && ValidateSimple(s, today).ok
    requires NumberOf(s.units).value * NumberOf(s.opportunities).value != 0.0
    ensures var r := SimpleMetrics(m, NumberOf(s.units).value, NumberOf(s.defects).value, NumberOf(s.opportunities).value);
      0.0 <= r.yieldPercent.value <= 100.0 && 0.0 <= r.dpmo.value <= 1000000.0
  {
    var u, d, o := NumberOf(s.units).value, NumberOf(s.defects).value, NumberOf(s.opportunities).value;
    assert NonNegativeNumber(s.units) && NonNegativeNumber(s.opportunities) && NonNegativeNumber(s.defects);
    SimpleRange(m, u, d, o);
  }

  lemma SimpleRange(m: MathLib.Math, u: real, d: real, o: real)
    requires MathLib.Lawful(m) && u >= 0.0 && o >= 0.0 && d >= 0.0 && WithinChances(d, u, o) && u * o != 0.0
    ensures var r := SimpleMetrics(m, u, d, o);
      0.0 <= r.yieldPercent.value <= 100.0 && 0.0 <= r.dpmo.value <= 1000000.0
  {
    NonNegativeProduct(u, o);
    var r := SimpleMetrics(m, u, d, o);
    Fraction(d, u * o, r.dpmo.value);
  }

  lemma NonNegativeProduct(a: real, b: real)
    requires a >= 0.0 && b >= 0.0
    ensures a * b >= 0.0
  {
  }

  lemma Fraction(d: real, c: real, x: real)
    requires c > 0.0 && 0.0 <= d <= c && x * c == d * 1000000.0
    ensures 0.0 <= x <= 1000000.0
  {
    assert (1000000.0 - x) * c == 1000000.0 * (c - d);
    PositiveFactor(x, c);
    PositiveFactor(1000000.0 - x, c);
  }

  lemma PositiveFactor(a: real, c: real)
    requires c > 0.0 && a * c >= 0.0
    ensures a >= 0.0
  {
  }

  /** The advanced form's three groups of fields. */
  datatype Process = Process(date: string, cycleTime: string, leadTime: string, defectRate: string)

  datatype Project = Project(costSavings: string, roi: string, bcr: string, duration: string, milestones: string)

  datatype Quality = Quality(conforming: string, total: string, opportunities: string, defects: string)

  datatype Advanced = Advanced(process: Process, project: Project, quality: Quality)

  /** The ten fields `validateAdvancedForm` checks, in its order. */
  function CheckedFields(a: Advanced): (fs: seq<string>)
    ensures |fs| == 10
  {
    [a.process.cycleTime, a.process.leadTime, a.process.defectRate,
     a.project.costSavings, a.project.roi, a.project.bcr,
     a.quality.conforming, a.quality.total, a.quality.opportunities, a.quality.defects]
  }

  /** `validateAdvancedForm`: every checked field is non-blank, and the conforming units do not
      exceed the total; a comparison with a text that is not a number is false, so it passes. */
  function ValidateAdvanced(a: Advanced): (ok: bool)
    ensures ok <==> NoneBlank(CheckedFields(a)) && !Exceeds(a.quality.conforming, a.quality.total)
    ensures ok ==> a.quality.conforming != "" && a.quality.total != ""
    ensures ok ==> a.quality.opportunities != "" && a.quality.defects != ""
  {
    var fs := CheckedFields(a);
    var ok := NoneBlank(fs) && !Exceeds(a.quality.conforming, a.quality.total);
    assert ok ==> !AllSpace(fs[6]) && !AllSpace(fs[7]) && !AllSpace(fs[8]) && !AllSpace(fs[9]);
    ok
  }

  /** No field is empty or white space only. */
  predicate NoneBlank(fs: seq<string>)
  {
    forall i :: 0 <= i < |fs| ==> !AllSpace(fs[i])
  }

  /** `Number(x) > Number(y)`. */
  predicate Exceeds(x: string, y: string)
  {
    NumberOf(x).Some? && NumberOf(y).Some? && NumberOf(x).value > NumberOf(y).value
  }

  /** `calculateAdvancedMetrics`: nothing when a quality field is empty; otherwise the quality
      rates of the four texts read by `Number`. */
  function AdvancedMetrics(m: MathLib.Math, q: Quality): (r: Option<Metrics>)
    requires MathLib.Lawful(m)
    ensures r.None? <==> q.conforming == "" || q.total == "" || q.opportunities == "" || q.defects == ""
    ensures r.Some? ==>
      r.value == QualityRates(m, NumberOf(q.conforming), NumberOf(q.total), NumberOf(q.opportunities), NumberOf(q.defects))
  {
    if q.conforming == "" || q.total == "" || q.opportunities == "" || q.defects == "" then None
    else Some(QualityRates(m, NumberOf(q.conforming), NumberOf(q.total), NumberOf(q.opportunities), NumberOf(q.defects)))
  }

  /** The advanced rates, each from its own operands (`None` is `NaN`): the yield `c/t·100` of
      `c` conforming units out of `t`, and `dpmo = d/(t·o)·10⁶` of `d` defects over `o`
      opportunities per unit, with its sigma level. */
  function QualityRates(m: MathLib.Math, c: Option<real>, t: Option<real>, o: Option<real>, d: Option<real>): (r: Metrics)
    requires MathLib.Lawful(m)
    ensures r.yieldPercent.Some? <==> c.Some? && t.Some? && t.value != 0.0
    ensures r.yieldPercent.Some? ==> r.yieldPercent.value * t.value == c.value * 100.0
    ensures r.dpmo.Some? <==> d.Some? && t.Some? && o.Some? && t.value * o.value != 0.0
    ensures r.dpmo.Some? ==> r.dpmo.value * (t.value * o.value) == d.value * 1000000.0
    ensures r.dpmo.Some? ==> r.sigma == SigmaLevel(m, r.dpmo.value)
    ensures r.dpmo.None? ==> r.sigma == NotANumber
  {
    var yieldPercent := if c.Some? && t.Some? && t.value != 0.0 then Some(c.value / t.value * 100.0) else None;
    if d.Some? && t.Some? && o.Some? && t.value * o.value != 0.0 then
      var dpmo := d.value / (t.value * o.value) * 1000000.0;
      Metrics(Some(dpmo), yieldPercent, SigmaLevel(m, dpmo))
    else Metrics(None, yieldPercent, NotANumber)
  }

  /** The yield depends on the conforming and total units alone: other opportunities or defects,
      numbers or not, leave it as it was. */
  lemma YieldFromUnitsAlone(m: MathLib.Math, q: Quality, o: string, d: string)
    requires MathLib.Lawful(m) && AdvancedMetrics(m, q).Some? && o != "" && d != ""
    ensures AdvancedMetrics(m, q.(opportunities := o, defects := d)).value.yieldPercent
         == AdvancedMetrics(m, q).value.yieldPercent
  {
  }

  /** Once the advanced form validates there are metrics, and with numeric, non-negative
      conforming units and a positive total the yield is a percentage. */
  lemma ValidatedAdvancedYield(m: MathLib.Math, a: Advanced)
    requires MathLib.Lawful(m) && ValidateAdvanced(a)
    ensures AdvancedMetrics(m, a.quality).Some?
    ensures var c, t := NumberOf(a.quality.conforming), NumberOf(a.quality.total);
      c.Some? && t.Some? && c.value >= 0.0 && t.value > 0.0 ==>
        0.0 <= AdvancedMetrics(m, a.quality).value.yieldPercent.value <= 100.0
  {
    var c, t := NumberOf(a.quality.conforming), NumberOf(a.quality.total);
    if c.Some? && t.Some? && c.value >= 0.0 && t.value > 0.0 {
      assert c.value <= t.value;
      Percentage(c.value, t.value);
    }
  }

  lemma Percentage(c: real, t: real)
    requires 0.0 <= c <= t && t > 0.0
    ensures 0.0 <= c / t * 100.0 <= 100.0
  {
    assert c / t <= 1.0;
  }

  /** A history entry: the date, the form's texts and the metrics. */
  datatype Entry = SimpleEntry(date: string, simple: Simple, metrics: Metrics)
                 | AdvancedEntry(date: string, advanced: Advanced, metrics: Metrics)

  datatype Page = Page(advancedMode: bool, simple: Simple, advanced: Advanced, history: seq<Entry>)

  /** The forms after a successful submit: the numeric fields are cleared, the date is kept. */
  function ClearedSimple(s: Simple): (r: Simple)
    ensures r == Simple(s.date, "", "", "", "")
  {
    s.(units := "", defects := "", opportunities := "", cycleTime := "")
  }

  function ClearedAdvanced(a: Advanced): (r: Advanced)
    ensures r.process.date == a.process.date
    ensures r == Advanced(Process(a.process.date, "", "", ""), Project("", "", "", "", ""), Quality("", "", "", ""))
  {
    Advanced(Process(a.process.date, "", "", ""), Project("", "", "", "", ""), Quality("", "", "", ""))
  }

  /** `handleSubmit`: in the mode shown, a form that fails validation adds nothing (the simple
      form may still get today's date); one that passes appends exactly one entry with its
      metrics and clears the numeric inputs, keeping the date. The simple entry is built from
      the form as it was when submitted: the date validation fills in only queues an update of
      the form, which the entry does not see. */
  function Submit(m: MathLib.Math, p: Page, today: string): (q: Page)
    requires MathLib.Lawful(m)
    ensures q.advancedMode == p.advancedMode
    ensures |q.history| == |p.history| || |q.history| == |p.history| + 1
    ensures q.history[..|p.history|] == p.history
    ensures |q.history| == |p.history| + 1 <==>
      if p.advancedMode then ValidateAdvanced(p.advanced) else ValidateSimple(p.simple, today).ok
    ensures |q.history| == |p.history| + 1 && p.advancedMode ==>
      && q.history[|p.history|] == AdvancedEntry(p.advanced.process.date, p.advanced, AdvancedMetrics(m, p.advanced.quality).value)
      && q.advanced == ClearedAdvanced(p.advanced) && q.simple == p.simple
    ensures |q.history| == |p.history| + 1 && !p.advancedMode ==>
      && q.history[|p.history|].SimpleEntry? && q.history[|p.history|].simple == p.simple
      && q.history[|p.history|].date == p.simple.date
      && q.history[|p.history|].metrics == SimpleMetrics(m, NumberOf(p.simple.units).value,
           NumberOf(p.simple.defects).value, NumberOf(p.simple.opportunities).value)
      && q.simple == ClearedSimple(ValidateSimple(p.simple, today).form) && q.advanced == p.advanced
  {
    if p.advancedMode then
      if !ValidateAdvanced(p.advanced) then p
      else
        var metrics := AdvancedMetrics(m, p.advanced.quality).value;
        var h := p.history + [AdvancedEntry(p.advanced.process.date, p.advanced, metrics)];
        assert h[..|p.history|] == p.history;
        p.(advanced := ClearedAdvanced(p.advanced), history := h)
    else
      var c := ValidateSimple(p.simple, today);
      if !c.ok then p.(simple := c.form)
      else
        var s := p.simple;
        var metrics := SimpleMetrics(m, NumberOf(s.units).value, NumberOf(s.defects).value, NumberOf(s.opportunities).value);
        var h := p.history + [SimpleEntry(s.date, s, metrics)];
        assert h[..|p.history|] == p.history;
        p.(simple := ClearedSimple(c.form), history := h)
  }

  /** A simple form submitted with a blank date is recorded with a blank date, while the form
      left for the next entry carries today's. */
  lemma UndatedEntry(m: MathLib.Math, p: Page, today: string)
    requires MathLib.Lawful(m) && !p.advancedMode && p.simple.date == ""
    requires ValidateSimple(p.simple, today).ok
    ensures var q := Submit(m, p, today);
      && |q.history| == |p.history| + 1
      && q.history[|p.history|].date == ""
      && q.simple.date == today
  {
    var c := ValidateSimple(p.simple, today);
    assert c.form == p.simple.(date := today);
  }

  // ---------------------------------------------------------------- the page over time

  /** The advanced form's inputs. The page renders only the first five: three process fields
      that `handleProcessChange` writes and two project fields that `handleProjectChange`
      writes. The benefit-cost ratio, the duration, the milestones and the four quality fields
      have no input, and `handleQualityChange` is attached to none. */
  datatype AdvancedInput = CycleTimeInput | LeadTimeInput | DefectRateInput | CostSavingsInput | RoiInput
                         | BcrInput | DurationInput | MilestonesInput
                         | ConformingInput | TotalInput | OpportunitiesInput | DefectsInput

  predicate Rendered(input: AdvancedInput)
  {
    input.CycleTimeInput? || input.LeadTimeInput? || input.DefectRateInput? || input.CostSavingsInput? || input.RoiInput?
  }

  /** The field an input writes. */
  function FieldOf(a: Advanced, input: AdvancedInput): string
  {
    match input
    case CycleTimeInput => a.process.cycleTime
    case LeadTimeInput => a.process.leadTime
    case DefectRateInput => a.process.defectRate
    case CostSavingsInput => a.project.costSavings
    case RoiInput => a.project.roi
    case BcrInput => a.project.bcr
    case DurationInput => a.project.duration
    case MilestonesInput => a.project.milestones
    case ConformingInput => a.quality.conforming
    case TotalInput => a.quality.total
    case OpportunitiesInput => a.quality.opportunities
    case DefectsInput => a.quality.defects
  }

  /** `prev => ({ ...prev, [name]: value })` on the group the input belongs to: the input's
      field takes the value and every other field, the date included, stays. */
  function AdvancedChange(a: Advanced, input: AdvancedInput, value: string): (r: Advanced)
    ensures FieldOf(r, input) == value
    ensures forall j :: j != input ==> FieldOf(r, j) == FieldOf(a, j)
    ensures r.process.date == a.process.date
  {
    match input
    case CycleTimeInput => a.(process := a.process.(cycleTime := value))
    case LeadTimeInput => a.(process := a.process.(leadTime := value))
    case DefectRateInput => a.(process := a.process.(defectRate := value))
    case CostSavingsInput => a.(project := a.project.(costSavings := value))
    case RoiInput => a.(project := a.project.(roi := value))
    case BcrInput => a.(project := a.project.(bcr := value))
    case DurationInput => a.(project := a.project.(duration := value))
    case MilestonesInput => a.(project := a.project.(milestones := value))
    case ConformingInput => a.(quality := a.quality.(conforming := value))
    case TotalInput => a.(quality := a.quality.(total := value))
    case OpportunitiesInput => a.(quality := a.quality.(opportunities := value))
    case DefectsInput => a.(quality := a.quality.(defects := value))
  }

  /** The inputs of the ten checked fields, in `validateAdvancedForm`'s order. */
  const CheckedInputs: seq<AdvancedInput> :=
    [CycleTimeInput, LeadTimeInput, DefectRateInput, CostSavingsInput, RoiInput, BcrInput,
     ConformingInput, TotalInput, OpportunitiesInput, DefectsInput]

  lemma CheckedAreFields(a: Advanced)
    ensures |CheckedInputs| == 10
    ensures forall i :: 0 <= i < 10 ==> CheckedFields(a)[i] == FieldOf(a, CheckedInputs[i])
  {
  }

  /** What the user does on the page: type into a field, switch mode (back in simple mode the
      date becomes today's), or submit. */
  datatype Action = TypeSimple(field: SimpleField, value: string)
                  | TypeAdvanced(input: AdvancedInput, value: string)
                  | SwitchMode(advanced: bool, today: string)
                  | SubmitForm(today: string)

  /** The page when it opens: simple mode, both forms empty but for today's date, no history. */
  function InitialPage(today: string): (p: Page)
    ensures !p.advancedMode && p.history == []
    ensures p.advanced.project.bcr == "" && p.advanced.quality == Quality("", "", "", "")
  {
    Page(false, Simple(today, "", "", "", ""),
         Advanced(Process(today, "", "", ""), Project("", "", "", "", ""), Quality("", "", "", "")), [])
  }

  function Step(m: MathLib.Math, p: Page, act: Action): Page
    requires MathLib.Lawful(m)
  {
    match act
    case TypeSimple(f, v) => p.(simple := SimpleChange(p.simple, f, v))
    case TypeAdvanced(i, v) => p.(advanced := AdvancedChange(p.advanced, i, v))
    case SwitchMode(adv, today) =>
      if adv then p.(advancedMode := true) else p.(advancedMode := false, simple := p.simple.(date := today))
    case SubmitForm(today) => Submit(m, p, today)
  }

  /** The page after a sequence of actions. */
  function Run(m: MathLib.Math, p: Page, acts: seq<Action>): Page
    requires MathLib.Lawful(m)
    decreases |acts|
  {
    if |acts| == 0 then p else Run(m, Step(m, p, acts[0]), acts[1..])
  }

  /** Every action is one the page offers: an advanced field is typed into only through a
      rendered input. */
  predicate Offered(acts: seq<Action>)
  {
    forall i :: 0 <= i < |acts| ==> acts[i].TypeAdvanced? ==> Rendered(acts[i].input)
  }

  /** The state the rendered page cannot leave: no benefit-cost ratio, no quality field, and
      only simple entries in the history. */
  predicate Stuck(p: Page)
  {
    && p.advanced.project.bcr == "" && p.advanced.quality == Quality("", "", "", "")
    && forall i :: 0 <= i < |p.history| ==> p.history[i].SimpleEntry?
  }

  /** As written, the advanced form never validates: whatever the user does on the page, `bcr`
      stays empty, so `validateAdvancedForm` stops at it, no advanced entry is ever recorded and
      `calculateAdvancedMetrics` is never reached. */
  lemma AdvancedNeverValidates(m: MathLib.Math, today: string, acts: seq<Action>)
    requires MathLib.Lawful(m) && Offered(acts)
    ensures var p := Run(m, InitialPage(today), acts);
      && p.advanced.project.bcr == "" && !ValidateAdvanced(p.advanced)
      && forall i :: 0 <= i < |p.history| ==> p.history[i].SimpleEntry?
  {
    RunStuck(m, InitialPage(today), acts);
    var p := Run(m, InitialPage(today), acts);
    assert AllSpace(CheckedFields(p.advanced)[5]);
  }

  lemma {:induction false} RunStuck(m: MathLib.Math, p: Page, acts: seq<Action>)
    requires MathLib.Lawful(m) && Offered(acts) && Stuck(p)
    ensures Stuck(Run(m, p, acts))
    decreases |acts|
  {
    if |acts| > 0 {
      StepStuck(m, p, acts[0]);
      assert Offered(acts[1..]) by {
        forall i | 0 <= i < |acts| - 1 ensures acts[1..][i].TypeAdvanced? ==> Rendered(acts[1..][i].input) {
          assert acts[1..][i] == acts[i + 1];
        }
      }
      RunStuck(m, Step(m, p, acts[0]), acts[1..]);
    }
  }

  lemma StepStuck(m: MathLib.Math, p: Page, act: Action)
    requires MathLib.Lawful(m) && Stuck(p)
    requires act.TypeAdvanced? ==> Rendered(act.input)
    ensures Stuck(Step(m, p, act))
  {
    if act.SubmitForm? {
      SubmitStuck(m, p, act.today);
    } else if act.TypeAdvanced? {
      var r := AdvancedChange(p.advanced, act.input, act.value);
      assert FieldOf(r, BcrInput) == FieldOf(p.advanced, BcrInput);
      assert r.quality.conforming == FieldOf(r, ConformingInput) && r.quality.total == FieldOf(r, TotalInput);
      assert r.quality.opportunities == FieldOf(r, OpportunitiesInput) && r.quality.defects == FieldOf(r, DefectsInput);
    }
  }

  lemma SubmitStuck(m: MathLib.Math, p: Page, today: string)
    requires MathLib.Lawful(m) && Stuck(p)
    ensures Stuck(Submit(m, p, today))
  {
    var q := Submit(m, p, today);
    if p.advancedMode {
      BlankBcrFails(p.advanced);
    } else if |q.history| == |p.history| + 1 {
      assert q.history == p.history + [q.history[|p.history|]];
    } else {
      assert q.history == q.history[..|p.history|];
    }
  }

  /** An empty benefit-cost ratio fails validation. */
  lemma BlankBcrFails(a: Advanced)
    requires a.project.bcr == ""
    ensures !ValidateAdvanced(a)
  {
    assert AllSpace(CheckedFields(a)[5]);
  }

  /** With an input for every field, as the form evidently intends, filling each of the ten
      checked fields with the same non-blank text and submitting in advanced mode records one
      advanced entry and clears the form. */
  lemma AllInputsRecordAdvanced(m: MathLib.Math, today: string, v: string)
    requires MathLib.Lawful(m) && !AllSpace(v)
    ensures var p := Run(m, InitialPage(today), FillAll(v) + [SwitchMode(true, today), SubmitForm(today)]);
      && |p.history| == 1 && p.history[0].AdvancedEntry?
      && p.history[0].advanced.project.bcr == v
      && p.advanced == ClearedAdvanced(p.history[0].advanced)
  {
    var p0 := InitialPage(today);
    var filled := Run(m, p0, FillAll(v));
    RunFillAll(m, p0, v);
    RunAppend(m, p0, FillAll(v), [SwitchMode(true, today), SubmitForm(today)]);
    var p1 := Step(m, filled, SwitchMode(true, today));
    assert Run(m, filled, [SwitchMode(true, today), SubmitForm(today)]) == Run(m, p1, [SubmitForm(today)]);
    assert Run(m, p1, [SubmitForm(today)]) == Submit(m, p1, today);
    FilledValidates(p1.advanced, v);
  }

  /** A form whose ten checked fields hold the same non-blank text validates. */
  lemma FilledValidates(a: Advanced, v: string)
    requires !AllSpace(v) && forall i :: 0 <= i < 10 ==> FieldOf(a, CheckedInputs[i]) == v
    ensures ValidateAdvanced(a) && a.project.bcr == v
  {
    var fs := CheckedFields(a);
    forall i | 0 <= i < |fs| ensures !AllSpace(fs[i]) {
      CheckedAreFields(a);
    }
    assert a.quality.conforming == FieldOf(a, CheckedInputs[6]);
    assert a.quality.total == FieldOf(a, CheckedInputs[7]);
    assert a.project.bcr == FieldOf(a, CheckedInputs[5]);
  }

  /** Typing `v` into each of the ten checked fields. */
  function FillAll(v: string): (acts: seq<Action>)
    ensures |acts| == 10
  {
    TypeAll(CheckedInputs, v)
  }

  /** Typing `v` into each of `inputs`, in order. */
  function TypeAll(inputs: seq<AdvancedInput>, v: string): (acts: seq<Action>)
    ensures |acts| == |inputs|
    ensures forall i :: 0 <= i < |inputs| ==> acts[i] == TypeAdvanced(inputs[i], v)
  {
    seq(|inputs|, i requires 0 <= i < |inputs| => TypeAdvanced(inputs[i], v))
  }

  /** After filling, every checked field holds `v`, and nothing but the advanced form changed. */
  lemma RunFillAll(m: MathLib.Math, p: Page, v: string)
    requires MathLib.Lawful(m)
    ensures var q := Run(m, p, FillAll(v));
      && q.advancedMode == p.advancedMode && q.history == p.history && q.simple == p.simple
      && forall i :: 0 <= i < 10 ==> FieldOf(q.advanced, CheckedInputs[i]) == v
  {
    RunTypeAll(m, p, CheckedInputs, v);
    var q := Run(m, p, FillAll(v));
    forall i | 0 <= i < 10 ensures FieldOf(q.advanced, CheckedInputs[i]) == v {
      assert CheckedInputs[i] in CheckedInputs;
    }
  }

  /** Typing into some inputs sets exactly their fields and leaves the rest of the page alone. */
  lemma {:induction false} RunTypeAll(m: MathLib.Math, p: Page, inputs: seq<AdvancedInput>, v: string)
    requires MathLib.Lawful(m)
    ensures var q := Run(m, p, TypeAll(inputs, v));
      && q.advancedMode == p.advancedMode && q.history == p.history && q.simple == p.simple
      && (forall j :: j in inputs ==> FieldOf(q.advanced, j) == v)
      && (forall j :: j !in inputs ==> FieldOf(q.advanced, j) == FieldOf(p.advanced, j))
    decreases |inputs|
  {
    if |inputs| > 0 {
      var acts := TypeAll(inputs, v);
      var p1 := p.(advanced := AdvancedChange(p.advanced, inputs[0], v));
      assert Step(m, p, acts[0]) == p1;
      assert acts[1..] == TypeAll(inputs[1..], v);
      RunTypeAll(m, p1, inputs[1..], v);
      forall j | j in inputs ensures FieldOf(Run(m, p, acts).advanced, j) == v {
        if j !in inputs[1..] {
          assert j == inputs[0];
        }
      }
    }
  }

  lemma {:induction false} RunAppend(m: MathLib.Math, p: Page, xs: seq<Action>, ys: seq<Action>)
    requires MathLib.Lawful(m)
    ensures Run(m, p, xs + ys) == Run(m, Run(m, p, xs), ys)
    decreases |xs|
  {
    if |xs| > 0 {
      assert (xs + ys)[1..] == xs[1..] + ys;
      RunAppend(m, Step(m, p, xs[0]), xs[1..], ys);
    } else {
      assert xs + ys == ys;
    }
  }
}

=== FILE: dataanalysis.dfy ===
/** The data-analysis page: the list of loaded datasets, and cleaning a dataset either by
    dropping every row with a missing cell or by filling missing cells with the column's mean
    or most frequent value. A cleaned dataset is added as a new entry; the original stays. */
module DataAnalysis {

  import opened Common
  import opened Table
  import opened Text
  import opened NumParse
  import DataStats
  import Tally

  datatype Dataset = Dataset(name: string, data: seq<Row>, headers: seq<string>)

  datatype Method = RemoveRows | FillCells

  /** No value of the row is `null` or `''`. */
  predicate Complete(row: Row)
  {
    forall i :: 0 <= i < |row| ==> !IsMissing(row[i].value)
  }

  function IsComplete(): (p: Row -> bool)
    ensures forall row :: p(row) == Complete(row)
  {
    (row: Row) => Complete(row)
  }

  /** The `remove` method: the complete rows, in order. */
  function RemoveIncomplete(data: seq<Row>): (r: seq<Row>)
    ensures forall row :: row in r <==> row in data && Complete(row)
    ensures forall i :: 0 <= i < |r| ==> Complete(r[i])
    ensures |r| <= |data|
    ensures IsSubsequence(r, data)
    ensures forall row :: Complete(row) ==> multiset(r)[row] == multiset(data)[row]
  {
    CountIfAtMost(data, IsComplete());
    FilterSubsequence(data, IsComplete());
    Filter(data, IsComplete())
  }

  /** Removing twice removes nothing more, and a dataset without missing cells is kept whole. */
  lemma RemoveIdempotent(data: seq<Row>)
    ensures RemoveIncomplete(RemoveIncomplete(data)) == RemoveIncomplete(data)
    ensures (forall i :: 0 <= i < |data| ==> Complete(data[i])) ==> RemoveIncomplete(data) == data
  {
    var r := RemoveIncomplete(data);
    FilterAll(r, IsComplete());
    if forall i :: 0 <= i < |data| ==> Complete(data[i]) {
      FilterAll(data, IsComplete());
    }
  }

  /** A JavaScript value met while adding up a column with `reduce((a, b) => a + b, 0)`. */
  datatype Js = JsNum(x: real) | JsNaN | JsText(s: string)

  /** `a + b`: numbers add, `null` counts as 0, `undefined` makes `NaN`, and as soon as either
      side is text the two are concatenated as text. */
  function Plus(a: Js, b: Cell): (r: Js)
    ensures a.JsNum? && b.Num? ==> r == JsNum(a.x + b.x)
    ensures a.JsNum? && b.Bool? ==> r == JsNum(if b.b then a.x + 1.0 else a.x)
    ensures a.JsText? ==> r == JsText(a.s + CellText(b))
    ensures b.Str? && !a.JsText? ==> r.JsText?
  {
    match a
    case JsText(s) => JsText(s + CellText(b))
    case JsNaN =>
      (match b
       case Str(t) => JsText("NaN" + t)
       case _ => JsNaN)
    case JsNum(x) =>
      match b
      case Num(y) => JsNum(x + y)
      case Str(t) => JsText(NumText(x) + t)
      case Null => JsNum(x)
      case Undef => JsNaN
      case NaN => JsNaN
      case Bool(b) => JsNum(if b then x + 1.0 else x)
  }

  /** `values.reduce((a, b) => a + b, 0)`. */
  function Fold(values: seq<Cell>): Js
  {
    if |values| == 0 then JsNum(0.0) else Plus(Fold(values[..|values| - 1]), values[|values| - 1])
  }

  /** A column of numbers adds up to their sum. */
  lemma {:induction false} FoldNumbers(values: seq<Cell>)
    requires forall i :: 0 <= i < |values| ==> values[i].Num?
    ensures Fold(values) == JsNum(Sum(Numeric(values)))
    decreases |values|
  {
    if |values| > 0 {
      var init := values[..|values| - 1];
      FoldNumbers(init);
      assert Numeric(values) == Numeric(init) + [values[|values| - 1].x];
      SumAppend(Numeric(init), [values[|values| - 1].x]);
      SumSingleton(values[|values| - 1].x);
    }
  }

  /** The numbers of a column of number cells. */
  function Numeric(values: seq<Cell>): (xs: seq<real>)
    requires forall i :: 0 <= i < |values| ==> values[i].Num?
    ensures |xs| == |values| && forall i :: 0 <= i < |values| ==> xs[i] == values[i].x
  {
    seq(|values|, i requires 0 <= i < |values| => values[i].x)
  }

  /** `sum / values.length`: a number divides; text is first converted with `Number`, and
      `NaN`, or text that is no number, gives `NaN` (`None`). */
  function Quotient(sum: Js, n: nat): (r: Option<real>)
    requires n > 0
    ensures sum.JsNum? ==> r == Some(sum.x / n as real)
    ensures sum.JsNaN? ==> r.None?
  {
    match sum
    case JsNum(x) => Some(x / n as real)
    case JsNaN => None
    case JsText(s) =>
      match NumberOf(s)
      case Some(v) => Some(v / n as real)
      case None => None
  }

  /** What a sum that has met `NaN` can be: `NaN` itself, or a text that starts with "NaN". */
  predicate NaNLike(j: Js)
  {
    j.JsNaN? || (j.JsText? && |j.s| >= 3 && j.s[..3] == "NaN")
  }

  /** Once the sum is `NaN`, adding further values keeps it `NaN`-like. */
  lemma {:induction false} FoldFromNaN(values: seq<Cell>)
    requires |values| > 0 && values[0] == NaN
    ensures NaNLike(Fold(values))
    decreases |values|
  {
    if |values| > 1 {
      var init := values[..|values| - 1];
      FoldFromNaN(init);
      var a := Fold(init);
      if a.JsText? {
        assert (a.s + CellText(values[|values| - 1]))[..3] == a.s[..3];
      } else {
        match values[|values| - 1]
        case Str(t) => assert ("NaN" + t)[..3] == "NaN";
        case _ =>
      }
    } else {
      assert Fold(values) == Plus(Fold([]), NaN);
    }
  }

  /** A `NaN`-like sum divides to `NaN`: `Number` reads no text that starts with a letter. */
  lemma NaNLikeQuotient(j: Js, n: nat)
    requires n > 0 && NaNLike(j)
    ensures Quotient(j, n).None?
  {
    if j.JsText? {
      var s := j.s;
      assert s[0] == 'N';
      assert LeadCount(s) == 0;
      var t := Trim(s);
      assert t != "" by { assert !IsSpace(s[0]); }
      assert t[0] == 'N';
    }
  }

  /** A column whose first present value is `NaN` has `NaN` for its mean. */
  lemma NaNFold(vs: seq<Cell>)
    requires |vs| > 0 && vs[0] == NaN
    ensures Quotient(Fold(vs), |vs|).None?
  {
    FoldFromNaN(vs);
    NaNLikeQuotient(Fold(vs), |vs|);
  }

  /** `stats[column]` for a column of the first row: the mean when the first present value's
      `typeof` is 'number', which holds for `NaN` too; otherwise the most frequent present
      value's text, booleans included, or `undefined` when nothing is present. `None` stands for
      a mean that comes out as `NaN`, as it always does after a leading `NaN`. */
  function FillValue(col: seq<Cell>): (r: Option<Cell>)
    ensures var vs := DataStats.Present(col);
      && (|vs| == 0 ==> r == Some(Undef))
      && (|vs| > 0 && TypeOf(vs[0]) != "number" ==> r == Some(Str(DataStats.Mode(vs).value)))
      && (|vs| > 0 && TypeOf(vs[0]) == "number" && r.Some? ==> r.value.Num?)
      && (|vs| > 0 && vs[0] == NaN ==> r.None?)
  {
    var vs := DataStats.Present(col);
    if |vs| > 0 && vs[0] == NaN then
      NaNFold(vs);
      None
    else if |vs| > 0 && TypeOf(vs[0]) == "number" then
      match Quotient(Fold(vs), |vs|)
      case Some(x) => Some(Num(x))
      case None => None
    else if |vs| == 0 then Some(Undef)
    else Some(Str(DataStats.Mode(vs).value))
  }

  /** A column whose present values are all numbers is filled with their mean. */
  lemma FillNumbersWithMean(col: seq<Cell>)
    requires var vs := DataStats.Present(col);
      |vs| > 0 && forall i :: 0 <= i < |vs| ==> vs[i].Num?
    ensures var vs := DataStats.Present(col); FillValue(col) == Some(Num(Mean(Numeric(vs))))
  {
    var vs := DataStats.Present(col);
    FoldNumbers(vs);
    assert vs[0].Num?;
    assert Quotient(Fold(vs), |vs|) == Some(Sum(Numeric(vs)) / |vs| as real);
  }

  /** A column whose first present value is no number (text or a boolean) is filled with its
      most frequent value, which is as frequent as any. */
  lemma FillTextWithMode(col: seq<Cell>)
    requires var vs := DataStats.Present(col); |vs| > 0 && TypeOf(vs[0]) != "number"
    ensures var vs := DataStats.Present(col); var k := DataStats.Mode(vs).value;
      && FillValue(col) == Some(Str(k)) && k != ""
      && forall i :: 0 <= i < |vs| ==>
        Tally.CountWhere(DataStats.Votes(vs), CellText(vs[i])) <= Tally.CountWhere(DataStats.Votes(vs), k)
  {
    var vs := DataStats.Present(col);
    var k := DataStats.Mode(vs).value;
    assert FillValue(col) == Some(Str(k));
    ModeNotEmpty(vs);
  }

  /** The most frequent of some present values is a non-empty text. */
  lemma ModeNotEmpty(vs: seq<Cell>)
    requires |vs| > 0 && forall c :: c in vs ==> !IsMissing(c)
    ensures DataStats.Mode(vs).value != ""
  {
    var i :| 0 <= i < |vs| && CellText(vs[i]) == DataStats.Mode(vs).value;
    assert vs[i] in vs;
    TextNotEmpty(vs[i]);
  }

  /** A present value prints as a non-empty text. */
  lemma TextNotEmpty(c: Cell)
    requires !IsMissing(c)
    ensures CellText(c) != ""
  {
    match c
    case Str(t) =>
    case Num(x) => NumTextNonEmpty(x);
    case Undef =>
    case Null =>
    case NaN =>
    case Bool(_) =>
  }

  lemma NumTextNonEmpty(x: real)
    ensures |NumText(x)| > 0
  {
    if !IsWhole(x) {
      var ax := if x < 0.0 then -x else x;
      var k := DecimalPlaces(ax, 1);
      ShiftNonNegative(ax, k);
      DivModNat(Shift(ax, k).Floor, Pow10(k));
    }
  }

  /** The fill values of the columns named by the first row. */
  function FillValues(data: seq<Row>): (fs: seq<(string, Option<Cell>)>)
    requires |data| > 0
    ensures |fs| == |data[0]|
    ensures forall j :: 0 <= j < |fs| ==> fs[j] == (data[0][j].key, FillValue(Column(data, data[0][j].key)))
  {
    seq(|data[0]|, j requires 0 <= j < |data[0]| => (data[0][j].key, FillValue(Column(data, data[0][j].key))))
  }

  /** `stats[column]`: the first entry for the column, or `undefined` for a column the first
      row does not have. */
  function Lookup(fs: seq<(string, Option<Cell>)>, k: string): (r: Option<Cell>)
    ensures (forall j :: 0 <= j < |fs| ==> fs[j].0 != k) ==> r == Some(Undef)
    ensures (exists j :: 0 <= j < |fs| && fs[j].0 == k) ==> exists j :: 0 <= j < |fs| && fs[j] == (k, r)
  {
    if |fs| == 0 then Some(Undef)
    else if fs[0].0 == k then fs[0].1
    else
      var r := Lookup(fs[1..], k);
      assert (exists j :: 0 <= j < |fs| && fs[j].0 == k) ==> exists j :: 0 <= j < |fs| - 1 && fs[1..][j].0 == k;
      r
  }

  /** One field after filling: a missing value takes the column's fill value, which is `NaN`
      for a column whose mean comes out as `NaN`. */
  function FillField(fs: seq<(string, Option<Cell>)>, f: Field): (r: Field)
    ensures r.key == f.key
    ensures !IsMissing(f.value) ==> r == f
    ensures IsMissing(f.value) && Lookup(fs, f.key).Some? ==> r.value == Lookup(fs, f.key).value
    ensures IsMissing(f.value) && Lookup(fs, f.key).None? ==> r.value == NaN
  {
    if IsMissing(f.value) then
      match Lookup(fs, f.key)
      case Some(v) => Field(f.key, v)
      case None => Field(f.key, NaN)
    else f
  }

  /** The `fill` method: every row keeps its keys in order; present values stay; each missing
      value takes the fill value of its column. */
  function FillMissing(data: seq<Row>): (r: seq<Row>)
    requires |data| > 0
    ensures |r| == |data|
    ensures forall i :: 0 <= i < |data| ==> |r[i]| == |data[i]| && Keys(r[i]) == Keys(data[i])
    ensures forall i, k :: 0 <= i < |data| && 0 <= k < |data[i]| ==>
      r[i][k] == FillField(FillValues(data), data[i][k])
  {
    var fs := FillValues(data);
    seq(|data|, i requires 0 <= i < |data| =>
      seq(|data[i]|, k requires 0 <= k < |data[i]| => FillField(fs, data[i][k])))
  }

  /** No fill value is itself missing. */
  lemma FillValueNotMissing(col: seq<Cell>)
    requires FillValue(col).Some?
    ensures !IsMissing(FillValue(col).value)
  {
    var vs := DataStats.Present(col);
    if |vs| > 0 && TypeOf(vs[0]) != "number" {
      FillTextWithMode(col);
    }
  }

  /** No fill value in the list is itself missing. */
  predicate FillsPresent(fs: seq<(string, Option<Cell>)>)
  {
    forall j :: 0 <= j < |fs| && fs[j].1.Some? ==> !IsMissing(fs[j].1.value)
  }

  lemma FillValuesPresent(data: seq<Row>)
    requires |data| > 0
    ensures FillsPresent(FillValues(data))
  {
    var fs := FillValues(data);
    forall j | 0 <= j < |fs| && fs[j].1.Some? ensures !IsMissing(fs[j].1.value) {
      FillValueNotMissing(Column(data, data[0][j].key));
    }
  }

  /** A missing value is no longer missing once filled. */
  lemma FillFieldPresent(fs: seq<(string, Option<Cell>)>, f: Field)
    requires FillsPresent(fs)
    ensures !IsMissing(FillField(fs, f).value)
  {
    if IsMissing(f.value) && Lookup(fs, f.key).Some? && exists j :: 0 <= j < |fs| && fs[j].0 == f.key {
      var j :| 0 <= j < |fs| && fs[j] == (f.key, Lookup(fs, f.key));
    }
  }

  /** After filling, no cell is missing. */
  lemma FillLeavesNothingMissing(data: seq<Row>, i: nat, k: nat)
    requires |data| > 0 && i < |data| && k < |data[i]|
    ensures !IsMissing(FillMissing(data)[i][k].value)
  {
    var fs := FillValues(data);
    FillValuesPresent(data);
    FillFieldPresent(fs, data[i][k]);
  }

  /** `cleanData(data)`: filling an empty dataset fails on its missing first row. */
  function Clean(m: Method, data: seq<Row>): (r: Option<seq<Row>>)
    ensures m == RemoveRows ==> r == Some(RemoveIncomplete(data))
    ensures m == FillCells ==> (r.None? <==> |data| == 0)
    ensures m == FillCells && r.Some? ==> r.value == FillMissing(data)
  {
    match m
    case RemoveRows => Some(RemoveIncomplete(data))
    case FillCells => if |data| == 0 then None else Some(FillMissing(data))
  }

  /** `name.replace('.csv', '_limpio.csv')`: the first `.csv` is renamed. */
  function CleanedName(name: string): (r: string)
    ensures !Contains(name, ".csv") ==> r == name
  {
    ReplaceFirst(name, ".csv", "_limpio.csv")
  }

  lemma CleanedNameOfCsv(stem: string)
    requires !Contains(stem, ".csv")
    ensures CleanedName(stem + ".csv") == stem + "_limpio.csv"
  {
    var s := stem + ".csv";
    assert OccursAt(s, ".csv", |stem|);
    forall k | 0 <= k < |stem| ensures !OccursAt(s, ".csv", k) {
      assert !OccursAt(stem, ".csv", k);
      NoEarlierCsv(stem, k);
    }
    var i := IndexOf(s, ".csv").value;
    assert i == |stem|;
    assert s[..i] == stem && s[i + 4..] == "";
  }

  /** Appending `.csv` creates no occurrence that starts inside the name: `.` is not a letter
      of `csv`. */
  lemma NoEarlierCsv(stem: string, k: nat)
    requires !OccursAt(stem, ".csv", k) && k < |stem|
    ensures !OccursAt(stem + ".csv", ".csv", k)
  {
    var s := stem + ".csv";
    if k + 4 <= |stem| {
      assert s[k..k + 4] == stem[k..k + 4];
    } else if k + 4 <= |s| {
      var d := |stem| - k;
      assert s[k..k + 4][d] == s[|stem|] == '.';
      assert ".csv"[d] != '.';
    }
  }

  /** `handleCleanData(method)`: with no dataset picked, or when cleaning fails, the list stays
      as it is; otherwise the cleaned copy is appended under the renamed name, with the same
      headers. */
  function HandleClean(datasets: seq<Dataset>, selected: Option<Dataset>, m: Method): (r: seq<Dataset>)
    ensures selected.None? ==> r == datasets
    ensures selected.Some? && Clean(m, selected.value.data).None? ==> r == datasets
    ensures selected.Some? && Clean(m, selected.value.data).Some? ==>
      r == datasets + [Dataset(CleanedName(selected.value.name), Clean(m, selected.value.data).value,
                               selected.value.headers)]
  {
    match selected
    case None => datasets
    case Some(d) =>
      match Clean(m, d.data)
      case None => datasets
      case Some(cleaned) => datasets + [Dataset(CleanedName(d.name), cleaned, d.headers)]
  }

  /** `handleDelete(index)`. */
  function Delete(datasets: seq<Dataset>, index: int): (r: seq<Dataset>)
    ensures 0 <= index < |datasets| ==> r == datasets[..index] + datasets[index + 1..]
    ensures !(0 <= index < |datasets|) ==> r == datasets
  {
    var r := RemoveAt(datasets, index);
    assert 0 <= index < |datasets| ==> r == datasets[..index] + datasets[index + 1..];
    r
  }

  /** Cleaning never touches the loaded datasets, and deleting the new entry undoes it. */
  lemma DeleteUndoesClean(datasets: seq<Dataset>, selected: Option<Dataset>, m: Method)
    ensures var r := HandleClean(datasets, selected, m);
      && r[..|datasets|] == datasets
      && Delete(r, |datasets|) == datasets
  {
    var r := HandleClean(datasets, selected, m);
    if |r| > |datasets| {
      assert r[..|datasets|] == datasets;
      var d := Delete(r, |datasets|);
      assert |d| == |datasets|;
      assert forall j :: 0 <= j < |datasets| ==> d[j] == datasets[j];
    }
  }

  /** The upload callback: the parsed rows are added under the file's name, with the parser's
      field list, or the first row's keys when it gives none; with neither the callback fails. */
  function AddUpload(datasets: seq<Dataset>, name: string, data: seq<Row>, fields: Option<seq<string>>): (r: Option<seq<Dataset>>)
    ensures r.None? <==> fields.None? && |data| == 0
    ensures fields.Some? ==> r == Some(datasets + [Dataset(name, data, fields.value)])
    ensures fields.None? && |data| > 0 ==> r == Some(datasets + [Dataset(name, data, Keys(data[0]))])
  {
    match fields
    case Some(fs) => Some(datasets + [Dataset(name, data, fs)])
    case None => if |data| == 0 then None else Some(datasets + [Dataset(name, data, Keys(data[0]))])
  }
}

=== FILE: datastats.dfy ===
/** The dataset card of the data-analysis page: per-column statistics (type, size, missing
    cells, and either the numeric summary or the most frequent value) and the CSV export. */
module DataStats {

  import opened Common
  import opened Table
  import opened Tally
  import opened Stats
  import opened Text
  import MathLib

  /** `!isNaN(v) && v !== null && v !== ''`: the number a cell counts as, if it counts. A
      boolean counts, as 1 or 0, and so does text that `Number` reads. */
  function StatNumber(c: Cell): (r: Option<real>)
    ensures IsMissing(c) ==> r.None?
    ensures !IsMissing(c) ==> r == NumberCell(c)
    ensures c.Bool? ==> r == Some(if c.b then 1.0 else 0.0)
    ensures c.Num? ==> r == Some(c.x)
    ensures c == Undef || c == NaN ==> r.None?
  {
    if IsMissing(c) then None else NumberCell(c)
  }

  /** The numbers of a column, in order. */
  function Numbers(col: seq<Cell>): (vs: seq<real>)
    ensures forall v :: v in vs <==> exists i :: 0 <= i < |col| && StatNumber(col[i]) == Some(v)
  {
    FilterMap(col, StatNumber)
  }

  /** `v === null || v === ''` as a named predicate. */
  function Missing(): (p: Cell -> bool)
    ensures forall c :: p(c) == IsMissing(c)
  {
    (c: Cell) => IsMissing(c)
  }

  /** The present values of a column (`undefined` counts as present). */
  function Present(col: seq<Cell>): (vs: seq<Cell>)
    ensures forall c :: c in vs <==> c in col && !IsMissing(c)
    ensures |vs| == CountIf(col, Not(Missing()))
  {
    Filter(col, Not(Missing()))
  }

  /** One vote per present value, filed under the text the value takes as an object key. */
  function Votes(values: seq<Cell>): (es: seq<Entry<string>>)
    ensures |es| == |values|
    ensures forall i :: 0 <= i < |values| ==> es[i] == Entry(CellText(values[i]), 1.0)
  {
    seq(|values|, i requires 0 <= i < |values| => Entry(CellText(values[i]), 1.0))
  }

  datatype Numeric = Numeric(max: real, min: real, mean: real, stdDev: real)

  /** The statistics of one column. `numeric` is present when some value is a number, `mode`
      only when none is and some value is present. */
  datatype ColumnStats = ColumnStats(kind: string, total: nat, missing: nat, numeric: Option<Numeric>,
                                     mode: Option<string>)

  /** `typeof columnData[0]`. */
  function KindOf(col: seq<Cell>): string
  {
    if |col| == 0 then "undefined" else TypeOf(col[0])
  }

  /** The summary of a non-empty list of numbers: its extremes, its mean and its population
      standard deviation. */
  function Summarize(m: MathLib.Math, vs: seq<real>): (s: Numeric)
    requires MathLib.Lawful(m) && |vs| > 0
    ensures s.max in vs && s.min in vs
    ensures forall i :: 0 <= i < |vs| ==> s.min <= vs[i] <= s.max
    ensures s.min <= s.mean <= s.max && s.mean == Mean(vs)
    ensures s.stdDev == StdDev(m, vs)
  {
    MeanBetweenMinMax(vs);
    Numeric(MaxOf(vs), MinOf(vs), Mean(vs), StdDev(m, vs))
  }

  /** The most frequent text among the votes, the earliest among equals; none without votes. */
  function Mode(values: seq<Cell>): (r: Option<string>)
    ensures r.None? <==> |values| == 0
    ensures r.Some? ==> exists i :: 0 <= i < |values| && CellText(values[i]) == r.value
    ensures r.Some? ==> forall i :: 0 <= i < |values| ==>
      CountWhere(Votes(values), CellText(values[i])) <= CountWhere(Votes(values), r.value)
  {
    if |values| == 0 then None
    else
      ModeIsFirst(values);
      Some(Ranked(Votes(values))[0].key)
  }

  /** The first ranked key occurs and is filed at least as often as any other. */
  lemma ModeIsFirst(values: seq<Cell>)
    requires |values| > 0
    ensures var es := Votes(values); var g := Ranked(es);
      && |g| > 0
      && (exists i :: 0 <= i < |values| && CellText(values[i]) == g[0].key)
      && forall i :: 0 <= i < |values| ==> CountWhere(es, CellText(values[i])) <= CountWhere(es, g[0].key)
  {
    var es := Votes(values);
    var g := Ranked(es);
    assert Occurs(es, es[0].key);
    FirstRankedMostFrequent(es, es[0].key);
    var k :| 0 <= k < |es| && es[k].key == g[0].key;
    assert CellText(values[k]) == g[0].key;
    forall i | 0 <= i < |values| ensures CountWhere(es, CellText(values[i])) <= CountWhere(es, g[0].key) {
      assert es[i].key == CellText(values[i]);
      FirstRankedMostFrequent(es, es[i].key);
    }
  }

  /** `calculateStats(columnData)`. */
  function CalculateStats(m: MathLib.Math, col: seq<Cell>): (s: ColumnStats)
    requires MathLib.Lawful(m)
    ensures s.kind == KindOf(col) && s.total == |col| && s.missing == CountIf(col, Missing())
    ensures s.numeric.Some? <==> Numbers(col) != []
    ensures s.numeric.Some? ==> s.numeric.value == Summarize(m, Numbers(col))
    ensures s.mode.Some? <==> Numbers(col) == [] && Present(col) != []
    ensures s.mode.Some? ==> s.mode == Mode(Present(col))
  {
    var numbers := Numbers(col);
    var base := ColumnStats(KindOf(col), |col|, CountIf(col, Missing()), None, None);
    if |numbers| > 0 then base.(numeric := Some(Summarize(m, numbers)))
    else base.(mode := Mode(Present(col)))
  }

  /** Every cell is either missing or present, and every number comes from a present cell. */
  lemma CountsPartition(m: MathLib.Math, col: seq<Cell>)
    requires MathLib.Lawful(m)
    ensures var s := CalculateStats(m, col);
      && s.missing + |Present(col)| == s.total
      && |Numbers(col)| <= |Present(col)|
  {
    CountIfComplement(col, Missing());
    NumbersFromPresent(col);
  }

  lemma {:induction false} NumbersFromPresent(col: seq<Cell>)
    ensures |Numbers(col)| <= |Present(col)|
    decreases |col|
  {
    if |col| > 0 {
      NumbersFromPresent(col[1..]);
      assert col == [col[0]] + col[1..];
    }
  }

  /** `getColumnStats`: the statistics of every column named by the first row. */
  function ColumnStatsOf(m: MathLib.Math, data: seq<Row>): (r: seq<(string, ColumnStats)>)
    requires MathLib.Lawful(m)
    ensures |r| == |FirstKeys(data)|
    ensures forall j :: 0 <= j < |r| ==>
      r[j].0 == FirstKeys(data)[j] && r[j].1 == CalculateStats(m, Column(data, r[j].0))
    ensures forall j :: 0 <= j < |r| ==> r[j].1.total == |data|
  {
    var ks := FirstKeys(data);
    seq(|ks|, j requires 0 <= j < |ks| => (ks[j], CalculateStats(m, Column(data, ks[j]))))
  }

  // CSV export.

  /** A field needs quoting when it holds a comma, a double quote or a line break. */
  predicate NeedsQuotes(s: string)
  {
    ',' in s || '"' in s || '\n' in s
  }

  /** `s.replace(/"/g, '""')`: every double quote doubled. */
  function Double(s: string): (r: string)
    ensures |r| >= |s|
    ensures '"' !in s ==> r == s
  {
    if |s| == 0 then ""
    else (if s[0] == '"' then "\"\"" else [s[0]]) + Double(s[1..])
  }

  /** What a CSV reader does inside a quoted field: each doubled quote stands for one. */
  function Undouble(s: string): string
  {
    if |s| == 0 then ""
    else if |s| >= 2 && s[0] == '"' && s[1] == '"' then "\"" + Undouble(s[2..])
    else [s[0]] + Undouble(s[1..])
  }

  lemma {:induction false} UndoubleDouble(s: string)
    ensures Undouble(Double(s)) == s
    decreases |s|
  {
    if |s| > 0 {
      UndoubleDouble(s[1..]);
      var d := Double(s);
      if s[0] == '"' {
        assert d == "\"\"" + Double(s[1..]);
        assert d[2..] == Double(s[1..]);
      } else {
        assert d == [s[0]] + Double(s[1..]);
        assert d[1..] == Double(s[1..]);
        assert !(|d| >= 2 && d[0] == '"');
      }
      assert s == [s[0]] + s[1..];
    }
  }

  /** The text a cell is written as: nothing for `null` and `undefined`, its `String` text
      otherwise, quoted with inner quotes doubled when it needs quoting. */
  function Escape(c: Cell): (r: string)
    ensures (c == Null || c == Undef) ==> r == ""
    ensures c != Null && c != Undef ==> !NeedsQuotes(CellText(c)) ==> r == CellText(c)
    ensures c != Null && c != Undef ==> NeedsQuotes(CellText(c)) ==>
      |r| >= 2 && r[0] == '"' && r[|r| - 1] == '"' && Undouble(r[1..|r| - 1]) == CellText(c)
  {
    match c
    case Undef => ""
    case Null => ""
    case _ =>
      var s := CellText(c);
      if NeedsQuotes(s) then
        var r := "\"" + Double(s) + "\"";
        assert r[1..|r| - 1] == Double(s);
        UndoubleDouble(s);
        r
      else s
  }

  /** How a CSV reader takes one field back: a quoted field loses its quotes and its doubled
      quotes; any other field is read as it stands. */
  function Unescape(f: string): string
  {
    if |f| >= 2 && f[0] == '"' && f[|f| - 1] == '"' then Undouble(f[1..|f| - 1]) else f
  }

  /** Every cell reads back as its text, and a missing one as the empty text. */
  lemma EscapeRoundTrip(c: Cell)
    ensures Unescape(Escape(c)) == if c == Null || c == Undef then "" else CellText(c)
  {
    if c.Str? || c.Num? {
      var s := CellText(c);
      if !NeedsQuotes(s) && |s| >= 2 {
        assert s[0] in s;
      }
    }
  }

  /** The escaped fields of one row, in header order. */
  function Fields(headers: seq<string>, row: Row): (fs: seq<string>)
    ensures |fs| == |headers|
    ensures forall j :: 0 <= j < |headers| ==> fs[j] == Escape(Get(row, headers[j]))
  {
    seq(|headers|, j requires 0 <= j < |headers| => Escape(Get(row, headers[j])))
  }

  /** The lines of the export: the header line, then one line per row. */
  function Lines(data: seq<Row>): (ls: seq<string>)
    requires |data| > 0
    ensures |ls| == |data| + 1
    ensures ls[0] == Join(Keys(data[0]), ',')
    ensures forall i :: 0 <= i < |data| ==> ls[i + 1] == Join(Fields(Keys(data[0]), data[i]), ',')
  {
    var headers := Keys(data[0]);
    [Join(headers, ',')] + seq(|data|, i requires 0 <= i < |data| => Join(Fields(headers, data[i]), ','))
  }

  /** `downloadCSV`: the lines joined by line breaks. An empty dataset has no first row to take
      the headers from, and the export fails. */
  function Csv(data: seq<Row>): (r: Option<string>)
    ensures r.None? <==> |data| == 0
    ensures r.Some? ==> r.value == Join(Lines(data), '\n')
  {
    if |data| == 0 then None else Some(Join(Lines(data), '\n'))
  }

  /** A character absent from the pieces and different from the separator is absent from their
      join. */
  lemma {:induction false} JoinAvoids(xs: seq<string>, sep: char, c: char)
    requires c != sep && forall k :: 0 <= k < |xs| ==> c !in xs[k]
    ensures c !in Join(xs, sep)
    decreases |xs|
  {
    if |xs| > 1 {
      JoinAvoids(xs[1..], sep, c);
    }
  }

  /** No header and no cell text needs quoting. */
  predicate Plain(data: seq<Row>)
    requires |data| > 0
  {
    (forall k :: 0 <= k < |data[0]| ==> !NeedsQuotes(data[0][k].key))
    && forall i, j :: 0 <= i < |data| && 0 <= j < |data[0]| ==> !NeedsQuotes(Escape(Get(data[i], data[0][j].key)))
  }

  /** A dataset with nothing to quote reads back by splitting: one line per row after the
      header, and in each line the fields in header order. */
  lemma PlainCsvReadsBack(data: seq<Row>)
    requires |data| > 0 && Plain(data)
    ensures Split(Csv(data).value, '\n') == Lines(data)
    ensures |data[0]| > 0 ==> forall i :: 0 <= i < |data| ==>
      Split(Lines(data)[i + 1], ',') == Fields(Keys(data[0]), data[i])
    ensures |data[0]| > 0 ==> Split(Lines(data)[0], ',') == Keys(data[0])
  {
    var ls := Lines(data);
    PlainHeaderLine(data);
    forall i | 0 <= i < |data|
      ensures '\n' !in ls[i + 1]
      ensures |data[0]| > 0 ==> Split(ls[i + 1], ',') == Fields(Keys(data[0]), data[i])
    {
      PlainRowLine(data, i);
    }
    NoLineBreaks(data);
    SplitJoin(ls, '\n');
  }

  /** The header line of a plain dataset has no line break and splits back into the headers. */
  lemma PlainHeaderLine(data: seq<Row>)
    requires |data| > 0 && Plain(data)
    ensures '\n' !in Lines(data)[0]
    ensures |data[0]| > 0 ==> Split(Lines(data)[0], ',') == Keys(data[0])
  {
    var headers := Keys(data[0]);
    JoinAvoids(headers, ',', '\n');
    if |headers| > 0 {
      SplitJoin(headers, ',');
    }
  }

  /** The line of row `i` of a plain dataset has no line break and splits back into the row's
      fields. */
  lemma PlainRowLine(data: seq<Row>, i: nat)
    requires |data| > 0 && Plain(data) && i < |data|
    ensures '\n' !in Lines(data)[i + 1]
    ensures |data[0]| > 0 ==> Split(Lines(data)[i + 1], ',') == Fields(Keys(data[0]), data[i])
  {
    var fs := Fields(Keys(data[0]), data[i]);
    assert forall j :: 0 <= j < |fs| ==> !NeedsQuotes(fs[j]);
    if |fs| > 0 {
      SplitJoin(fs, ',');
    }
    JoinAvoids(fs, ',', '\n');
  }

  /** No line of a plain dataset's export holds a line break. */
  lemma NoLineBreaks(data: seq<Row>)
    requires |data| > 0 && Plain(data)
    ensures forall k :: 0 <= k < |Lines(data)| ==> '\n' !in Lines(data)[k]
  {
    forall k | 0 <= k < |Lines(data)| ensures '\n' !in Lines(data)[k] {
      PlainLine(data, k);
    }
  }

  /** Line `k` of a plain dataset's export holds no line break. */
  lemma PlainLine(data: seq<Row>, k: nat)
    requires |data| > 0 && Plain(data) && k <= |data|
    ensures '\n' !in Lines(data)[k]
  {
    if k == 0 {
      PlainHeaderLine(data);
    } else {
      PlainRowLine(data, k - 1);
    }
  }
}

=== FILE: defectregistry.dfy ===
/** The defect registry page: a list of defect records edited through one form, and the
    summary metrics recomputed from the number of records. */
module DefectRegistry {

  import opened Common
  import opened Text

  /** The form's fields, all text. */
  datatype Form = Form(
    kind: string, phase: string, description: string, impact: string, rootCause: string,
    priority: string, dmaic: string, processCapability: string, cpk: string, sigmaLevel: string,
    costImpact: string, timeImpact: string, customerImpact: string, correctiveActions: string,
    preventiveActions: string, verificationMethod: string)

  /** The form as the page first shows it and as an update leaves it. */
  const BlankForm: Form := Form("", "", "", "", "", "", "Definir", "", "", "3σ",
                                "", "", "", "", "", "")

  /** A saved record: the form's fields, the clock's id and timestamp, and the mode it was
      saved in. */
  datatype Defect = Defect(id: string, timestamp: int, isAdvanced: bool, form: Form)

  /** What a submit leaves in the form: the descriptive fields are cleared, the DMAIC phase
      and the capability fields are kept. */
  function ClearedAfterSubmit(f: Form): (g: Form)
    ensures g == BlankForm.(dmaic := f.dmaic, processCapability := f.processCapability,
                            cpk := f.cpk, sigmaLevel := f.sigmaLevel)
  {
    f.(description := "", impact := "", rootCause := "", kind := "", phase := "", priority := "",
       costImpact := "", timeImpact := "", customerImpact := "", correctiveActions := "",
       preventiveActions := "", verificationMethod := "")
  }

  datatype Page = Page(defects: seq<Defect>, form: Form)

  /** `handleSubmit`: a description that is blank once trimmed changes nothing (the user is
      alerted); otherwise exactly one record is appended, carrying the form, and the form is
      partly cleared. */
  function Submit(p: Page, id: string, timestamp: int, advanced: bool): (q: Page)
    ensures AllSpace(p.form.description) ==> q == p
    ensures !AllSpace(p.form.description) ==>
      && |q.defects| == |p.defects| + 1
      && q.defects[..|p.defects|] == p.defects
      && q.defects[|p.defects|] == Defect(id, timestamp, advanced, p.form)
      && q.form == ClearedAfterSubmit(p.form)
  {
    if Trim(p.form.description) == "" then p
    else
      var ds := p.defects + [Defect(id, timestamp, advanced, p.form)];
      assert ds[..|p.defects|] == p.defects;
      Page(ds, ClearedAfterSubmit(p.form))
  }

  /** The record an update makes of `d` when it is the one being edited. */
  function Edited(d: Defect, editing: Option<string>, form: Form, advanced: bool): (e: Defect)
    ensures editing == Some(d.id) ==> e == Defect(d.id, d.timestamp, advanced, form)
    ensures editing != Some(d.id) ==> e == d
  {
    if editing == Some(d.id) then Defect(d.id, d.timestamp, advanced, form) else d
  }

  /** `handleUpdate`: every record with the edited id takes the form's fields and the current
      mode and keeps its id and timestamp; every other record stays; the form is reset. */
  function Update(p: Page, editing: Option<string>, advanced: bool): (q: Page)
    ensures |q.defects| == |p.defects|
    ensures forall i :: 0 <= i < |p.defects| && editing != Some(p.defects[i].id) ==>
      q.defects[i] == p.defects[i]
    ensures forall i :: 0 <= i < |p.defects| && editing == Some(p.defects[i].id) ==>
      q.defects[i].id == p.defects[i].id && q.defects[i].timestamp == p.defects[i].timestamp
      && q.defects[i].form == p.form && q.defects[i].isAdvanced == advanced
    ensures q.form == BlankForm
  {
    Page(seq(|p.defects|, i requires 0 <= i < |p.defects| => Edited(p.defects[i], editing, p.form, advanced)),
         BlankForm)
  }

  /** `handleEdit(d)`: the form takes the record's fields and the record's id is remembered. */
  function StartEdit(p: Page, d: Defect): (r: (Page, Option<string>))
    ensures r.0 == p.(form := d.form) && r.1 == Some(d.id)
  {
    (p.(form := d.form), Some(d.id))
  }

  /** Editing a record and saving without touching the form changes nothing but the mode flag
      when ids are unique. */
  lemma EditThenUpdate(p: Page, i: nat, advanced: bool)
    requires i < |p.defects|
    requires forall j :: 0 <= j < |p.defects| && j != i ==> p.defects[j].id != p.defects[i].id
    ensures var e := StartEdit(p, p.defects[i]);
      Update(e.0, e.1, advanced).defects == p.defects[i := p.defects[i].(isAdvanced := advanced)]
  {
  }

  function IdIsNot(id: string): (p: Defect -> bool)
    ensures forall d :: p(d) == (d.id != id)
  {
    (d: Defect) => d.id != id
  }

  /** `handleDelete(id)` once confirmed: every record with that id goes, the others stay in
      order. */
  function Delete(ds: seq<Defect>, id: string, confirmed: bool): (r: seq<Defect>)
    ensures !confirmed ==> r == ds
    ensures confirmed ==> forall d :: d in r <==> d in ds && d.id != id
    ensures confirmed ==> |r| == CountIf(ds, IdIsNot(id))
    ensures confirmed ==> IsSubsequence(r, ds)
    ensures confirmed ==> forall d: Defect :: d.id != id ==> multiset(r)[d] == multiset(ds)[d]
  {
    if confirmed then
      FilterSubsequence(ds, IdIsNot(id));
      Filter(ds, IdIsNot(id))
    else ds
  }

  /** Deleting the record just submitted, under an id no earlier record had, gives back the
      list it was submitted to. */
  lemma DeleteUndoesSubmit(p: Page, id: string, timestamp: int, advanced: bool)
    requires !AllSpace(p.form.description)
    requires forall i :: 0 <= i < |p.defects| ==> p.defects[i].id != id
    ensures Delete(Submit(p, id, timestamp, advanced).defects, id, true) == p.defects
  {
    var ds := Submit(p, id, timestamp, advanced).defects;
    assert ds == p.defects + [Defect(id, timestamp, advanced, p.form)];
    FilterDropsLast(p.defects, Defect(id, timestamp, advanced, p.form), IdIsNot(id));
  }

  datatype Metrics = Metrics(dpmo: real, sigma: real, yieldPercent: real, total: nat,
                             processCapability: real, cpk: real, costSavings: nat, timeReduction: nat)

  /** `calculateMetrics`: `dpmo = total·10⁶ / (total || 1)`, `sigma = min(6, (10⁶ − dpmo)/10⁶·6)`
      when there are records and 6 otherwise, `yield = (10⁶ − dpmo)/10⁶·100` or 100, and the
      derived capability, savings and time figures. */
  function CalculateMetrics(ds: seq<Defect>): (m: Metrics)
    ensures m.total == |ds|
    ensures m.processCapability * 3.0 == m.sigma && m.cpk == 0.9 * m.processCapability
    ensures m.costSavings == 100 * |ds| && m.timeReduction == 2 * |ds|
  {
    var total := |ds|;
    var divisor := if total > 0 then total else 1;
    var dpmo := (total as real) * 1000000.0 / (divisor as real);
    var scaled := (1000000.0 - dpmo) / 1000000.0 * 6.0;
    var sigma := if total > 0 then (if scaled < 6.0 then scaled else 6.0) else 6.0;
    var yieldPercent := if total > 0 then (1000000.0 - dpmo) / 1000000.0 * 100.0 else 100.0;
    var cp := sigma / 3.0;
    Metrics(dpmo, sigma, yieldPercent, total, cp, cp * 0.9, total * 100, total * 2)
  }

  /** The metrics only tell an empty registry from a non-empty one: one record or more is a
      million defects per million, sigma 0 and yield 0; none is a perfect process. */
  lemma MetricsAllOrNothing(ds: seq<Defect>)
    ensures var m := CalculateMetrics(ds);
      && (|ds| > 0 ==> m.dpmo == 1000000.0 && m.sigma == 0.0 && m.yieldPercent == 0.0)
      && (|ds| == 0 ==> m.dpmo == 0.0 && m.sigma == 6.0 && m.yieldPercent == 100.0)
  {
    if |ds| > 0 {
      var t := |ds| as real;
      assert t * 1000000.0 / t == 1000000.0;
    }
  }
}

=== FILE: diagrams.dfy ===
/** The charts of the diagrams page: the Pareto diagram of a value column summed per category,
    and the histogram of a column. */
module Diagrams {

  import opened Common
  import opened Table
  import opened Tally
  import opened Stats
  import MathLib
  import Pareto
  import Binning
  import Histograms
  import Text
  import NumParse

  // ---------------------------------------------------------------- Pareto diagram

  /** `parseFloat(v) || 0`. */
  function ValueOrZero(c: Cell): (x: real)
    ensures ParseCell(c).Some? ==> x == ParseCell(c).value
    ensures ParseCell(c).None? ==> x == 0.0
  {
    match ParseCell(c)
    case Some(v) => v
    case None => 0.0
  }

  /** One entry per row: the category's text (`String(row[categoryColumn])`, the object key)
      and the row's value. */
  function ParetoEntries(data: seq<Row>, catCol: string, valCol: string): (es: seq<Entry<string>>)
    ensures |es| == |data|
    ensures forall i :: 0 <= i < |data| ==>
      es[i] == Entry(CellText(Get(data[i], catCol)), ValueOrZero(Get(data[i], valCol)))
  {
    seq(|data|, i requires 0 <= i < |data| =>
      Entry(CellText(Get(data[i], catCol)), ValueOrZero(Get(data[i], valCol))))
  }

  /** The labels, summed values and cumulative percentages drawn. The cumulative line is absent
      when the values sum to 0 over a non-empty table, where every share would be a division by
      zero. */
  datatype ParetoDiagram = ParetoDiagram(labels: seq<string>, values: seq<real>, cumulative: Option<seq<real>>)

  /** `processParetoDiagramData`: one bar per distinct category, holding the sum of its rows'
      values, tallest first; the bars together hold the sum of all values, and the line is the
      running share of that sum. */
  function ParetoDiagramData(data: seq<Row>, catCol: string, valCol: string): (r: ParetoDiagram)
    ensures |data| == 0 ==> r == ParetoDiagram([], [], Some([]))
    ensures |r.labels| == |r.values| && Distinct(r.labels)
    ensures forall l :: l in r.labels <==>
      exists i :: 0 <= i < |data| && CellText(Get(data[i], catCol)) == l
    ensures forall j :: 0 <= j < |r.values| ==>
      r.values[j] == SumWhere(ParetoEntries(data, catCol, valCol), r.labels[j])
    ensures forall i, j :: 0 <= i < j < |r.values| ==> r.values[i] >= r.values[j]
    ensures Total(r.values) == Sum(EntryValues(ParetoEntries(data, catCol, valCol)))
    ensures r.cumulative.None? <==> |data| > 0 && Total(r.values) == 0.0
    ensures r.cumulative.Some? && |data| > 0 ==>
      r.cumulative.value == Pareto.CumulativePercent(r.values, Total(r.values))
  {
    if |data| == 0 then ParetoDiagram([], [], Some([]))
    else
      var es := ParetoEntries(data, catCol, valCol);
      var labels, values := RankedKeys(es), RankedTotals(es);
      CategoriesOccur(data, catCol, valCol);
      if Total(values) == 0.0 then ParetoDiagram(labels, values, None)
      else ParetoDiagram(labels, values, Some(Pareto.RunningShares(values, Total(values))))
  }

  /** A category is filed exactly when some row has it. */
  lemma CategoriesOccur(data: seq<Row>, catCol: string, valCol: string)
    ensures forall l :: Occurs(ParetoEntries(data, catCol, valCol), l) <==>
      exists i :: 0 <= i < |data| && CellText(Get(data[i], catCol)) == l
  {
    var es := ParetoEntries(data, catCol, valCol);
    forall l | exists i :: 0 <= i < |data| && CellText(Get(data[i], catCol)) == l
      ensures Occurs(es, l)
    {
      var i :| 0 <= i < |data| && CellText(Get(data[i], catCol)) == l;
      assert es[i].key == l;
    }
  }

  /** With no negative value and some positive one, the cumulative line never goes down and
      ends at exactly 100. */
  lemma ParetoDiagramLine(data: seq<Row>, catCol: string, valCol: string)
    requires forall i :: 0 <= i < |data| ==> ValueOrZero(Get(data[i], valCol)) >= 0.0
    requires exists i :: 0 <= i < |data| && ValueOrZero(Get(data[i], valCol)) > 0.0
    ensures var r := ParetoDiagramData(data, catCol, valCol);
      && r.cumulative.Some? && |r.cumulative.value| == |r.values|
      && Pareto.RisesTo100(r.cumulative.value)
  {
    var es := ParetoEntries(data, catCol, valCol);
    var vs := RankedTotals(es);
    ParetoTotalPositive(data, catCol, valCol);
    RankedTotalsNonNegative(es);
    assert ParetoDiagramData(data, catCol, valCol).cumulative == Some(Pareto.RunningShares(vs, Total(vs)));
    Pareto.CumulativeRises(vs, Total(vs));
  }

  /** The bars of non-negative values with a positive one have a positive sum. */
  lemma ParetoTotalPositive(data: seq<Row>, catCol: string, valCol: string)
    requires forall i :: 0 <= i < |data| ==> ValueOrZero(Get(data[i], valCol)) >= 0.0
    requires exists i :: 0 <= i < |data| && ValueOrZero(Get(data[i], valCol)) > 0.0
    ensures forall i :: 0 <= i < |data| ==> ParetoEntries(data, catCol, valCol)[i].value >= 0.0
    ensures Total(RankedTotals(ParetoEntries(data, catCol, valCol))) > 0.0
  {
    var es := ParetoEntries(data, catCol, valCol);
    var k :| 0 <= k < |data| && ValueOrZero(Get(data[k], valCol)) > 0.0;
    var vs := EntryValues(es);
    assert forall i :: 0 <= i < |vs| ==> vs[i] == ValueOrZero(Get(data[i], valCol));
    PositiveSum(vs, k);
  }

  /** Non-negative values with a positive one have a positive sum. */
  lemma PositiveSum(vs: seq<real>, k: nat)
    requires k < |vs| && vs[k] > 0.0
    requires forall i :: 0 <= i < |vs| ==> vs[i] >= 0.0
    ensures Sum(vs) > 0.0
  {
    assert vs == vs[..k] + [vs[k]] + vs[k + 1..];
    SumAppend(vs[..k] + [vs[k]], vs[k + 1..]);
    SumAppend(vs[..k], [vs[k]]);
    SumSingleton(vs[k]);
    SumNonNegative(vs[..k]);
    SumNonNegative(vs[k + 1..]);
  }

  // ---------------------------------------------------------------- histogram

  datatype HistogramView = HistogramView(bins: Binning.Bins, n: nat, mean: real, stdDev: real, min: real, max: real)

  /** `processHistogramData`: nothing for an empty table, an empty column name, or a column
      without numbers; otherwise the Sturges bins between `Math.min` and `Math.max` of the
      numbers, and their count, mean and population standard deviation. */
  function HistogramDiagram(m: MathLib.Math, data: seq<Row>, column: string): (r: Option<HistogramView>)
    requires MathLib.Lawful(m)
    ensures r.None? <==> |data| == 0 || column == "" || FilterMap(Column(data, column), ParseCell) == []
    ensures r.Some? ==> var values := FilterMap(Column(data, column), ParseCell);
      && r.value.n == |values| >= 1
      && r.value.min == MinOf(values) && r.value.max == MaxOf(values)
      && r.value.bins == Binning.MakeBins(m, values, MinOf(values), MaxOf(values))
      && r.value.mean == Mean(values)
      && r.value.stdDev == StdDev(m, values)
  {
    if |data| == 0 || column == "" then None
    else
      var values := FilterMap(Column(data, column), ParseCell);
      if |values| == 0 then None
      else
        var lo, hi := MinOf(values), MaxOf(values);
        Some(HistogramView(Binning.MakeBins(m, values, lo, hi), |values|, Mean(values),
                           StdDev(m, values), lo, hi))
  }

  /** `parseFloat` already rejects `null`, `undefined` and `''`, so the extra presence test of
      the multiple-histograms view keeps the same cells. */
  lemma ReadingIsParseCell(c: Cell)
    ensures Reading(c) == ParseCell(c)
  {
    if c == Str("") {
      NumParse.ParseNumEmpty();
    }
  }

  lemma {:induction false} SameReadings(col: seq<Cell>)
    ensures Histograms.NumericValues(col) == FilterMap(col, ParseCell)
    decreases |col|
  {
    if |col| > 0 {
      ReadingIsParseCell(col[0]);
      SameReadings(col[1..]);
    }
  }

  /** The page's histogram and the multiple-histograms view agree on every non-empty column:
      same numbers, same extremes, same bins, same mean and deviation. */
  lemma HistogramsAgree(m: MathLib.Math, data: seq<Row>, column: string)
    requires MathLib.Lawful(m) && |data| > 0 && column != ""
    ensures var a := HistogramDiagram(m, data, column);
      var b := Histograms.HistogramData(m, Column(data, column));
      && a.None? == b.None?
      && (a.Some? ==>
        && a.value.bins == b.value.bins && a.value.n == b.value.stats.n
        && a.value.min == b.value.stats.min && a.value.max == b.value.stats.max
        && a.value.mean == b.value.stats.mean && a.value.stdDev == b.value.stats.stdDev)
  {
    var col := Column(data, column);
    var values := FilterMap(col, ParseCell);
    SameReadings(col);
    if |values| > 0 {
      Histograms.DescribeExtremes(m, values);
    }
  }
}

=== FILE: fishbone.dfy ===
/** The diagram store's Ishikawa part: the reducer `updateIshikawaData` that edits the fishbone
    (effect, categories and their causes) and the five-whys analysis, and `processFishboneData`,
    which sorts the causes of a loaded table under the six fixed groups. */
module Fishbone {

  import opened Common
  import opened Text
  import opened Table
  import FiveWhys

  datatype Cause = Cause(id: string, text: string)

  datatype Category = Category(id: string, name: string, position: string, color: string, causes: seq<Cause>)

  datatype Diagram = Diagram(effect: string, categories: seq<Category>)

  /** The store: the fishbone, the five-whys analysis, and the other charts' data (`X`), which
      no action of this reducer touches. */
  datatype Store<X> = Store(fishbone: Diagram, fiveWhys: FiveWhys.Analysis, others: X)

  /** The actions; `AddCategory` carries the id the reducer takes from the clock. */
  datatype Action =
    | InitCategories(categories: seq<Category>)
    | UpdateEffect(effect: string)
    | UpdateCategory(categoryId: string, name: string)
    | AddCategory(newId: string, name: string, position: string, color: string)
    | DeleteCategory(categoryId: string)
    | AddSubcause(categoryId: string, subcause: Cause)
    | DeleteSubcause(categoryId: string, causeId: string)
    | UpdateFiveWhys(data: FiveWhys.Analysis)
    | Unknown

  /** The four categories the initial store holds. */
  const InitialCategories: seq<Category> := [
    Category("1", "Mano de obra", "top", "#FF6B6B", []),
    Category("2", "M\U{E9}todo", "top", "#4ECDC4", []),
    Category("3", "Material", "bottom", "#45B7D1", []),
    Category("4", "M\U{E1}quina", "bottom", "#96CEB4", [])]

  function Ids(cs: seq<Category>): (ids: seq<string>)
    ensures |ids| == |cs|
    ensures forall i :: 0 <= i < |cs| ==> ids[i] == cs[i].id
  {
    seq(|cs|, i requires 0 <= i < |cs| => cs[i].id)
  }

  function CauseIds(cs: seq<Cause>): (ids: seq<string>)
    ensures |ids| == |cs|
    ensures forall i :: 0 <= i < |cs| ==> ids[i] == cs[i].id
  {
    seq(|cs|, i requires 0 <= i < |cs| => cs[i].id)
  }

  /** `cats.map(cat => cat.id === id ? f(cat) : cat)` with `f` renaming. */
  function Rename(cs: seq<Category>, id: string, name: string): (r: seq<Category>)
    ensures |r| == |cs|
    ensures forall i :: 0 <= i < |cs| ==> r[i] == if cs[i].id == id then cs[i].(name := name) else cs[i]
  {
    seq(|cs|, i requires 0 <= i < |cs| => if cs[i].id == id then cs[i].(name := name) else cs[i])
  }

  /** The same map with `f` appending a cause. */
  function AppendCause(cs: seq<Category>, id: string, c: Cause): (r: seq<Category>)
    ensures |r| == |cs|
    ensures forall i :: 0 <= i < |cs| ==>
      r[i] == if cs[i].id == id then cs[i].(causes := cs[i].causes + [c]) else cs[i]
  {
    seq(|cs|, i requires 0 <= i < |cs| =>
      if cs[i].id == id then cs[i].(causes := cs[i].causes + [c]) else cs[i])
  }

  function CategoryIdIsNot(id: string): (p: Category -> bool)
    ensures forall c :: p(c) == (c.id != id)
  {
    (c: Category) => c.id != id
  }

  function CauseIdIsNot(id: string): (p: Cause -> bool)
    ensures forall c :: p(c) == (c.id != id)
  {
    (c: Cause) => c.id != id
  }

  /** The same map with `f` dropping every cause with the given id. */
  function DropCause(cs: seq<Category>, id: string, causeId: string): (r: seq<Category>)
    ensures |r| == |cs|
    ensures forall i :: 0 <= i < |cs| ==>
      r[i] == if cs[i].id == id then cs[i].(causes := Filter(cs[i].causes, CauseIdIsNot(causeId))) else cs[i]
  {
    seq(|cs|, i requires 0 <= i < |cs| =>
      if cs[i].id == id then cs[i].(causes := Filter(cs[i].causes, CauseIdIsNot(causeId))) else cs[i])
  }

  /** `updateIshikawaData(action)`: each action replaces one part of the store. */
  function Reduce<X>(s: Store<X>, a: Action): (r: Store<X>)
    ensures r.others == s.others
    ensures !a.UpdateFiveWhys? ==> r.fiveWhys == s.fiveWhys
    ensures a.UpdateFiveWhys? || a.Unknown? ==> r.fishbone == s.fishbone
    ensures !a.UpdateEffect? ==> r.fishbone.effect == s.fishbone.effect
    ensures a.Unknown? ==> r == s
  {
    var f := s.fishbone;
    match a
    case InitCategories(cs) => s.(fishbone := f.(categories := cs))
    case UpdateEffect(e) => s.(fishbone := f.(effect := e))
    case UpdateCategory(id, name) => s.(fishbone := f.(categories := Rename(f.categories, id, name)))
    case AddCategory(id, name, position, color) =>
      s.(fishbone := f.(categories := f.categories + [Category(id, name, position, color, [])]))
    case DeleteCategory(id) => s.(fishbone := f.(categories := Filter(f.categories, CategoryIdIsNot(id))))
    case AddSubcause(id, c) => s.(fishbone := f.(categories := AppendCause(f.categories, id, c)))
    case DeleteSubcause(id, causeId) => s.(fishbone := f.(categories := DropCause(f.categories, id, causeId)))
    case UpdateFiveWhys(d) => s.(fiveWhys := d)
    case Unknown => s
  }

  /** A five-whys save as written leaves the store with the analysis from before the conclusion
      was generated; the intended save stores the generated conclusion. Nothing else in the
      store changes either way. */
  lemma SavedFiveWhysInStore<X>(s: Store<X>, a: FiveWhys.Analysis)
    ensures var r := Reduce(s, UpdateFiveWhys(FiveWhys.SaveAsWritten(a).dispatched));
      r.fiveWhys == a && r.fishbone == s.fishbone && r.others == s.others
    ensures var r := Reduce(s, UpdateFiveWhys(FiveWhys.Save(a).dispatched));
      && r.fiveWhys == FiveWhys.Save(a).shown
      && (FiveWhys.Conclusion(a).Some? ==> r.fiveWhys.conclusion == FiveWhys.Conclusion(a).value)
      && r.fishbone == s.fishbone && r.others == s.others
  {
  }

  /** Renaming keeps every category in place with its id, position, colour and causes; only the
      names of the categories with that id change. */
  lemma RenameFrame<X>(s: Store<X>, id: string, name: string)
    ensures var cs := s.fishbone.categories;
      var r := Reduce(s, UpdateCategory(id, name)).fishbone.categories;
      && Ids(r) == Ids(cs)
      && (forall i :: 0 <= i < |cs| ==>
            r[i].causes == cs[i].causes && r[i].color == cs[i].color && r[i].position == cs[i].position)
      && (forall i :: 0 <= i < |cs| ==> (r[i].name == name || r[i] == cs[i]))
      && (forall i :: 0 <= i < |cs| && cs[i].id != id ==> r[i] == cs[i])
  {
  }

  /** Adding a category under an id not yet used and then deleting that id restores the
      categories. */
  lemma AddThenDelete<X>(s: Store<X>, id: string, name: string, position: string, color: string)
    requires id !in Ids(s.fishbone.categories)
    ensures Reduce(Reduce(s, AddCategory(id, name, position, color)), DeleteCategory(id)) == s
  {
    var cs := s.fishbone.categories;
    var c := Category(id, name, position, color, []);
    var p := CategoryIdIsNot(id);
    forall i | 0 <= i < |cs| ensures p(cs[i]) {
      assert Ids(cs)[i] == cs[i].id;
    }
    FilterDropsLast(cs, c, p);
    var s1 := Reduce(s, AddCategory(id, name, position, color));
    assert s1.fishbone.categories == cs + [c];
    assert Reduce(s1, DeleteCategory(id)).fishbone == s.fishbone;
  }

  /** Deleting a category keeps exactly the categories with another id, and no category with
      that id remains. */
  lemma DeleteRemovesAll<X>(s: Store<X>, id: string)
    ensures var cs := s.fishbone.categories;
      var r := Reduce(s, DeleteCategory(id)).fishbone.categories;
      && (forall c :: c in r <==> c in cs && c.id != id)
      && id !in Ids(r)
      && |r| <= |cs|
  {
    var cs := s.fishbone.categories;
    var r := Reduce(s, DeleteCategory(id)).fishbone.categories;
    CountIfComplement(cs, CategoryIdIsNot(id));
    forall i | 0 <= i < |r| ensures Ids(r)[i] != id {
      assert r[i] in r;
    }
  }

  /** Adding a cause under a fresh id and then deleting it restores the categories. */
  lemma AddThenDeleteCause<X>(s: Store<X>, id: string, c: Cause)
    requires forall i :: 0 <= i < |s.fishbone.categories| ==> c.id !in CauseIds(s.fishbone.categories[i].causes)
    ensures Reduce(Reduce(s, AddSubcause(id, c)), DeleteSubcause(id, c.id)) == s
  {
    var cs := s.fishbone.categories;
    var r := Reduce(Reduce(s, AddSubcause(id, c)), DeleteSubcause(id, c.id)).fishbone.categories;
    forall i | 0 <= i < |cs| ensures r[i] == cs[i] {
      if cs[i].id == id {
        var old_ := cs[i].causes;
        forall k | 0 <= k < |old_| ensures CauseIdIsNot(c.id)(old_[k]) {
          assert CauseIds(old_)[k] == old_[k].id;
        }
        FilterDropsLast(old_, c, CauseIdIsNot(c.id));
      }
    }
  }

  // ---------------------------------------------------------------- loading a fishbone table

  /** The six groups a loaded table fills, in this order. */
  const GroupKeys: seq<string> := ["man", "machine", "method", "material", "measurement", "environment"]

  /** The lower-case names every plain object answers `in` for without owning them. */
  const InheritedKeys: seq<string> := ["constructor", "__proto__"]

  /** The position of one of the six groups. */
  type GroupIndex = j: nat | j < 6

  /** What one row does: nothing, push its cause onto group `j`, or throw (a category that is
      not a string has no `toLowerCase`; an inherited key has no `push`). */
  datatype Outcome = Skip | File(group: GroupIndex) | Throw

  /** Where a row goes. `asWritten` selects the `category in newData` test, which also accepts
      the inherited keys; otherwise only the six groups are accepted. */
  function Target(row: Row, asWritten: bool): (o: Outcome)
    ensures o.File? ==> Get(row, "Categoria").Str? && GroupKeys[o.group] == ToLower(Get(row, "Categoria").s)
    ensures o == Throw ==> Truthy(Get(row, "Causa"))
  {
    var cat, cause := Get(row, "Categoria"), Get(row, "Causa");
    if !(Truthy(cat) && Truthy(cause)) then Skip
    else if !cat.Str? then Throw
    else
      var k := ToLower(cat.s);
      if k in GroupKeys then File(IndexIn(GroupKeys, k))
      else if asWritten && k in InheritedKeys then Throw
      else Skip
  }

  /** The position of `x` in `s`. */
  function IndexIn(s: seq<string>, x: string): (j: nat)
    requires x in s
    ensures j < |s| && s[j] == x
    ensures forall i :: 0 <= i < j ==> s[i] != x
  {
    if s[0] == x then 0 else 1 + IndexIn(s[1..], x)
  }

  /** The outcome of every row. */
  function Outcomes(data: seq<Row>, asWritten: bool): (os: seq<Outcome>)
    ensures |os| == |data|
    ensures forall i :: 0 <= i < |data| ==> os[i] == Target(data[i], asWritten)
  {
    seq(|data|, i requires 0 <= i < |data| => Target(data[i], asWritten))
  }

  /** `data.forEach(row => … newData[category].push(row.Causa))`, starting from the groups `g`,
      with the rows' outcomes `os`: the first throwing row stops the loop. */
  function FoldBy(g: seq<seq<Cell>>, data: seq<Row>, os: seq<Outcome>): (r: Option<seq<seq<Cell>>>)
    requires |g| == 6 && |os| == |data|
    ensures r.Some? ==> |r.value| == 6
    decreases |data|
  {
    if |data| == 0 then Some(g)
    else
      match os[0]
      case Throw => None
      case Skip => FoldBy(g, data[1..], os[1..])
      case File(j) => FoldBy(g[j := g[j] + [Get(data[0], "Causa")]], data[1..], os[1..])
  }

  function Fold(g: seq<seq<Cell>>, data: seq<Row>, asWritten: bool): (r: Option<seq<seq<Cell>>>)
    requires |g| == 6
    ensures r.Some? ==> |r.value| == 6
  {
    FoldBy(g, data, Outcomes(data, asWritten))
  }

  /** The reference reading of group `j`: the causes of the rows filed under it, in row order. */
  function CausesBy(data: seq<Row>, os: seq<Outcome>, j: GroupIndex): (r: seq<Cell>)
    requires |os| == |data|
    decreases |data|
  {
    if |data| == 0 then []
    else
      var head := if os[0] == File(j) then [Get(data[0], "Causa")] else [];
      head + CausesBy(data[1..], os[1..], j)
  }

  function CausesOf(data: seq<Row>, j: GroupIndex, asWritten: bool): (r: seq<Cell>)
  {
    CausesBy(data, Outcomes(data, asWritten), j)
  }

  predicate Throws(data: seq<Row>, asWritten: bool)
  {
    exists i :: 0 <= i < |data| && Target(data[i], asWritten) == Throw
  }

  /** The fold stops exactly when some row throws, and otherwise appends to each group the
      causes of the rows filed under it, in row order. */
  lemma {:induction false} FoldByFiles(g: seq<seq<Cell>>, data: seq<Row>, os: seq<Outcome>)
    requires |g| == 6 && |os| == |data|
    ensures FoldBy(g, data, os).None? <==> Throw in os
    ensures FoldBy(g, data, os).Some? ==>
      forall j: GroupIndex :: FoldBy(g, data, os).value[j] == g[j] + CausesBy(data, os, j)
    decreases |data|
  {
    if |data| > 0 {
      assert os == [os[0]] + os[1..];
      match os[0]
      case Throw =>
      case Skip =>
        FoldByFiles(g, data[1..], os[1..]);
      case File(j) =>
        var g' := g[j := g[j] + [Get(data[0], "Causa")]];
        FoldByFiles(g', data[1..], os[1..]);
    }
  }

  /** The fold throws exactly when some row throws, and otherwise appends to each group the
      causes of the rows sorted under it, in row order. */
  lemma FoldFiles(g: seq<seq<Cell>>, data: seq<Row>, asWritten: bool)
    requires |g| == 6
    ensures Fold(g, data, asWritten).None? <==> Throws(data, asWritten)
    ensures Fold(g, data, asWritten).Some? ==>
      forall j: GroupIndex :: Fold(g, data, asWritten).value[j] == g[j] + CausesOf(data, j, asWritten)
  {
    var os := Outcomes(data, asWritten);
    FoldByFiles(g, data, os);
    assert Throw in os <==> Throws(data, asWritten) by {
      if Throw in os {
        var i :| 0 <= i < |os| && os[i] == Throw;
      }
    }
  }

  const NoCauses: seq<seq<Cell>> := [[], [], [], [], [], []]

  /** `processFishboneData` as written: a row whose lower-cased category is `constructor` or
      `__proto__` passes the `in` test and makes the load throw. */
  function SortCausesAsWritten(data: seq<Row>): (r: Option<seq<seq<Cell>>>)
    ensures r.None? <==> Throws(data, true)
  {
    FoldFiles(NoCauses, data, true);
    Fold(NoCauses, data, true)
  }

  /** `processFishboneData` as intended: every row whose two fields are set and whose category,
      lower-cased, is one of the six groups adds its cause to that group in row order; other
      rows are ignored. Only a category that is not text still makes it throw. */
  function SortCauses(data: seq<Row>): (r: Option<seq<seq<Cell>>>)
    ensures r.None? <==> exists i :: 0 <= i < |data| && Target(data[i], false) == Throw
    ensures r.Some? ==> |r.value| == 6
    ensures r.Some? ==> forall j :: 0 <= j < 6 ==> r.value[j] == CausesOf(data, j, false)
  {
    FoldFiles(NoCauses, data, false);
    Fold(NoCauses, data, false)
  }

  /** A table whose only row files the cause under "constructor" makes the written version
      throw, while the intended version ignores the row. */
  lemma ConstructorThrows()
    ensures var data := [[Field("Categoria", Str("constructor")), Field("Causa", Str("x"))]];
      && SortCausesAsWritten(data).None?
      && SortCauses(data) == Some(NoCauses)
  {
    var row := [Field("Categoria", Str("constructor")), Field("Causa", Str("x"))];
    ConstructorRow(row);
    OneSkippedRow([row]);
  }

  /** A one-row table whose row throws as written and is ignored as intended. */
  lemma OneSkippedRow(data: seq<Row>)
    requires |data| == 1 && Target(data[0], true) == Throw && Target(data[0], false) == Skip
    ensures SortCausesAsWritten(data).None? && SortCauses(data) == Some(NoCauses)
  {
    var os := Outcomes(data, false);
    assert os == [Skip];
    forall j: GroupIndex ensures CausesOf(data, j, false) == [] {
      assert os[0] != File(j);
      assert CausesBy(data[1..], os[1..], j) == [];
    }
    assert SortCauses(data).value == NoCauses;
  }

  lemma ConstructorRow(row: Row)
    requires row == [Field("Categoria", Str("constructor")), Field("Causa", Str("x"))]
    ensures Target(row, true) == Throw && Target(row, false) == Skip
  {
    assert Get(row, "Categoria") == Str("constructor") by {
      assert row[0].key == "Categoria";
    }
    assert Get(row, "Causa") == Str("x") by {
      assert "Causa" != "Categoria" by { assert "Causa"[2] != "Categoria"[2]; }
      assert row[1..] == [Field("Causa", Str("x"))];
    }
    ConstructorKey();
    InheritedRow(row, "constructor");
  }

  /** A row with both fields set whose category, lower-cased, is an inherited key and not a
      group throws as written and is skipped as intended. */
  lemma InheritedRow(row: Row, k: string)
    requires Get(row, "Categoria") == Str(k) && Truthy(Get(row, "Causa"))
    requires ToLower(k) !in GroupKeys && ToLower(k) in InheritedKeys
    ensures Target(row, true) == Throw && Target(row, false) == Skip
  {
  }

  /** `constructor` is not a group yet is a key every object answers `in` for. */
  lemma ConstructorKey()
    ensures ToLower("constructor") !in GroupKeys && ToLower("constructor") in InheritedKeys
  {
    LowerConstructor();
    var k := "constructor";
    var g := GroupKeys;
    assert g[0][0] == 'm' && g[1][0] == 'm' && g[2][0] == 'm' && g[3][0] == 'm';
    assert g[4][0] == 'm' && g[5][0] == 'e';
    assert forall j :: 0 <= j < |g| ==> g[j][0] != k[0];
    assert InheritedKeys[0] == k;
  }

  /** The two versions agree on every table without an inherited-key category. */
  lemma SortCausesAgree(data: seq<Row>)
    requires forall i :: 0 <= i < |data| ==> Target(data[i], true) == Target(data[i], false)
    ensures SortCausesAsWritten(data) == SortCauses(data)
  {
    assert Outcomes(data, true) == Outcomes(data, false);
  }
}

=== FILE: fivewhys.dfy ===
/** The five-whys analysis: a problem, five successive answers to "why?", and a conclusion
    that can be generated from the problem and the fifth answer. */
module FiveWhys {

  import opened Common
  import opened Text
  import opened NumParse

  datatype Analysis = Analysis(problem: string, whys: seq<string>, conclusion: string)

  /** The five questions shown, one per answer. */
  const Questions: seq<string> := [
    "\U{BF}Por qu\U{E9} ocurre el problema?",
    "\U{BF}Por qu\U{E9} ocurre eso?",
    "\U{BF}Y por qu\U{E9} sucede eso?",
    "\U{BF}Cu\U{E1}l es la raz\U{F3}n de eso?",
    "\U{BF}Y finalmente, por qu\U{E9}?"]

  /** The analysis a new component starts from when it is given none. */
  const Blank: Analysis := Analysis("", ["", "", "", "", ""], "")

  /** The blank analysis has one empty answer per question and nothing else filled in. */
  lemma BlankMatchesQuestions()
    ensures |Blank.whys| == |Questions| == 5
    ensures Blank.problem == "" && Blank.conclusion == ""
    ensures forall i :: 0 <= i < |Blank.whys| ==> Blank.whys[i] == ""
  {
  }

  /** `parseInt(field.replace('why', '')) - 1`: the answer a field name designates. */
  function WhyIndex(field: string): (r: Option<int>)
    ensures ParseInt(ReplaceFirst(field, "why", "")).None? <==> r.None?
    ensures r.Some? ==> r.value + 1 == ParseInt(ReplaceFirst(field, "why", "")).value
  {
    match ParseInt(ReplaceFirst(field, "why", ""))
    case None => None
    case Some(n) => Some(n - 1)
  }

  /** `handleChange(field, value)`: `problem` and `conclusion` write that field; any other field
      writes the answer its number designates, and one that designates no existing answer
      leaves the analysis as it is. */
  function HandleChange(a: Analysis, field: string, value: string): Analysis
  {
    if field == "problem" then a.(problem := value)
    else if field == "conclusion" then a.(conclusion := value)
    else
      match WhyIndex(field)
      case Some(i) =>
        if 0 <= i < |a.whys| then a.(whys := a.whys[i := value]) else a
      case None => a
  }

  /** Whatever the field, at most one component changes: `problem` and `conclusion` write that
      field, any other field writes only the answer it designates. */
  lemma HandleChangeFrame(a: Analysis, field: string, value: string)
    ensures var r := HandleChange(a, field, value);
      && (field == "problem" ==> r == a.(problem := value))
      && (field == "conclusion" ==> r == a.(conclusion := value))
      && (field != "problem" && field != "conclusion" ==>
        && r.problem == a.problem && r.conclusion == a.conclusion
        && |r.whys| == |a.whys|
        && (forall i :: 0 <= i < |a.whys| && Some(i) != WhyIndex(field) ==> r.whys[i] == a.whys[i])
        && (forall i :: 0 <= i < |a.whys| && Some(i) == WhyIndex(field) ==> r.whys[i] == value))
  {
    if field != "problem" && field != "conclusion" {
      var r := HandleChange(a, field, value);
      match WhyIndex(field)
      case Some(k) =>
        if 0 <= k < |a.whys| {
          assert r.whys == a.whys[k := value];
          assert forall i :: 0 <= i < |a.whys| ==> (Some(i) == WhyIndex(field) <==> i == k);
        } else {
          assert r == a;
          assert forall i :: 0 <= i < |a.whys| ==> Some(i) != WhyIndex(field);
        }
      case None =>
        assert r == a;
    }
  }

  /** The field `why<i + 1>` designates answer `i`: the form shows answer `i` under the
      one-based label `i + 1`. */
  lemma WhyFieldIndex(i: nat)
    ensures WhyIndex("why" + NatToString(i + 1)) == Some(i)
  {
    DigitsOfNatToString(i + 1);
    WhyDigitsIndex(NatToString(i + 1), i + 1);
  }

  /** `why` followed by the digits of `n` designates answer `n − 1`. */
  lemma WhyDigitsIndex(d: string, n: nat)
    requires |d| > 0 && AllDigits(d) && DigitsValue(d) == n
    ensures WhyIndex("why" + d) == Some(n - 1)
  {
    ReplaceFirstAtStart("why", d, "");
    assert "" + d == d;
    AllDigitsLead(d);
    ParseIntPlain(d);
    var r := ParseInt(ReplaceFirst("why" + d, "why", ""));
    assert r == Some(n);
    assert r.Some? && r.value == n;
    assert WhyIndex("why" + d).Some?;
    assert WhyIndex("why" + d).value == n - 1;
  }

  /** Editing `why<i + 1>` for an existing answer `i` replaces exactly that answer. */
  lemma WhyFieldRoutes(a: Analysis, i: nat, value: string)
    requires i < |a.whys|
    ensures HandleChange(a, "why" + NatToString(i + 1), value) == a.(whys := a.whys[i := value])
  {
    WhyFieldIndex(i);
    WhyDigitsRoutes(a, NatToString(i + 1), i, value);
  }

  /** Editing `why` followed by a text that designates an existing answer replaces that answer. */
  lemma WhyDigitsRoutes(a: Analysis, d: string, i: nat, value: string)
    requires i < |a.whys| && WhyIndex("why" + d) == Some(i)
    ensures HandleChange(a, "why" + d, value) == a.(whys := a.whys[i := value])
  {
    HandleChangeAt(a, "why" + d, value, i);
  }

  /** A field whose name starts with `w` (so neither `problem` nor `conclusion`) that
      designates an existing answer replaces that answer. */
  lemma HandleChangeAt(a: Analysis, field: string, value: string, i: nat)
    requires |field| > 0 && field[0] == 'w'
    requires WhyIndex(field) == Some(i) && i < |a.whys|
    ensures HandleChange(a, field, value) == a.(whys := a.whys[i := value])
  {
    assert "problem"[0] != field[0] && "conclusion"[0] != field[0];
    assert field != "problem" && field != "conclusion";
    var w := WhyIndex(field);
    assert w.Some? && w.value == i;
  }

  /** The sentence a conclusion is generated as. */
  function Template(problem: string, lastWhy: string): string
  {
    "La causa ra\U{ED}z del problema \"" + problem + "\" parece ser: " + lastWhy
  }

  /** `generateConclusion`: a conclusion exists only when the problem and the fifth answer are
      both filled in (a missing fifth answer is `undefined`, which is falsy). */
  function Conclusion(a: Analysis): (r: Option<string>)
    ensures r.Some? <==> a.problem != "" && |a.whys| > 4 && a.whys[4] != ""
    ensures r.Some? ==> r.value == Template(a.problem, a.whys[4])
  {
    if a.problem != "" && |a.whys| > 4 && a.whys[4] != "" then Some(Template(a.problem, a.whys[4]))
    else None
  }

  /** The conclusion names the problem in quotes and ends with the fifth answer. */
  lemma TemplateShape(problem: string, lastWhy: string)
    ensures var t := Template(problem, lastWhy);
      var head := "La causa ra\U{ED}z del problema \"";
      && t[..|head|] == head
      && t[|head|..|head| + |problem|] == problem
      && t[|t| - |lastWhy|..] == lastWhy
  {
  }

  /** The analysis with the generated conclusion written in, when there is one; nothing else
      changes. */
  function WithConclusion(a: Analysis): (r: Analysis)
    ensures r.problem == a.problem && r.whys == a.whys
    ensures Conclusion(a).Some? ==> r.conclusion == Conclusion(a).value
    ensures Conclusion(a).None? ==> r == a
  {
    match Conclusion(a)
    case Some(c) => HandleChange(a, "conclusion", c)
    case None => a
  }

  /** What a save produces: the analysis it dispatches to the store, and the form's state once
      the update it queues has been applied. */
  datatype Saved = Saved(dispatched: Analysis, shown: Analysis)

  /** `handleSave` as written: the conclusion is generated into the form's state, but that
      update is only queued, so the analysis sent to the store is the one from before it. */
  function SaveAsWritten(a: Analysis): (r: Saved)
    ensures r.dispatched.conclusion == a.conclusion
    ensures r.dispatched.problem == r.shown.problem && r.dispatched.whys == r.shown.whys
    ensures r.shown.conclusion == if Conclusion(a).Some? then Conclusion(a).value else a.conclusion
  {
    Saved(a, WithConclusion(a))
  }

  /** The save that generates a conclusion dispatches the analysis from before it: when the
      generated text differs from the one typed in, that save sends the old conclusion while
      the queued update puts the new one in the form. */
  lemma SaveDropsConclusion(a: Analysis)
    requires Conclusion(a).Some? && a.conclusion != Conclusion(a).value
    ensures var r := SaveAsWritten(a);
      r.dispatched.conclusion != r.shown.conclusion && r.dispatched.conclusion == a.conclusion
  {
  }

  /** Problem "p", fifth answer "w" and an empty conclusion: the save dispatches the empty
      conclusion, not the generated sentence. */
  lemma EmptyConclusionStaysEmpty()
    ensures var a := Analysis("p", ["", "", "", "", "w"], "");
      && Conclusion(a) == Some(Template("p", "w"))
      && SaveAsWritten(a).dispatched.conclusion == ""
  {
    var a := Analysis("p", ["", "", "", "", "w"], "");
    assert a.whys[4] == "w";
  }

  /** The save the component evidently intends: it dispatches the analysis with the generated
      conclusion, the same one it puts in the form. */
  function Save(a: Analysis): (r: Saved)
    ensures r.dispatched == r.shown
    ensures r.dispatched.problem == a.problem && r.dispatched.whys == a.whys
    ensures Conclusion(a).Some? ==> r.dispatched.conclusion == Conclusion(a).value
    ensures Conclusion(a).None? ==> r.dispatched == a
  {
    var b := WithConclusion(a);
    Saved(b, b)
  }
}

=== FILE: histograms.dfy ===
/** The per-column histograms and descriptive statistics of the multiple-histograms view: the
    numeric readings of a column, their mean, median, extremes and population standard
    deviation, the Sturges binning, and the split of the columns into numeric and categorical. */
module Histograms {

  import opened Common
  import opened Table
  import opened Sorting
  import opened Stats
  import MathLib
  import Binning

  /** `[...values].sort((a, b) => a - b)`: the same values, smallest first. */
  function SortAsc(s: seq<real>): (r: seq<real>)
    ensures forall i, j :: 0 <= i < j < |r| ==> r[i] <= r[j]
    ensures multiset(r) == multiset(s) && |r| == |s|
  {
    var r := SortDesc(s, x => -x);
    assert forall i, j :: 0 <= i < j < |r| ==> -r[i] >= -r[j];
    r
  }

  /** The readings the view keeps: present cells that parse, as numbers, in column order. */
  function NumericValues(col: seq<Cell>): (vs: seq<real>)
    ensures forall v :: v in vs <==> exists i :: 0 <= i < |col| && Reading(col[i]) == Some(v)
  {
    FilterMap(col, Reading)
  }

  datatype Summary = Summary(n: nat, mean: real, median: real, min: real, max: real, stdDev: real)

  /** The statistics of a non-empty list of values. The minimum and maximum are values of the
      list bounding all of them, the mean lies between them, the median is a value of the list,
      and the standard deviation is that of the population. */
  function Describe(m: MathLib.Math, values: seq<real>): (s: Summary)
    requires MathLib.Lawful(m) && |values| >= 1
    ensures s.n == |values| && s.mean == Mean(values)
    ensures s.min in values && s.max in values && s.median in values
    ensures forall i :: 0 <= i < |values| ==> s.min <= values[i] <= s.max
    ensures s.min <= s.mean <= s.max
    ensures s.stdDev == StdDev(m, values)
  {
    var sorted := SortAsc(values);
    var n := |values|;
    SortedExtremes(values);
    MeanBetween(values, sorted[0], sorted[n - 1]);
    Summary(n, Mean(values), sorted[n / 2], sorted[0], sorted[n - 1], StdDev(m, values))
  }

  /** The first and last of the sorted values are the smallest and largest values, and every
      sorted position holds a value of the list. */
  lemma SortedExtremes(values: seq<real>)
    requires |values| >= 1
    ensures var sorted := SortAsc(values);
      && (forall i :: 0 <= i < |values| ==> sorted[0] <= values[i] <= sorted[|values| - 1])
      && (forall j :: 0 <= j < |values| ==> sorted[j] in values)
  {
    var sorted := SortAsc(values);
    forall i | 0 <= i < |values| ensures sorted[0] <= values[i] <= sorted[|values| - 1] {
      assert values[i] in multiset(sorted);
    }
    forall j | 0 <= j < |values| ensures sorted[j] in values {
      assert sorted[j] in multiset(values);
    }
  }

  /** The summary's extremes are the list's minimum and maximum. */
  lemma DescribeExtremes(m: MathLib.Math, values: seq<real>)
    requires MathLib.Lawful(m) && |values| >= 1
    ensures Describe(m, values).min == MinOf(values)
    ensures Describe(m, values).max == MaxOf(values)
  {
    var s := Describe(m, values);
    MinOfUnique(values, s.min);
    MaxOfUnique(values, s.max);
  }

  /** `v => v < c` and `v => v > c`, named so that every use denotes the same predicate. */
  function Below(c: real): (p: real -> bool)
    ensures forall v :: p(v) == (v < c)
  {
    v => v < c
  }

  function Above(c: real): (p: real -> bool)
    ensures forall v :: p(v) == (v > c)
  {
    v => v > c
  }

  /** The median is the upper-middle value: at most ⌊n/2⌋ values lie strictly below it and at
      most ⌊(n−1)/2⌋ strictly above, so for odd n it is the exact middle. */
  lemma MedianSplits(m: MathLib.Math, values: seq<real>)
    requires MathLib.Lawful(m) && |values| >= 1
    ensures var med := Describe(m, values).median;
      && CountIf(values, Below(med)) <= |values| / 2
      && CountIf(values, Above(med)) <= (|values| - 1) / 2
  {
    var sorted := SortAsc(values);
    var med := Describe(m, values).median;
    assert med == sorted[|values| / 2];
    CountIfPermutation(values, sorted, Below(med));
    CountIfPermutation(values, sorted, Above(med));
    SortedBelow(sorted, |values| / 2);
    SortedAbove(sorted, |values| / 2);
  }

  /** In an ascending sequence only positions before `k` can hold values below `s[k]`. */
  lemma SortedBelow(s: seq<real>, k: nat)
    requires k < |s| && forall i, j :: 0 <= i < j < |s| ==> s[i] <= s[j]
    ensures CountIf(s, Below(s[k])) <= k
  {
    CountIfOnlyBefore(s, Below(s[k]), k);
  }

  /** In an ascending sequence only the |s| − 1 − k positions after `k` can hold values above
      `s[k]`. */
  lemma SortedAbove(s: seq<real>, k: nat)
    requires k < |s| && forall i, j :: 0 <= i < j < |s| ==> s[i] <= s[j]
    ensures CountIf(s, Above(s[k])) <= |s| - 1 - k
  {
    var rev := Reverse(s);
    ReverseSame(s);
    CountIfPermutation(s, rev, Above(s[k]));
    CountIfOnlyBefore(rev, Above(s[k]), |s| - 1 - k);
  }

  function Reverse(s: seq<real>): (r: seq<real>)
    ensures |r| == |s|
    ensures forall i :: 0 <= i < |s| ==> r[i] == s[|s| - 1 - i]
  {
    seq(|s|, i requires 0 <= i < |s| => s[|s| - 1 - i])
  }

  lemma {:induction false} ReverseSame(s: seq<real>)
    ensures multiset(Reverse(s)) == multiset(s)
    decreases |s|
  {
    if |s| > 0 {
      var r := Reverse(s);
      ReverseSame(s[1..]);
      assert r == Reverse(s[1..]) + [s[0]];
      assert s == [s[0]] + s[1..];
    }
  }

  /** A column's histogram: its statistics and its bins. */
  datatype Report = Report(stats: Summary, bins: Binning.Bins)

  /** `generateHistogramData(values)`: nothing when no reading remains; otherwise the statistics
      and the Sturges bins between the minimum and the maximum, whose counts add up to the
      number of readings. */
  function HistogramData(m: MathLib.Math, col: seq<Cell>): (r: Option<Report>)
    requires MathLib.Lawful(m)
    ensures r.None? <==> NumericValues(col) == []
    ensures r.Some? ==> r.value.stats == Describe(m, NumericValues(col))
    ensures r.Some? ==>
      r.value.bins == Binning.MakeBins(m, NumericValues(col), r.value.stats.min, r.value.stats.max)
    ensures r.Some? ==> (r.value.bins.ZeroWidth? <==> r.value.stats.min == r.value.stats.max)
    ensures r.Some? && r.value.bins.Binned? ==>
      && |r.value.bins.h.counts| == Binning.Sturges(m, |NumericValues(col)|)
      && Binning.CountTotal(r.value.bins.h.counts) == |NumericValues(col)|
  {
    var values := NumericValues(col);
    if |values| == 0 then None
    else
      var s := Describe(m, values);
      Some(Report(s, Binning.MakeBins(m, values, s.min, s.max)))
  }

  /** The two column lists of the view. */
  datatype Kinds = Kinds(numeric: seq<string>, categorical: seq<string>)

  /** Each column of the first row goes to `numeric` when some cell holds a number and to
      `categorical` otherwise: every column lands in exactly one list. */
  function ColumnKinds(data: seq<Row>): (r: Kinds)
    ensures forall k :: k in r.numeric <==> k in FirstKeys(data) && HasNumber(data, k)
    ensures forall k :: k in r.categorical <==> k in FirstKeys(data) && !HasNumber(data, k)
    ensures |r.numeric| + |r.categorical| == |FirstKeys(data)|
  {
    var keys := FirstKeys(data);
    var p := k => HasNumber(data, k);
    CountIfComplement(keys, p);
    Kinds(Filter(keys, p), Filter(keys, Not(p)))
  }
}

=== FILE: ishikawa.dfy ===
/** The Ishikawa diagram component: the actions its handlers send to the store's reducer.
    Every text is trimmed and a blank one sends nothing; new causes alternate above and below
    the spine and take the palette's colours in turn. */
module Ishikawa {

  import opened Common
  import opened Text
  import opened Fishbone

  /** The categories the component starts the store with when it has none. */
  const DefaultCategories: seq<Category> := [
    Category("1", "Mano de obra", "top", "#FF6B6B", []),
    Category("2", "M\U{E9}todo", "top", "#4ECDC4", []),
    Category("3", "Material", "bottom", "#45B7D1", []),
    Category("4", "M\U{E1}quina", "bottom", "#96CEB4", [])]

  /** The colours new causes take, in turn. */
  const Palette: seq<string> := ["#FF6B6B", "#4ECDC4", "#45B7D1", "#96CEB4", "#FFD93D", "#6C5B7B"]

  /** The mount effect: with no categories, install the defaults. */
  function Init(categories: seq<Category>): (a: Option<Action>)
    ensures a.Some? <==> |categories| == 0
    ensures a.Some? ==> a.value == InitCategories(DefaultCategories)
  {
    if |categories| == 0 then Some(InitCategories(DefaultCategories)) else None
  }

  /** Initialising an empty store gives it the four default categories, the same the store
      starts with; a store with categories is left alone. */
  lemma InitInstallsDefaults<X>(s: Store<X>)
    ensures var a := Init(s.fishbone.categories);
      && (a.Some? ==> Reduce(s, a.value).fishbone.categories == InitialCategories)
      && |DefaultCategories| == 4
      && (a.None? ==> |s.fishbone.categories| > 0)
  {
  }

  /** `handleEffectSave`. */
  function SaveEffect(text: string): (a: Option<Action>)
    ensures a.None? <==> AllSpace(text)
    ensures a.Some? ==> a == Some(UpdateEffect(Trim(text)))
  {
    var t := Trim(text);
    if t != "" then Some(UpdateEffect(t)) else None
  }

  /** `handleSaveCauseName`. */
  function SaveCauseName(categoryId: string, text: string): (a: Option<Action>)
    ensures a.None? <==> AllSpace(text)
    ensures a.Some? ==> a == Some(UpdateCategory(categoryId, Trim(text)))
  {
    var t := Trim(text);
    if t != "" then Some(UpdateCategory(categoryId, t)) else None
  }

  /** `handleAddCause`: the new cause goes above the spine when the current count is even,
      below when it is odd, and takes colour `count mod 6`. The id comes from the clock. */
  function AddCause(categories: seq<Category>, text: string, now: string): (a: Option<Action>)
    ensures a.None? <==> AllSpace(text)
    ensures a.Some? ==> a.value.AddCategory? && a.value.newId == now && a.value.name == Trim(text)
    ensures a.Some? ==> (a.value.position == "top" <==> |categories| % 2 == 0)
    ensures a.Some? ==> (a.value.position == "bottom" <==> |categories| % 2 == 1)
    ensures a.Some? ==> a.value.color == Palette[|categories| % 6]
  {
    var t := Trim(text);
    if t == "" then None
    else
      var n := |categories|;
      Some(AddCategory(now, t, if n % 2 == 0 then "top" else "bottom", Palette[n % |Palette|]))
  }

  /** Two causes added one after the other land on opposite sides of the spine. */
  lemma AddCauseAlternates<X>(s: Store<X>, text: string, now: string, text2: string, now2: string)
    requires !AllSpace(text) && !AllSpace(text2)
    ensures var s1 := Reduce(s, AddCause(s.fishbone.categories, text, now).value);
      && |s1.fishbone.categories| == |s.fishbone.categories| + 1
      && AddCause(s1.fishbone.categories, text2, now2).value.position
        != AddCause(s.fishbone.categories, text, now).value.position
  {
    var n := |s.fishbone.categories|;
    var a1 := AddCause(s.fishbone.categories, text, now).value;
    var s1 := Reduce(s, a1);
    assert a1.AddCategory?;
    assert |s1.fishbone.categories| == n + 1;
    assert (n + 1) % 2 != n % 2;
    assert "top" != "bottom" by { assert "top"[0] != "bottom"[0]; }
  }

  /** Six consecutive counts pick six different colours. */
  lemma PaletteCycles(n: nat)
    ensures forall i, j :: n <= i < j < n + 6 ==> Palette[i % 6] != Palette[j % 6]
  {
    PaletteDistinct();
    forall i, j | n <= i < j < n + 6 ensures Palette[i % 6] != Palette[j % 6] {
      assert i % 6 != j % 6;
    }
  }

  /** The six colours are all different. */
  lemma PaletteDistinct()
    ensures forall a, b :: 0 <= a < 6 && 0 <= b < 6 && a != b ==> Palette[a] != Palette[b]
  {
    var p := Palette;
    assert p[0][1] == 'F' && p[0][3] == '6';
    assert p[1][1] == '4' && p[1][3] == 'C';
    assert p[2][1] == '4' && p[2][3] == 'B';
    assert p[3][1] == '9' && p[3][3] == 'C';
    assert p[4][1] == 'F' && p[4][3] == 'D';
    assert p[5][1] == '6' && p[5][3] == '5';
    forall a, b | 0 <= a < 6 && 0 <= b < 6 && a != b ensures p[a] != p[b] {
      assert p[a][1] != p[b][1] || p[a][3] != p[b][3];
    }
  }

  /** `handleAddSubcause`: the new cause carries the trimmed text and the clock's id. */
  function AddSubcauseTo(categoryId: string, text: string, now: string): (a: Option<Action>)
    ensures a.None? <==> AllSpace(text)
    ensures a.Some? ==> a == Some(Fishbone.AddSubcause(categoryId, Cause(now, Trim(text))))
  {
    var t := Trim(text);
    if t != "" then Some(Fishbone.AddSubcause(categoryId, Cause(now, t))) else None
  }

  /** Every text a handler sends is trimmed and not empty. */
  lemma SentTextsTrimmed(categoryId: string, text: string, now: string)
    requires !AllSpace(text)
    ensures var t := SaveEffect(text).value.effect; t != "" && Trim(t) == t
    ensures var t := AddSubcauseTo(categoryId, text, now).value.subcause.text; t != "" && Trim(t) == t
  {
    TrimIdempotent(text);
  }

  /** `handleDeleteCause`: only once the user confirms. */
  function DeleteCause(categoryId: string, confirmed: bool): (a: Option<Action>)
    ensures a.Some? <==> confirmed
    ensures a.Some? ==> a.value == DeleteCategory(categoryId)
  {
    if confirmed then Some(DeleteCategory(categoryId)) else None
  }
}

=== FILE: mathlib.dfy ===
/** The transcendental functions the components call (`Math.sqrt`, `Math.log10`, `Math.log`,
    `Math.exp`). Real arithmetic cannot compute them, so they are passed in as values together
    with the few laws the proofs rely on. */
module MathLib {

  datatype Math = Math(sqrt: real -> real, log10: real -> real, ln: real -> real, exp: real -> real)

  /** The laws used: `sqrt` is the non-negative square root; `log10` is non-negative from 1 on;
      `ln` is increasing on the positive reals; `exp` is positive and at most 1 for
      non-positive arguments. */
  ghost predicate Lawful(m: Math)
  {
    (forall x :: x >= 0.0 ==> m.sqrt(x) >= 0.0 && m.sqrt(x) * m.sqrt(x) == x)
    && (forall x :: x >= 1.0 ==> m.log10(x) >= 0.0)
    && (forall x, y :: 0.0 < x <= y ==> m.ln(x) <= m.ln(y))
    && (forall x :: m.exp(x) > 0.0)
    && (forall x :: x <= 0.0 ==> m.exp(x) <= 1.0)
  }

  /** `Math.ceil`. */
  function Ceil(x: real): (n: int)
    ensures x <= n as real < x + 1.0
  {
    -((-x).Floor)
  }

  /** Squaring is strictly increasing on the non-negative reals. */
  lemma SquareStrict(q: real, p: real)
    requires 0.0 <= q < p
    ensures q * q < p * p
  {
    calc {
      q * q;
    <= { MulLeft(q, q, p); }
      q * p;
    ==
      p * q;
    < { MulLeft(p, q, p); }
      p * p;
    }
  }

  lemma MulLeft(c: real, a: real, b: real)
    requires c >= 0.0 && a <= b
    ensures c * a <= c * b
    ensures c > 0.0 && a < b ==> c * a < c * b
  {
  }

  /** The square root is monotone. */
  lemma SqrtMonotone(m: Math, a: real, b: real)
    requires Lawful(m) && 0.0 <= a <= b
    ensures m.sqrt(a) <= m.sqrt(b)
  {
    var p, q := m.sqrt(a), m.sqrt(b);
    assert p >= 0.0 && p * p == a;
    assert q >= 0.0 && q * q == b;
    if p > q {
      SquareStrict(q, p);
    }
  }

  /** A number whose square is at most `d` lies between the two square roots of `d`. */
  lemma AbsAtMostSqrt(m: Math, c: real, d: real)
    requires Lawful(m) && d >= 0.0 && c * c <= d
    ensures -m.sqrt(d) <= c <= m.sqrt(d)
  {
    var s := m.sqrt(d);
    assert s >= 0.0 && s * s == d;
    if c > s {
      SquareStrict(s, c);
    }
    assert (-c) * (-c) == c * c;
    if -c > s {
      SquareStrict(s, -c);
    }
  }
}

=== FILE: numparse.dfy ===
/** The three ways the components turn text into numbers: `parseFloat` (longest numeric prefix
    after leading white space), `parseInt` (longest run of digits after an optional sign) and
    the `Number(...)` coercion (the whole trimmed text must be numeric, blank text is 0).
    A `None` result stands for JavaScript's `NaN`. Exponents, `Infinity` and hexadecimal
    literals are not recognised. */
module NumParse {

  import opened Common
  import opened Text

  predicate IsDigit(c: char)
  {
    '0' <= c <= '9'
  }

  predicate IsSign(c: char)
  {
    c == '+' || c == '-'
  }

  predicate AllDigits(s: string)
  {
    forall i :: 0 <= i < |s| ==> IsDigit(s[i])
  }

  function Pow10(n: nat): (p: nat)
    ensures p >= 1
  {
    if n == 0 then 1 else 10 * Pow10(n - 1)
  }

  /** The value of a run of decimal digits, read most significant first. */
  function DigitsValue(ds: string): nat
    requires AllDigits(ds)
  {
    if |ds| == 0 then 0
    else DigitsValue(ds[..|ds| - 1]) * 10 + (ds[|ds| - 1] as int - '0' as int)
  }

  /** A run of `n` digits is worth less than `10^n`, so a fraction part is below 1. */
  lemma {:induction false} DigitsValueBound(ds: string)
    requires AllDigits(ds)
    ensures DigitsValue(ds) < Pow10(|ds|)
    decreases |ds|
  {
    if |ds| > 0 {
      DigitsValueBound(ds[..|ds| - 1]);
    }
  }

  /** Number of leading decimal digits. */
  function LeadDigits(s: string): (k: nat)
    ensures k <= |s|
    ensures AllDigits(s[..k])
    ensures k < |s| ==> !IsDigit(s[k])
  {
    if |s| > 0 && IsDigit(s[0]) then
      var k := LeadDigits(s[1..]);
      assert s[..k + 1] == [s[0]] + s[1..][..k];
      k + 1
    else 0
  }

  /** A parsed prefix: its value and how many characters it used. */
  datatype Scan = Scan(value: real, len: nat)

  /** Longest unsigned decimal prefix: digits, optionally a '.' and more digits, with at least one
      digit overall. */
  function ScanUnsigned(s: string): (r: Option<Scan>)
    ensures r.Some? <==> (|s| > 0 && IsDigit(s[0])) || (|s| > 1 && s[0] == '.' && IsDigit(s[1]))
    ensures r.Some? ==> 0 < r.value.len <= |s| && r.value.value >= 0.0
    ensures r.Some? ==> r.value.len == |s| || !IsDigit(s[r.value.len])
  {
    var a := LeadDigits(s);
    var dot := a < |s| && s[a] == '.';
    var fs := if dot then s[a + 1..][..LeadDigits(s[a + 1..])] else "";
    assert dot && a == 0 ==> (|fs| > 0 <==> |s| > 1 && IsDigit(s[1])) by {
      if dot && a == 0 {
        var f := s[1..];
        if |fs| > 0 {
          assert fs[0] == f[0] == s[1];
        } else if |f| > 0 {
          assert !IsDigit(f[0]);
        }
      }
    }
    ScanParts(s[..a], dot, fs)
  }

  /** The scan made of the integer digits `ds`, whether a '.' follows them, and the fraction
      digits `fs` after it. */
  function ScanParts(ds: string, dot: bool, fs: string): (r: Option<Scan>)
    requires AllDigits(ds) && AllDigits(fs)
    ensures r.Some? <==> |ds| > 0 || (dot && |fs| > 0)
    ensures r.Some? ==> r.value.len == |ds| + (if dot then 1 + |fs| else 0) && r.value.value >= 0.0
  {
    if dot then
      if |ds| + |fs| == 0 then None
      else
        var frac := (DigitsValue(fs) as real) / (Pow10(|fs|) as real);
        Some(Scan(DigitsValue(ds) as real + frac, |ds| + 1 + |fs|))
    else if |ds| == 0 then None
    else Some(Scan(DigitsValue(ds) as real, |ds|))
  }

  /** An optional sign followed by an unsigned decimal prefix. */
  function ScanSigned(t: string): (r: Option<Scan>)
    ensures r.Some? ==> 0 < r.value.len <= |t|
  {
    if |t| > 0 && IsSign(t[0]) then
      match ScanUnsigned(t[1..])
      case None => None
      case Some(sc) => Some(Scan(if t[0] == '-' then -sc.value else sc.value, sc.len + 1))
    else ScanUnsigned(t)
  }

  /** The text starts like a decimal number: an optional sign, then a digit or '.' and a digit. */
  predicate NumericStart(t: string)
  {
    var u := if |t| > 0 && IsSign(t[0]) then t[1..] else t;
    (|u| > 0 && IsDigit(u[0])) || (|u| > 1 && u[0] == '.' && IsDigit(u[1]))
  }

  /** `parseFloat(s)`: `None` is `NaN`. */
  function ParseNum(s: string): (r: Option<real>)
    ensures r.Some? <==> NumericStart(TrimStart(s))
  {
    match ScanSigned(TrimStart(s))
    case None => None
    case Some(sc) => Some(sc.value)
  }

  /** Empty text is not a number. */
  lemma ParseNumEmpty()
    ensures ParseNum("") == None
  {
    assert TrimStart("") == "";
  }

  /** `Number(s)` for a string: blank text is 0, otherwise the whole trimmed text must be a
      decimal number. */
  function NumberOf(s: string): (r: Option<real>)
    ensures AllSpace(s) ==> r == Some(0.0)
  {
    var t := Trim(s);
    if t == "" then Some(0.0)
    else match ScanSigned(t)
      case Some(sc) => if sc.len == |t| then Some(sc.value) else None
      case None => None
  }

  /** `Number` and `parseFloat` agree on every non-blank text `Number` accepts. */
  lemma NumberAgreesWithParseNum(s: string)
    requires !AllSpace(s) && NumberOf(s).Some?
    ensures ParseNum(s) == NumberOf(s)
  {
    var t := Trim(s);
    var k := LeadCount(s);
    var rest := s[k + |t|..];
    assert TrimStart(s) == t + rest;
    assert |rest| > 0 ==> IsSpace(rest[0]) by {
      if |rest| > 0 {
        assert rest[0] == s[k + |t|];
      }
    }
    assert ScanSigned(t).Some? && ScanSigned(t).value.len == |t|
      && NumberOf(s) == Some(ScanSigned(t).value.value);
    ScanSignedPrefix(t, rest);
  }

  /** A scan that uses the whole of `t` is unchanged by text appended after a non-digit. */
  lemma ScanSignedPrefix(t: string, rest: string)
    requires ScanSigned(t).Some? && ScanSigned(t).value.len == |t|
    requires |t| > 0 && !IsSpace(t[|t| - 1])
    requires |rest| > 0 ==> IsSpace(rest[0])
    ensures ScanSigned(t + rest) == ScanSigned(t)
  {
    if IsSign(t[0]) {
      SignedPrefix(t, rest);
    } else {
      ScanUnsignedPrefix(t, rest);
    }
  }

  /** A text that starts with a sign scans as the unsigned rest, negated after a '-'. */
  lemma SignedScan(t: string)
    requires |t| > 0 && IsSign(t[0])
    ensures ScanSigned(t) == match ScanUnsigned(t[1..])
      case None => None
      case Some(sc) => Some(Scan(if t[0] == '-' then -sc.value else sc.value, sc.len + 1))
  {
  }

  /** `ScanSignedPrefix` for a text that starts with a sign. */
  lemma SignedPrefix(t: string, rest: string)
    requires |t| > 0 && IsSign(t[0])
    requires ScanUnsigned(t[1..]).Some? && ScanUnsigned(t[1..]).value.len == |t| - 1
    requires |rest| > 0 ==> IsSpace(rest[0])
    ensures ScanSigned(t + rest) == ScanSigned(t)
  {
    AppendSplit(t, rest, 0);
    ScanUnsignedPrefix(t[1..], rest);
    SignedScan(t + rest);
    SignedScan(t);
  }

  lemma ScanUnsignedPrefix(u: string, rest: string)
    requires ScanUnsigned(u).Some? && ScanUnsigned(u).value.len == |u|
    requires |rest| > 0 ==> IsSpace(rest[0])
    ensures ScanUnsigned(u + rest) == ScanUnsigned(u)
  {
    var a := LeadDigits(u);
    LeadDigitsPrefix(u, rest);
    if a < |u| && u[a] == '.' {
      FractionPrefix(u, rest);
    } else {
      WholePrefix(u, rest);
    }
  }

  /** `ScanUnsignedPrefix` when `u` is all digits. */
  lemma WholePrefix(u: string, rest: string)
    requires ScanUnsigned(u).Some? && ScanUnsigned(u).value.len == |u|
    requires |rest| > 0 ==> IsSpace(rest[0])
    requires LeadDigits(u + rest) == LeadDigits(u)
    requires !(LeadDigits(u) < |u| && u[LeadDigits(u)] == '.')
    ensures ScanUnsigned(u + rest) == ScanUnsigned(u)
  {
    var s, a := u + rest, LeadDigits(u);
    assert a == |u|;
    assert s[..a] == u[..a];
    assert !(a < |s| && s[a] == '.');
  }

  /** `ScanUnsignedPrefix` when the digits of `u` are followed by a '.'. */
  lemma FractionPrefix(u: string, rest: string)
    requires ScanUnsigned(u).Some? && ScanUnsigned(u).value.len == |u|
    requires |rest| > 0 ==> IsSpace(rest[0])
    requires LeadDigits(u + rest) == LeadDigits(u)
    requires LeadDigits(u) < |u| && u[LeadDigits(u)] == '.'
    ensures ScanUnsigned(u + rest) == ScanUnsigned(u)
  {
    var a := LeadDigits(u);
    var f := u[a + 1..];
    AppendSplit(u, rest, a);
    FractionDigitsPrefix(f, rest);
  }

  /** Cutting `u + rest` around position `a` of `u`. */
  lemma AppendSplit(u: string, rest: string, a: nat)
    requires a < |u|
    ensures (u + rest)[..a] == u[..a] && (u + rest)[a] == u[a]
    ensures (u + rest)[a + 1..] == u[a + 1..] + rest
  {
  }

  /** The fraction digits that follow the '.' are the same with or without `rest`. */
  lemma FractionDigitsPrefix(f: string, rest: string)
    requires LeadDigits(f) == |f|
    requires |rest| > 0 ==> IsSpace(rest[0])
    ensures LeadDigits(f + rest) == LeadDigits(f)
    ensures (f + rest)[..LeadDigits(f)] == f[..LeadDigits(f)]
  {
    LeadDigitsPrefix(f, rest);
  }

  /** Appending text that does not start with a digit or a '.' leaves the leading digits alone. */
  lemma {:induction false} LeadDigitsPrefix(u: string, rest: string)
    requires |rest| > 0 ==> !IsDigit(rest[0]) && rest[0] != '.'
    requires LeadDigits(u) == |u| ==> |rest| == 0 || !IsDigit(rest[0])
    ensures LeadDigits(u + rest) == LeadDigits(u)
    decreases |u|
  {
    if |u| == 0 {
      assert u + rest == rest;
    } else if IsDigit(u[0]) {
      assert (u + rest)[1..] == u[1..] + rest;
      LeadDigitsPrefix(u[1..], rest);
    }
  }

  /** `parseInt(s)` with no radix, on decimal text: the digits after leading white space and an
      optional sign. A `0x` prefix, which selects hexadecimal there, is not read. */
  function ParseInt(s: string): (r: Option<int>)
    ensures r.Some? <==> var t := TrimStart(s);
      var u := if |t| > 0 && IsSign(t[0]) then t[1..] else t;
      |u| > 0 && IsDigit(u[0])
  {
    var t := TrimStart(s);
    var neg := |t| > 0 && t[0] == '-';
    var u := if |t| > 0 && IsSign(t[0]) then t[1..] else t;
    var a := LeadDigits(u);
    if a == 0 then None
    else
      var v: int := DigitsValue(u[..a]);
      Some(if neg then -v else v)
  }

  /** Whenever `parseInt` reads a number, `parseFloat` reads one too, and the integer is the
      float's value truncated toward zero. */
  lemma ParseIntTruncates(s: string)
    requires ParseInt(s).Some?
    ensures ParseNum(s).Some?
    ensures var n := ParseInt(s).value as real; var x := ParseNum(s).value;
      && (x >= 0.0 ==> n <= x < n + 1.0)
      && (x <= 0.0 ==> n - 1.0 < x <= n)
  {
    var u := Unsigned(s);
    var d := DigitsValue(u[..LeadDigits(u)]);
    IntPart(s);
    ScanUnsignedFloor(u);
    NumPart(s);
    Truncation(d as real, ScanUnsigned(u).value.value, Negative(s),
               ParseInt(s).value as real, ParseNum(s).value);
  }

  /** The text after leading white space and an optional sign. */
  function Unsigned(s: string): string
  {
    var t := TrimStart(s);
    if |t| > 0 && IsSign(t[0]) then t[1..] else t
  }

  /** The text starts with a '-' after leading white space. */
  predicate Negative(s: string)
  {
    var t := TrimStart(s);
    |t| > 0 && t[0] == '-'
  }

  /** What `parseInt` reads: the leading digits after the sign, negated after a '-'. */
  lemma IntPart(s: string)
    requires ParseInt(s).Some?
    ensures LeadDigits(Unsigned(s)) > 0
    ensures var d: int := DigitsValue(Unsigned(s)[..LeadDigits(Unsigned(s))]);
      ParseInt(s).value == if Negative(s) then -d else d
  {
  }

  /** What `parseFloat` reads when digits follow the sign: the scan after the sign, negated
      after a '-'. */
  lemma NumPart(s: string)
    requires LeadDigits(Unsigned(s)) > 0
    ensures ScanUnsigned(Unsigned(s)).Some? && ParseNum(s).Some?
    ensures var x := ScanUnsigned(Unsigned(s)).value.value;
      ParseNum(s).value == if Negative(s) then -x else x
  {
    var t := TrimStart(s);
    if |t| > 0 && IsSign(t[0]) {
      assert ScanUnsigned(t[1..]) == ScanUnsigned(Unsigned(s));
    } else {
      assert ScanSigned(t) == ScanUnsigned(Unsigned(s));
    }
  }

  /** The sign algebra of `ParseIntTruncates`. */
  lemma Truncation(d: real, x: real, neg: bool, n: real, y: real)
    requires 0.0 <= d <= x < d + 1.0
    requires n == (if neg then -d else d) && y == (if neg then -x else x)
    ensures y >= 0.0 ==> n <= y < n + 1.0
    ensures y <= 0.0 ==> n - 1.0 < y <= n
  {
  }

  /** The value of a scanned prefix lies between its integer part and the next integer. */
  lemma ScanUnsignedFloor(u: string)
    requires LeadDigits(u) > 0
    ensures ScanUnsigned(u).Some?
    ensures var d := DigitsValue(u[..LeadDigits(u)]) as real; var x := ScanUnsigned(u).value.value;
      d <= x < d + 1.0
  {
    var a := LeadDigits(u);
    var dot := a < |u| && u[a] == '.';
    var fs := if dot then u[a + 1..][..LeadDigits(u[a + 1..])] else "";
    ScanPartsFloor(u[..a], dot, fs);
  }

  /** A scan with integer digits lies between their value and the next integer. */
  lemma ScanPartsFloor(ds: string, dot: bool, fs: string)
    requires AllDigits(ds) && AllDigits(fs) && |ds| > 0
    ensures ScanParts(ds, dot, fs).Some?
    ensures var d := DigitsValue(ds) as real; d <= ScanParts(ds, dot, fs).value.value < d + 1.0
  {
    if dot {
      DigitsValueBound(fs);
      FractionBelowOne(DigitsValue(fs), Pow10(|fs|));
    }
  }

  lemma FractionBelowOne(v: nat, p: nat)
    requires v < p
    ensures 0.0 <= (v as real) / (p as real) < 1.0
  {
  }

  /** A run of digits scans as its own value, using every character. */
  lemma ScanUnsignedDigits(d: string)
    requires |d| > 0 && AllDigits(d)
    ensures ScanUnsigned(d) == Some(Scan(DigitsValue(d) as real, |d|))
  {
    AllDigitsLead(d);
    assert d[..|d|] == d;
  }

  /** Text that does not start with white space is its own `trimStart`. */
  lemma TrimStartNoSpace(s: string)
    requires |s| > 0 && !IsSpace(s[0])
    ensures TrimStart(s) == s
  {
    assert LeadCount(s) == 0;
  }

  /** `String(n)`: the digits of |n|, after a '-' when n is negative. */
  lemma IntToStringShape(n: int)
    ensures var d := NatToString(if n < 0 then -n else n);
      AllDigits(d) && |d| > 0 && DigitsValue(d) == (if n < 0 then -n else n)
      && IntToString(n) == (if n < 0 then "-" else "") + d
  {
    DigitsOfNatToString(if n < 0 then -n else n);
  }

  /** A '-' followed by an unsigned number reads as its negation under `parseFloat`. */
  lemma ParseNumNegated(s: string, v: real, n: nat)
    requires |s| > 0 && s[0] == '-' && ScanUnsigned(s[1..]) == Some(Scan(v, n))
    ensures ParseNum(s) == Some(-v)
  {
    TrimStartNoSpace(s);
  }

  /** A run of digits reads back as its value under `parseFloat`, and negated after a '-'. */
  lemma ParseNumDigits(d: string, v: real)
    requires |d| > 0 && AllDigits(d) && v == DigitsValue(d) as real
    ensures ParseNum(d) == Some(v)
    ensures ParseNum("-" + d) == Some(-v)
  {
    PlainDigits(d, v);
    var s := "-" + d;
    assert s[1..] == d;
    ParseNumNegated(s, v, |d|);
  }

  /** A run of digits reads back as its value under `parseFloat`. */
  lemma PlainDigits(d: string, v: real)
    requires |d| > 0 && AllDigits(d) && v == DigitsValue(d) as real
    ensures ScanUnsigned(d) == Some(Scan(v, |d|))
    ensures ParseNum(d) == Some(v)
  {
    ScanUnsignedDigits(d);
    assert !IsSign(d[0]);
    DigitsUntrimmed(d);
  }

  /** A run of digits reads back as its value under `parseInt`. */
  lemma ParseIntPlain(d: string)
    requires |d| > 0 && AllDigits(d) && LeadDigits(d) == |d|
    ensures ParseInt(d) == Some(DigitsValue(d) as int)
  {
    DigitsUntrimmed(d);
    ParseIntUnsigned(d);
    assert d[..|d|] == d;
  }

  /** A text starting with a digit has no leading white space to trim. */
  lemma DigitsUntrimmed(d: string)
    requires |d| > 0 && IsDigit(d[0])
    ensures TrimStart(d) == d
  {
    TrimStartNoSpace(d);
  }

  /** `parseInt` of a text with no leading space or sign reads its leading digits. */
  lemma ParseIntUnsigned(t: string)
    requires |t| > 0 && TrimStart(t) == t && IsDigit(t[0])
    ensures LeadDigits(t) > 0 && ParseInt(t) == Some(DigitsValue(t[..LeadDigits(t)]) as int)
  {
    assert !IsSign(t[0]) && t[0] != '-';
    assert LeadDigits(t) > 0;
  }

  /** A '-' followed by a run of digits reads back as the negated value under `parseInt`. */
  lemma ParseIntMinus(s: string)
    requires |s| > 1 && s[0] == '-' && AllDigits(s[1..]) && LeadDigits(s[1..]) == |s| - 1
    ensures ParseInt(s) == Some(-(DigitsValue(s[1..]) as int))
  {
    TrimStartNoSpace(s);
    assert s[1..][..|s| - 1] == s[1..];
  }

  /** Printing an integer and reading it back with `parseFloat` gives the integer. */
  lemma ParseNumIntToString(n: int)
    ensures ParseNum(IntToString(n)) == Some(n as real)
  {
    var m: nat := if n < 0 then -n else n;
    IntToStringShape(n);
    ParseNumDigits(NatToString(m), m as real);
  }

  /** Printing an integer and reading it back with `parseInt` gives the integer. */
  lemma ParseIntIntToString(n: int)
    ensures ParseInt(IntToString(n)) == Some(n)
  {
    var m: nat := if n < 0 then -n else n;
    var d := NatToString(m);
    IntToStringShape(n);
    AllDigitsLead(d);
    if n < 0 {
      var s := IntToString(n);
      assert s[0] == '-' && s[1..] == d;
      ParseIntMinus(s);
    } else {
      ParseIntPlain(d);
    }
  }

  /** The digits `String(n)` prints for a natural number are worth `n`. */
  lemma {:induction false} DigitsOfNatToString(n: nat)
    ensures AllDigits(NatToString(n)) && DigitsValue(NatToString(n)) == n
    decreases n
  {
    var s := NatToString(n);
    if n >= 10 {
      DigitsOfNatToString(n / 10);
      assert s[..|s| - 1] == NatToString(n / 10);
    }
  }

  lemma {:induction false} AllDigitsLead(d: string)
    requires AllDigits(d)
    ensures LeadDigits(d) == |d|
    decreases |d|
  {
    if |d| > 0 {
      AllDigitsLead(d[1..]);
    }
  }
}

=== FILE: pareto.dfy ===
/** The cumulative-percentage series every Pareto chart draws (`accumulated += v;
    accumulated / total * 100`) and the one-decimal rounding `Number(x.toFixed(1))`. */
module Pareto {

  import opened Common

  /** Running totals starting from `acc`, the way the loops keep an `accumulated` variable. */
  function Accumulate(acc: real, vs: seq<real>): (r: seq<real>)
    ensures |r| == |vs|
    ensures forall i :: 0 <= i < |vs| ==> r[i] == acc + Sum(vs[..i + 1])
    decreases |vs|
  {
    if |vs| == 0 then []
    else
      var rest := Accumulate(acc + vs[0], vs[1..]);
      forall j | 0 <= j < |rest| ensures rest[j] == acc + Sum(vs[..j + 2]) {
        SumFront(vs[..j + 2]);
        assert vs[..j + 2][1..] == vs[1..][..j + 1];
      }
      SumSingleton(vs[0]);
      assert vs[..1] == [vs[0]];
      [acc + vs[0]] + rest
  }

  /** Point `i` is the share, in percent, of `total` that the first `i + 1` values make up. */
  function CumulativePercent(vs: seq<real>, total: real): (r: seq<real>)
    requires total != 0.0
    ensures |r| == |vs|
    ensures forall i :: 0 <= i < |vs| ==> r[i] == Sum(vs[..i + 1]) / total * 100.0
  {
    var run := Accumulate(0.0, vs);
    seq(|vs|, i requires 0 <= i < |vs| => run[i] / total * 100.0)
  }

  /** With non-negative values and a positive total the series never goes down. */
  lemma CumulativeMonotone(vs: seq<real>, total: real)
    requires total > 0.0
    requires forall i :: 0 <= i < |vs| ==> vs[i] >= 0.0
    ensures var r := CumulativePercent(vs, total);
      forall i, j :: 0 <= i <= j < |vs| ==> r[i] <= r[j]
  {
    var r := CumulativePercent(vs, total);
    forall i, j | 0 <= i <= j < |vs| ensures r[i] <= r[j] {
      PrefixSumMonotone(vs, i + 1, j + 1);
      DivMonotone(Sum(vs[..i + 1]), Sum(vs[..j + 1]), total);
    }
  }

  lemma DivMonotone(a: real, b: real, t: real)
    requires t > 0.0 && a <= b
    ensures a / t * 100.0 <= b / t * 100.0
  {
  }

  /** Longer prefixes of non-negative values have larger sums. */
  lemma PrefixSumMonotone(vs: seq<real>, m: nat, n: nat)
    requires m <= n <= |vs|
    requires forall i :: 0 <= i < |vs| ==> vs[i] >= 0.0
    ensures Sum(vs[..m]) <= Sum(vs[..n])
  {
    assert vs[..n] == vs[..m] + vs[m..n];
    SumAppend(vs[..m], vs[m..n]);
    SumNonNegative(vs[m..n]);
  }

  /** When the total is the sum of all the values, the last point is exactly 100. */
  lemma CumulativeEndsAt100(vs: seq<real>, total: real)
    requires |vs| > 0 && total == Sum(vs) && total != 0.0
    ensures CumulativePercent(vs, total)[|vs| - 1] == 100.0
  {
    assert vs[..|vs|] == vs;
    SelfShare(total);
  }
  /** A cumulative line: it never goes down and ends at exactly 100. */
  predicate RisesTo100(c: seq<real>)
  {
    && |c| > 0
    && (forall i, j :: 0 <= i <= j < |c| ==> c[i] <= c[j])
    && c[|c| - 1] == 100.0
  }

  /** Non-negative values with a positive sum give a line that rises to 100. */
  lemma CumulativeRises(vs: seq<real>, total: real)
    requires |vs| > 0 && total == Sum(vs) && total > 0.0
    requires forall i :: 0 <= i < |vs| ==> vs[i] >= 0.0
    ensures RisesTo100(CumulativePercent(vs, total))
  {
    CumulativeMonotone(vs, total);
    CumulativeEndsAt100(vs, total);
  }


  lemma SelfShare(t: real)
    requires t != 0.0
    ensures t / t * 100.0 == 100.0
  {
  }

  /** With non-negative values summing to a positive total, every point is in [0, 100]. */
  lemma CumulativeBounded(vs: seq<real>, total: real)
    requires total == Sum(vs) && total > 0.0
    requires forall i :: 0 <= i < |vs| ==> vs[i] >= 0.0
    ensures forall i :: 0 <= i < |vs| ==>
      0.0 <= CumulativePercent(vs, total)[i] <= 100.0
  {
    forall i | 0 <= i < |vs| ensures 0.0 <= CumulativePercent(vs, total)[i] <= 100.0 {
      PointBounded(vs, total, i);
    }
  }

  lemma PointBounded(vs: seq<real>, total: real, i: nat)
    requires total == Sum(vs) && total > 0.0 && i < |vs|
    requires forall i :: 0 <= i < |vs| ==> vs[i] >= 0.0
    ensures 0.0 <= Sum(vs[..i + 1]) / total * 100.0 <= 100.0
  {
    var part := Sum(vs[..i + 1]);
    assert 0.0 <= part <= total by {
      PrefixSumMonotone(vs, i + 1, |vs|);
      SumNonNegative(vs[..i + 1]);
      assert vs[..|vs|] == vs;
    }
    DivMonotone(part, total, total);
    DivMonotone(0.0, part, total);
    SelfShare(total);
  }

  /** `value / total * 100` for every value. */
  function Shares(vs: seq<real>, total: real): (r: seq<real>)
    requires total != 0.0
    ensures |r| == |vs|
    ensures forall i :: 0 <= i < |vs| ==> r[i] == vs[i] / total * 100.0
  {
    seq(|vs|, i requires 0 <= i < |vs| => vs[i] / total * 100.0)
  }

  /** The shares add up to the share of the sum. */
  lemma {:induction false} SumShares(vs: seq<real>, total: real)
    requires total != 0.0
    ensures Sum(Shares(vs, total)) == Sum(vs) / total * 100.0
    decreases |vs|
  {
    if |vs| > 0 {
      var init := vs[..|vs| - 1];
      SumShares(init, total);
      assert Shares(vs, total)[..|vs| - 1] == Shares(init, total);
      ShareAdd(Sum(init), vs[|vs| - 1], total);
    }
  }

  lemma ShareAdd(a: real, b: real, t: real)
    requires t != 0.0
    ensures a / t * 100.0 + b / t * 100.0 == (a + b) / t * 100.0
  {
  }

  /** `accumulated += value / total * 100` over the values: adding up the shares one at a time
      gives the same series as taking the share of each running total. */
  function RunningShares(vs: seq<real>, total: real): (r: seq<real>)
    requires total != 0.0
    ensures r == CumulativePercent(vs, total)
  {
    var r := Accumulate(0.0, Shares(vs, total));
    forall i | 0 <= i < |vs| ensures r[i] == CumulativePercent(vs, total)[i] {
      assert Shares(vs, total)[..i + 1] == Shares(vs[..i + 1], total);
      SumShares(vs[..i + 1], total);
    }
    r
  }

  /** `Number(x.toFixed(1))`: the nearest multiple of 0.1, ties away from zero. */
  function Round1(x: real): (r: real)
    ensures -0.05 <= r - x <= 0.05
    ensures x >= 0.0 ==> r >= 0.0
  {
    if x >= 0.0 then ((x * 10.0 + 0.5).Floor as real) / 10.0
    else -((((-x) * 10.0 + 0.5).Floor as real) / 10.0)
  }

  /** Rounding keeps order, so a rounded non-decreasing series stays non-decreasing. */
  lemma Round1Monotone(x: real, y: real)
    requires x <= y
    ensures Round1(x) <= Round1(y)
  {
    if x < 0.0 && y < 0.0 {
      assert ((-y) * 10.0 + 0.5).Floor <= ((-x) * 10.0 + 0.5).Floor;
    } else if x >= 0.0 {
      assert (x * 10.0 + 0.5).Floor <= (y * 10.0 + 0.5).Floor;
    }
  }
}

=== FILE: paretochart.dfy ===
/** The Pareto chart component: bars either from manually entered categories and counts or
    from the value frequencies of a column of the loaded table, tallest first, under the
    cumulative-percentage line. */
module ParetoChart {

  import opened Common
  import opened Table
  import opened Tally
  import opened Sorting
  import opened NumParse
  import Pareto

  /** A manual count as the form holds it: `''`, or what `parseInt` gave, `None` being `NaN`. */
  datatype Count = Blank | Parsed(n: Option<int>)

  /** JavaScript truthiness of a count: `''`, `NaN` and `0` are falsy. */
  predicate CountTruthy(c: Count)
  {
    c.Parsed? && c.n.Some? && c.n.value != 0
  }

  datatype ManualItem = ManualItem(category: string, count: Count)

  /** The manual list a new component starts with: one empty row. */
  const InitialManual: seq<ManualItem> := [ManualItem("", Blank)]

  /** Some cell of column `k` is not a number for `parseFloat` (blank cells included). */
  predicate HasNonNumber(data: seq<Row>, k: string)
  {
    exists i :: 0 <= i < |data| && ParseCell(Get(data[i], k)).None?
  }

  /** `categoricalColumns`: the keys of the first row with a cell that is not a number; none
      without data. */
  function CategoricalColumns(data: Option<seq<Row>>): (cols: seq<string>)
    ensures data.None? ==> cols == []
    ensures data.Some? ==> forall k :: k in cols <==> k in FirstKeys(data.value) && HasNonNumber(data.value, k)
  {
    match data
    case None => []
    case Some(d) => Filter(FirstKeys(d), k => HasNonNumber(d, k))
  }

  /** The column chosen on display: in table mode with no choice yet, the first categorical
      column, if any. */
  function DefaultColumn(manualMode: bool, selected: string, cols: seq<string>): (r: string)
    ensures manualMode || selected != "" || |cols| == 0 ==> r == selected
    ensures !manualMode && selected == "" && |cols| > 0 ==> r == cols[0]
  {
    if !manualMode && selected == "" && |cols| > 0 then cols[0] else selected
  }

  /** `handleAddManualData`: with both fields filled in, one item is appended whose count is
      `parseInt` of the text; otherwise nothing changes. */
  function AddManual(items: seq<ManualItem>, newCategory: string, newCount: string): (r: seq<ManualItem>)
    ensures newCategory == "" || newCount == "" ==> r == items
    ensures newCategory != "" && newCount != "" ==>
      |r| == |items| + 1 && r[..|items|] == items && r[|items|] == ManualItem(newCategory, Parsed(ParseInt(newCount)))
  {
    if newCategory != "" && newCount != "" then items + [ManualItem(newCategory, Parsed(ParseInt(newCount)))]
    else items
  }

  /** `handleDeleteManualData(index)`: exactly the item at `index` goes, the others keep their
      order; an index outside the list removes nothing. */
  function DeleteManual(items: seq<ManualItem>, index: int): (r: seq<ManualItem>)
    ensures 0 <= index < |items| ==> r == items[..index] + items[index + 1..]
    ensures !(0 <= index < |items|) ==> r == items
  {
    var r := RemoveAt(items, index);
    assert 0 <= index < |items| ==> r == items[..index] + items[index + 1..];
    r
  }

  /** Deleting the item just added gives back the list it was added to. */
  lemma DeleteUndoesAdd(items: seq<ManualItem>, newCategory: string, newCount: string)
    requires newCategory != "" && newCount != ""
    ensures DeleteManual(AddManual(items, newCategory, newCount), |items|) == items
  {
    var r := AddManual(items, newCategory, newCount);
    assert r[..|items|] == items;
  }

  /** The two fields of a manual item. */
  datatype Field = CategoryField | CountField

  /** `handleEditManualData(index, field, value)`: the count field takes `''` or `parseInt` of
      the text, the category field the text itself; every other item, and the other field, stay
      as they were. The index is always a row of the list. */
  function EditManual(items: seq<ManualItem>, index: nat, field: Field, value: string): (r: seq<ManualItem>)
    requires index < |items|
    ensures |r| == |items|
    ensures forall i :: 0 <= i < |items| && i != index ==> r[i] == items[i]
    ensures field == CategoryField ==> r[index] == items[index].(category := value)
    ensures field == CountField ==> r[index].category == items[index].category
    ensures field == CountField && value == "" ==> r[index].count == Blank
    ensures field == CountField && value != "" ==> r[index].count == Parsed(ParseInt(value))
  {
    var item := items[index];
    var edited := match field
      case CategoryField => item.(category := value)
      case CountField => item.(count := if value == "" then Blank else Parsed(ParseInt(value)));
    items[index := edited]
  }

  datatype Bar = Bar(category: string, count: real)

  function BarCount(b: Bar): real { b.count }

  /** `item.category && item.count`: a manual item that makes a bar. */
  predicate Counted(item: ManualItem)
  {
    item.category != "" && CountTruthy(item.count)
  }

  /** `{ category, count: parseInt(item.count) }` for a counted item. */
  function ToBar(item: ManualItem): (b: Bar)
    ensures b.category == item.category
    ensures Counted(item) ==> b.count == item.count.n.value as real && b.count != 0.0
  {
    Bar(item.category, match item.count case Parsed(Some(n)) => n as real case _ => 0.0)
  }

  /** The manual bars: the counted items, largest count first, ties in list order. */
  function ManualBars(items: seq<ManualItem>): (r: seq<Bar>)
    ensures SortedDesc(r, BarCount)
    ensures multiset(r) == multiset(Map(Filter(items, Counted), ToBar))
  {
    SortDesc(Map(Filter(items, Counted), ToBar), BarCount)
  }

  /** Every manual bar comes from a counted item: its category is not empty and its count is
      a non-zero whole number. */
  lemma ManualBarsCounted(items: seq<ManualItem>)
    ensures forall b :: b in ManualBars(items) ==>
      b.category != "" && b.count != 0.0 && exists i :: 0 <= i < |items| && Counted(items[i]) && ToBar(items[i]) == b
  {
    var kept := Filter(items, Counted);
    var bars := Map(kept, ToBar);
    forall b | b in ManualBars(items)
      ensures b.category != "" && b.count != 0.0 && exists i :: 0 <= i < |items| && Counted(items[i]) && ToBar(items[i]) == b
    {
      assert b in multiset(bars);
      var j :| 0 <= j < |bars| && bars[j] == b;
      assert kept[j] in kept;
      var i :| 0 <= i < |items| && items[i] == kept[j];
    }
  }

  /** `data.reduce(...)` in table mode: every row votes for the text of its cell, blank cells
      included (they file under "undefined", "null" or ""). */
  function RowVotes(data: seq<Row>, column: string): (es: seq<Entry<string>>)
    ensures |es| == |data|
    ensures forall i :: 0 <= i < |data| ==> es[i] == Entry(CellText(Get(data[i], column)), 1.0)
  {
    seq(|data|, i requires 0 <= i < |data| => Entry(CellText(Get(data[i], column)), 1.0))
  }

  function AsBar(b: Bucket<string>): Bar { Bar(b.key, b.count as real) }

  /** The table bars: one per distinct cell text with the number of rows holding it, largest
      first; the counts add up to the number of rows. */
  function TableBars(data: seq<Row>, column: string): (r: seq<Bar>)
    ensures SortedDesc(r, BarCount)
    ensures forall i, j :: 0 <= i < j < |r| ==> r[i].category != r[j].category
    ensures forall j :: 0 <= j < |r| ==> r[j].count == CountWhere(RowVotes(data, column), r[j].category) as real
    ensures Sum(Map(r, BarCount)) == |data| as real
  {
    var g := Ranked(RowVotes(data, column));
    RankedBarsSorted(RowVotes(data, column));
    assert Map(Map(g, AsBar), BarCount) == Counts(g);
    Map(g, AsBar)
  }

  /** With every vote worth one, ranking by total is ranking by count. */
  lemma RankedBarsSorted(es: seq<Entry<string>>)
    requires forall j :: 0 <= j < |es| ==> es[j].value == 1.0
    ensures SortedDesc(Map(Ranked(es), AsBar), BarCount)
  {
    var g := Ranked(es);
    var r := Map(g, AsBar);
    forall j | 0 <= j < |g| ensures r[j].count == TotalOf(g[j]) {
      OnesWhere(es, g[j].key);
    }
  }

  /** What the chart draws: the bars and the cumulative percentages. The percentages are
      absent when bars exist but their counts add up to 0, where every share divides by 0. */
  datatype ParetoData = ParetoData(bars: seq<Bar>, percentages: Option<seq<real>>)

  /** `accumulated += item.count; percentage: accumulated / total * 100`. */
  function WithPercentages(bars: seq<Bar>): (r: ParetoData)
    ensures r.bars == bars
    ensures r.percentages.None? <==> |bars| > 0 && Sum(Map(bars, BarCount)) == 0.0
    ensures r.percentages.Some? && |bars| > 0 ==>
      r.percentages.value == Pareto.CumulativePercent(Map(bars, BarCount), Sum(Map(bars, BarCount)))
    ensures |bars| == 0 ==> r.percentages == Some([])
  {
    var counts := Map(bars, BarCount);
    var total := Sum(counts);
    if |bars| == 0 then ParetoData(bars, Some([]))
    else if total == 0.0 then ParetoData(bars, None)
    else ParetoData(bars, Some(Pareto.CumulativePercent(counts, total)))
  }

  /** `generateParetoData()` guarded as the component calls it: manual mode needs a non-empty
      manual list, table mode a chosen column (and then there is a table to read). */
  function ParetoView(manualMode: bool, items: seq<ManualItem>, data: Option<seq<Row>>, column: string): (r: ParetoData)
    requires manualMode || column == "" || data.Some?
    ensures manualMode && |items| == 0 ==> r == ParetoData([], Some([]))
    ensures !manualMode && column == "" ==> r == ParetoData([], Some([]))
    ensures manualMode && |items| > 0 ==> r == WithPercentages(ManualBars(items))
    ensures !manualMode && column != "" ==> r == WithPercentages(TableBars(data.value, column))
  {
    if manualMode then
      if |items| > 0 then WithPercentages(ManualBars(items)) else ParetoData([], Some([]))
    else if column != "" then WithPercentages(TableBars(data.value, column))
    else ParetoData([], Some([]))
  }

  /** In table mode with at least one row the line climbs and ends at 100. */
  lemma TableLine(data: seq<Row>, column: string)
    requires |data| > 0
    ensures var p := WithPercentages(TableBars(data, column));
      && p.percentages.Some?
      && |p.percentages.value| == |p.bars| > 0
      && p.percentages.value[|p.bars| - 1] == 100.0
      && forall i, j :: 0 <= i <= j < |p.bars| ==> p.percentages.value[i] <= p.percentages.value[j]
  {
    var bars := TableBars(data, column);
    assert |bars| > 0;
    LineClimbs(bars);
  }

  /** In manual mode the same holds when every counted item has a positive count. */
  lemma ManualLine(items: seq<ManualItem>)
    requires forall i :: 0 <= i < |items| && Counted(items[i]) ==> items[i].count.n.value > 0
    requires exists i :: 0 <= i < |items| && Counted(items[i])
    ensures var p := WithPercentages(ManualBars(items));
      && p.percentages.Some?
      && |p.percentages.value| == |p.bars| > 0
      && p.percentages.value[|p.bars| - 1] == 100.0
      && forall i, j :: 0 <= i <= j < |p.bars| ==> p.percentages.value[i] <= p.percentages.value[j]
  {
    ManualBarsPositive(items);
    ManualBarsNonEmpty(items);
    var bars := ManualBars(items);
    PositiveTotal(Map(bars, BarCount));
    LineClimbs(bars);
  }

  /** Bars of non-negative counts with a positive total draw a line that never goes down and
      ends at 100. */
  lemma LineClimbs(bars: seq<Bar>)
    requires |bars| > 0 && Sum(Map(bars, BarCount)) > 0.0
    requires forall j :: 0 <= j < |bars| ==> bars[j].count >= 0.0
    ensures var p := WithPercentages(bars);
      && p.percentages.Some?
      && |p.percentages.value| == |p.bars|
      && Pareto.RisesTo100(p.percentages.value)
  {
    var counts := Map(bars, BarCount);
    Pareto.CumulativeRises(counts, Sum(counts));
  }

  /** With positive counted items every manual bar is positive. */
  lemma ManualBarsPositive(items: seq<ManualItem>)
    requires forall i :: 0 <= i < |items| && Counted(items[i]) ==> items[i].count.n.value > 0
    ensures forall j :: 0 <= j < |ManualBars(items)| ==> ManualBars(items)[j].count > 0.0
  {
    ManualBarsCounted(items);
    var bars := ManualBars(items);
    forall j | 0 <= j < |bars| ensures bars[j].count > 0.0 {
      assert bars[j] in bars;
    }
  }

  /** One counted item is enough for a bar. */
  lemma ManualBarsNonEmpty(items: seq<ManualItem>)
    requires exists i :: 0 <= i < |items| && Counted(items[i])
    ensures |ManualBars(items)| > 0
  {
    var i :| 0 <= i < |items| && Counted(items[i]);
    var kept := Filter(items, Counted);
    assert items[i] in kept;
    assert |Map(kept, ToBar)| > 0;
  }

  /** Positive values have a positive sum. */
  lemma PositiveTotal(vs: seq<real>)
    requires |vs| > 0 && forall i :: 0 <= i < |vs| ==> vs[i] > 0.0
    ensures Sum(vs) > 0.0
  {
    SumNonNegative(vs[..|vs| - 1]);
  }
}

=== FILE: processdata.dfy ===
/** The process-data computations of the shared data store: the ten-bin histogram of the first
    column and the defect metrics over the latest thirty records. */
module ProcessData {

  import opened Common
  import opened Table
  import MathLib
  import Binning
  import opened Sigma

  /** `Number(Object.values(row)[0])`: the row's first value as `Number` reads it; a row with
      no fields gives `undefined`, which is `NaN`. */
  function FirstNumber(row: Row): (r: Option<real>)
    ensures |row| == 0 ==> r.None?
    ensures |row| > 0 ==> r == NumberCell(row[0].value)
  {
    if |row| == 0 then None else NumberCell(row[0].value)
  }

  /** The readings the histogram keeps, in row order. */
  function FirstValues(data: seq<Row>): (vs: seq<real>)
    ensures |vs| <= |data|
    ensures forall v :: v in vs <==> exists i :: 0 <= i < |data| && FirstNumber(data[i]) == Some(v)
  {
    FilterMapAtMost(data, FirstNumber);
    FilterMap(data, FirstNumber)
  }

  /** The histogram always has ten bins. */
  const BinCount: nat := 10

  /** What the histogram shows. With no readings the edges are infinite and every count 0; when
      all readings are equal the width is 0, every index is `NaN` and again no count grows. */
  datatype Outcome = NoValues | AllEqual(value: real) | Binned(h: Binning.Histogram)

  /** `processHistogramData`: nothing to bin without readings, a single value when they are all
      equal, and otherwise ten equal-width bins from the smallest to the largest reading. */
  function Histogram(data: seq<Row>): (r: Outcome)
    ensures r.NoValues? <==> FirstValues(data) == []
    ensures r.AllEqual? ==> forall i :: 0 <= i < |FirstValues(data)| ==> FirstValues(data)[i] == r.value
    ensures !r.NoValues? ==> (r.Binned? <==> MinOf(FirstValues(data)) < MaxOf(FirstValues(data)))
  {
    var vs := FirstValues(data);
    if |vs| == 0 then NoValues
    else
      var lo, hi := MinOf(vs), MaxOf(vs);
      if lo == hi then AllEqual(lo)
      else Binned(Binning.EqualWidth(vs, lo, hi, BinCount))
  }

  /** The ten bins: their labels tile the range from the smallest to the largest reading and
      their counts add up to the number of readings. */
  lemma HistogramBins(data: seq<Row>)
    requires Histogram(data).Binned?
    ensures var vs, h := FirstValues(data), Histogram(data).h;
      && |vs| > 0
      && |h.counts| == |h.labels| == BinCount
      && Binning.CountTotal(h.counts) == |vs|
      && MinOf(vs) < MaxOf(vs)
      && Binning.Tiles(h.labels, MinOf(vs), MaxOf(vs))
  {
    var vs := FirstValues(data);
    assert Histogram(data).h == Binning.EqualWidth(vs, MinOf(vs), MaxOf(vs), BinCount);
  }

  /** A histogram is drawn exactly when two readings differ. */
  lemma HistogramDrawn(data: seq<Row>)
    ensures Histogram(data).Binned? <==>
      exists i, j :: 0 <= i < j < |FirstValues(data)| && FirstValues(data)[i] != FirstValues(data)[j]
  {
    var vs := FirstValues(data);
    if |vs| > 0 {
      TwoDiffer(vs);
    }
  }

  /** Two values of a list differ exactly when its minimum is below its maximum. */
  lemma TwoDiffer(vs: seq<real>)
    requires |vs| > 0
    ensures MinOf(vs) < MaxOf(vs) <==> exists i, j :: 0 <= i < j < |vs| && vs[i] != vs[j]
  {
    var lo, hi := MinOf(vs), MaxOf(vs);
    if lo < hi {
      var i :| 0 <= i < |vs| && vs[i] == lo;
      var j :| 0 <= j < |vs| && vs[j] == hi;
      if j < i {
        assert vs[j] != vs[i];
      } else {
        assert vs[i] != vs[j];
      }
    }
  }

  /** One production record. */
  datatype Record = Record(defectCount: real, units: real, opportunities: real)

  /** How many of the latest records the metrics look at. */
  const Window: nat := 30

  /** `defects.slice(-30)`: the last thirty records in order, or all of them when fewer. */
  function Latest(ds: seq<Record>): (r: seq<Record>)
    ensures |r| == (if |ds| < Window then |ds| else Window)
    ensures forall i :: 0 <= i < |r| ==> r[i] == ds[|ds| - |r| + i]
  {
    if |ds| <= Window then ds else ds[|ds| - Window..]
  }

  /** A new record enters the window; once the window is full the oldest leaves it. */
  lemma LatestSlides(ds: seq<Record>, d: Record)
    ensures |ds| < Window ==> Latest(ds + [d]) == Latest(ds) + [d]
    ensures |ds| >= Window ==> Latest(ds + [d]) == Latest(ds)[1..] + [d]
  {
    var a, b := Latest(ds + [d]), Latest(ds);
    if |ds| < Window {
      assert a == b + [d];
    } else {
      assert forall i :: 0 <= i < |a| ==> a[i] == (b[1..] + [d])[i];
    }
  }

  function DefectsOf(d: Record): real { d.defectCount }
  function UnitsOf(d: Record): real { d.units }
  function OpportunitiesOf(d: Record): real { d.opportunities }

  /** The three sums over a window. */
  datatype Totals = Totals(defects: real, units: real, opportunities: real)
  {
    /** The opportunities for a defect: units times opportunities per unit. */
    function Chances(): real
    {
      units * opportunities
    }
  }

  function TotalsOf(w: seq<Record>): (t: Totals)
    ensures t.defects == Sum(Map(w, DefectsOf))
    ensures t.units == Sum(Map(w, UnitsOf))
    ensures t.opportunities == Sum(Map(w, OpportunitiesOf))
  {
    Totals(Sum(Map(w, DefectsOf)), Sum(Map(w, UnitsOf)), Sum(Map(w, OpportunitiesOf)))
  }

  /** `Math.round`: the nearest integer, halves rounding up. */
  function Round(x: real): (n: int)
    ensures x - 0.5 < n as real <= x + 0.5
  {
    (x + 0.5).Floor
  }

  /** What `calculateMetrics` reports: the defect total, which is always finite, the ratios,
      absent when they divide by zero, and the sigma level. */
  datatype Metrics = Metrics(defectsTotal: real, ratios: Option<Ratios>, sigma: Level)

  datatype Ratios = Ratios(dpu: real, dpmo: real, dpmoRounded: int, yieldPercent: real)

  /** The ratios of `d` defects over `u` units with `o` opportunities each. */
  function Rates(d: real, u: real, o: real): (r: Ratios)
    requires u * o != 0.0
    ensures r.dpu * u == d
    ensures r.dpmo * (u * o) == d * 1000000.0
    ensures r.dpmo + 10000.0 * r.yieldPercent == 1000000.0
    ensures r.dpmo - 0.5 < r.dpmoRounded as real <= r.dpmo + 0.5
  {
    var chances := u * o;
    assert u != 0.0;
    var ratio := d / chances;
    var dpmo := ratio * 1000000.0;
    Ratios(d / u, dpmo, Round(dpmo), (1.0 - ratio) * 100.0)
  }

  /** `calculateMetrics()` over the latest records. The defect total is always reported. Without
      units or opportunities every ratio divides by zero, and the level's logarithm is infinite
      or `NaN`, so its square root is `NaN`. Otherwise the yield and the defects per million
      opportunities are two readings of the same ratio, so `dpmo + 10⁴·yield = 10⁶`. */
  function CalculateMetrics(m: MathLib.Math, ds: seq<Record>): (r: Metrics)
    requires MathLib.Lawful(m)
    ensures var t := TotalsOf(Latest(ds));
      r.defectsTotal == t.defects
    ensures var t := TotalsOf(Latest(ds));
      r.ratios.None? <==> t.Chances() == 0.0
    ensures var t := TotalsOf(Latest(ds));
      r.ratios.Some? ==> r.ratios.value == Rates(t.defects, t.units, t.opportunities)
    ensures r.ratios.Some? ==> r.sigma == SigmaLevel(m, r.ratios.value.dpmo)
    ensures r.ratios.None? ==> r.sigma == NotANumber
  {
    var t := TotalsOf(Latest(ds));
    if t.Chances() == 0.0 then Metrics(t.defects, None, NotANumber)
    else
      var ratios := Rates(t.defects, t.units, t.opportunities);
      Metrics(t.defects, Some(ratios), SigmaLevel(m, ratios.dpmo))
  }
}

=== FILE: processflow.dfy ===
/** The process-flow diagram editor: nodes added from a form at staggered positions, the
    selected node relabelled or deleted together with every edge that touches it. */
module ProcessFlow {

  import opened Common

  /** A node; `caption` is the text the source calls its label. */
  datatype Node = Node(id: string, kind: string, x: int, y: int, caption: string, description: string)

  datatype Edge = Edge(id: string, source: string, target: string)

  datatype Graph = Graph(nodes: seq<Node>, edges: seq<Edge>)

  /** The node form: the kind of node and its two texts. */
  datatype Form = Form(kind: string, caption: string, description: string)

  const BlankForm: Form := Form("process", "", "")

  /** The diagram a new editor shows: a start node and no edges. The start node has no
      description, shown as the empty text. */
  const Initial: Graph := Graph([Node("start", "start", 250, 0, "Inicio", "")], [])

  predicate HasNode(nodes: seq<Node>, id: string)
  {
    exists i :: 0 <= i < |nodes| && nodes[i].id == id
  }

  /** Every edge runs between nodes of the diagram. */
  predicate NoDangling(g: Graph)
  {
    forall j :: 0 <= j < |g.edges| ==> HasNode(g.nodes, g.edges[j].source) && HasNode(g.nodes, g.edges[j].target)
  }

  lemma InitialNoDangling()
    ensures NoDangling(Initial)
  {
  }

  /** `handleNodeSubmit`: one node is appended with the form's kind and texts, `100` further
      right and down for every node already there; the id comes from the clock. */
  function AddNode(g: Graph, form: Form, id: string): (r: Graph)
    ensures |r.nodes| == |g.nodes| + 1 && r.nodes[..|g.nodes|] == g.nodes && r.edges == g.edges
    ensures var n := r.nodes[|g.nodes|];
      && n.id == id && n.kind == form.kind && n.caption == form.caption && n.description == form.description
      && n.x == 100 * |g.nodes| + 100 && n.y == n.x
  {
    var n := |g.nodes|;
    var nodes := g.nodes + [Node(id, form.kind, n * 100 + 100, n * 100 + 100, form.caption, form.description)];
    assert nodes[..n] == g.nodes;
    g.(nodes := nodes)
  }

  /** Adding a node keeps every edge attached. */
  lemma AddKeepsEdgesAttached(g: Graph, form: Form, id: string)
    requires NoDangling(g)
    ensures NoDangling(AddNode(g, form, id))
  {
    var r := AddNode(g, form, id);
    forall j | 0 <= j < |r.edges| ensures HasNode(r.nodes, r.edges[j].source) && HasNode(r.nodes, r.edges[j].target) {
      var a :| 0 <= a < |g.nodes| && g.nodes[a].id == g.edges[j].source;
      var b :| 0 <= b < |g.nodes| && g.nodes[b].id == g.edges[j].target;
      assert r.nodes[a] == g.nodes[a] && r.nodes[b] == g.nodes[b];
    }
  }

  /** Two nodes with the same id, kind and position. */
  predicate SamePlace(a: Node, b: Node)
  {
    a.id == b.id && a.kind == b.kind && a.x == b.x && a.y == b.y
  }

  /** The node an update makes of `n`. */
  function Relabelled(n: Node, selected: string, form: Form): (m: Node)
    ensures n.id == selected ==> m == n.(caption := form.caption, description := form.description)
    ensures n.id != selected ==> m == n
  {
    if n.id == selected then n.(caption := form.caption, description := form.description) else n
  }

  /** `updateSelectedNode`: with no selection nothing changes; otherwise the selected node takes
      the form's texts and keeps its id, kind and position, and every other node stays. */
  function UpdateSelected(g: Graph, selected: Option<string>, form: Form): (r: Graph)
    ensures selected.None? ==> r == g
    ensures r.edges == g.edges && |r.nodes| == |g.nodes|
    ensures forall i :: 0 <= i < |g.nodes| ==> SamePlace(r.nodes[i], g.nodes[i])
    ensures selected.Some? ==> forall i :: 0 <= i < |g.nodes| && g.nodes[i].id != selected.value ==> r.nodes[i] == g.nodes[i]
    ensures selected.Some? ==> forall i :: 0 <= i < |g.nodes| && g.nodes[i].id == selected.value ==>
      r.nodes[i].caption == form.caption && r.nodes[i].description == form.description
  {
    match selected
    case None => g
    case Some(id) =>
      g.(nodes := seq(|g.nodes|, i requires 0 <= i < |g.nodes| => Relabelled(g.nodes[i], id, form)))
  }

  /** Relabelling keeps every edge attached. */
  lemma UpdateKeepsEdgesAttached(g: Graph, selected: Option<string>, form: Form)
    requires NoDangling(g)
    ensures NoDangling(UpdateSelected(g, selected, form))
  {
    var r := UpdateSelected(g, selected, form);
    forall j | 0 <= j < |r.edges| ensures HasNode(r.nodes, r.edges[j].source) && HasNode(r.nodes, r.edges[j].target) {
      var a :| 0 <= a < |g.nodes| && g.nodes[a].id == g.edges[j].source;
      var b :| 0 <= b < |g.nodes| && g.nodes[b].id == g.edges[j].target;
      assert r.nodes[a].id == g.nodes[a].id && r.nodes[b].id == g.nodes[b].id;
    }
  }

  function NodeIsNot(id: string): (p: Node -> bool)
    ensures forall n :: p(n) == (n.id != id)
  {
    (n: Node) => n.id != id
  }

  function Untouched(id: string): (p: Edge -> bool)
    ensures forall e :: p(e) == (e.source != id && e.target != id)
  {
    (e: Edge) => e.source != id && e.target != id
  }

  /** `deleteSelectedNode`: with no selection nothing changes; otherwise the selected node goes
      with every edge that starts or ends at it, and everything else stays in order. */
  function DeleteSelected(g: Graph, selected: Option<string>): (r: Graph)
    ensures selected.None? ==> r == g
    ensures selected.Some? ==> forall n :: n in r.nodes <==> n in g.nodes && n.id != selected.value
    ensures selected.Some? ==> forall e :: e in r.edges <==>
      e in g.edges && e.source != selected.value && e.target != selected.value
    ensures selected.Some? ==> KeepsInOrder(r.nodes, g.nodes, NodeIsNot(selected.value))
    ensures selected.Some? ==> KeepsInOrder(r.edges, g.edges, Untouched(selected.value))
  {
    match selected
    case None => g
    case Some(id) =>
      FilterSubsequence(g.nodes, NodeIsNot(id));
      FilterSubsequence(g.edges, Untouched(id));
      Graph(Filter(g.nodes, NodeIsNot(id)), Filter(g.edges, Untouched(id)))
  }

  /** Deleting a node leaves no edge dangling when none dangled before. */
  lemma DeleteKeepsEdgesAttached(g: Graph, selected: Option<string>)
    requires NoDangling(g)
    ensures NoDangling(DeleteSelected(g, selected))
  {
    if selected.Some? {
      KeptEdgesAttached(g, selected.value, DeleteSelected(g, selected));
    }
  }

  /** A graph that keeps the nodes other than `id` and only edges clear of `id` dangles
      nowhere when the original did not. */
  lemma KeptEdgesAttached(g: Graph, id: string, r: Graph)
    requires NoDangling(g)
    requires forall n :: n in r.nodes <==> n in g.nodes && n.id != id
    requires forall e :: e in r.edges ==> e in g.edges && e.source != id && e.target != id
    ensures NoDangling(r)
  {
    forall j | 0 <= j < |r.edges| ensures HasNode(r.nodes, r.edges[j].source) && HasNode(r.nodes, r.edges[j].target) {
      var e := r.edges[j];
      assert e in g.edges;
      var k :| 0 <= k < |g.edges| && g.edges[k] == e;
      StaysAttached(g.nodes, r.nodes, id, e);
    }
  }

  /** An edge whose ends survive a node delete still has both ends in the kept nodes. */
  lemma StaysAttached(nodes: seq<Node>, kept: seq<Node>, id: string, e: Edge)
    requires forall n :: n in kept <==> n in nodes && n.id != id
    requires HasNode(nodes, e.source) && HasNode(nodes, e.target)
    requires e.source != id && e.target != id
    ensures HasNode(kept, e.source) && HasNode(kept, e.target)
  {
    var a := NodeWithId(nodes, e.source);
    var b := NodeWithId(nodes, e.target);
    HasMember(kept, a);
    HasMember(kept, b);
  }

  /** A node of the list that carries `id`. */
  lemma NodeWithId(nodes: seq<Node>, id: string) returns (n: Node)
    requires HasNode(nodes, id)
    ensures n in nodes && n.id == id
  {
    var i :| 0 <= i < |nodes| && nodes[i].id == id;
    n := nodes[i];
  }

  lemma HasMember(nodes: seq<Node>, n: Node)
    requires n in nodes
    ensures HasNode(nodes, n.id)
  {
    var i :| 0 <= i < |nodes| && nodes[i] == n;
  }

  /** After a delete no node and no edge refers to the deleted id. */
  lemma DeleteLeavesNoTrace(g: Graph, id: string)
    ensures var r := DeleteSelected(g, Some(id));
      !HasNode(r.nodes, id) && forall e :: e in r.edges ==> e.source != id && e.target != id
  {
    var r := DeleteSelected(g, Some(id));
    forall i | 0 <= i < |r.nodes| ensures r.nodes[i].id != id {
      assert r.nodes[i] in r.nodes;
    }
  }

  /** The editor: the diagram, the node picked for editing and the node form. */
  datatype Editor = Editor(graph: Graph, selected: Option<string>, form: Form)

  const InitialEditor: Editor := Editor(Initial, None, BlankForm)

  /** `handleNodeClick`: the clicked node becomes the selection and the form shows its kind
      and texts. */
  function ClickNode(e: Editor, n: Node): (r: Editor)
    ensures r.graph == e.graph && r.selected == Some(n.id)
    ensures r.form.kind == n.kind && r.form.caption == n.caption && r.form.description == n.description
  {
    Editor(e.graph, Some(n.id), Form(n.kind, n.caption, n.description))
  }

  /** Submitting the update form: the selection is applied and cleared, the form blanked. */
  function SubmitUpdate(e: Editor): (r: Editor)
    ensures r.graph == UpdateSelected(e.graph, e.selected, e.form)
    ensures e.selected.Some? ==> r.selected.None? && r.form == BlankForm
    ensures e.selected.None? ==> r == e
  {
    match e.selected
    case None => e
    case Some(_) => Editor(UpdateSelected(e.graph, e.selected, e.form), None, BlankForm)
  }

  /** Clicking a node of the diagram and submitting the form untouched changes no node. */
  lemma ClickThenUpdateKeepsGraph(e: Editor, i: nat)
    requires i < |e.graph.nodes|
    requires forall a, b :: 0 <= a < b < |e.graph.nodes| ==> e.graph.nodes[a].id != e.graph.nodes[b].id
    ensures SubmitUpdate(ClickNode(e, e.graph.nodes[i])).graph == e.graph
  {
    var c := ClickNode(e, e.graph.nodes[i]);
    var r := SubmitUpdate(c);
    assert |r.graph.nodes| == |e.graph.nodes|;
    forall k | 0 <= k < |e.graph.nodes| ensures r.graph.nodes[k] == e.graph.nodes[k] {
      if e.graph.nodes[k].id == e.graph.nodes[i].id {
        assert k == i;
      }
    }
  }

  /** `deleteSelectedNode` on the editor: the selection goes and the form is left as it is. */
  function DeleteFromEditor(e: Editor): (r: Editor)
    ensures r.graph == DeleteSelected(e.graph, e.selected) && r.selected.None? && r.form == e.form
  {
    Editor(DeleteSelected(e.graph, e.selected), None, e.form)
  }

  /** `addNode(kind)`: the form is reset to the chosen kind with empty texts. */
  function StartAdd(e: Editor, kind: string): (r: Editor)
    ensures r.form == Form(kind, "", "") && r.graph == e.graph && r.selected == e.selected
  {
    e.(form := Form(kind, "", ""))
  }

  /** `handleNodeSubmit` on the editor: the node is added and the form blanked. */
  function SubmitNew(e: Editor, id: string): (r: Editor)
    ensures r.graph == AddNode(e.graph, e.form, id) && r.form == BlankForm && r.selected == e.selected
  {
    Editor(AddNode(e.graph, e.form, id), e.selected, BlankForm)
  }

  /** Every editing step keeps every edge attached. */
  lemma EditorKeepsEdgesAttached(e: Editor, n: Node, kind: string, id: string)
    requires NoDangling(e.graph)
    ensures NoDangling(SubmitUpdate(e).graph) && NoDangling(DeleteFromEditor(e).graph)
    ensures NoDangling(SubmitNew(e, id).graph) && NoDangling(ClickNode(e, n).graph)
    ensures NoDangling(StartAdd(e, kind).graph)
  {
    UpdateKeepsEdgesAttached(e.graph, e.selected, e.form);
    DeleteKeepsEdgesAttached(e.graph, e.selected);
    AddKeepsEdgesAttached(e.graph, e.form, id);
  }
}

=== FILE: reports.dfy ===
/** The report page: its defect and measurement lists with their add and remove handlers, and
    the Six Sigma summary computed from how many of each there are. */
module Reports {

  import opened Common

  datatype DefectDraft = DefectDraft(date: string, kind: string, description: string,
                                     severity: string, impact: string)

  datatype MeasurementDraft = MeasurementDraft(date: string, value: string, usl: string,
                                               lsl: string, target: string)

  /** A saved item is its draft with the clock's milliseconds as id. */
  datatype Defect = Defect(id: int, draft: DefectDraft)

  datatype Measurement = Measurement(id: int, draft: MeasurementDraft)

  datatype Report = Report(defects: seq<Defect>, measurements: seq<Measurement>)

  /** The drafts the forms are reset to after a save. */
  const BlankDefect: DefectDraft := DefectDraft("", "", "", "Baja", "")

  const BlankMeasurement: MeasurementDraft := MeasurementDraft("", "", "", "", "")

  /** A report with its form's draft. */
  datatype Page<D> = Page(report: Report, draft: D)

  /** `addDefect`: without a date and a type the page stays as it is (the user is alerted);
      otherwise exactly one defect is appended and the form is reset. */
  function AddDefect(r: Report, draft: DefectDraft, now: int): (p: Page<DefectDraft>)
    ensures draft.date == "" || draft.kind == "" ==> p == Page(r, draft)
    ensures draft.date != "" && draft.kind != "" ==>
      && |p.report.defects| == |r.defects| + 1
      && p.report.defects[..|r.defects|] == r.defects
      && p.report.defects[|r.defects|] == Defect(now, draft)
      && p.report.measurements == r.measurements
      && p.draft == BlankDefect
  {
    if draft.date == "" || draft.kind == "" then Page(r, draft)
    else
      var ds := r.defects + [Defect(now, draft)];
      assert ds[..|r.defects|] == r.defects;
      Page(r.(defects := ds), BlankDefect)
  }

  /** `addMedicion`: the same with a date and a value required. */
  function AddMeasurement(r: Report, draft: MeasurementDraft, now: int): (p: Page<MeasurementDraft>)
    ensures draft.date == "" || draft.value == "" ==> p == Page(r, draft)
    ensures draft.date != "" && draft.value != "" ==>
      && |p.report.measurements| == |r.measurements| + 1
      && p.report.measurements[..|r.measurements|] == r.measurements
      && p.report.measurements[|r.measurements|] == Measurement(now, draft)
      && p.report.defects == r.defects
      && p.draft == BlankMeasurement
  {
    if draft.date == "" || draft.value == "" then Page(r, draft)
    else
      var ms := r.measurements + [Measurement(now, draft)];
      assert ms[..|r.measurements|] == r.measurements;
      Page(r.(measurements := ms), BlankMeasurement)
  }

  function DefectId(d: Defect): int { d.id }

  function MeasurementId(m: Measurement): int { m.id }

  /** `item => item.id !== id`. */
  function IdIsNot<T(!new)>(idOf: T -> int, id: int): (p: T -> bool)
    ensures forall x :: p(x) == (idOf(x) != id)
  {
    x => idOf(x) != id
  }

  /** `items.filter(item => item.id !== id)`: every item with that id goes, every other item
      stays, in order. */
  function WithoutId<T(!new)>(items: seq<T>, idOf: T -> int, id: int): (r: seq<T>)
    ensures forall x :: x in r <==> x in items && idOf(x) != id
    ensures |r| == CountIf(items, IdIsNot(idOf, id))
    ensures IsSubsequence(r, items)
    ensures forall x :: idOf(x) != id ==> multiset(r)[x] == multiset(items)[x]
  {
    FilterSubsequence(items, IdIsNot(idOf, id));
    Filter(items, IdIsNot(idOf, id))
  }

  function RemoveDefect(r: Report, id: int): (r': Report)
    ensures r'.defects == WithoutId(r.defects, DefectId, id)
    ensures r'.measurements == r.measurements
  {
    r.(defects := WithoutId(r.defects, DefectId, id))
  }

  function RemoveMeasurement(r: Report, id: int): (r': Report)
    ensures r'.measurements == WithoutId(r.measurements, MeasurementId, id)
    ensures r'.defects == r.defects
  {
    r.(measurements := WithoutId(r.measurements, MeasurementId, id))
  }

  /** Removing the id a defect was just added under gives back the report, provided no earlier
      defect had that id. */
  lemma RemoveUndoesAddDefect(r: Report, draft: DefectDraft, now: int)
    requires draft.date != "" && draft.kind != ""
    requires forall i :: 0 <= i < |r.defects| ==> r.defects[i].id != now
    ensures RemoveDefect(AddDefect(r, draft, now).report, now) == r
  {
    var ds := AddDefect(r, draft, now).report.defects;
    assert ds == r.defects + [Defect(now, draft)];
    FilterDropsLast(r.defects, Defect(now, draft), IdIsNot(DefectId, now));
  }

  lemma RemoveUndoesAddMeasurement(r: Report, draft: MeasurementDraft, now: int)
    requires draft.date != "" && draft.value != ""
    requires forall i :: 0 <= i < |r.measurements| ==> r.measurements[i].id != now
    ensures RemoveMeasurement(AddMeasurement(r, draft, now).report, now) == r
  {
    var ms := AddMeasurement(r, draft, now).report.measurements;
    assert ms == r.measurements + [Measurement(now, draft)];
    FilterDropsLast(r.measurements, Measurement(now, draft), IdIsNot(MeasurementId, now));
  }

  /** The conversion table from defects per million to sigma level, worst first. */
  const SigmaTable: seq<(real, nat)> := [
    (933200.0, 1), (308538.0, 2), (66807.0, 3), (6210.0, 4), (320.0, 5), (3.4, 6)]

  /** `sigmaLevels.find(level => dpmo >= level.dpmo)?.sigma || 6` over a table suffix. */
  function FindSigma(table: seq<(real, nat)>, dpmo: real): (s: Option<nat>)
    ensures s.Some? <==> exists i :: 0 <= i < |table| && dpmo >= table[i].0
    ensures s.Some? ==> exists i :: 0 <= i < |table| && dpmo >= table[i].0 && s.value == table[i].1
  {
    if |table| == 0 then None
    else if dpmo >= table[0].0 then Some(table[0].1)
    else
      var rest := FindSigma(table[1..], dpmo);
      assert forall i :: 1 <= i < |table| ==> table[i] == table[1..][i - 1];
      rest
  }

  function TableSigma(dpmo: real): (s: nat)
    ensures 1 <= s <= 6
  {
    match FindSigma(SigmaTable, dpmo)
    case Some(v) => v
    case None => 6
  }

  /** The table read as thresholds: the level is the number of thresholds `dpmo` stays below,
      plus one, capped at 6. */
  function SigmaByThresholds(dpmo: real): nat
  {
    if dpmo >= 933200.0 then 1
    else if dpmo >= 308538.0 then 2
    else if dpmo >= 66807.0 then 3
    else if dpmo >= 6210.0 then 4
    else if dpmo >= 320.0 then 5
    else 6
  }

  /** The search and the thresholds agree on every input. */
  lemma TableSigmaIsThresholds(dpmo: real)
    ensures TableSigma(dpmo) == SigmaByThresholds(dpmo)
  {
    var t0 := SigmaTable;
    if dpmo < 933200.0 {
      var t1 := t0[1..];
      assert t1 == [(308538.0, 2), (66807.0, 3), (6210.0, 4), (320.0, 5), (3.4, 6)];
      assert FindSigma(t0, dpmo) == FindSigma(t1, dpmo);
      if dpmo < 308538.0 {
        var t2 := t1[1..];
        assert t2 == [(66807.0, 3), (6210.0, 4), (320.0, 5), (3.4, 6)];
        assert FindSigma(t1, dpmo) == FindSigma(t2, dpmo);
        if dpmo < 66807.0 {
          var t3 := t2[1..];
          assert t3 == [(6210.0, 4), (320.0, 5), (3.4, 6)];
          assert FindSigma(t2, dpmo) == FindSigma(t3, dpmo);
          if dpmo < 6210.0 {
            var t4 := t3[1..];
            assert t4 == [(320.0, 5), (3.4, 6)];
            assert FindSigma(t3, dpmo) == FindSigma(t4, dpmo);
            if dpmo < 320.0 {
              var t5 := t4[1..];
              assert t5 == [(3.4, 6)];
              assert FindSigma(t4, dpmo) == FindSigma(t5, dpmo);
            }
          }
        }
      }
    }
  }

  /** More defects per million never give a higher level. */
  lemma TableSigmaFalls(a: real, b: real)
    requires a <= b
    ensures TableSigma(b) <= TableSigma(a)
  {
    TableSigmaIsThresholds(a);
    TableSigmaIsThresholds(b);
  }

  datatype Summary = Summary(dpmo: real, yieldPercent: real, sigma: nat)

  /** `calculateSixSigmaMetrics` as written: `dpmo = D / (M · 10⁶) · 10⁶`, which is defects per
      measurement rather than per million, so a realistic ratio never reaches a table threshold. */
  function SummaryAsWritten(defects: nat, measurements: nat): (s: Summary)
    ensures measurements == 0 ==> s == Summary(0.0, 100.0, 6)
    ensures measurements > 0 ==> s.dpmo * (measurements as real) == defects as real
    ensures measurements > 0 ==> s.yieldPercent == ((measurements - defects) as real) / (measurements as real) * 100.0
    ensures s.sigma == TableSigma(s.dpmo)
  {
    var m, d := measurements as real, defects as real;
    var dpmo := if measurements > 0 then RateAsWritten(d, m) else 0.0;
    var yieldPercent := if measurements > 0 then (m - d) / m * 100.0 else 100.0;
    Summary(dpmo, yieldPercent, TableSigma(dpmo))
  }

  /** `D / (M · 10⁶) · 10⁶`: the million cancels, leaving defects per measurement. */
  function RateAsWritten(d: real, m: real): (x: real)
    requires m > 0.0
    ensures x * m == d
  {
    var q := d / (m * 1000000.0);
    assert q * (m * 1000000.0) == d;
    q * 1000000.0
  }

  /** As written, any report with fewer than 3.4 defects per measurement shows six sigma. */
  lemma AsWrittenAlwaysSix(defects: nat, measurements: nat)
    requires measurements > 0 && (defects as real) < 3.4 * (measurements as real)
    ensures SummaryAsWritten(defects, measurements).sigma == 6
  {
    var m, d := measurements as real, defects as real;
    var s := SummaryAsWritten(defects, measurements);
    BelowRate(s.dpmo, d, m);
    TableSigmaIsThresholds(s.dpmo);
  }

  lemma BelowRate(x: real, d: real, m: real)
    requires m > 0.0 && x * m == d && d < 3.4 * m
    ensures x < 3.4
  {
    assert (3.4 - x) * m > 0.0;
  }

  /** One defect in two measurements reads as a six-sigma process with a 50% yield. */
  lemma HalfDefectiveReadsSix()
    ensures SummaryAsWritten(1, 2) == Summary(0.5, 50.0, 6)
  {
    TableSigmaIsThresholds(0.5);
  }

  /** The intended summary: defects per million measurements, so that the rate and the yield
      describe the same fraction. */
  function Summarize(defects: nat, measurements: nat): (s: Summary)
    ensures measurements == 0 ==> s == Summary(0.0, 100.0, 6)
    ensures measurements > 0 ==> s.dpmo * (measurements as real) == (defects as real) * 1000000.0
    ensures measurements > 0 ==> s.dpmo + 10000.0 * s.yieldPercent == 1000000.0
    ensures s.sigma == TableSigma(s.dpmo)
  {
    var m, d := measurements as real, defects as real;
    if measurements == 0 then Summary(0.0, 100.0, 6)
    else
      var ratio := d / m;
      RateAndYield(d, m);
      Summary(ratio * 1000000.0, (m - d) / m * 100.0, TableSigma(ratio * 1000000.0))
  }

  /** With the intended rate one defect in two measurements is a two-sigma process, and a
      report never shows a higher level after another defect is recorded. */
  lemma SummarizeFalls(defects: nat, measurements: nat)
    requires measurements > 0
    ensures Summarize(defects + 1, measurements).sigma <= Summarize(defects, measurements).sigma
    ensures Summarize(1, 2).sigma == 2
  {
    var m, d := measurements as real, defects as real;
    var a, b := Summarize(defects, measurements).dpmo, Summarize(defects + 1, measurements).dpmo;
    assert a == d / m * 1000000.0;
    var d1 := (defects + 1) as real;
    assert b == d1 / m * 1000000.0;
    assert d1 == d + 1.0;
    MoreDefects(d, m);
    TableSigmaFalls(a, b);
    TableSigmaIsThresholds(500000.0);
  }

  /** Rate and yield of `d` defects in `m` measurements. */
  lemma RateAndYield(d: real, m: real)
    requires m > 0.0
    ensures (d / m * 1000000.0) * m == d * 1000000.0
    ensures d / m * 1000000.0 + 10000.0 * ((m - d) / m * 100.0) == 1000000.0
  {
    var q := d / m;
    assert q * m == d;
    assert (m - d) / m == m / m - d / m;
    assert m / m == 1.0;
  }

  lemma MoreDefects(d: real, m: real)
    requires m > 0.0
    ensures d / m * 1000000.0 <= (d + 1.0) / m * 1000000.0
  {
    assert (d + 1.0) / m == d / m + 1.0 / m;
  }
}

=== FILE: scatter.dfy ===
/** The scatter plots of two numeric columns: the points are the rows where both coordinates
    parse, the title carries the Pearson coefficient, and "show all" draws one plot for every
    pair of distinct numeric columns. */
module Scatter {

  import opened Common
  import opened Table
  import opened Stats
  import MathLib

  datatype Point = Point(x: real, y: real)

  /** The point a row contributes, when both `parseFloat(row[xColumn])` and
      `parseFloat(row[yColumn])` are numbers. */
  function PointOf(row: Row, xColumn: string, yColumn: string): (p: Option<Point>)
    ensures p.Some? <==> ParseCell(Get(row, xColumn)).Some? && ParseCell(Get(row, yColumn)).Some?
    ensures p.Some? ==> p.value.x == ParseCell(Get(row, xColumn)).value
    ensures p.Some? ==> p.value.y == ParseCell(Get(row, yColumn)).value
  {
    match (ParseCell(Get(row, xColumn)), ParseCell(Get(row, yColumn)))
    case (Some(x), Some(y)) => Some(Point(x, y))
    case _ => None
  }

  /** `PointOf` for fixed columns, as one function value. */
  function PointReader(xColumn: string, yColumn: string): (f: Row -> Option<Point>)
    ensures forall row :: f(row) == PointOf(row, xColumn, yColumn)
  {
    row => PointOf(row, xColumn, yColumn)
  }

  /** `data.reduce((acc, row) => { ...; if (both parse) acc.push({x, y}); return acc }, [])`. */
  function ValidPairs(data: seq<Row>, xColumn: string, yColumn: string): seq<Point>
  {
    if |data| == 0 then []
    else
      var acc := ValidPairs(data[..|data| - 1], xColumn, yColumn);
      match PointOf(data[|data| - 1], xColumn, yColumn)
      case Some(p) => acc + [p]
      case None => acc
  }

  /** The accumulated points are exactly the present points of the rows, in row order: one per
      row whose two cells parse, each taken from such a row. */
  lemma {:induction false} ValidPairsAreRowPoints(data: seq<Row>, xColumn: string, yColumn: string)
    ensures ValidPairs(data, xColumn, yColumn) == FilterMap(data, PointReader(xColumn, yColumn))
    decreases |data|
  {
    if |data| > 0 {
      var f := PointReader(xColumn, yColumn);
      var init, last := data[..|data| - 1], data[|data| - 1];
      ValidPairsAreRowPoints(init, xColumn, yColumn);
      FilterMapLast(data, f);
    }
  }

  /** The row's two cells read as the point's coordinates. */
  predicate Reads(row: Row, xColumn: string, yColumn: string, p: Point)
  {
    ParseCell(Get(row, xColumn)) == Some(p.x) && ParseCell(Get(row, yColumn)) == Some(p.y)
  }

  /** Every point comes from a row whose two cells read as its coordinates. */
  lemma PointsFromRows(data: seq<Row>, xColumn: string, yColumn: string)
    ensures var ps := ValidPairs(data, xColumn, yColumn);
      && |ps| <= |data|
      && forall k :: 0 <= k < |ps| ==> exists i :: 0 <= i < |data| && Reads(data[i], xColumn, yColumn, ps[k])
  {
    var ps := ValidPairs(data, xColumn, yColumn);
    ValidPairsAreRowPoints(data, xColumn, yColumn);
    FilterMapAtMost(data, PointReader(xColumn, yColumn));
    forall k | 0 <= k < |ps| ensures exists i :: 0 <= i < |data| && Reads(data[i], xColumn, yColumn, ps[k]) {
      assert ps[k] in ps;
      var i :| 0 <= i < |data| && PointReader(xColumn, yColumn)(data[i]) == Some(ps[k]);
      assert PointOf(data[i], xColumn, yColumn) == Some(ps[k]);
    }
  }

  function Xs(ps: seq<Point>): (xs: seq<real>)
    ensures |xs| == |ps| && forall k :: 0 <= k < |ps| ==> xs[k] == ps[k].x
  {
    Map(ps, (p: Point) => p.x)
  }

  function Ys(ps: seq<Point>): (ys: seq<real>)
    ensures |ys| == |ps| && forall k :: 0 <= k < |ps| ==> ys[k] == ps[k].y
  {
    Map(ps, (p: Point) => p.y)
  }

  /** `calculateCorrelation(xValues, yValues)`: (n·Σxy − Σx·Σy) / √((n·Σx² − (Σx)²)(n·Σy² − (Σy)²)),
      and 0 when that square root is 0. The coefficient lies in [−1, 1]. */
  function Correlation(m: MathLib.Math, xs: seq<real>, ys: seq<real>): (r: real)
    requires MathLib.Lawful(m) && |xs| == |ys|
    ensures -1.0 <= r <= 1.0
    ensures m.sqrt(Spread(xs) * Spread(ys)) == 0.0 ==> r == 0.0
    ensures m.sqrt(Spread(xs) * Spread(ys)) != 0.0 ==>
      Quotient(r, CoSpread(xs, ys), m.sqrt(Spread(xs) * Spread(ys)))
  {
    CauchySchwarz(xs, ys);
    GuardedRatio(m, Spread(xs), Spread(ys), CoSpread(xs, ys))
  }

  /** `q` is `num / den`: multiplied back by the denominator it gives the numerator. */
  predicate Quotient(q: real, num: real, den: real)
  {
    q * den == num
  }

  /** `den === 0 ? 0 : c / den` with den = √(ab): for c² ≤ ab the quotient lies in [−1, 1]. */
  function GuardedRatio(m: MathLib.Math, a: real, b: real, c: real): (r: real)
    requires MathLib.Lawful(m) && Bounded(a, b, c)
    ensures -1.0 <= r <= 1.0
    ensures m.sqrt(a * b) == 0.0 ==> r == 0.0
    ensures m.sqrt(a * b) != 0.0 ==> Quotient(r, c, m.sqrt(a * b))
  {
    var den := m.sqrt(a * b);
    if den == 0.0 then 0.0
    else
      MathLib.MulLeft(a, 0.0, b);
      MathLib.AbsAtMostSqrt(m, c, a * b);
      DivBetween(c, den, -1.0, 1.0);
      c / den
  }

  /** The denominator vanishes exactly when one of the two columns has no spread (all of its
      values equal, or a single point). */
  lemma ZeroDenominator(m: MathLib.Math, xs: seq<real>, ys: seq<real>)
    requires MathLib.Lawful(m) && |xs| == |ys|
    ensures m.sqrt(Spread(xs) * Spread(ys)) == 0.0 <==> Spread(xs) == 0.0 || Spread(ys) == 0.0
  {
    SpreadNonNegative(xs);
    SpreadNonNegative(ys);
    RootOfProduct(m, Spread(xs), Spread(ys));
  }

  /** √(ab) = 0 exactly when a = 0 or b = 0, for non-negative a and b. */
  lemma RootOfProduct(m: MathLib.Math, a: real, b: real)
    requires MathLib.Lawful(m) && a >= 0.0 && b >= 0.0
    ensures m.sqrt(a * b) == 0.0 <==> a == 0.0 || b == 0.0
  {
    MathLib.MulLeft(a, 0.0, b);
    var den := m.sqrt(a * b);
    assert den >= 0.0 && den * den == a * b;
    if den > 0.0 {
      MathLib.SquareStrict(0.0, den);
    }
    if a > 0.0 && b > 0.0 {
      assert a * 0.0 < a * b;
    }
  }

  datatype Plot = Plot(points: seq<Point>, r: real)

  /** `generateScatterPlot(xColumn, yColumn)`: nothing when no row has both coordinates. */
  function ScatterPlot(m: MathLib.Math, data: seq<Row>, xColumn: string, yColumn: string): (p: Option<Plot>)
    requires MathLib.Lawful(m)
    ensures p.None? <==> ValidPairs(data, xColumn, yColumn) == []
    ensures p.Some? ==> p.value.points == ValidPairs(data, xColumn, yColumn)
    ensures p.Some? ==> -1.0 <= p.value.r <= 1.0
  {
    var ps := ValidPairs(data, xColumn, yColumn);
    if |ps| == 0 then None
    else Some(Plot(ps, Correlation(m, Xs(ps), Ys(ps))))
  }

  /** The column pairs the nested loops `for i … for j = i + 1 …` visit, in visiting order. */
  function ColumnPairs(cols: seq<string>): (r: seq<(string, string)>)
    ensures 2 * |r| == |cols| * (|cols| - 1)
  {
    if |cols| == 0 then []
    else Map(cols[1..], (c: string) => (cols[0], c)) + ColumnPairs(cols[1..])
  }

  /** Every visited pair is two columns in their order, the first before the second. */
  lemma {:induction false} PairsOrdered(cols: seq<string>)
    ensures forall q :: q in ColumnPairs(cols) ==> exists i, j :: 0 <= i < j < |cols| && q == (cols[i], cols[j])
    decreases |cols|
  {
    if |cols| > 0 {
      var head := Map(cols[1..], (c: string) => (cols[0], c));
      var rest := ColumnPairs(cols[1..]);
      PairsOrdered(cols[1..]);
      forall q | q in ColumnPairs(cols) ensures exists i, j :: 0 <= i < j < |cols| && q == (cols[i], cols[j]) {
        if q in head {
          var j :| 0 <= j < |head| && head[j] == q;
          assert q == (cols[0], cols[j + 1]);
        } else {
          assert q in rest;
          var i, j :| 0 <= i < j < |cols| - 1 && q == (cols[1..][i], cols[1..][j]);
          assert q == (cols[i + 1], cols[j + 1]);
        }
      }
    }
  }

  /** Every two columns, the first before the second, are visited. */
  lemma {:induction false} PairsComplete(cols: seq<string>)
    ensures forall i, j :: 0 <= i < j < |cols| ==> (cols[i], cols[j]) in ColumnPairs(cols)
    decreases |cols|
  {
    if |cols| > 0 {
      var head := Map(cols[1..], (c: string) => (cols[0], c));
      var rest := ColumnPairs(cols[1..]);
      PairsComplete(cols[1..]);
      forall i, j | 0 <= i < j < |cols| ensures (cols[i], cols[j]) in ColumnPairs(cols) {
        if i == 0 {
          assert head[j - 1] == (cols[0], cols[j]);
        } else {
          assert (cols[1..][i - 1], cols[1..][j - 1]) in rest;
        }
      }
    }
  }

  /** With distinct column names no pair plots a column against itself. */
  lemma NoSelfPairs(cols: seq<string>)
    requires Distinct(cols)
    ensures forall q :: q in ColumnPairs(cols) ==> q.0 != q.1
  {
    PairsOrdered(cols);
  }

  /** The plot of one visited pair, when it has points. */
  function PairPlot(m: MathLib.Math, data: seq<Row>): (f: ((string, string)) -> Option<Plot>)
    requires MathLib.Lawful(m)
    ensures forall q :: f(q) == ScatterPlot(m, data, q.0, q.1)
  {
    (q: (string, string)) => ScatterPlot(m, data, q.0, q.1)
  }

  /** `generateAllScatterPlots()`: one plot per visited pair that has points, so at most
      k(k − 1)/2 plots for k numeric columns. */
  function AllPlots(m: MathLib.Math, data: seq<Row>): (plots: seq<Plot>)
    requires MathLib.Lawful(m)
    ensures var k := |NumericColumns(data)|; 2 * |plots| <= k * (k - 1)
  {
    var pairs := ColumnPairs(NumericColumns(data));
    FilterMapAtMost(pairs, PairPlot(m, data));
    FilterMap(pairs, PairPlot(m, data))
  }

  /** Every plot drawn has points and a coefficient in [−1, 1]. */
  lemma AllPlotsBounded(m: MathLib.Math, data: seq<Row>)
    requires MathLib.Lawful(m)
    ensures forall p :: p in AllPlots(m, data) ==> |p.points| > 0 && -1.0 <= p.r <= 1.0
  {
  }

  /** The columns chosen on first display: with two or more numeric columns an unset choice
      takes the first (for X) or second (for Y) numeric column; a set choice is kept. */
  function DefaultSelection(selectedX: string, selectedY: string, cols: seq<string>): (r: (string, string))
    ensures selectedX != "" ==> r.0 == selectedX
    ensures selectedY != "" ==> r.1 == selectedY
    ensures |cols| >= 2 && selectedX == "" ==> r.0 == cols[0]
    ensures |cols| >= 2 && selectedY == "" ==> r.1 == cols[1]
    ensures |cols| < 2 ==> r == (selectedX, selectedY)
  {
    if (selectedX == "" || selectedY == "") && |cols| >= 2 then
      (if selectedX == "" then cols[0] else selectedX, if selectedY == "" then cols[1] else selectedY)
    else (selectedX, selectedY)
  }
}

=== FILE: sigma.dfy ===
/** The sigma-level formula two views share, `0.8406 + Math.sqrt(29.37 - 2.221 * Math.log(dpmo))`,
    with the three kinds of value it gives in floating point: a number, `Infinity` (a process
    without defects, where the logarithm is `-Infinity`) and `NaN` (a negative `dpmo`, or one so
    large that the square root is of a negative number). */
module Sigma {

  import MathLib

  datatype Level = Finite(v: real) | Infinite | NotANumber

  /** `29.37 - 2.221 * Math.log(dpmo)`. */
  function Radicand(m: MathLib.Math, dpmo: real): real
  {
    29.37 - 2.221 * m.ln(dpmo)
  }

  /** The sigma level of `dpmo` defects per million opportunities. */
  function SigmaLevel(m: MathLib.Math, dpmo: real): (s: Level)
    requires MathLib.Lawful(m)
    ensures s.Infinite? <==> dpmo == 0.0
    ensures s.NotANumber? <==> dpmo < 0.0 || (dpmo > 0.0 && Radicand(m, dpmo) < 0.0)
    ensures s.Finite? ==> s.v >= 0.8406 && (s.v - 0.8406) * (s.v - 0.8406) == Radicand(m, dpmo)
  {
    if dpmo == 0.0 then Infinite
    else if dpmo < 0.0 || Radicand(m, dpmo) < 0.0 then NotANumber
    else
      var root := m.sqrt(Radicand(m, dpmo));
      assert root >= 0.0 && root * root == Radicand(m, dpmo);
      Finite(0.8406 + root)
  }

  /** More defects per million never give a higher level: along increasing positive `dpmo` the
      level is finite and falling up to some point, and `NaN` from there on. */
  lemma SigmaFalls(m: MathLib.Math, a: real, b: real)
    requires MathLib.Lawful(m) && 0.0 < a <= b
    ensures SigmaLevel(m, b).Finite? ==> SigmaLevel(m, a).Finite? && SigmaLevel(m, b).v <= SigmaLevel(m, a).v
    ensures SigmaLevel(m, a).NotANumber? ==> SigmaLevel(m, b).NotANumber?
  {
    assert m.ln(a) <= m.ln(b);
    RadicandFalls(m.ln(a), m.ln(b));
    if SigmaLevel(m, b).Finite? {
      MathLib.SqrtMonotone(m, Radicand(m, b), Radicand(m, a));
    }
  }

  lemma RadicandFalls(x: real, y: real)
    requires x <= y
    ensures 29.37 - 2.221 * y <= 29.37 - 2.221 * x
  {
  }
}

=== FILE: sixsigma.dfy ===
/** The Six Sigma calculator page: defects, units and opportunities typed in as text, the
    derived rates, the sigma doughnut and the verbal interpretation of the sigma level. */
module SixSigma {

  import opened Common
  import opened NumParse
  import opened Sigma
  import MathLib

  datatype Inputs = Inputs(defects: string, units: string, opportunities: string)

  /** The computed rates. A rate that comes out infinite or `NaN` is absent; the sigma level
      keeps the three kinds of value the formula gives. */
  datatype Results = Results(dpu: Option<real>, dpm: Option<real>, rty: Option<real>,
                             dpmo: Option<real>, yieldPercent: Option<real>, sigma: Level)

  /** What `NaN` everywhere looks like: no rate and a `NaN` level. */
  const NoResults: Results := Results(None, None, None, None, None, NotANumber)

  /** The rates that need only the defects `d` and the units `u`: `dpu = d/u`,
      `dpm = dpu·10⁶` and `rty = exp(−dpu)·100`; the others are `NaN`. With `u = 0` the
      quotient is infinite or `NaN`. The one finite rate of zero units is rty for positive
      defects: `dpu` is `Infinity` and `exp(−Infinity)·100` is 0. */
  function UnitRates(m: MathLib.Math, d: real, u: real): (r: Results)
    ensures r.dpu.Some? <==> u != 0.0
    ensures r.dpm.Some? <==> u != 0.0
    ensures r.rty.Some? <==> u != 0.0 || d > 0.0
    ensures u == 0.0 && d > 0.0 ==> r.rty == Some(0.0)
    ensures r.dpu.Some? ==> r.dpu.value * u == d && r.dpm.value == r.dpu.value * 1000000.0
    ensures r.dpu.Some? ==> r.rty.value == m.exp(-r.dpu.value) * 100.0
    ensures r.dpmo.None? && r.yieldPercent.None? && r.sigma == NotANumber
  {
    var perUnit := if u != 0.0 then Some(d / u) else None;
    Results(perUnit, Scaled(perUnit), Rty(m, d, u), None, None, NotANumber)
  }

  /** The rates of `d` defects over `u` units with `o` opportunities each: the unit rates, and
      `dpmo = d/(u·o)·10⁶` and `yield = (1 − d/(u·o))·100` with the level they give. With
      `u·o = 0` the quotient is infinite or `NaN`, and so is the sigma level's square root. */
  function Compute(m: MathLib.Math, d: real, u: real, o: real): (r: Results)
    requires MathLib.Lawful(m)
    ensures r.dpu == UnitRates(m, d, u).dpu && r.dpm == UnitRates(m, d, u).dpm
    ensures r.rty == UnitRates(m, d, u).rty
    ensures r.dpmo.Some? <==> u * o != 0.0
    ensures r.yieldPercent.Some? <==> u * o != 0.0
    ensures r.dpmo.Some? ==> r.dpmo.value * (u * o) == d * 1000000.0
    ensures r.dpmo.Some? ==> r.dpmo.value + 10000.0 * r.yieldPercent.value == 1000000.0
    ensures r.dpmo.Some? ==> r.sigma == SigmaLevel(m, r.dpmo.value)
    ensures r.dpmo.None? ==> r.sigma == NotANumber
  {
    var chances := u * o;
    if chances == 0.0 then UnitRates(m, d, u)
    else
      var ratio := d / chances;
      UnitRates(m, d, u).(dpmo := Some(ratio * 1000000.0), yieldPercent := Some((1.0 - ratio) * 100.0),
                          sigma := SigmaLevel(m, ratio * 1000000.0))
  }

  function Scaled(x: Option<real>): (r: Option<real>)
    ensures r.Some? <==> x.Some?
    ensures x.Some? ==> r.value == x.value * 1000000.0
  {
    match x
    case Some(v) => Some(v * 1000000.0)
    case None => None
  }

  /** `Math.exp(-dpu) * 100` for `dpu = d / u`. With no units the quotient is `Infinity` for
      positive defects, whose yield is 0, `-Infinity` for negative ones, whose yield is
      `Infinity`, and `NaN` for none; the last two are absent. */
  function Rty(m: MathLib.Math, d: real, u: real): (r: Option<real>)
    ensures r.Some? <==> u != 0.0 || d > 0.0
    ensures u != 0.0 ==> r.value == m.exp(-(d / u)) * 100.0
    ensures u == 0.0 && d > 0.0 ==> r.value == 0.0
  {
    if u != 0.0 then Some(m.exp(-(d / u)) * 100.0)
    else if d > 0.0 then Some(0.0)
    else None
  }

  /** `calculateMetrics()`: nothing happens until all three fields are filled in. Each rate is
      computed from its own operands, so a field that is not a number makes `NaN` of exactly
      the rates that use it: the opportunities only dpmo, the yield and the level; the defects
      or the units every rate. */
  function Calculate(m: MathLib.Math, inputs: Inputs): (r: Option<Results>)
    requires MathLib.Lawful(m)
    ensures r.None? <==> inputs.defects == "" || inputs.units == "" || inputs.opportunities == ""
    ensures r.Some? ==>
      var d, u, o := ParseNum(inputs.defects), ParseNum(inputs.units), ParseNum(inputs.opportunities);
      && (d.Some? && u.Some? && o.Some? ==> r.value == Compute(m, d.value, u.value, o.value))
      && (d.Some? && u.Some? && o.None? ==> r.value == UnitRates(m, d.value, u.value))
      && (d.None? || u.None? ==> r.value == NoResults)
  {
    if inputs.defects == "" || inputs.units == "" || inputs.opportunities == "" then None
    else
      match (ParseNum(inputs.defects), ParseNum(inputs.units), ParseNum(inputs.opportunities))
      case (Some(d), Some(u), Some(o)) => Some(Compute(m, d, u, o))
      case (Some(d), Some(u), None) => Some(UnitRates(m, d, u))
      case _ => Some(NoResults)
  }

  /** Opportunities that are no number leave dpu, dpm and rty as the defects and units give
      them: with units other than 0 they are finite, and only dpmo, the yield and the level are
      `NaN`. */
  lemma OpportunitiesOnlyBlankTheirRates(m: MathLib.Math, inputs: Inputs, d: real, u: real)
    requires MathLib.Lawful(m)
    requires inputs.defects != "" && inputs.units != "" && inputs.opportunities != ""
    requires ParseNum(inputs.defects) == Some(d) && ParseNum(inputs.units) == Some(u) && u != 0.0
    requires ParseNum(inputs.opportunities).None?
    ensures var r := Calculate(m, inputs).value;
      && r.dpu == Some(d / u) && r.dpm == Some(d / u * 1000000.0)
      && r.rty == Some(m.exp(-(d / u)) * 100.0)
      && r.dpmo.None? && r.yieldPercent.None? && r.sigma == NotANumber
  {
    assert Calculate(m, inputs) == Some(UnitRates(m, d, u));
    NonzeroUnitRates(m, d, u);
  }

  lemma NonzeroUnitRates(m: MathLib.Math, d: real, u: real)
    requires u != 0.0
    ensures UnitRates(m, d, u) ==
      Results(Some(d / u), Some(d / u * 1000000.0), Some(m.exp(-(d / u)) * 100.0), None, None, NotANumber)
  {
  }

  /** Defects per million units are the defects per million opportunities times the
      opportunities per unit. */
  lemma DpmPerOpportunity(m: MathLib.Math, d: real, u: real, o: real)
    requires MathLib.Lawful(m) && u * o != 0.0
    ensures var r := Compute(m, d, u, o);
      r.dpm.value == o * r.dpmo.value
  {
    var r := Compute(m, d, u, o);
    assert u != 0.0 && o != 0.0;
    PerUnit(d, u, o, r.dpu.value, r.dpmo.value);
  }

  lemma PerUnit(d: real, u: real, o: real, dpu: real, dpmo: real)
    requires u != 0.0 && o != 0.0 && dpu * u == d && dpmo * (u * o) == d * 1000000.0
    ensures dpu * 1000000.0 == o * dpmo
  {
    assert (dpu * 1000000.0) * u == (o * dpmo) * u;
  }

  /** For a plausible count (positive units and opportunities, between none and every
      opportunity defective) the yield is a percentage and dpmo at most a million. */
  lemma RatesInRange(m: MathLib.Math, d: real, u: real, o: real)
    requires MathLib.Lawful(m) && u > 0.0 && o > 0.0 && 0.0 <= d <= u * o
    ensures var r := Compute(m, d, u, o);
      && 0.0 <= r.yieldPercent.value <= 100.0
      && 0.0 <= r.dpmo.value <= 1000000.0
  {
    var r := Compute(m, d, u, o);
    assert u * o > 0.0;
    Fraction(d, u * o, r.dpmo.value);
  }

  lemma Fraction(d: real, c: real, x: real)
    requires c > 0.0 && 0.0 <= d <= c && x * c == d * 1000000.0
    ensures 0.0 <= x <= 1000000.0
  {
    assert (1000000.0 - x) * c == 1000000.0 * (c - d);
    PositiveFactor(x, c);
    PositiveFactor(1000000.0 - x, c);
  }

  lemma PositiveFactor(a: real, c: real)
    requires c > 0.0 && a * c >= 0.0
    ensures a >= 0.0
  {
  }

  /** The rolled throughput yield is a positive percentage for a non-negative dpu, using only
      that `exp` is positive and at most 1 on the non-positive reals. */
  lemma RtyInRange(m: MathLib.Math, d: real, u: real, o: real)
    requires MathLib.Lawful(m) && u != 0.0
    requires Compute(m, d, u, o).dpu.value >= 0.0
    ensures 0.0 < Compute(m, d, u, o).rty.value <= 100.0
  {
    var dpu := Compute(m, d, u, o).dpu.value;
    assert m.exp(-dpu) > 0.0 && m.exp(-dpu) <= 1.0;
  }

  /** Units typed as "0" pass the calculator's guard, since "0" is a non-empty text: with
      defects that read as a positive number the rolled throughput yield is shown as 0, while
      dpu, dpm, dpmo and the yield are not finite and the level is `NaN`. */
  lemma ZeroUnitsRty(m: MathLib.Math, inputs: Inputs, d: real)
    requires MathLib.Lawful(m)
    requires inputs.defects != "" && inputs.units != "" && inputs.opportunities != ""
    requires ParseNum(inputs.defects) == Some(d) && d > 0.0
    requires ParseNum(inputs.units) == Some(0.0) && ParseNum(inputs.opportunities).Some?
    ensures var r := Calculate(m, inputs);
      && r.Some? && r.value.rty == Some(0.0)
      && r.value.dpu.None? && r.value.dpm.None? && r.value.dpmo.None? && r.value.sigma == NotANumber
  {
    var o := ParseNum(inputs.opportunities).value;
    assert Calculate(m, inputs) == Some(Compute(m, d, 0.0, o));
    assert Compute(m, d, 0.0, o).rty == UnitRates(m, d, 0.0).rty;
  }

  /** The texts "1" and "0" read as 1 and 0, so one defect over units "0" is such a case. */
  lemma OneAndZero()
    ensures ParseNum("1") == Some(1.0) && ParseNum("0") == Some(0.0)
  {
    assert AllDigits("1") && DigitsValue("1") == 1 by {
      assert DigitsValue("1"[..0]) == 0;
    }
    assert AllDigits("0") && DigitsValue("0") == 0 by {
      assert DigitsValue("0"[..0]) == 0;
    }
    PlainDigits("1", 1.0);
    PlainDigits("0", 0.0);
  }

  /** `x.toFixed(2)` read back with `parseFloat`, on exact numbers: the nearest multiple of
      one hundredth, halves rounded away from zero. */
  function Round2(x: real): (r: real)
    ensures IsHundredths(r)
    ensures -0.005 <= r - x <= 0.005
    ensures x >= 0.0 ==> r >= 0.0
  {
    if x >= 0.0 then RoundUp2(x)
    else
      var r := RoundUp2(-x);
      NegatedHundredths(r);
      -r
  }

  lemma NegatedHundredths(r: real)
    requires IsHundredths(r)
    ensures IsHundredths(-r)
  {
    var k := (r * 100.0).Floor;
    assert (-r) * 100.0 == (-k) as real;
  }

  /** `r` is a whole number of hundredths. */
  predicate IsHundredths(r: real)
  {
    (r * 100.0).Floor as real == r * 100.0
  }

  /** The rounding of a non-negative number: ⌊100x + ½⌋ / 100. */
  function RoundUp2(x: real): (r: real)
    requires x >= 0.0
    ensures IsHundredths(r) && r >= 0.0
    ensures -0.005 < r - x <= 0.005
  {
    var k := (x * 100.0 + 0.5).Floor;
    var r := k as real / 100.0;
    assert r * 100.0 == k as real;
    r
  }

  /** Rounding never reverses an order. */
  lemma Round2Monotone(x: real, y: real)
    requires x <= y
    ensures Round2(x) <= Round2(y)
  {
    if 0.0 <= x {
      assert (x * 100.0 + 0.5).Floor <= (y * 100.0 + 0.5).Floor;
    } else if y < 0.0 {
      assert (-y * 100.0 + 0.5).Floor <= (-x * 100.0 + 0.5).Floor;
    }
  }

  /** The level as the page stores it, `sigmaLevel.toFixed(2)`, and reads it back with
      `parseFloat`: a finite level is rounded to hundredths; `Infinity` and `NaN` print as words
      that read back as themselves. */
  function Shown(sigma: Level): (r: Level)
    ensures r.Finite? <==> sigma.Finite?
    ensures sigma.Finite? ==> r.v == Round2(sigma.v)
    ensures !sigma.Finite? ==> r == sigma
  {
    match sigma
    case Finite(v) => Finite(Round2(v))
    case _ => sigma
  }

  /** `getChartData()`: the stored level and what is left to six; a level that is not a finite
      number draws nothing meaningful. */
  function ChartParts(sigma: Level): (r: Option<(real, real)>)
    ensures r.Some? <==> sigma.Finite?
    ensures r.Some? ==> r.value.0 == Round2(sigma.v) && r.value.0 + r.value.1 == 6.0
    ensures r.Some? ==> -0.005 <= r.value.0 - sigma.v <= 0.005
  {
    match Shown(sigma)
    case Finite(v) => Some((v, 6.0 - v))
    case _ => None
  }

  /** The four verbal bands, worst first. */
  datatype Band = NeedsImprovement | AboveAverage | WellManaged | Excellent

  function Rank(b: Band): nat
  {
    match b
    case NeedsImprovement => 0
    case AboveAverage => 1
    case WellManaged => 2
    case Excellent => 3
  }

  /** The band of a numeric level: below 3, from 3 to 4, from 4 to 5, and 5 or above. */
  function BandOf(v: real): (b: Band)
    ensures b == NeedsImprovement <==> v < 3.0
    ensures b == AboveAverage <==> 3.0 <= v < 4.0
    ensures b == WellManaged <==> 4.0 <= v < 5.0
    ensures b == Excellent <==> 5.0 <= v
  {
    if v < 3.0 then NeedsImprovement
    else if v < 4.0 then AboveAverage
    else if v < 5.0 then WellManaged
    else Excellent
  }

  /** A higher level never reads worse. */
  lemma BandMonotone(v: real, w: real)
    requires v <= w
    ensures Rank(BandOf(v)) <= Rank(BandOf(w))
  {
  }

  /** `getInterpretation` as written: no text before the first calculation; afterwards the
      stored level is banded, and every comparison with `NaN` is false, so `NaN` falls through
      to the top band, as `Infinity` does. */
  function InterpretAsWritten(shown: Option<Results>): (b: Option<Band>)
    ensures b.None? <==> shown.None?
    ensures shown.Some? && shown.value.sigma.Finite? ==> b == Some(BandOf(Round2(shown.value.sigma.v)))
    ensures shown.Some? && !shown.value.sigma.Finite? ==> b == Some(Excellent)
  {
    match shown
    case None => None
    case Some(r) =>
      match Shown(r.sigma)
      case Finite(v) => Some(BandOf(v))
      case _ => Some(Excellent)
  }

  /** The band is that of the rounded level: a level just under a boundary, from 2.995 on,
      reads as the band above it. */
  lemma RoundingLiftsBand(v: real)
    requires 2.995 <= v < 3.0
    ensures BandOf(v) == NeedsImprovement
    ensures BandOf(Round2(v)) == AboveAverage
  {
    assert (v * 100.0 + 0.5).Floor == 300;
  }

  /** A process with so many defects that the sigma formula has no real value reads as
      excellent, while a process with fewer defects reads as needing improvement. */
  lemma WorseProcessReadsExcellent(m: MathLib.Math, a: real, b: real)
    requires MathLib.Lawful(m) && 0.0 < a < b
    requires SigmaLevel(m, a).Finite? && SigmaLevel(m, a).v < 2.995
    requires Radicand(m, b) < 0.0
    ensures InterpretAsWritten(Some(Results(None, None, None, Some(b), None, SigmaLevel(m, b)))) == Some(Excellent)
    ensures InterpretAsWritten(Some(Results(None, None, None, Some(a), None, SigmaLevel(m, a)))) == Some(NeedsImprovement)
  {
  }

  /** The band the page means to show for `dpmo` defects per million: a level too low for
      the formula's square root is the worst band, not the best. */
  function IntendedBand(m: MathLib.Math, dpmo: real): (b: Band)
    requires MathLib.Lawful(m) && dpmo >= 0.0
    ensures SigmaLevel(m, dpmo).Finite? ==> b == BandOf(Round2(SigmaLevel(m, dpmo).v))
    ensures dpmo == 0.0 ==> b == Excellent
    ensures dpmo > 0.0 && Radicand(m, dpmo) < 0.0 ==> b == NeedsImprovement
  {
    match SigmaLevel(m, dpmo)
    case Finite(v) => BandOf(Round2(v))
    case Infinite => Excellent
    case NotANumber => NeedsImprovement
  }

  /** With the intended reading, more defects never give a better band. */
  lemma IntendedBandFalls(m: MathLib.Math, a: real, b: real)
    requires MathLib.Lawful(m) && 0.0 <= a <= b
    ensures Rank(IntendedBand(m, b)) <= Rank(IntendedBand(m, a))
  {
    if a > 0.0 {
      SigmaFalls(m, a, b);
      if SigmaLevel(m, b).Finite? {
        Round2Monotone(SigmaLevel(m, b).v, SigmaLevel(m, a).v);
        BandMonotone(Round2(SigmaLevel(m, b).v), Round2(SigmaLevel(m, a).v));
      }
    }
  }

  /** The intended interpretation of what the page shows. */
  function Interpret(m: MathLib.Math, shown: Option<Results>): (b: Option<Band>)
    requires MathLib.Lawful(m)
    ensures b.None? <==> shown.None? || shown.value.dpmo.None? || shown.value.dpmo.value < 0.0
    ensures b.Some? ==> b.value == IntendedBand(m, shown.value.dpmo.value)
  {
    match shown
    case Some(r) =>
      if r.dpmo.Some? && r.dpmo.value >= 0.0 then Some(IntendedBand(m, r.dpmo.value)) else None
    case None => None
  }
}

=== FILE: sorting.dfy ===
/** `Array.prototype.sort` with a descending numeric comparator (`(a, b) => key(b) - key(a)`).
    The engine's sort is stable, so elements with equal keys keep their relative order; the
    model is an insertion sort with exactly that behaviour. */
module Sorting {

  import opened Common

  predicate SortedDesc<T>(s: seq<T>, key: T -> real)
  {
    forall i, j :: 0 <= i < j < |s| ==> key(s[i]) >= key(s[j])
  }

  /** Puts `x` in front of the first element whose key is not larger than its own. */
  function Insert<T>(x: T, s: seq<T>, key: T -> real): (r: seq<T>)
    requires SortedDesc(s, key)
    ensures SortedDesc(r, key)
    ensures multiset(r) == multiset(s) + multiset{x}
    ensures |r| == |s| + 1 && (r[0] == x || (|s| > 0 && r[0] == s[0]))
  {
    if |s| == 0 || key(s[0]) <= key(x) then [x] + s
    else
      var rest := Insert(x, s[1..], key);
      assert s == [s[0]] + s[1..];
      ConsSorted(s[0], rest, key);
      [s[0]] + rest
  }

  /** An element whose key is at least the head's keeps a sorted sequence sorted. */
  lemma ConsSorted<T>(h: T, s: seq<T>, key: T -> real)
    requires SortedDesc(s, key) && (|s| > 0 ==> key(h) >= key(s[0]))
    ensures SortedDesc([h] + s, key)
  {
    var r := [h] + s;
    forall i, j | 0 <= i < j < |r| ensures key(r[i]) >= key(r[j]) {
      assert r[j] == s[j - 1];
      if i > 0 {
        assert r[i] == s[i - 1];
      }
    }
  }

  /** The elements of `s`, largest key first. */
  function SortDesc<T>(s: seq<T>, key: T -> real): (r: seq<T>)
    ensures SortedDesc(r, key)
    ensures multiset(r) == multiset(s)
    ensures |r| == |s|
  {
    if |s| == 0 then []
    else
      assert s == [s[0]] + s[1..];
      Insert(s[0], SortDesc(s[1..], key), key)
  }

  /** The elements whose key is exactly `c`, in order. */
  function WithKey<T>(s: seq<T>, key: T -> real, c: real): (r: seq<T>)
    ensures forall i :: 0 <= i < |r| ==> key(r[i]) == c
  {
    if |s| == 0 then []
    else (if key(s[0]) == c then [s[0]] else []) + WithKey(s[1..], key, c)
  }

  lemma {:induction false} InsertStable<T>(x: T, s: seq<T>, key: T -> real, c: real)
    requires SortedDesc(s, key)
    ensures WithKey(Insert(x, s, key), key, c)
      == (if key(x) == c then [x] else []) + WithKey(s, key, c)
    decreases |s|
  {
    if |s| == 0 || key(s[0]) <= key(x) {
      assert ([x] + s)[1..] == s;
    } else {
      var r := Insert(x, s, key);
      assert r[0] == s[0] && r[1..] == Insert(x, s[1..], key);
      var lead := if key(x) == c then [x] else [];
      var ws := WithKey(s[1..], key, c);
      InsertStable(x, s[1..], key, c);
      assert WithKey(r[1..], key, c) == lead + ws;
      if key(s[0]) == c {
        assert lead == [];
        assert WithKey(r, key, c) == [s[0]] + ws == WithKey(s, key, c);
      } else {
        assert WithKey(r, key, c) == lead + ws;
        assert WithKey(s, key, c) == ws;
      }
    }
  }

  /** Stability: for every key value, the elements with that key appear in the output in the
      same order as in the input. */
  lemma {:induction false} SortDescStable<T>(s: seq<T>, key: T -> real, c: real)
    ensures WithKey(SortDesc(s, key), key, c) == WithKey(s, key, c)
    decreases |s|
  {
    if |s| > 0 {
      SortDescStable(s[1..], key, c);
      InsertStable(s[0], SortDesc(s[1..], key), key, c);
    }
  }

  /** A sequence that is already in order is returned unchanged. */
  lemma {:induction false} SortDescSorted<T>(s: seq<T>, key: T -> real)
    requires SortedDesc(s, key)
    ensures SortDesc(s, key) == s
    decreases |s|
  {
    if |s| > 0 {
      assert SortedDesc(s[1..], key);
      SortDescSorted(s[1..], key);
      assert |s[1..]| == 0 || key(s[1..][0]) <= key(s[0]);
      assert [s[0]] + s[1..] == s;
    }
  }
}

=== FILE: stats.dfy ===
/** Descriptive statistics shared by the histogram, statistics and scatter-plot components:
    population variance, sums of products, and the Cauchy–Schwarz inequality that bounds the
    Pearson coefficient. */
module Stats {

  import opened Common
  import opened MathLib

  /** `(v - m) ** 2` for every value. */
  function SquaredDeviations(s: seq<real>, m: real): (r: seq<real>)
    ensures |r| == |s|
    ensures forall i :: 0 <= i < |s| ==> r[i] == (s[i] - m) * (s[i] - m)
  {
    seq(|s|, i requires 0 <= i < |s| => (s[i] - m) * (s[i] - m))
  }

  /** Population variance: the mean squared deviation from the mean (divides by n). */
  function Variance(s: seq<real>): real
    requires |s| > 0
  {
    Sum(SquaredDeviations(s, Mean(s))) / (|s| as real)
  }

  lemma VarianceNonNegative(s: seq<real>)
    requires |s| > 0
    ensures Variance(s) >= 0.0
  {
    var d := SquaredDeviations(s, Mean(s));
    forall i | 0 <= i < |d| ensures d[i] >= 0.0 {
      SquareNonNegative(s[i] - Mean(s));
    }
    SumNonNegative(d);
  }

  lemma SquareNonNegative(x: real)
    ensures x * x >= 0.0
  {
  }

  /** `Math.sqrt(variance)`: the population standard deviation, the non-negative number whose
      square is the variance. */
  function StdDev(m: Math, s: seq<real>): (d: real)
    requires Lawful(m) && |s| > 0
    ensures d >= 0.0 && d * d == Variance(s)
  {
    VarianceNonNegative(s);
    m.sqrt(Variance(s))
  }

  /** A mean of values that all lie in [lo, hi] lies in [lo, hi]. */
  lemma MeanBetween(s: seq<real>, lo: real, hi: real)
    requires |s| > 0
    requires forall i :: 0 <= i < |s| ==> lo <= s[i] <= hi
    ensures lo <= Mean(s) <= hi
  {
    SumBounds(s, lo, hi);
    DivBetween(Sum(s), |s| as real, lo, hi);
  }

  /** The mean lies between the smallest and the largest value. */
  lemma MeanBetweenMinMax(s: seq<real>)
    requires |s| > 0
    ensures MinOf(s) <= Mean(s) <= MaxOf(s)
  {
    MeanBetween(s, MinOf(s), MaxOf(s));
  }

  lemma DivBetween(a: real, n: real, lo: real, hi: real)
    requires n > 0.0 && n * lo <= a <= n * hi
    ensures lo <= a / n <= hi
  {
    var q := a / n;
    assert n * q == a;
    if q < lo {
      MulLeft(n, q, lo);
    }
    if q > hi {
      MulLeft(n, hi, q);
    }
  }

  /** `x * y` index by index. */
  function Products(xs: seq<real>, ys: seq<real>): (r: seq<real>)
    requires |xs| == |ys|
    ensures |r| == |xs|
    ensures forall i :: 0 <= i < |xs| ==> r[i] == xs[i] * ys[i]
  {
    seq(|xs|, i requires 0 <= i < |xs| => xs[i] * ys[i])
  }

  /** `xs.reduce((acc, x, i) => acc + x * ys[i], 0)`; with `ys == xs` this is Σx². */
  function Dot(xs: seq<real>, ys: seq<real>): real
    requires |xs| == |ys|
  {
    Sum(Products(xs, ys))
  }

  /** `xs.reduce((a, b) => a + b, 0)`. The sum under a name of its own, so that the products
      of sums below are products of one and the same term. */
  function Total(xs: seq<real>): real
  {
    Sum(xs)
  }

  /** n·d − x·y over plain numbers: the shape both spreads below share. */
  function SpreadOf(n: real, d: real, x: real, y: real): real
  {
    n * d - x * y
  }

  /** n·Σx² − (Σx)², the factor under the square root for one coordinate. */
  function Spread(xs: seq<real>): real
  {
    SpreadOf(|xs| as real, Dot(xs, xs), Total(xs), Total(xs))
  }

  /** n·Σxy − Σx·Σy, the numerator of the Pearson coefficient. */
  function CoSpread(xs: seq<real>, ys: seq<real>): real
    requires |xs| == |ys|
  {
    SpreadOf(|xs| as real, Dot(xs, ys), Total(xs), Total(ys))
  }

  /** Peeling the last pair off a sum of products. */
  lemma DotSnoc(xs: seq<real>, ys: seq<real>)
    requires |xs| == |ys| > 0
    ensures Dot(xs, ys) == Dot(xs[..|xs| - 1], ys[..|ys| - 1]) + xs[|xs| - 1] * ys[|ys| - 1]
  {
    var p := Products(xs, ys);
    var q := Products(xs[..|xs| - 1], ys[..|ys| - 1]);
    assert p[..|p| - 1] == q by {
      forall i | 0 <= i < |q| ensures p[i] == q[i] {
      }
    }
  }

  lemma DotEmpty(xs: seq<real>, ys: seq<real>)
    requires |xs| == |ys| == 0
    ensures Dot(xs, ys) == 0.0
  {
  }

  /** n·Σw² ≥ (Σw)² for every sequence. */
  lemma {:induction false} SpreadNonNegative(w: seq<real>)
    ensures Spread(w) >= 0.0
    decreases |w|
  {
    if |w| == 0 {
      DotEmpty(w, w);
    } else {
      var init := w[..|w| - 1];
      SpreadNonNegative(init);
      DotSnoc(w, w);
      SpreadStep(|init| as real, Total(init), Dot(init, init), w[|w| - 1], Spread(init));
    }
  }

  /** One more value `a` keeps n·Σw² − (Σw)² non-negative. */
  lemma SpreadStep(k: real, s: real, q: real, a: real, sp: real)
    requires k >= 0.0 && sp == k * q - s * s && sp >= 0.0
    requires k == 0.0 ==> s == 0.0 && q == 0.0
    ensures (k + 1.0) * (q + a * a) - (s + a) * (s + a) >= 0.0
  {
    var g := q + k * a * a - 2.0 * a * s;
    if k > 0.0 {
      calc {
        k * g;
      ==
        k * q + k * k * a * a - 2.0 * k * a * s;
      >=
        s * s + k * k * a * a - 2.0 * k * a * s;
      ==
        (s - k * a) * (s - k * a);
      >= { SquareNonNegative(s - k * a); }
        0.0;
      }
      PositiveFactor(k, g);
    }
    calc {
      (k + 1.0) * (q + a * a) - (s + a) * (s + a);
    ==
      sp + g;
    >=
      0.0;
    }
  }

  lemma PositiveFactor(k: real, g: real)
    requires k > 0.0 && k * g >= 0.0
    ensures g >= 0.0
  {
    if g < 0.0 {
      MulLeft(k, g, 0.0);
    }
  }

  /** `xs[i] - t * ys[i]` for every index. */
  function Combine(xs: seq<real>, ys: seq<real>, t: real): (r: seq<real>)
    requires |xs| == |ys|
    ensures |r| == |xs|
    ensures forall i :: 0 <= i < |xs| ==> r[i] == xs[i] - t * ys[i]
  {
    seq(|xs|, i requires 0 <= i < |xs| => xs[i] - t * ys[i])
  }

  /** Sums are linear: Σ(x − ty) = Σx − tΣy and Σ(x − ty)² = Σx² − 2tΣxy + t²Σy². */
  lemma CombineSums(xs: seq<real>, ys: seq<real>, t: real)
    requires |xs| == |ys|
    ensures Total(Combine(xs, ys, t)) == Total(xs) - t * Total(ys)
    ensures Dot(Combine(xs, ys, t), Combine(xs, ys, t))
      == Dot(xs, xs) - 2.0 * t * Dot(xs, ys) + t * t * Dot(ys, ys)
  {
    CombineTotal(xs, ys, t);
    CombineDot(xs, ys, t);
  }

  lemma {:induction false} CombineTotal(xs: seq<real>, ys: seq<real>, t: real)
    requires |xs| == |ys|
    ensures Total(Combine(xs, ys, t)) == Total(xs) - t * Total(ys)
    decreases |xs|
  {
    if |xs| > 0 {
      var n := |xs|;
      CombineInit(xs, ys, t);
      CombineTotal(xs[..n - 1], ys[..n - 1], t);
    }
  }

  lemma CombineDot(xs: seq<real>, ys: seq<real>, t: real)
    requires |xs| == |ys|
    ensures Dot(Combine(xs, ys, t), Combine(xs, ys, t))
      == Dot(xs, xs) - 2.0 * t * Dot(xs, ys) + t * t * Dot(ys, ys)
  {
    var sy := Scale(t, ys);
    assert Combine(xs, ys, t) == Diff(xs, sy);
    DotDiff(xs, sy);
    DotScaleRight(xs, ys, t);
    DotScaleRight(sy, ys, t);
    DotSymmetric(sy, ys);
    DotScaleRight(ys, ys, t);
  }

  /** `t * y` for every value. */
  function Scale(t: real, ys: seq<real>): (r: seq<real>)
    ensures |r| == |ys|
    ensures forall i :: 0 <= i < |ys| ==> r[i] == t * ys[i]
  {
    seq(|ys|, i requires 0 <= i < |ys| => t * ys[i])
  }

  /** `x - y` index by index. */
  function Diff(xs: seq<real>, ys: seq<real>): (r: seq<real>)
    requires |xs| == |ys|
    ensures |r| == |xs|
    ensures forall i :: 0 <= i < |xs| ==> r[i] == xs[i] - ys[i]
  {
    seq(|xs|, i requires 0 <= i < |xs| => xs[i] - ys[i])
  }

  /** Σ(x − y)² = Σx² − 2Σxy + Σy². */
  lemma {:induction false} DotDiff(xs: seq<real>, ys: seq<real>)
    requires |xs| == |ys|
    ensures Dot(Diff(xs, ys), Diff(xs, ys)) == Dot(xs, xs) - 2.0 * Dot(xs, ys) + Dot(ys, ys)
    decreases |xs|
  {
    var d := Diff(xs, ys);
    if |xs| > 0 {
      var n := |xs|;
      var xi, yi := xs[..n - 1], ys[..n - 1];
      DotDiff(xi, yi);
      DiffPrefix(xs, ys);
      DotSnoc(d, d);
      DotSnoc(xs, xs);
      DotSnoc(xs, ys);
      DotSnoc(ys, ys);
      DiffStep(Dot(xi, xi), Dot(xi, yi), Dot(yi, yi), Dot(d[..n - 1], d[..n - 1]),
        xs[n - 1], ys[n - 1], d[n - 1]);
    }
  }

  /** The differences of the prefixes are the prefix of the differences. */
  lemma DiffPrefix(xs: seq<real>, ys: seq<real>)
    requires |xs| == |ys| > 0
    ensures Diff(xs, ys)[..|xs| - 1] == Diff(xs[..|xs| - 1], ys[..|ys| - 1])
  {
  }

  /** One more term keeps Σ(x − y)² = Σx² − 2Σxy + Σy². */
  lemma DiffStep(xx: real, xy: real, yy: real, dd: real, x: real, y: real, d: real)
    requires dd == xx - 2.0 * xy + yy && d == x - y
    ensures dd + d * d == (xx + x * x) - 2.0 * (xy + x * y) + (yy + y * y)
  {
    assert d * d == x * x - 2.0 * (x * y) + y * y;
  }

  /** Σx(ty) = tΣxy. */
  lemma {:induction false} DotScaleRight(xs: seq<real>, ys: seq<real>, t: real)
    requires |xs| == |ys|
    ensures Dot(xs, Scale(t, ys)) == t * Dot(xs, ys)
    decreases |xs|
  {
    var sy := Scale(t, ys);
    if |xs| > 0 {
      var n := |xs|;
      var xi, yi := xs[..n - 1], ys[..n - 1];
      DotScaleRight(xi, yi, t);
      assert sy[..n - 1] == Scale(t, yi) by {
        forall i | 0 <= i < n - 1 ensures sy[i] == Scale(t, yi)[i] {
        }
      }
      DotSnoc(xs, sy);
      DotSnoc(xs, ys);
      ScaleStep(xs[n - 1], ys[n - 1], t, Dot(xi, yi));
    }
  }

  lemma ScaleStep(x: real, y: real, t: real, d: real)
    ensures t * d + x * (t * y) == t * (d + x * y)
  {
  }

  /** Σxy = Σyx. */
  lemma {:induction false} DotSymmetric(xs: seq<real>, ys: seq<real>)
    requires |xs| == |ys|
    ensures Dot(xs, ys) == Dot(ys, xs)
    decreases |xs|
  {
    if |xs| > 0 {
      var n := |xs|;
      DotSymmetric(xs[..n - 1], ys[..n - 1]);
      DotSnoc(xs, ys);
      DotSnoc(ys, xs);
    }
  }

  /** Dropping the last pair commutes with combining. */
  lemma CombineInit(xs: seq<real>, ys: seq<real>, t: real)
    requires |xs| == |ys| > 0
    ensures Combine(xs, ys, t)[..|xs| - 1] == Combine(xs[..|xs| - 1], ys[..|ys| - 1], t)
  {
    var w, wi := Combine(xs, ys, t), Combine(xs[..|xs| - 1], ys[..|ys| - 1], t);
    forall i | 0 <= i < |wi| ensures w[i] == wi[i] {
    }
  }

  /** The quadratic A − 2tC + t²B. */
  function Quadratic(a: real, b: real, c: real, t: real): real
  {
    a - 2.0 * t * c + t * t * b
  }

  /** The spread of x − ty is the quadratic A − 2tC + t²B built from the spreads of x and y. */
  lemma SpreadOfCombination(xs: seq<real>, ys: seq<real>, t: real)
    requires |xs| == |ys|
    ensures Spread(Combine(xs, ys, t))
      == Quadratic(Spread(xs), Spread(ys), CoSpread(xs, ys), t)
  {
    var c := Combine(xs, ys, t);
    assert |c| == |xs|;
    CombinedSums(xs, ys, t);
    SpreadAlgebra(|xs| as real, Total(xs), Total(ys), Dot(xs, xs), Dot(xs, ys), Dot(ys, ys), t,
      Dot(c, c), Total(c));
  }

  /** `CombineSums`, stated through `Combined` so that the arithmetic stays out of sight. */
  lemma CombinedSums(xs: seq<real>, ys: seq<real>, t: real)
    requires |xs| == |ys|
    ensures var c := Combine(xs, ys, t);
      Combined(Dot(c, c), Total(c), Total(xs), Total(ys), Dot(xs, xs), Dot(xs, ys), Dot(ys, ys), t)
  {
    CombineSums(xs, ys, t);
  }

  /** d and s are Σ(x − ty)² and Σ(x − ty) written out with the sums of x and y. */
  predicate Combined(d: real, s: real, x: real, y: real, xx: real, xy: real, yy: real, t: real)
  {
    d == xx - 2.0 * t * xy + t * t * yy && s == x - t * y
  }

  /** The algebra behind `SpreadOfCombination`, over plain numbers. */
  lemma SpreadAlgebra(n: real, x: real, y: real, xx: real, xy: real, yy: real, t: real,
                      d: real, s: real)
    requires Combined(d, s, x, y, xx, xy, yy, t)
    ensures SpreadOf(n, d, s, s)
      == Quadratic(SpreadOf(n, xx, x, x), SpreadOf(n, yy, y, y), SpreadOf(n, xy, x, y), t)
  {
  }

  /** Hence that quadratic is never negative. */
  lemma QuadraticNonNegative(xs: seq<real>, ys: seq<real>, t: real)
    requires |xs| == |ys|
    ensures Quadratic(Spread(xs), Spread(ys), CoSpread(xs, ys), t) >= 0.0
  {
    SpreadOfCombination(xs, ys, t);
    SpreadNonNegative(Combine(xs, ys, t));
  }

  /** Both spreads are non-negative and the squared numerator is at most their product. */
  predicate Bounded(a: real, b: real, c: real)
  {
    a >= 0.0 && b >= 0.0 && c * c <= a * b
  }

  /** Cauchy–Schwarz in the form the Pearson coefficient needs:
      (n·Σxy − Σx·Σy)² ≤ (n·Σx² − (Σx)²)·(n·Σy² − (Σy)²), both factors non-negative. */
  lemma CauchySchwarz(xs: seq<real>, ys: seq<real>)
    requires |xs| == |ys|
    ensures Bounded(Spread(xs), Spread(ys), CoSpread(xs, ys))
  {
    SpreadNonNegative(xs);
    SpreadNonNegative(ys);
    QuadraticAlwaysNonNegative(xs, ys);
    DiscriminantBound(Spread(xs), Spread(ys), CoSpread(xs, ys));
  }

  /** `QuadraticNonNegative` for every t at once. */
  lemma QuadraticAlwaysNonNegative(xs: seq<real>, ys: seq<real>)
    requires |xs| == |ys|
    ensures NeverNegative(Spread(xs), Spread(ys), CoSpread(xs, ys))
  {
    forall t ensures Quadratic(Spread(xs), Spread(ys), CoSpread(xs, ys), t) >= 0.0 {
      QuadraticNonNegative(xs, ys, t);
    }
  }

  /** The quadratic A − 2tC + t²B is not negative for any t. */
  ghost predicate NeverNegative(a: real, b: real, c: real)
  {
    forall t :: Quadratic(a, b, c, t) >= 0.0
  }

  /** A quadratic that is never negative has a non-positive discriminant: C² ≤ AB. */
  lemma DiscriminantBound(a: real, b: real, c: real)
    requires a >= 0.0 && b >= 0.0
    requires NeverNegative(a, b, c)
    ensures Bounded(a, b, c)
  {
    if b > 0.0 {
      assert Quadratic(a, b, c, c / b) >= 0.0;
      MinimumOfQuadratic(a, b, c);
    } else if c != 0.0 {
      var t := (a + 1.0) / (2.0 * c);
      assert Quadratic(a, b, c, t) >= 0.0;
      DegenerateQuadratic(a, b, c, t);
    }
  }

  /** At its minimum t = C/B the quadratic A − 2tC + t²B equals A − C²/B. */
  lemma MinimumOfQuadratic(a: real, b: real, c: real)
    requires b > 0.0
    requires Quadratic(a, b, c, c / b) >= 0.0
    ensures c * c <= a * b
  {
    var t := c / b;
    assert t * b == c;
    assert t * t * b == t * c;
    assert a - t * c >= 0.0;
    assert (a - t * c) * b == a * b - c * c;
    MulLeft(b, 0.0, a - t * c);
  }

  /** With B = 0 and C ≠ 0 the quadratic reaches −1 at t = (A + 1)/(2C). */
  lemma DegenerateQuadratic(a: real, b: real, c: real, t: real)
    requires b == 0.0 && c != 0.0 && t == (a + 1.0) / (2.0 * c)
    ensures Quadratic(a, b, c, t) == -1.0
  {
    assert t * (2.0 * c) == a + 1.0;
  }
}

=== FILE: table.dfy ===
/** Tabular data as the pages hold it: a dataset is a sequence of rows, a row is a JavaScript
    object, modelled as an insertion-ordered list of key/value fields, and a cell is one of the
    values a parsed spreadsheet can hold. */
module Table {

  import opened Common
  import opened Text
  import opened NumParse

  /** A cell: `undefined`, `null`, a string, a finite number, `NaN`, or a boolean, which a
      spreadsheet parsed with dynamic typing gives for the texts `true` and `false`. */
  datatype Cell = Undef | Null | Str(s: string) | Num(x: real) | NaN | Bool(b: bool)

  datatype Field = Field(key: string, value: Cell)

  type Row = seq<Field>

  /** `row[k]`: the value of the first field named `k`, or `undefined`. */
  function Get(row: Row, k: string): (c: Cell)
    ensures c != Undef ==> exists i :: 0 <= i < |row| && row[i] == Field(k, c)
    ensures (forall i :: 0 <= i < |row| ==> row[i].key != k) ==> c == Undef
  {
    if |row| == 0 then Undef
    else if row[0].key == k then row[0].value
    else
      var c := Get(row[1..], k);
      assert c != Undef ==> exists i :: 0 <= i < |row| - 1 && row[1..][i] == Field(k, c);
      c
  }

  /** `Object.keys(row)`. */
  function Keys(row: Row): (ks: seq<string>)
    ensures |ks| == |row|
    ensures forall i :: 0 <= i < |row| ==> ks[i] == row[i].key
  {
    if |row| == 0 then [] else [row[0].key] + Keys(row[1..])
  }

  /** `Object.values(row)`. */
  function Values(row: Row): (vs: seq<Cell>)
    ensures |vs| == |row|
    ensures forall i :: 0 <= i < |row| ==> vs[i] == row[i].value
  {
    if |row| == 0 then [] else [row[0].value] + Values(row[1..])
  }

  /** A JavaScript object never has the same key twice. */
  predicate DistinctKeys(row: Row)
  {
    forall i, j :: 0 <= i < j < |row| ==> row[i].key != row[j].key
  }

  /** `row[k] = v`: overwrite the field named `k` in place, or append it as the newest key. */
  function Set(row: Row, k: string, v: Cell): (r: Row)
    ensures (exists i :: 0 <= i < |row| && row[i].key == k) ==> |r| == |row| && Keys(r) == Keys(row)
    ensures (forall i :: 0 <= i < |row| ==> row[i].key != k) ==> r == row + [Field(k, v)]
  {
    if |row| == 0 then [Field(k, v)]
    else if row[0].key == k then [Field(k, v)] + row[1..]
    else
      var rest := Set(row[1..], k, v);
      assert (exists i :: 0 <= i < |row| && row[i].key == k) ==>
        exists i :: 0 <= i < |row| - 1 && row[1..][i].key == k;
      assert Keys([row[0]] + rest) == [row[0].key] + Keys(rest);
      [row[0]] + rest
  }

  /** After `row[k] = v`, reading `k` gives `v` and every other key reads as before. */
  lemma {:induction false} GetSet(row: Row, k: string, v: Cell, j: string)
    ensures Get(Set(row, k, v), j) == if j == k then v else Get(row, j)
    decreases |row|
  {
    if |row| > 0 && row[0].key != k {
      GetSet(row[1..], k, v, j);
      assert Set(row, k, v)[1..] == Set(row[1..], k, v);
    }
  }

  /** `data.map(row => row[k])`. */
  function Column(data: seq<Row>, k: string): (col: seq<Cell>)
    ensures |col| == |data|
    ensures forall i :: 0 <= i < |data| ==> col[i] == Get(data[i], k)
  {
    if |data| == 0 then [] else [Get(data[0], k)] + Column(data[1..], k)
  }

  /** `Object.keys(data[0] || {})`: the column names, taken from the first row. */
  function FirstKeys(data: seq<Row>): (ks: seq<string>)
    ensures |data| == 0 ==> ks == []
    ensures |data| > 0 ==> ks == Keys(data[0])
  {
    if |data| == 0 then [] else Keys(data[0])
  }

  /** `v === null || v === ''`. */
  predicate IsMissing(c: Cell)
  {
    c == Null || c == Str("")
  }

  /** `v === undefined || v === null || v === ''`. */
  predicate IsBlank(c: Cell)
  {
    c == Undef || IsMissing(c)
  }

  /** JavaScript truthiness of a cell. */
  predicate Truthy(c: Cell)
  {
    match c
    case Undef => false
    case Null => false
    case Str(s) => s != ""
    case Num(x) => x != 0.0
    case NaN => false
    case Bool(b) => b
  }

  /** `parseFloat(v)`: the number, or the numeric prefix of the text; `null`, `undefined`,
      `true` and `false` print as words and so are not numbers. */
  function ParseCell(c: Cell): (r: Option<real>)
    ensures c.Num? ==> r == Some(c.x)
    ensures c.Str? ==> r == ParseNum(c.s)
    ensures c == Undef || c == Null || c == NaN || c.Bool? ==> r == None
  {
    match c
    case Num(x) => Some(x)
    case Str(s) => ParseNum(s)
    case _ => None
  }

  /** The reading the numeric views take from a cell: present (not `undefined`, `null` or
      `''`) and parsing as a number. */
  function Reading(c: Cell): (r: Option<real>)
    ensures IsBlank(c) ==> r == None
    ensures !IsBlank(c) ==> r == ParseCell(c)
  {
    if IsBlank(c) then None else ParseCell(c)
  }

  /** Some cell of column `k` is present and parses as a number. */
  predicate HasNumber(data: seq<Row>, k: string)
  {
    exists i :: 0 <= i < |data| && Reading(Get(data[i], k)).Some?
  }

  /** The keys of the first row whose column holds at least one number. */
  function NumericColumns(data: seq<Row>): (cols: seq<string>)
    ensures forall k :: k in cols <==> k in FirstKeys(data) && HasNumber(data, k)
  {
    Filter(FirstKeys(data), k => HasNumber(data, k))
  }

  /** `Number(v)`, the coercion `isNaN(v)` applies: `null` is 0, `true` and `false` are 1 and 0,
      `undefined` is not a number. */
  function NumberCell(c: Cell): (r: Option<real>)
    ensures c.Num? ==> r == Some(c.x)
    ensures c.Str? ==> r == NumberOf(c.s)
    ensures c == Null ==> r == Some(0.0)
    ensures c.Bool? ==> r == Some(if c.b then 1.0 else 0.0)
    ensures c == Undef || c == NaN ==> r == None
  {
    match c
    case Num(x) => Some(x)
    case Str(s) => NumberOf(s)
    case Null => Some(0.0)
    case Undef => None
    case NaN => None
    case Bool(b) => Some(if b then 1.0 else 0.0)
  }

  /** `typeof v`. */
  function TypeOf(c: Cell): string
  {
    match c
    case Undef => "undefined"
    case Null => "object"
    case Str(_) => "string"
    case Num(_) => "number"
    case NaN => "number"
    case Bool(_) => "boolean"
  }

  predicate IsWhole(y: real)
  {
    y.Floor as real == y
  }

  /** `x` shifted `k` decimal places to the left. */
  function Shift(x: real, k: nat): real
  {
    x * (Pow10(k) as real)
  }

  lemma ShiftNonNegative(x: real, k: nat)
    requires x >= 0.0
    ensures Shift(x, k) >= 0.0
  {
    var p := Pow10(k) as real;
    assert p >= 1.0;
    assert x * p >= 0.0;
  }

  /** The fewest decimal places, from `k` up to 20, that make `x` whole; 20 when none do. */
  function DecimalPlaces(x: real, k: nat): (j: nat)
    requires k <= 20
    ensures k <= j <= 20
    ensures j < 20 ==> IsWhole(Shift(x, j))
    ensures forall i :: k <= i < j ==> !IsWhole(Shift(x, i))
    decreases 20 - k
  {
    if k == 20 || IsWhole(Shift(x, k)) then k else DecimalPlaces(x, k + 1)
  }

  /** `s` preceded by as many '0's as make it `k` characters long. */
  function PadLeft(s: string, k: nat): (r: string)
    ensures |r| == if |s| < k then k else |s|
    ensures r[|r| - |s|..] == s
    ensures forall i :: 0 <= i < |r| - |s| ==> r[i] == '0'
    decreases k - |s|
  {
    if |s| < k then
      var r := PadLeft("0" + s, k);
      assert r[|r| - |s|..] == r[|r| - |"0" + s|..][1..];
      r
    else s
  }

  lemma DivModNat(m: nat, p: nat)
    requires p > 0
    ensures m / p >= 0 && m % p >= 0
  {
  }

  /** `m / 10^k` written with exactly `k` decimal places. */
  function DecimalText(m: nat, k: nat): string
  {
    var p := Pow10(k);
    DivModNat(m, p);
    NatToString(m / p) + "." + PadLeft(NatToString(m % p), k)
  }

  /** `String(x)` for a number: the exact decimal expansion, without trailing zeros. Numbers
      that need more than 20 decimal places are cut at the 20th. */
  function NumText(x: real): string
  {
    if IsWhole(x) then IntToString(x.Floor)
    else
      var ax := if x < 0.0 then -x else x;
      var k := DecimalPlaces(ax, 1);
      ShiftNonNegative(ax, k);
      var body := DecimalText(Shift(ax, k).Floor, k);
      if x < 0.0 then "-" + body else body
  }

  /** `String(v)`, which is also the key a cell files under in a plain object. */
  function CellText(c: Cell): (r: string)
    ensures c.Str? ==> r == c.s
  {
    match c
    case Undef => "undefined"
    case Null => "null"
    case Str(s) => s
    case Num(x) => NumText(x)
    case NaN => "NaN"
    case Bool(b) => if b then "true" else "false"
  }

  /** A whole-number cell's text reads back as the same number. */
  lemma CellTextWholeRoundTrip(x: real)
    requires IsWhole(x)
    ensures ParseNum(CellText(Num(x))) == Some(x)
    ensures ParseInt(CellText(Num(x))) == Some(x.Floor)
  {
    ParseNumIntToString(x.Floor);
    ParseIntIntToString(x.Floor);
  }
}

=== FILE: tally.dfy ===
/** Grouping as the components do it with a plain object used as a dictionary
    (`acc[key] = (acc[key] || 0) + value`): one bucket per distinct key, holding the sum of the
    values filed under the key and how many there were. Buckets are kept in order of first
    appearance, which is the order a plain object lists keys that do not look like array
    indices. */
module Tally {

  import opened Common
  import opened Sorting

  datatype Entry<K> = Entry(key: K, value: real)

  datatype Bucket<K> = Bucket(key: K, total: real, count: nat)

  /** Sum of the values filed under `k`. */
  function SumWhere<K(==)>(items: seq<Entry<K>>, k: K): real
  {
    if |items| == 0 then 0.0
    else SumWhere(items[..|items| - 1], k) + (if items[|items| - 1].key == k then items[|items| - 1].value else 0.0)
  }

  /** Number of entries filed under `k`. */
  function CountWhere<K(==)>(items: seq<Entry<K>>, k: K): nat
  {
    if |items| == 0 then 0
    else CountWhere(items[..|items| - 1], k) + (if items[|items| - 1].key == k then 1 else 0)
  }

  function EntryValues<K>(items: seq<Entry<K>>): (vs: seq<real>)
    ensures |vs| == |items|
    ensures forall i :: 0 <= i < |items| ==> vs[i] == items[i].value
  {
    seq(|items|, i requires 0 <= i < |items| => items[i].value)
  }

  predicate DistinctKeys<K(==)>(bs: seq<Bucket<K>>)
  {
    forall i, j :: 0 <= i < j < |bs| ==> bs[i].key != bs[j].key
  }

  predicate HasKey<K(==)>(bs: seq<Bucket<K>>, k: K)
  {
    exists j :: 0 <= j < |bs| && bs[j].key == k
  }

  function Totals<K>(bs: seq<Bucket<K>>): (vs: seq<real>)
    ensures |vs| == |bs|
    ensures forall i :: 0 <= i < |bs| ==> vs[i] == bs[i].total
  {
    seq(|bs|, i requires 0 <= i < |bs| => bs[i].total)
  }

  function Counts<K>(bs: seq<Bucket<K>>): (vs: seq<real>)
    ensures |vs| == |bs|
    ensures forall i :: 0 <= i < |bs| ==> vs[i] == bs[i].count as real
  {
    seq(|bs|, i requires 0 <= i < |bs| => bs[i].count as real)
  }

  /** Files `v` under `k`: the bucket for `k` grows by `v` and one entry, or a new bucket is
      appended; every other bucket is unchanged. */
  function AddTo<K(==)>(bs: seq<Bucket<K>>, k: K, v: real): (r: seq<Bucket<K>>)
    requires DistinctKeys(bs)
    ensures DistinctKeys(r)
    ensures HasKey(bs, k) ==> |r| == |bs|
    ensures !HasKey(bs, k) ==> r == bs + [Bucket(k, v, 1)]
    ensures forall j :: 0 <= j < |bs| ==> r[j].key == bs[j].key
    ensures forall j :: 0 <= j < |bs| && bs[j].key != k ==> r[j] == bs[j]
    ensures forall j :: 0 <= j < |bs| && bs[j].key == k ==>
      r[j] == Bucket(k, bs[j].total + v, bs[j].count + 1)
  {
    if HasKey(bs, k) then
      var r := seq(|bs|, j requires 0 <= j < |bs| => Grow(bs[j], k, v));
      assert forall j :: 0 <= j < |bs| ==> r[j].key == bs[j].key;
      r
    else
      var r := bs + [Bucket(k, v, 1)];
      assert forall j :: 0 <= j < |bs| ==> r[j] == bs[j];
      r
  }

  /** The bucket with `v` and one more entry added when it is `k`'s, and as it is otherwise. */
  function Grow<K(==)>(b: Bucket<K>, k: K, v: real): (r: Bucket<K>)
    ensures r.key == b.key
    ensures b.key == k ==> r == Bucket(k, b.total + v, b.count + 1)
    ensures b.key != k ==> r == b
  {
    if b.key == k then Bucket(k, b.total + v, b.count + 1) else b
  }

  /** Some entry is filed under `k`. */
  predicate Occurs<K(==)>(items: seq<Entry<K>>, k: K)
  {
    exists i :: 0 <= i < |items| && items[i].key == k
  }

  /** Grouping the entries in order. */
  function Group<K(==, !new)>(items: seq<Entry<K>>): (r: seq<Bucket<K>>)
    ensures DistinctKeys(r)
    ensures forall j :: 0 <= j < |r| ==>
      r[j].total == SumWhere(items, r[j].key) && r[j].count == CountWhere(items, r[j].key)
    ensures forall j :: 0 <= j < |r| ==> r[j].count >= 1
    ensures forall k :: HasKey(r, k) <==> Occurs(items, k)
  {
    if |items| == 0 then []
    else
      var init := items[..|items| - 1];
      var last := items[|items| - 1];
      var g := Group(init);
      var r := AddTo(g, last.key, last.value);
      GroupStepKeys(g, init, last, r, items);
      GroupStepValues(g, init, last, r, items);
      r
  }

  lemma GroupStepKeys<K(!new)>(g: seq<Bucket<K>>, init: seq<Entry<K>>, last: Entry<K>,
                               r: seq<Bucket<K>>, items: seq<Entry<K>>)
    requires DistinctKeys(g) && r == AddTo(g, last.key, last.value) && items == init + [last]
    requires forall k :: HasKey(g, k) <==> Occurs(init, k)
    ensures forall k :: HasKey(r, k) <==> Occurs(items, k)
  {
    forall k | HasKey(r, k) ensures Occurs(items, k) {
      var j :| 0 <= j < |r| && r[j].key == k;
      if j < |g| {
        assert HasKey(g, k);
        var i :| 0 <= i < |init| && init[i].key == k;
        assert items[i].key == k;
      } else {
        assert items[|init|].key == k;
      }
    }
    forall k | Occurs(items, k) ensures HasKey(r, k) {
      var i :| 0 <= i < |items| && items[i].key == k;
      if i < |init| {
        assert init[i].key == k;
        assert HasKey(g, k);
        var j :| 0 <= j < |g| && g[j].key == k;
        assert r[j].key == k;
      } else {
        assert k == last.key;
        if HasKey(g, k) {
          var j :| 0 <= j < |g| && g[j].key == k;
          assert r[j].key == k;
        } else {
          assert r[|g|].key == k;
        }
      }
    }
  }

  lemma GroupStepValues<K(!new)>(g: seq<Bucket<K>>, init: seq<Entry<K>>, last: Entry<K>,
                                 r: seq<Bucket<K>>, items: seq<Entry<K>>)
    requires DistinctKeys(g) && r == AddTo(g, last.key, last.value) && items == init + [last]
    requires forall k :: HasKey(g, k) <==> Occurs(init, k)
    requires forall j :: 0 <= j < |g| ==>
      g[j].total == SumWhere(init, g[j].key) && g[j].count == CountWhere(init, g[j].key)
    requires forall j :: 0 <= j < |g| ==> g[j].count >= 1
    ensures forall j :: 0 <= j < |r| ==>
      r[j].total == SumWhere(items, r[j].key) && r[j].count == CountWhere(items, r[j].key)
    ensures forall j :: 0 <= j < |r| ==> r[j].count >= 1
  {
    assert items[..|items| - 1] == init;
    forall j | 0 <= j < |r|
      ensures r[j].total == SumWhere(items, r[j].key) && r[j].count == CountWhere(items, r[j].key)
      ensures r[j].count >= 1
    {
      if j >= |g| {
        assert !HasKey(g, last.key);
        assert !Occurs(init, last.key);
        ZeroWhereAbsent(init, last.key);
      }
    }
  }

  /** A key that never occurs has nothing filed under it. */
  lemma {:induction false} ZeroWhereAbsent<K>(items: seq<Entry<K>>, k: K)
    requires forall i :: 0 <= i < |items| ==> items[i].key != k
    ensures SumWhere(items, k) == 0.0 && CountWhere(items, k) == 0
    decreases |items|
  {
    if |items| > 0 {
      ZeroWhereAbsent(items[..|items| - 1], k);
    }
  }

  lemma AddToTotals<K>(bs: seq<Bucket<K>>, k: K, v: real)
    requires DistinctKeys(bs)
    ensures Sum(Totals(AddTo(bs, k, v))) == Sum(Totals(bs)) + v
  {
    var r := AddTo(bs, k, v);
    var a, b := Totals(bs), Totals(r);
    if !HasKey(bs, k) {
      assert b == a + [v] by {
        assert r == bs + [Bucket(k, v, 1)];
      }
      SumAppend(a, [v]);
      SumSingleton(v);
    } else {
      var j :| 0 <= j < |bs| && bs[j].key == k;
      assert |a| == |b| && b[j] == a[j] + v by {
        assert r[j].total == bs[j].total + v;
      }
      assert forall i :: 0 <= i < |a| && i != j ==> b[i] == a[i] by {
        forall i | 0 <= i < |a| && i != j ensures b[i] == a[i] {
          assert r[i] == bs[i];
        }
      }
      SumChangedAt(a, b, j, v);
    }
  }

  lemma AddToCounts<K>(bs: seq<Bucket<K>>, k: K, v: real)
    requires DistinctKeys(bs)
    ensures Sum(Counts(AddTo(bs, k, v))) == Sum(Counts(bs)) + 1.0
  {
    var r := AddTo(bs, k, v);
    var a, b := Counts(bs), Counts(r);
    if !HasKey(bs, k) {
      assert b == a + [1.0] by {
        assert r == bs + [Bucket(k, v, 1)];
      }
      SumAppend(a, [1.0]);
      SumSingleton(1.0);
    } else {
      var j :| 0 <= j < |bs| && bs[j].key == k;
      assert |a| == |b| && b[j] == a[j] + 1.0 by {
        assert r[j].count == bs[j].count + 1;
      }
      assert forall i :: 0 <= i < |a| && i != j ==> b[i] == a[i] by {
        forall i | 0 <= i < |a| && i != j ensures b[i] == a[i] {
          assert r[i] == bs[i];
        }
      }
      SumChangedAt(a, b, j, 1.0);
    }
  }

  /** Changing one element by `d` changes the sum by `d`. */
  lemma {:induction false} SumChangedAt(a: seq<real>, b: seq<real>, j: nat, d: real)
    requires |a| == |b| && j < |a|
    requires b[j] == a[j] + d
    requires forall i :: 0 <= i < |a| && i != j ==> b[i] == a[i]
    ensures Sum(b) == Sum(a) + d
    decreases |a|
  {
    if j == |a| - 1 {
      assert a[..|a| - 1] == b[..|b| - 1];
    } else {
      SumChangedAt(a[..|a| - 1], b[..|b| - 1], j, d);
    }
  }

  /** Grouping loses nothing: the bucket totals add up to the sum of all values, and the bucket
      counts add up to the number of entries. */
  lemma {:induction false} GroupConserves<K(!new)>(items: seq<Entry<K>>)
    ensures Sum(Totals(Group(items))) == Sum(EntryValues(items))
    ensures Sum(Counts(Group(items))) == |items| as real
    decreases |items|
  {
    if |items| > 0 {
      var init := items[..|items| - 1];
      var last := items[|items| - 1];
      GroupConserves(init);
      assert Group(items) == AddTo(Group(init), last.key, last.value);
      AddToTotals(Group(init), last.key, last.value);
      AddToCounts(Group(init), last.key, last.value);
      EntryValuesSnoc(items);
    }
  }

  lemma EntryValuesSnoc<K>(items: seq<Entry<K>>)
    requires |items| > 0
    ensures Sum(EntryValues(items)) == Sum(EntryValues(items[..|items| - 1])) + items[|items| - 1].value
  {
    var init, last := items[..|items| - 1], items[|items| - 1];
    var a, b := EntryValues(items), EntryValues(init) + [last.value];
    forall i | 0 <= i < |a| ensures a[i] == b[i] {
      if i < |init| {
        assert items[i] == init[i];
      }
    }
    assert a == b;
    SumAppend(EntryValues(init), [last.value]);
    SumSingleton(last.value);
  }

  function KeyOf<K>(b: Bucket<K>): K { b.key }

  function TotalOf<K>(b: Bucket<K>): real { b.total }

  function CountOf<K>(b: Bucket<K>): real { b.count as real }

  /** The groups ordered by total, largest first; groups with equal totals keep the order of
      `Group`. Nothing is lost or merged: the keys stay distinct, each group keeps the
      sum and number of its entries, and the totals and counts still add up. */
  function Ranked<K(==, !new)>(items: seq<Entry<K>>): (r: seq<Bucket<K>>)
    ensures SortedDesc(r, TotalOf)
    ensures multiset(r) == multiset(Group(items))
    ensures DistinctKeys(r)
    ensures forall j :: 0 <= j < |r| ==>
      r[j].total == SumWhere(items, r[j].key) && r[j].count == CountWhere(items, r[j].key)
    ensures forall j :: 0 <= j < |r| ==> r[j].count >= 1
    ensures forall k :: HasKey(r, k) <==> Occurs(items, k)
    ensures Sum(Totals(r)) == Sum(EntryValues(items))
    ensures Sum(Counts(r)) == |items| as real
  {
    var g := Group(items);
    var r := SortDesc(g, TotalOf);
    ReorderedGroups(g, r);
    ReorderedSums(g, r);
    GroupConserves(items);
    r
  }

  /** A reordering of distinct-key groups has distinct keys and the same groups. */
  lemma ReorderedGroups<K(!new)>(g: seq<Bucket<K>>, r: seq<Bucket<K>>)
    requires multiset(r) == multiset(g) && DistinctKeys(g)
    ensures DistinctKeys(r)
    ensures forall j :: 0 <= j < |r| ==> exists i :: 0 <= i < |g| && g[i] == r[j]
    ensures forall k :: HasKey(r, k) <==> HasKey(g, k)
  {
    MapPermutation(g, r, KeyOf);
    var gk, rk := Map(g, KeyOf), Map(r, KeyOf);
    assert Distinct(gk);
    DistinctPermutation(gk, rk);
    forall j | 0 <= j < |r| ensures exists i :: 0 <= i < |g| && g[i] == r[j] {
      assert r[j] in multiset(g);
    }
    forall k | HasKey(g, k) ensures HasKey(r, k) {
      var i :| 0 <= i < |g| && g[i].key == k;
      assert g[i] in multiset(r);
    }
  }

  lemma ReorderedSums<K>(g: seq<Bucket<K>>, r: seq<Bucket<K>>)
    requires multiset(r) == multiset(g)
    ensures Sum(Totals(r)) == Sum(Totals(g))
    ensures Sum(Counts(r)) == Sum(Counts(g))
  {
    MapPermutation(g, r, TotalOf);
    MapPermutation(g, r, CountOf);
    assert Totals(r) == Map(r, TotalOf) && Totals(g) == Map(g, TotalOf);
    assert Counts(r) == Map(r, CountOf) && Counts(g) == Map(g, CountOf);
    SumPermutation(Map(g, TotalOf), Map(r, TotalOf));
    SumPermutation(Map(g, CountOf), Map(r, CountOf));
  }

  /** The keys of the ranked groups: each key that occurs, once, in ranked order. */
  function RankedKeys<K(==, !new)>(items: seq<Entry<K>>): (ks: seq<K>)
    ensures |ks| == |Ranked(items)|
    ensures forall j :: 0 <= j < |ks| ==> ks[j] == Ranked(items)[j].key
    ensures Distinct(ks)
    ensures forall k :: k in ks <==> Occurs(items, k)
  {
    var r := Ranked(items);
    var ks := Map(r, KeyOf);
    forall k | Occurs(items, k) ensures k in ks {
      assert HasKey(r, k);
      var j :| 0 <= j < |r| && r[j].key == k;
      assert ks[j] == k;
    }
    forall k | k in ks ensures Occurs(items, k) {
      var j :| 0 <= j < |ks| && ks[j] == k;
      assert HasKey(r, k);
    }
    ks
  }

  /** The totals of the ranked groups, largest first, adding up to the sum of all values. */
  function RankedTotals<K(==, !new)>(items: seq<Entry<K>>): (vs: seq<real>)
    ensures |vs| == |Ranked(items)|
    ensures forall j :: 0 <= j < |vs| ==> vs[j] == SumWhere(items, Ranked(items)[j].key)
    ensures forall i, j :: 0 <= i < j < |vs| ==> vs[i] >= vs[j]
    ensures Sum(vs) == Sum(EntryValues(items))
  {
    var r := Ranked(items);
    assert forall i, j :: 0 <= i < j < |r| ==> TotalOf(r[i]) >= TotalOf(r[j]);
    Totals(r)
  }

  /** Without negative values no category sums to a negative total. */
  lemma RankedTotalsNonNegative<K(!new)>(items: seq<Entry<K>>)
    requires forall i :: 0 <= i < |items| ==> items[i].value >= 0.0
    ensures forall j :: 0 <= j < |RankedTotals(items)| ==> RankedTotals(items)[j] >= 0.0
  {
    var vs := RankedTotals(items);
    forall j | 0 <= j < |vs| ensures vs[j] >= 0.0 {
      SumWhereNonNegative(items, Ranked(items)[j].key);
    }
  }

  lemma {:induction false} SumWhereNonNegative<K>(items: seq<Entry<K>>, k: K)
    requires forall i :: 0 <= i < |items| ==> items[i].value >= 0.0
    ensures SumWhere(items, k) >= 0.0
    decreases |items|
  {
    if |items| > 0 {
      SumWhereNonNegative(items[..|items| - 1], k);
    }
  }

  /** When every entry is worth one, the sum filed under a key is the number of its entries. */
  lemma {:induction false} OnesWhere<K>(items: seq<Entry<K>>, k: K)
    requires forall j :: 0 <= j < |items| ==> items[j].value == 1.0
    ensures SumWhere(items, k) == CountWhere(items, k) as real
    decreases |items|
  {
    if |items| > 0 {
      OnesWhere(items[..|items| - 1], k);
    }
  }

  /** With one vote per entry, the first ranked key is filed at least as often as any key that
      occurs. */
  lemma FirstRankedMostFrequent<K(!new)>(items: seq<Entry<K>>, k: K)
    requires Occurs(items, k)
    requires forall j :: 0 <= j < |items| ==> items[j].value == 1.0
    ensures |Ranked(items)| > 0 && Occurs(items, Ranked(items)[0].key)
    ensures CountWhere(items, k) <= CountWhere(items, Ranked(items)[0].key)
  {
    var g := Ranked(items);
    assert HasKey(g, k);
    var j :| 0 <= j < |g| && g[j].key == k;
    assert HasKey(g, g[0].key);
    assert j == 0 || TotalOf(g[0]) >= TotalOf(g[j]);
    OnesWhere(items, k);
    OnesWhere(items, g[0].key);
  }
}

=== FILE: text.dfy ===
/** String operations the components use: `trim`, `split`, `join`, `toLowerCase`, `includes`,
    `replace` of the first occurrence, and integer rendering. Strings are `seq<char>`. */
module Text {

  import opened Common

  /** The white-space and line-terminator characters `String.prototype.trim` removes and
      `Number` skips: tab, line tabulation, form feed, space, no-break space, the byte-order
      mark, the other space separators of Unicode, line feed, carriage return, and the line
      and paragraph separators. */
  predicate IsSpace(c: char)
  {
    c == ' ' || c == '\t' || c == '\n' || c == '\r' || c == '\U{000B}' || c == '\U{000C}'
    || c == '\U{00A0}' || c == '\U{FEFF}' || c == '\U{1680}' || ('\U{2000}' <= c <= '\U{200A}')
    || c == '\U{2028}' || c == '\U{2029}' || c == '\U{202F}' || c == '\U{205F}' || c == '\U{3000}'
  }

  predicate AllSpace(s: string)
  {
    forall i :: 0 <= i < |s| ==> IsSpace(s[i])
  }

  /** Number of leading white-space characters. */
  function LeadCount(s: string): (k: nat)
    ensures k <= |s|
    ensures forall i :: 0 <= i < k ==> IsSpace(s[i])
    ensures k < |s| ==> !IsSpace(s[k])
  {
    if |s| > 0 && IsSpace(s[0]) then
      var k := LeadCount(s[1..]);
      assert forall i :: 1 <= i < k + 1 ==> s[i] == s[1..][i - 1];
      k + 1
    else 0
  }

  /** Number of trailing white-space characters. */
  function TrailCount(s: string): (k: nat)
    ensures k <= |s|
    ensures forall i :: |s| - k <= i < |s| ==> IsSpace(s[i])
    ensures k < |s| ==> !IsSpace(s[|s| - k - 1])
  {
    if |s| > 0 && IsSpace(s[|s| - 1]) then
      var k := TrailCount(s[..|s| - 1]);
      assert forall i :: |s| - 1 - k <= i < |s| - 1 ==> s[i] == s[..|s| - 1][i];
      k + 1
    else 0
  }

  /** `trimStart`, as `parseFloat` applies it: drops the leading white space and nothing else. */
  function TrimStart(s: string): (r: string)
    ensures |r| <= |s| && r == s[|s| - |r|..]
    ensures forall i :: 0 <= i < |s| - |r| ==> IsSpace(s[i])
    ensures |r| > 0 ==> !IsSpace(r[0])
  {
    s[LeadCount(s)..]
  }

  /** `trim`: the slice of `s` left after removing the white space at both ends. It starts at
      the first non-space character, every character outside it is white space, it neither
      starts nor ends with white space, and it is empty exactly when `s` is all white space. */
  function Trim(s: string): (r: string)
    ensures LeadCount(s) + |r| <= |s| && r == s[LeadCount(s)..LeadCount(s) + |r|]
    ensures forall i :: 0 <= i < LeadCount(s) ==> IsSpace(s[i])
    ensures forall i :: LeadCount(s) + |r| <= i < |s| ==> IsSpace(s[i])
    ensures |r| > 0 ==> !IsSpace(r[0]) && !IsSpace(r[|r| - 1])
    ensures r == "" <==> AllSpace(s)
  {
    var k := LeadCount(s);
    var a := s[k..];
    var t := TrailCount(a);
    var r := s[k..|s| - t];
    forall i | k + |r| <= i < |s| ensures IsSpace(s[i]) {
      assert s[i] == a[i - k];
    }
    assert |r| > 0 ==> r[0] == s[k] && r[|r| - 1] == a[|a| - t - 1];
    r
  }

  /** Trimming is idempotent. */
  lemma TrimIdempotent(s: string)
    ensures Trim(Trim(s)) == Trim(s)
  {
    var r := Trim(s);
    assert LeadCount(r) == 0;
    assert TrailCount(r[LeadCount(r)..]) == 0 by { assert r[0..] == r; }
  }

  /** `xs.join(sep)` for a one-character separator. */
  function Join(xs: seq<string>, sep: char): string
  {
    if |xs| == 0 then ""
    else if |xs| == 1 then xs[0]
    else xs[0] + [sep] + Join(xs[1..], sep)
  }

  /** `s.split(sep)` for a one-character separator: the pieces between separators, never empty
      as a list, none containing the separator, and joining back to `s`. */
  function Split(s: string, sep: char): (r: seq<string>)
    ensures |r| >= 1
    ensures forall k :: 0 <= k < |r| ==> sep !in r[k]
    ensures Join(r, sep) == s
  {
    if |s| == 0 then [""]
    else if s[0] == sep then
      var rest := Split(s[1..], sep);
      assert s == [] + [sep] + s[1..];
      [""] + rest
    else
      var rest := Split(s[1..], sep);
      var r := [[s[0]] + rest[0]] + rest[1..];
      assert r[1..] == rest[1..];
      assert |rest| > 1 ==> Join(rest, sep) == rest[0] + [sep] + Join(rest[1..], sep);
      assert s == [s[0]] + s[1..];
      r
  }

  /** Splitting a join gives the pieces back when no piece contains the separator. */
  lemma {:induction false} SplitJoin(xs: seq<string>, sep: char)
    requires |xs| >= 1
    requires forall k :: 0 <= k < |xs| ==> sep !in xs[k]
    ensures Split(Join(xs, sep), sep) == xs
    decreases xs
  {
    if |xs| == 1 {
      SplitNoSep(xs[0], sep);
    } else {
      SplitJoin(xs[1..], sep);
      SplitAfterPiece(xs[0], Join(xs[1..], sep), sep);
      assert [xs[0]] + xs[1..] == xs;
    }
  }

  /** A string without the separator splits into itself. */
  lemma {:induction false} SplitNoSep(s: string, sep: char)
    requires sep !in s
    ensures Split(s, sep) == [s]
    decreases |s|
  {
    if |s| > 0 {
      SplitNoSep(s[1..], sep);
      assert [s[0]] + s[1..] == s;
    }
  }

  /** Splitting `p + sep + t`, where `p` has no separator, yields `p` followed by the pieces of `t`. */
  lemma {:induction false} SplitAfterPiece(p: string, t: string, sep: char)
    requires sep !in p
    ensures Split(p + [sep] + t, sep) == [p] + Split(t, sep)
    decreases |p|
  {
    if |p| == 0 {
      assert p + [sep] + t == [sep] + t;
      assert ([sep] + t)[1..] == t;
    } else {
      var s := p + [sep] + t;
      assert s[0] == p[0];
      assert s[1..] == p[1..] + [sep] + t;
      SplitAfterPiece(p[1..], t, sep);
      assert [p[0]] + p[1..] == p;
    }
  }

  /** ASCII `toLowerCase` for one character. */
  function LowerChar(c: char): char
  {
    if 'A' <= c <= 'Z' then (c as int + 32) as char else c
  }

  /** `toLowerCase`, for the ASCII letters. */
  function ToLower(s: string): (r: string)
    ensures |r| == |s|
    ensures forall i :: 0 <= i < |s| ==> r[i] == LowerChar(s[i])
  {
    seq(|s|, i requires 0 <= i < |s| => LowerChar(s[i]))
  }

  lemma ToLowerIdempotent(s: string)
    ensures ToLower(ToLower(s)) == ToLower(s)
  {
  }

  /** No upper-case ASCII letter. */
  predicate IsLower(s: string)
  {
    forall i :: 0 <= i < |s| ==> !('A' <= s[i] <= 'Z')
  }

  /** Lower-casing leaves a lower-case text as it is. */
  lemma ToLowerOfLower(s: string)
    requires IsLower(s)
    ensures ToLower(s) == s
  {
    assert forall i :: 0 <= i < |s| ==> ToLower(s)[i] == s[i];
  }

  /** The name of the constructor property lower-cases to itself. */
  lemma LowerConstructor()
    ensures ToLower("constructor") == "constructor"
  {
    assert IsLower("constructor");
    ToLowerOfLower("constructor");
  }

  /** Lower-casing keeps every occurrence of a lower-case text. */
  lemma ToLowerKeepsOccurrence(s: string, sub: string, i: int)
    requires IsLower(sub) && OccursAt(s, sub, i)
    ensures OccursAt(ToLower(s), sub, i)
  {
    var low := ToLower(s);
    forall m | 0 <= m < |sub| ensures low[i..i + |sub|][m] == sub[m] {
      assert s[i + m] == sub[m];
    }
  }

  /** `s.startsWith(p)`. */
  predicate StartsWith(s: string, p: string)
  {
    |p| <= |s| && s[..|p|] == p
  }

  /** `sub` occurs in `s` starting at position `i`. */
  predicate OccursAt(s: string, sub: string, i: int)
  {
    0 <= i && i + |sub| <= |s| && s[i..i + |sub|] == sub
  }

  lemma OccursAtShift(s: string, sub: string)
    requires |s| > 0
    ensures forall i :: 1 <= i ==> (OccursAt(s, sub, i) <==> OccursAt(s[1..], sub, i - 1))
  {
    forall i | 1 <= i
      ensures OccursAt(s, sub, i) <==> OccursAt(s[1..], sub, i - 1)
    {
      if i + |sub| <= |s| {
        var t := s[1..];
        assert forall m :: 0 <= m < |t| ==> t[m] == s[m + 1];
        assert s[i..i + |sub|] == t[i - 1..i - 1 + |sub|];
      }
    }
  }

  /** `s.includes(sub)`, computed by scanning the start positions from left to right. */
  function Contains(s: string, sub: string): (b: bool)
    ensures b <==> exists i :: OccursAt(s, sub, i)
  {
    if StartsWith(s, sub) then
      assert OccursAt(s, sub, 0);
      true
    else if |s| <= |sub| then
      assert !OccursAt(s, sub, 0);
      false
    else
      OccursAtShift(s, sub);
      assert !OccursAt(s, sub, 0);
      var b := Contains(s[1..], sub);
      assert b ==> exists i :: OccursAt(s, sub, i) by {
        if b {
          var i :| OccursAt(s[1..], sub, i);
          assert OccursAt(s, sub, i + 1);
        }
      }
      b
  }

  /** Position of the first occurrence of `sub` in `s`, as `indexOf` finds it. */
  function IndexOf(s: string, sub: string): (r: Option<nat>)
    ensures r.Some? ==> OccursAt(s, sub, r.value)
    ensures r.Some? ==> forall k :: 0 <= k < r.value ==> !OccursAt(s, sub, k)
    ensures r.None? <==> !Contains(s, sub)
  {
    if StartsWith(s, sub) then
      assert OccursAt(s, sub, 0);
      Some(0)
    else if |s| <= |sub| then None
    else
      OccursAtShift(s, sub);
      assert !OccursAt(s, sub, 0);
      match IndexOf(s[1..], sub)
      case None => None
      case Some(k) => Some(k + 1)
  }

  /** `s.replace(pat, rep)` with a string pattern: only the first occurrence is replaced. */
  function ReplaceFirst(s: string, pat: string, rep: string): (r: string)
    ensures !Contains(s, pat) ==> r == s
    ensures Contains(s, pat) ==>
      exists i :: (OccursAt(s, pat, i)
        && (forall k :: 0 <= k < i ==> !OccursAt(s, pat, k))
        && r == s[..i] + rep + s[i + |pat|..])
  {
    match IndexOf(s, pat)
    case None => s
    case Some(i) => s[..i] + rep + s[i + |pat|..]
  }

  /** A text that starts with the pattern has that first occurrence replaced. */
  lemma ReplaceFirstAtStart(pat: string, rest: string, rep: string)
    ensures ReplaceFirst(pat + rest, pat, rep) == rep + rest
  {
    var s := pat + rest;
    assert OccursAt(s, pat, 0);
    assert IndexOf(s, pat) == Some(0);
    assert s[|pat|..] == rest;
  }

  function DigitChar(d: nat): char
    requires d < 10
  {
    ('0' as int + d) as char
  }

  /** Decimal rendering of a natural number, as `String(n)` prints it. */
  function NatToString(n: nat): (r: string)
    ensures |r| >= 1
    ensures forall i :: 0 <= i < |r| ==> '0' <= r[i] <= '9'
  {
    if n < 10 then [DigitChar(n)] else NatToString(n / 10) + [DigitChar(n % 10)]
  }

  /** Decimal rendering of an integer, with a leading '-' when negative. */
  function IntToString(n: int): string
  {
    if n < 0 then "-" + NatToString(-n) else NatToString(n)
  }
}

=== FILE: upload.dfy ===
/** Reading a comma-separated text uploaded on the diagrams page into records: lines are
    trimmed and blank ones dropped, the first line names the columns, and every later line
    becomes one record keyed by those names. */
module Upload {

  import opened Common
  import opened Text
  import opened Table

  function NonEmpty(s: string): bool { s != "" }

  /** `text.split('\n').map(row => row.trim()).filter(row => row)`: every line kept is trimmed
      and non-empty. `LinesMembers` and `LinesInOrder` say which lines are kept. */
  function Lines(text: string): (ls: seq<string>)
    ensures forall i :: 0 <= i < |ls| ==> ls[i] != "" && Trim(ls[i]) == ls[i]
  {
    TrimmedMembers(Split(text, '\n'));
    Filter(Map(Split(text, '\n'), Trim), NonEmpty)
  }

  /** A text is kept exactly when it is a non-empty trimmed line of the file. */
  lemma LinesMembers(text: string)
    ensures forall l :: l in Lines(text) <==> l != "" && TrimOfSome(Split(text, '\n'), l)
  {
    TrimmedMembers(Split(text, '\n'));
  }

  /** The kept lines are the file's trimmed lines in file order, with every copy of each
      non-blank one. */
  lemma LinesInOrder(text: string)
    ensures IsSubsequence(Lines(text), Map(Split(text, '\n'), Trim))
    ensures forall l :: l != "" ==> multiset(Lines(text))[l] == multiset(Map(Split(text, '\n'), Trim))[l]
  {
    KeptInOrder(Map(Split(text, '\n'), Trim));
  }

  /** Dropping the empty lines keeps the others in order, every copy of each. */
  lemma KeptInOrder(lines: seq<string>)
    ensures IsSubsequence(Filter(lines, NonEmpty), lines)
    ensures forall l :: l != "" ==> multiset(Filter(lines, NonEmpty))[l] == multiset(lines)[l]
  {
    FilterSubsequence(lines, NonEmpty);
  }

  /** `l` is one of `parts` trimmed. */
  predicate TrimOfSome(parts: seq<string>, l: string)
  {
    exists i :: 0 <= i < |parts| && Trim(parts[i]) == l
  }

  /** The trimmed parts are exactly the texts `TrimOfSome` names, and each is its own trim. */
  lemma TrimmedMembers(parts: seq<string>)
    ensures forall l :: l in Map(parts, Trim) <==> TrimOfSome(parts, l)
    ensures forall l :: l in Map(parts, Trim) ==> Trim(l) == l
  {
    var trimmed := Map(parts, Trim);
    forall l | l in trimmed ensures TrimOfSome(parts, l) && Trim(l) == l {
      var j :| 0 <= j < |trimmed| && trimmed[j] == l;
      TrimIdempotent(parts[j]);
    }
    forall l | TrimOfSome(parts, l) ensures l in trimmed {
      var j :| 0 <= j < |parts| && Trim(parts[j]) == l;
      assert trimmed[j] == l;
    }
  }

  /** `line.split(',').map(v => v.trim())`. */
  function Cells(line: string): (cs: seq<string>)
    ensures |cs| == |Split(line, ',')|
    ensures forall i :: 0 <= i < |cs| ==> cs[i] == Trim(Split(line, ',')[i])
  {
    Map(Split(line, ','), Trim)
  }

  /** `values[index]`: the text of cell `i`, or `undefined` past the end of a short line. */
  function CellAt(values: seq<string>, i: nat): (c: Cell)
    ensures i < |values| ==> c == Str(values[i])
    ensures i >= |values| ==> c == Undef
  {
    if i < |values| then Str(values[i]) else Undef
  }

  /** `headers.forEach((header, index) => { rowData[header] = values[index]; })`. */
  function Record(headers: seq<string>, values: seq<string>): Row
    decreases |headers|
  {
    if |headers| == 0 then []
    else
      var n := |headers| - 1;
      Set(Record(headers[..n], values), headers[n], CellAt(values, n))
  }

  /** Reading the record under header `i` gives cell `i`, unless a later header has the same
      name, in which case the later assignment wins. */
  lemma {:induction false} RecordGet(headers: seq<string>, values: seq<string>, i: nat)
    requires i < |headers|
    requires forall j :: i < j < |headers| ==> headers[j] != headers[i]
    ensures Get(Record(headers, values), headers[i]) == CellAt(values, i)
    decreases |headers|
  {
    var n := |headers| - 1;
    var init := headers[..n];
    var row := Record(init, values);
    RecordStep(headers, values);
    if i == n {
      GetSet(row, headers[n], CellAt(values, n), headers[n]);
    } else {
      GetSet(row, headers[n], CellAt(values, n), headers[i]);
      RecordGet(init, values, i);
    }
  }

  lemma RecordStep(headers: seq<string>, values: seq<string>)
    requires |headers| > 0
    ensures Record(headers, values)
      == Set(Record(headers[..|headers| - 1], values), headers[|headers| - 1], CellAt(values, |headers| - 1))
  {
  }

  /** With distinct headers the record's keys are exactly the headers, in order, short lines
      included (their missing cells are present as `undefined`). */
  lemma {:induction false} RecordKeys(headers: seq<string>, values: seq<string>)
    requires Distinct(headers)
    ensures Keys(Record(headers, values)) == headers
    decreases |headers|
  {
    if |headers| > 0 {
      var n := |headers| - 1;
      var init := headers[..n];
      DistinctInit(headers);
      RecordKeys(init, values);
      RecordAppends(headers, values);
      KeysSnoc(Record(init, values), Field(headers[n], CellAt(values, n)));
      assert init + [headers[n]] == headers;
    }
  }

  /** Dropping the last of distinct headers leaves them distinct. */
  lemma DistinctInit(headers: seq<string>)
    requires |headers| > 0 && Distinct(headers)
    ensures Distinct(headers[..|headers| - 1])
  {
    var init := headers[..|headers| - 1];
    forall i, j | 0 <= i < j < |init| ensures init[i] != init[j] {
      assert init[i] == headers[i] && init[j] == headers[j];
    }
  }

  /** A header distinct from the earlier ones adds its cell at the end of the record. */
  lemma RecordAppends(headers: seq<string>, values: seq<string>)
    requires |headers| > 0 && Distinct(headers)
    requires Keys(Record(headers[..|headers| - 1], values)) == headers[..|headers| - 1]
    ensures var n := |headers| - 1;
      Record(headers, values) == Record(headers[..n], values) + [Field(headers[n], CellAt(values, n))]
  {
    var n := |headers| - 1;
    var row := Record(headers[..n], values);
    RecordStep(headers, values);
    forall i | 0 <= i < |row| ensures row[i].key != headers[n] {
      assert Keys(row)[i] == headers[..n][i] == headers[i];
    }
  }

  lemma KeysSnoc(row: Row, f: Field)
    ensures Keys(row + [f]) == Keys(row) + [f.key]
  {
  }

  datatype Upload = Upload(headers: seq<string>, data: seq<Row>)

  /** One record per line, in order. */
  function Records(headers: seq<string>, lines: seq<string>): (rs: seq<Row>)
    ensures |rs| == |lines|
    ensures forall i :: 0 <= i < |lines| ==> rs[i] == Record(headers, Cells(lines[i]))
  {
    seq(|lines|, i requires 0 <= i < |lines| => Record(headers, Cells(lines[i])))
  }

  /** The reader's `onload`: the first non-blank line gives the headers, each later non-blank
      line one record. A text without a non-blank line makes the reader fail (`rows[0]` is
      undefined), shown here as no result. */
  function ParseUpload(text: string): (r: Option<Upload>)
    ensures r.None? <==> |Lines(text)| == 0
    ensures r.Some? ==> r.value.headers == Cells(Lines(text)[0])
    ensures r.Some? ==> |r.value.data| == |Lines(text)| - 1
    ensures r.Some? ==> forall i :: 0 <= i < |r.value.data| ==>
      r.value.data[i] == Record(r.value.headers, Cells(Lines(text)[i + 1]))
  {
    var ls := Lines(text);
    if |ls| == 0 then None
    else
      var headers := Cells(ls[0]);
      TailIndex(ls);
      Some(Upload(headers, Records(headers, ls[1..])))
  }

  /** The value a record holds under a header that occurs once is the trimmed cell at the
      header's position on the record's line (`CellAt` of `Cells`), or `undefined` when the line
      is shorter. */
  lemma UploadCell(text: string, r: nat, i: nat)
    requires ParseUpload(text).Some?
    requires r < |ParseUpload(text).value.data|
    requires i < |ParseUpload(text).value.headers| && Distinct(ParseUpload(text).value.headers)
    ensures var u := ParseUpload(text).value;
      Get(u.data[r], u.headers[i]) == CellAt(Cells(Lines(text)[r + 1]), i)
  {
    var u := ParseUpload(text).value;
    ParsedRecord(text, r);
    DistinctRecordGet(u.headers, Cells(Lines(text)[r + 1]), i);
  }

  /** The record at `r` is built from the line after the header line, `r` lines on. */
  lemma ParsedRecord(text: string, r: nat)
    ensures ParseUpload(text).Some? && r < |ParseUpload(text).value.data| ==>
      |Lines(text)| > r + 1 &&
      ParseUpload(text).value.data[r] == Record(ParseUpload(text).value.headers, Cells(Lines(text)[r + 1]))
  {
  }

  /** `RecordGet` for headers that are all different. */
  lemma DistinctRecordGet(headers: seq<string>, values: seq<string>, i: nat)
    requires i < |headers| && Distinct(headers)
    ensures Get(Record(headers, values), headers[i]) == CellAt(values, i)
  {
    RecordGet(headers, values, i);
  }
}
